=== FILE: README.md ===
# AgroConnect recipe core, modelled in Dafny

AgroConnect imports Argentine digital phytosanitary recipes ("Receta
Fitosanitaria Digital", RFD) from their PDF form. It then routes each recipe
through a municipal review and shows the applications on a map. This project
models the pure logic behind those three jobs and proves what that logic
promises:

- **Lot table reconstruction** (`PdfLotsExtractor`). The positioned words of a
  page are reduced to the lot table:
  - the header band is the horizontal band holding most heading keywords;
  - each column spans from its heading's centre to the next heading's centre;
  - words are clustered into visual rows with a 4-point tolerance;
  - each word goes to the column its centre falls in;
  - header echoes and blank rows are dropped;
  - a wrapped second line ("continuation") is merged into the row above it.
- **Recipe text parsing** (`RecipePdfParser`):
  - text normalisation, `Between` and `AfterNth`;
  - the choice of the requester and advisor names among the candidates before
    an anchor;
  - the spacing passes that prepare the product block;
  - the repair of a locality cell that also holds the department;
  - the grouping of table rows into lots with their vertices;
  - date and number parsing, and the `Parse` entry point.
- **Recipe workflow** (`RecipeService`, `MunicipalityService`):
  - the status transition table;
  - assignment of an open recipe to a municipality;
  - the municipal review (approve, reject, ask for information, redirect),
    with its review log;
  - messages, which send an observed recipe back to review when an applicator
    answers;
  - the partial update of a municipality and the coordinate check;
  - the listing's paging, clamping and sort-key choice.
- **Geo insights** (`GeoInsightsService`):
  - the toxicological score of a class, and a recipe's worst class;
  - one map application per lot that has a polygon, with its centre;
  - the sensitive points of all recipes, without repeated ids;
  - the headline figures.

The modules follow the source:

| module | file |
|---|---|
| `Wrappers`, `Text`, `Numbers`, `Seqs`, `Sorting` | shared helpers |
| `PageWords`, `Columns`, `VisualRows`, `LotRows`, `LotsExtractor` | the lot table extraction |
| `RecipeText`, `NameSelection`, `Products`, `Locality`, `LotAssembly`, `Dates`, `Recipe`, `RecipeParser` | the recipe parser |
| `ServiceErrors`, `Workflow`, `Municipalities`, `Query` | the recipe and municipality services |
| `GeoInsights` | the map view |

Words, coordinates and `decimal`s are modelled with exact `real`s. Strings are
`seq<char>`. The database is a `Store` record of maps and append-only logs.
Every service operation is a pure function that returns the new store or the
failure the service would throw. The clock (`DateTime.UtcNow`) is a parameter
`now`.

The regular expressions that capture recipe fields are parameters: an
`Engine` record of functions. This covers the `FindGroup` captures, the
product pattern, the name-candidate pattern and the anchors. The simple
rewriting passes are modelled exactly:

- whitespace squashing;
- letter/digit spacing;
- product-type and toxicity-class spacing;
- page-mark removal;
- the "CAMILO ALDAO" search;
- the "VEGETAL AKTIV" repair.

Culture-sensitive title casing and the lenient `DateOnly.Parse` fallback are
parameters too.

## Model

| member | source | states |
|---|---|---|
| PageWords.NormalizeKey | Application/Services/PdfLotsExtractor.cs:296-297 | The key of a word holds only upper-case letters and digits and is never longer than the word |
| PageWords.NormalizeKeyUntrimmed | Application/Services/PdfLotsExtractor.cs:296-297 | Trimming before filtering changes nothing: the key is the letters and digits of the raw text |
| PageWords.NormalizeKeyCollapse | Application/Services/PdfLotsExtractor.cs:296-300 | Collapsing whitespace (as `NullIfEmpty` does) never changes a text's key |
| PageWords.LettersAndDigitsConcat | Application/Services/PdfLotsExtractor.cs:297 | The letter/digit filter distributes over concatenation |
| PageWords.KeywordInjective | Application/Services/PdfLotsExtractor.cs:54-60 | Two columns have the same heading keyword exactly when they are the same column |
| PageWords.KeywordWordsDistinct | Application/Services/PdfLotsExtractor.cs:54-60 | Two different columns never take their x from the same header word |
| PageWords.IsKeywordIff | Application/Services/PdfLotsExtractor.cs:30-36 | A key is a header keyword exactly when it is the heading of one of the seven columns |
| PageWords.BandY | Application/Services/PdfLotsExtractor.cs:294 | The band of a bottom edge is within half a unit of the edge divided by 3 |
| Numbers.RoundHalfEven | Application/Services/PdfLotsExtractor.cs:294 | `Math.Round` gives an integer within 0.5 of its argument and breaks ties towards the even one |
| PageWords.Busiest | Application/Services/PdfLotsExtractor.cs:42-45 | The winning word's band has the largest count, and every earlier word's band has a strictly smaller count (groups in first-appearance order, stable sort) |
| PageWords.HeaderBand | Application/Services/PdfLotsExtractor.cs:42-47 | The header band is the band of some header word, no header word's band holds more header words, and among equally busy bands it is the one whose first word comes first |
| PageWords.FindKeyword | Application/Services/PdfLotsExtractor.cs:287-290 | The index of the first word of the line with the given key, and -1 exactly when no word has it |
| PageWords.FindX | Application/Services/PdfLotsExtractor.cs:287-292 | -1 when no word of the line has the key; otherwise the centre x of the first word that has it |
| PageWords.FindXFirst | Application/Services/PdfLotsExtractor.cs:289-291 | When word `i` has the key and no earlier word does, the result is word `i`'s centre x |
| Columns.Headings | Application/Services/PdfLotsExtractor.cs:66-75 | The seven headings in the listed order, each with its centre |
| Columns.Layout | Application/Services/PdfLotsExtractor.cs:66-77 | The ordered columns are a permutation of the seven headings |
| Columns.KeyIndex | Application/Services/PdfLotsExtractor.cs:82 | The first column with the key, or -1 exactly when none has it |
| Columns.LayoutWellFormed | Application/Services/PdfLotsExtractor.cs:66-84 | With distinct centres, the ordered columns have distinct keys and strictly increasing centres, and every key is found |
| Columns.KeyIndexOf | Application/Services/PdfLotsExtractor.cs:79 | `Start(k)` is the centre of `k`'s own heading |
| Columns.SpanPartition | Application/Services/PdfLotsExtractor.cs:79-84 | An x left of the first centre lies in no span; any other x lies in some span; no x lies in two spans |
| Columns.LayoutPartition | Application/Services/PdfLotsExtractor.cs:79-84 | An x lies in some column's `[Start, End)` exactly when some centre is at or left of it, and then in only one column |
| Columns.SpanUnique | Application/Services/PdfLotsExtractor.cs:79-84 | Two columns whose spans both hold x are the same column |
| Columns.CellWords | Application/Services/PdfLotsExtractor.cs:273-279 | The words of a cell are a permutation of the row's words whose centre lies in the span, ordered by left edge |
| Columns.TrimmedTexts | Application/Services/PdfLotsExtractor.cs:280-281 | Every part kept is non-empty and trimmed |
| Columns.TrimmedTextsEmpty | Application/Services/PdfLotsExtractor.cs:280-281 | No part is kept exactly when every word's text is blank |
| Columns.JoinInRange | Application/Services/PdfLotsExtractor.cs:271-285 | The cell is trimmed; it is empty exactly when every word centred in the span is blank; it contains the trimmed text of every non-blank word centred in the span |
| Columns.JoinInRangeIsJoin | Application/Services/PdfLotsExtractor.cs:271-285 | The cell is the space-join of the trimmed, non-blank texts of the cell's words in left-edge order |
| Columns.TrimmedTextsPick | Application/Services/PdfLotsExtractor.cs:280-281 | The texts joined are the trimmed texts of the non-blank words, in their order |
| Columns.JoinInRangeIgnoresOthers | Application/Services/PdfLotsExtractor.cs:274-278 | Words centred outside the span do not change the cell |
| VisualRows.FirstNear | Application/Services/PdfLotsExtractor.cs:253-262 | The first row whose first word is within the tolerance, or -1 when there is none |
| VisualRows.Place | Application/Services/PdfLotsExtractor.cs:250-265 | A word joins an existing row or opens a new last row; first words are unchanged; the words grow by exactly that word |
| VisualRows.GroupPartition | Application/Services/PdfLotsExtractor.cs:243-266 | The rows hold exactly the input words: each word lands in one row |
| VisualRows.GroupTolerance | Application/Services/PdfLotsExtractor.cs:253-265 | Every word is within the tolerance of its row's first word, and no row's first word is within the tolerance of an earlier row's |
| VisualRows.GroupTopToBottom | Application/Services/PdfLotsExtractor.cs:245-265 | The rows and the words in each row run from top to bottom |
| VisualRows.FinalSortKeepsRows | Application/Services/PdfLotsExtractor.cs:268 | The final ordering of the rows by first word changes nothing |
| VisualRows.VisualRowsSpec | Application/Services/PdfLotsExtractor.cs:243-269 | The rows are non-empty, partition the words, keep to the tolerance and run top to bottom |
| LotRows.NullIfEmpty | Application/Services/PdfLotsExtractor.cs:299-300 | null exactly for a blank text; otherwise a non-empty, trimmed text with single spaces |
| LotRows.NullIfEmptyIdempotent | Application/Services/PdfLotsExtractor.cs:299-300 | Applying `NullIfEmpty` to its own result changes nothing |
| LotRows.TrimOrEmpty | Application/Services/PdfLotsExtractor.cs:304-305 | `(o ?? "").Trim()` is trimmed and empty exactly when `o` is absent or blank |
| LotRows.AppendDedup | Application/Services/PdfLotsExtractor.cs:302-320 | The result is trimmed and empty exactly when both sides are absent or blank |
| LotRows.AppendDedupCases | Application/Services/PdfLotsExtractor.cs:302-320 | A blank `b` gives trimmed `a`; a blank `a` gives trimmed `b`; `b` equal to `a` ignoring case, or ending `a` or inside it as a whole space-separated part, gives `a`; otherwise `a + " " + b` |
| LotRows.AppendDedupKeeps | Application/Services/PdfLotsExtractor.cs:302-320 | The result starts with trimmed `a`, contains trimmed `b` ignoring case, and is at most one character longer than both |
| LotRows.AppendDedupIdempotent | Application/Services/PdfLotsExtractor.cs:302-320 | Appending the same `b` again is a no-op |
| LotRows.DuplicatedContains | Application/Services/PdfLotsExtractor.cs:316 | When the duplicate test fires, `a` already contains `b` ignoring case |
| LotRows.ParseIntCell | Application/Services/PdfLotsExtractor.cs:322-327 | A blank cell gives null; a parsed value fits a 32-bit `int` |
| LotRows.ParseIntCellFormat | Application/Services/PdfLotsExtractor.cs:322-327 | The decimal digits of any non-negative `int` parse back to it |
| LotRows.ParseDecimalCell | Application/Services/PdfLotsExtractor.cs:329-343 | A blank cell gives null |
| LotRows.ParseDecimalCellFormat | Application/Services/PdfLotsExtractor.cs:329-343 | The decimal digits of any natural number parse back to it |
| LotRows.Absorb | Application/Services/PdfLotsExtractor.cs:225-234 | Merging a continuation keeps the surface, order, latitude and longitude of the row above |
| LotRows.MergeFrom | Application/Services/PdfLotsExtractor.cs:208-238 | Merging never lengthens the list |
| LotRows.MergeKeepsFigures | Application/Services/PdfLotsExtractor.cs:208-238 | The rows that carry a surface or vertex keep those numbers, in the same order: no such row is dropped or changed numerically |
| LotRows.MergeSettles | Application/Services/PdfLotsExtractor.cs:208-238 | On rows that each carry something, the result has no continuation after its first row, and merging it again changes nothing |
| LotRows.MergeFromSettled | Application/Services/PdfLotsExtractor.cs:221-222 | Without continuations after the current index, the loop leaves the list alone |
| LotRows.MergeStep | Application/Services/PdfLotsExtractor.cs:225-237 | Absorbing a continuation re-examines the same index (`i--`) |
| LotRows.MergeSkip | Application/Services/PdfLotsExtractor.cs:221-222 | A row that is not a continuation moves the loop on |
| LotRows.MergePair | Application/Services/PdfLotsExtractor.cs:213-236 | A row followed by a continuation merges into one row |
| LotRows.MergeExample | Application/Services/PdfLotsExtractor.cs:202-206 | "LOTE PRUEBA"/"CAMILO"/"MARCOS" followed by "2"/"ALDAO"/"JUAREZ" merges into "LOTE PRUEBA 2"/"CAMILO ALDAO"/"MARCOS JUAREZ" with the first row's numbers |
| LotRows.MergeNeedsSubstantiveRows | Application/Services/PdfLotsExtractor.cs:208-238 | With an all-empty row in between, merging is not idempotent, so the settled result needs the empty-row filter |
| LotsExtractor.HeaderWords | Application/Services/PdfLotsExtractor.cs:30-36 | Every word kept is a header keyword |
| LotsExtractor.HeaderLine | Application/Services/PdfLotsExtractor.cs:49-51 | The header line is a permutation of the header words in the header band, ordered by left edge |
| LotsExtractor.LineTable | Application/Services/PdfLotsExtractor.cs:53-63 | A table found on a line keeps that line and band |
| LotsExtractor.LineTableMissing | Application/Services/PdfLotsExtractor.cs:62-63 | A line missing any heading gives no table |
| LotsExtractor.DetectTable | Application/Services/PdfLotsExtractor.cs:38-39 | A table is found only with at least five header words |
| LotsExtractor.DetectTableNone | Application/Services/PdfLotsExtractor.cs:38-63 | Fewer than five header words, or a heading missing from the header line, skips the page |
| LotsExtractor.DetectTableSome | Application/Services/PdfLotsExtractor.cs:30-63 | In a detected table, every column's centre is the centre of a page word in the header band carrying that heading |
| LotsExtractor.Emit | Application/Services/PdfLotsExtractor.cs:143-187 | An emitted lot row carries text or numbers and no text cell echoes its heading |
| LotsExtractor.EmitDrops | Application/Services/PdfLotsExtractor.cs:146-177 | A header fragment, or a row of blank cells, is not emitted |
| LotsExtractor.EmitKeeps | Application/Services/PdfLotsExtractor.cs:170-187 | A row that is not a header fragment and has a name is emitted with that name, whitespace collapsed |
| LotsExtractor.RepeatsHeaderSubsumed | Application/Services/PdfLotsExtractor.cs:160-162 | Every row whose name, locality or department cell repeats its heading was already skipped as a header fragment |
| LotsExtractor.PresentNullIfEmpty | Application/Services/PdfLotsExtractor.cs:180-183 | A stored text cell is present exactly when the cell was not blank |
| LotsExtractor.ProcessRows | Application/Services/PdfLotsExtractor.cs:115-188 | At most one lot row per visual row, each carrying something and echoing no heading |
| LotsExtractor.ProcessRowsStops | Application/Services/PdfLotsExtractor.cs:118-120 | Rows from the first "PUNTOS ... SENSIBLES" row on contribute nothing |
| LotsExtractor.ProcessRowsConcat | Application/Services/PdfLotsExtractor.cs:115-188 | Before any stop row, rows are processed one after another |
| LotsExtractor.DataWords | Application/Services/PdfLotsExtractor.cs:103-105 | Every data word lies more than two bands below the header |
| LotsExtractor.HeaderNotData | Application/Services/PdfLotsExtractor.cs:103-105 | No word of the header band is a data word |
| LotsExtractor.TableLotsSettled | Application/Services/PdfLotsExtractor.cs:102-191 | A table's lot rows all carry something, have no continuation after the first, and are merged already |
| LotsExtractor.TableLotsFigures | Application/Services/PdfLotsExtractor.cs:191 | The final merge keeps the numbers of the processed rows, in order |
| LotsExtractor.PageLotsSettled | Application/Services/PdfLotsExtractor.cs:24-191 | The same for a whole page, with or without a table |
| LotsExtractor.ExtractLots | Application/Services/PdfLotsExtractor.cs:24-197 | The result is empty exactly when no page yields lots |
| LotsExtractor.ExtractLotsFirst | Application/Services/PdfLotsExtractor.cs:193-194 | A non-empty result is the lots of the first page that has any |
| LotAssembly.NameOf | Application/Services/RecipePdfParser.cs:172 | `(r.Nombre ?? "").Trim()` is trimmed |
| LotAssembly.OwnVertices | Application/Services/RecipePdfParser.cs:207-215 | A header row brings its own vertex exactly when it has order, latitude and longitude |
| LotAssembly.OpenLot | Application/Services/RecipePdfParser.cs:191-215 | A new lot has the row's title-cased name, its surface and its own vertex |
| LotAssembly.StepNames | Application/Services/RecipePdfParser.cs:170-218 | A row adds one lot name, its own, exactly when it is a lot header that is not a title echo |
| LotAssembly.BuildLotsNames | Application/Services/RecipePdfParser.cs:165-236 | The lots are named after the lot-opening rows, in order: one lot per header row, title echoes skipped |
| LotAssembly.StepVertices | Application/Services/RecipePdfParser.cs:182-229 | Once a lot is open, a row adds its vertex exactly when it is a vertex row that is not a title echo |
| LotAssembly.GatherVertices | Application/Services/RecipePdfParser.cs:170-230 | Once a lot is open, the lots' vertices taken in order are exactly the later vertex rows' vertices |
| LotAssembly.NoHeaderNoLots | Application/Services/RecipePdfParser.cs:220-229 | Rows before any lot header produce no lot; their vertices are dropped |
| LotAssembly.BuildLotsVertices | Application/Services/RecipePdfParser.cs:170-230 | The vertices of all lots, in order, are those of the vertex rows from the first lot header on |
| LotAssembly.SortVertices | Application/Services/RecipePdfParser.cs:232-233 | Sorting a lot changes only its vertex order |
| LotAssembly.BuildLots | Application/Services/RecipePdfParser.cs:165-236 | As many lots as gathered, each with a permutation of its gathered vertices |
| LotAssembly.BuildLotsSorted | Application/Services/RecipePdfParser.cs:232-233 | Each lot's vertices are sorted by order, and vertices with equal order keep their gathered order (stable) |
| Sorting.SortBySorted | Application/Services/RecipePdfParser.cs:233 | `OrderBy` returns a list sorted by its key |
| Sorting.SortByStable | Application/Services/RecipePdfParser.cs:233 | `OrderBy` keeps the relative order of items with the same key |
| Sorting.SortByOfSorted | Application/Services/RecipePdfParser.cs:233 | `OrderBy` of a sorted list is the list itself |
| Locality.CleanToken | Application/Services/RecipePdfParser.cs:243 | A cleaned token holds upper-case letters only |
| Locality.CleanIgnoresSigns | Application/Services/RecipePdfParser.cs:243 | Non-letters around a token do not change its cleaned form |
| Locality.Tokens | Application/Services/RecipePdfParser.cs:256 | The tokens of a locality are trimmed and hold no space |
| Locality.TokensOfJoin | Application/Services/RecipePdfParser.cs:256 | Splitting words joined by single spaces gives the words back |
| Locality.LocalityAndDepartment | Application/Services/RecipePdfParser.cs:238-253 | With a department present, both cells are kept as they are, trimmed and title-cased; a missing or blank locality gives an empty locality |
| Locality.Guess | Application/Services/RecipePdfParser.cs:245-290 | A present department, or a blank locality, is taken as it is |
| Locality.SplitJuarez | Application/Services/RecipePdfParser.cs:261-279 | Three words ending in JUAREZ with no department give the department "w0 w2" and the locality "CAMILO ALDAO" when the middle word is ALDAO or the text names CAMILO ALDAO, else the middle word |
| Locality.SplitFourWords | Application/Services/RecipePdfParser.cs:282-287 | Four words with no department split two and two |
| Locality.NoSplit | Application/Services/RecipePdfParser.cs:289-290 | Any other locality with no department is kept whole |
| Locality.MarcosAldaoJuarez | Application/Services/RecipePdfParser.cs:259-260 | "Marcos Aldao Juarez" becomes locality "CAMILO ALDAO", department "Marcos Juarez" |
| Locality.MentionsAt | Application/Services/RecipePdfParser.cs:275 | A "CAMILO ALDAO" occurrence anywhere in the text is found |
| NameSelection.PreferredIndex | Application/Services/RecipePdfParser.cs:373-382 | The chosen candidate is a candidate |
| NameSelection.PreferredIndexSome | Application/Services/RecipePdfParser.cs:375-380 | The chosen candidate contains a keyword that no earlier candidate contains, and no candidate contains an earlier keyword |
| NameSelection.PreferredIndexNone | Application/Services/RecipePdfParser.cs:373-382 | No preferred candidate exactly when no candidate contains any keyword |
| NameSelection.Choose | Application/Services/RecipePdfParser.cs:372-386 | The choice is one of the candidates |
| NameSelection.KeywordWins | Application/Services/RecipePdfParser.cs:375-380 | The first candidate holding the earliest keyword that any candidate holds is chosen |
| NameSelection.NoKeywordFallsBack | Application/Services/RecipePdfParser.cs:384-386 | With no keyword hit, the last or the first candidate is chosen, per the flag |
| NameSelection.Before | Application/Services/RecipePdfParser.cs:363 | The text up to the anchor |
| NameSelection.ExtractNameBeforeAnchor | Application/Services/RecipePdfParser.cs:352-387 | "" for a blank text, a missing anchor or no candidate before the anchor; the result has single spaces and no outer blanks |
| NameSelection.ExtractNameChosen | Application/Services/RecipePdfParser.cs:363-386 | The name is the cleaned form of some candidate before the anchor |
| RecipeText.AfterLabel | Application/Services/RecipePdfParser.cs:445-447 | An empty label starts at 0; a missing label gives -1; otherwise the index just after the label's first case-insensitive occurrence |
| RecipeText.Between | Application/Services/RecipePdfParser.cs:443-453 | "" when the start label is missing; otherwise a prefix of the text after the label |
| RecipeText.BetweenInfix | Application/Services/RecipePdfParser.cs:443-453 | The result is always a substring of the text |
| RecipeText.BetweenShape | Application/Services/RecipePdfParser.cs:449-452 | The result runs from the label to the first occurrence of the end label after it, or to the end of the text |
| RecipeText.BetweenStops | Application/Services/RecipePdfParser.cs:449-452 | The result stops at the end of the text or at an occurrence of the end label |
| RecipeText.BetweenToEnd | Application/Services/RecipePdfParser.cs:450 | Without an end label after the start, the whole suffix is returned |
| RecipeText.BetweenNoEnd | Application/Services/RecipePdfParser.cs:449-452 | The result never contains the end label |
| RecipeText.Occurrences | Application/Services/RecipePdfParser.cs:458-462 | Every listed index is a match, in increasing order |
| RecipeText.OccurrencesComplete | Application/Services/RecipePdfParser.cs:458-462 | Every match at or after the start is listed |
| RecipeText.NthHitOccurrence | Application/Services/RecipePdfParser.cs:457-462 | The loop's index is the n-th match, or -1 when there are fewer than n |
| RecipeText.AfterNthSpec | Application/Services/RecipePdfParser.cs:455-464 | For n >= 1, "" with fewer than n occurrences, else the suffix after the n-th occurrence |
| RecipeText.UnifyNewlines | Application/Services/RecipePdfParser.cs:404 | No carriage return is left |
| RecipeText.SquashBlanks | Application/Services/RecipePdfParser.cs:405 | No tab is left and no carriage return is introduced |
| RecipeText.InsertBreaksKeepsAbsent | Application/Services/RecipePdfParser.cs:435-436 | A character other than a newline that is in neither the text nor the labels is not in the result |
| RecipeText.RemovePageMarks | Application/Services/RecipePdfParser.cs:438 | Removing page marks never lengthens the text |
| RecipeText.RemovePageMarksKeepsAbsent | Application/Services/RecipePdfParser.cs:438 | A character not in the text is not in the result |
| RecipeText.NormalizeClean | Application/Services/RecipePdfParser.cs:402-441 | For labels free of carriage returns and tabs, the normalised text is trimmed and holds no carriage return and no tab |
| RecipeText.CleanupName | Application/Services/RecipePdfParser.cs:390-397 | "" for a blank text; otherwise a text with single spaces and no outer blanks |
| RecipeText.CleanupNameLabelFree | Application/Services/RecipePdfParser.cs:390-397 | Without the label, cleaning only squashes and trims whitespace |
| RecipeText.CleanupNameFixpoint | Application/Services/RecipePdfParser.cs:390-397 | A clean, label-free name is its own cleanup |
| RecipeText.TitleCaseSafe | Application/Services/RecipePdfParser.cs:504-509 | "" for a blank text |
| RecipeText.TitleCaseArgument | Application/Services/RecipePdfParser.cs:506-508 | The culture's title casing receives a non-empty, single-spaced, lower-case text |
| RecipeText.ParseDecimalText | Application/Services/RecipePdfParser.cs:496-502 | A blank text gives null |
| RecipeText.DecimalCommaAsPoint | Application/Services/RecipePdfParser.cs:499 | A decimal comma parses as a decimal point |
| RecipeText.DigitsOf | Application/Services/RecipePdfParser.cs:492 | Removing non-digits leaves only digits and never lengthens |
| RecipeText.DigitsOfDigits | Application/Services/RecipePdfParser.cs:492 | Digits are kept and the filter is idempotent |
| RecipeText.ParseLong | Application/Services/RecipePdfParser.cs:489-494 | A blank text gives null; a parsed value is a non-negative `long` |
| RecipeText.ParseLongFormat | Application/Services/RecipePdfParser.cs:489-494 | The digits of any non-negative `long` parse back to it |
| Products.SplitUpperDigitFixes | Application/Services/RecipePdfParser.cs:309 | After the pass, no upper-case letter is directly followed by a digit |
| Products.SplitDigitUpperFixes | Application/Services/RecipePdfParser.cs:310 | After the second pass, no digit touches an upper-case letter on either side |
| Products.SplitLettersDigitsSeparated | Application/Services/RecipePdfParser.cs:309-310 | The two passes together separate letters from digits |
| Products.SpaceAfterUnspaced | Application/Services/RecipePdfParser.cs:309-312 | A spacing pass only inserts spaces |
| Products.SpaceKeywordsKeeps | Application/Services/RecipePdfParser.cs:312 | Spacing product types keeps letters and digits apart |
| Products.ToxSpacing | Application/Services/RecipePdfParser.cs:313 | The toxicity pass keeps the first character |
| Products.ToxSpacingUnspaced | Application/Services/RecipePdfParser.cs:313 | The toxicity pass only inserts spaces |
| Products.SpaceTypesAndClassesKeeps | Application/Services/RecipePdfParser.cs:312-313 | The type and class passes keep letters and digits apart |
| Products.SquashTrimNoPair | Application/Services/RecipePdfParser.cs:314 | The final squash and trim bring no letter next to a digit |
| Products.PrepareBlock | Application/Services/RecipePdfParser.cs:299-314 | The prepared block has no outer blanks and no doubled spaces |
| Products.PrepareBlockSeparated | Application/Services/RecipePdfParser.cs:299-314 | The prepared block also has no upper-case letter directly next to a digit |
| Products.VegetalAktivAbsent | Application/Services/RecipePdfParser.cs:330 | A name without "VEGETAL" is left as it is |
| Products.ProductOfFields | Application/Services/RecipePdfParser.cs:329-343 | A product has its type, registry and class, trimmed, no dose per unit, and null values for blank dose and total |
| Products.ParseProducts | Application/Services/RecipePdfParser.cs:297-347 | One product per match of the pattern in the prepared block |
| Products.ProductsOf | Application/Services/RecipePdfParser.cs:327-344 | The products are the matches' products, in order |
| Dates.DaysInMonth | Application/Services/RecipePdfParser.cs:477 | 28 to 31 days; 29 exactly for February of a leap year |
| Dates.ParseExact | Application/Services/RecipePdfParser.cs:477 | A date read as `d/M/yyyy` is a valid calendar date |
| Dates.ParseExactFields | Application/Services/RecipePdfParser.cs:477 | Day, month and year fields give that date when it is valid and nothing otherwise |
| Dates.ParseExactFormat | Application/Services/RecipePdfParser.cs:477 | Every valid date written as `d/M/yyyy` is read back |
| Dates.LeapDay | Application/Services/RecipePdfParser.cs:477 | February 29 is valid exactly in leap years |
| Dates.ParseDate | Application/Services/RecipePdfParser.cs:472-481 | A missing or blank value gives the default date, not an error; an error means neither the exact nor the lenient parse accepts the text |
| Dates.ParseDateExact | Application/Services/RecipePdfParser.cs:472-481 | Every valid date written as `d/M/yyyy` parses to itself |
| Dates.ParseDateNullable | Application/Services/RecipePdfParser.cs:483-487 | A blank value gives null; otherwise it agrees with `ParseDate`, errors included |
| Numbers.NumberTrimShape | Application/Services/RecipePdfParser.cs:500 | The number reader looks at the infix between runs of its white space (space, tab to carriage return), which neither starts nor ends with that white space |
| Numbers.NumberTrimOf | Application/Services/RecipePdfParser.cs:500 | A text that neither starts nor ends with number white space is read whole |
| Numbers.ParseDecimalBlank | Application/Services/RecipePdfParser.cs:496-502 | A blank text never parses |
| Numbers.ParseDecimalDigitAt | Application/Services/RecipePdfParser.cs:496-502 | A text that parses holds a digit |
| Numbers.ParseDecimalFormat | Application/Services/RecipePdfParser.cs:496-502 | The digits of any natural number parse back to it |
| Numbers.ParseDecimalSignAfterWhite | Application/Services/RecipePdfParser.cs:499-500 | Digits followed by white space and a trailing minus read as the negated number |
| Numbers.TrailingMinusAt | Application/Services/RecipePdfParser.cs:500 | A text without a leading sign that ends in `-` after white space is the negation of the text before that white space |
| Numbers.ParseInt32 | Application/Services/PdfLotsExtractor.cs:326 | A parsed value fits a 32-bit `int` |
| Numbers.ParseInt32DigitAt | Application/Services/PdfLotsExtractor.cs:326 | A text that parses as an integer holds a digit |
| Numbers.ParseInt32Blank | Application/Services/PdfLotsExtractor.cs:326 | A blank text never parses as an integer |
| Numbers.ParseInt32Format | Application/Services/PdfLotsExtractor.cs:326 | The digits of any non-negative `int` parse back to it |
| Numbers.FormatNatValue | Application/Services/RecipePdfParser.cs:492 | The decimal digits of a number have that value |
| RecipeParser.FindTrimmed | Application/Services/RecipePdfParser.cs:466-470 | A capture, trimmed, is present exactly when the pattern matches |
| RecipeParser.OrPage | Application/Services/RecipePdfParser.cs:41-47 | A blank block falls back to the whole page |
| RecipeParser.TaxId | Application/Services/RecipePdfParser.cs:49-55 | The requester tax id holds only digits, and is "" when the pattern does not match |
| RecipeParser.RequesterByAnchor | Application/Services/RecipePdfParser.cs:57-62 | The name chosen before the tax id label is tidy, and blank when the label is absent |
| RecipeParser.RequesterNameAsWritten | Application/Services/RecipePdfParser.cs:57-72 | The requester name is tidy; it is the name before the tax id label when there is one, and blank when that is blank and capture 1 of the name line is missing |
| RecipeParser.RequesterName | Application/Services/RecipePdfParser.cs:57-72 | The same, with the fallback reading the `name` capture of the name line |
| RecipeParser.RequesterNameFallback | Application/Services/RecipePdfParser.cs:64-71 | Without a name before the tax id label, a clean `name` capture is the requester name as it stands |
| RecipeParser.RequesterNameAsWrittenFallback | Application/Services/RecipePdfParser.cs:64-71 | As written, a clean capture 1 (the label after the name) becomes the requester name |
| RecipeParser.RequesterNamesAgree | Application/Services/RecipePdfParser.cs:57-72 | The two readings agree when a name precedes the tax id label or the two captures coincide |
| RecipeParser.RequesterNameTakesLabel | Application/Services/RecipePdfParser.cs:67-70 | On a block without a tax id label, the parser names the requester "Domicilio:" where the name is "JUAN PEREZ" |
| RecipeParser.AdvisorName | Application/Services/RecipePdfParser.cs:79-83 | The advisor name has single spaces and no outer blanks |
| RecipeParser.Pages | Application/Services/RecipePdfParser.cs:29-30 | Both pages are trimmed |
| RecipeParser.DatesOf | Application/Services/RecipePdfParser.cs:35-38 | A missing issue date gives the default date; success means the issue date parsed |
| RecipeParser.PartiesOf | Application/Services/RecipePdfParser.cs:41-83 | The tax id holds only digits; names are clean; the licence is trimmed |
| RecipeParser.AppliedOf | Application/Services/RecipePdfParser.cs:86-114 | No unit-surface capture gives no unit surface; the crop is trimmed |
| RecipeParser.ClimateOf | Application/Services/RecipePdfParser.cs:99-100 | A missing temperature capture gives no temperature |
| RecipeParser.RfdOf | Application/Services/RecipePdfParser.cs:32 | The RFD number is a non-negative `long`, 0 when absent |
| RecipeParser.Assemble | Application/Services/RecipePdfParser.cs:123-159 | The recipe carries the parsed parties, number, status, products and lots, and no sensitive points |
| RecipeParser.ParsePages | Application/Services/RecipePdfParser.cs:29-159 | A parsed recipe has a digit-only tax id, clean names, an RFD number within `long`, a trimmed status and the given lots; it fails exactly when the issue date fails |
| RecipeParser.ParseNormalized | Application/Services/RecipePdfParser.cs:27-159 | The same, with the lots built from the extracted table rows and the normalised text |
| RecipeParser.Parse | Application/Services/RecipePdfParser.cs:21-27 | A blank raw text is rejected; any other is normalised and parsed |
| Query.Validate | Contracts/Requests/RecipeQueryRequest.cs:37-42 | Afterwards the page is at least 1 and the size is within 1..100; a page below 1 becomes 1 and any other page is kept; a size below 1 becomes 20, one above 100 becomes 100, and one within 1..100 is kept |
| Query.ValidateIdempotent | Contracts/Requests/RecipeQueryRequest.cs:37-42 | Validating twice is validating once |
| Query.ValidateZeroSize | Contracts/Requests/RecipeQueryRequest.cs:40 | A size of 0 resets to 20, not to 1 |
| Query.TotalPages | Application/Services/RecipeService.cs:64 | The page count is the ceiling of items over size |
| Query.TotalPagesLeast | Application/Services/RecipeService.cs:64 | No smaller number of pages holds every item |
| Query.Offset | Application/Services/RecipeService.cs:41 | The exact number of items skipped |
| Query.SkipCountAsWritten | Application/Services/RecipeService.cs:41 | The 32-bit skip count always fits an `int` and agrees with the exact offset whenever that offset fits |
| Query.SkipCountWraps | Application/Services/RecipeService.cs:41 | Page 21474838 of size 100 is valid and should skip 2147483700 items, but the 32-bit count is -2147483596 |
| Query.PageItemsAsWritten | Application/Services/RecipeService.cs:41-42 | The page served at the wrapped skip count: no page exactly when that count is negative, and the exact page whenever the exact offset fits an `int` |
| Query.WrappedSkipPages | Application/Services/RecipeService.cs:41-42 | Page 21474838 of size 100 fails and page 42949674 of size 100 serves items 4..103, where the exact offset gives empty pages |
| Query.Window | Application/Services/RecipeService.cs:41-42 | `Skip(o).Take(n)` returns the items from index `o`, at most `n` of them |
| Query.PageItems | Application/Services/RecipeService.cs:40-42 | A page holds the items at indices `[(Page-1)*PageSize, Page*PageSize)` |
| Query.PageOfItem | Application/Services/RecipeService.cs:40-42 | Every item appears on the page its index falls in |
| Query.PagesInRange | Application/Services/RecipeService.cs:40-64 | Pages up to the page count are non-empty and pages after it are empty |
| Query.KeyNamed | Application/Services/RecipeService.cs:134-157 | A column other than the creation time is chosen only by its own name |
| Query.KeyNamedName | Application/Services/RecipeService.cs:134-157 | Each column's name selects that column |
| Query.SortKeyOf | Application/Services/RecipeService.cs:134 | A chosen column's name is the lower-cased `SortBy` |
| Query.UnknownKeyFallsBack | Application/Services/RecipeService.cs:154-156 | An unknown name sorts by creation time |
| Query.SortKeyIgnoresCase | Application/Services/RecipeService.cs:134 | Names differing only in case choose the same column |
| Query.ApplySorting | Application/Services/RecipeService.cs:130-158 | The listing is a permutation of the recipes, sorted by the chosen column in the requested direction |
| Query.GetRecipes | Application/Services/RecipeService.cs:18-72 | The response echoes the validated page and size of the request, the full count, the page's items of the sorted list, and the least page count that holds them |
| Workflow.StatusNamed | Application/Services/RecipeService.cs:162-166 | A recognised status is one of the seven, named exactly |
| Workflow.StatusNamedName | Application/Services/RecipeService.cs:162 | Each of the seven statuses is recognised |
| Workflow.Normalize | Application/Services/RecipeService.cs:163 | The normalised text is trimmed and empty exactly for a blank text |
| Workflow.TransitionShape | Application/Services/RecipeService.cs:172-180 | No status moves to itself, CERRADA and ANULADA never move, and targets are only CERRADA, ANULADA or PENDIENTE |
| Workflow.ChangeStatus | Application/Services/RecipeService.cs:160-187 | An unknown status is an argument error; success exactly for an existing recipe and an allowed transition; only the status and update stamps of that recipe change |
| Workflow.ChangeStatusNotRepeatable | Application/Services/RecipeService.cs:172-180 | The same change cannot be applied twice |
| Workflow.ChangeStatusTerminal | Application/Services/RecipeService.cs:172-180 | A closed or annulled recipe cannot change status |
| Workflow.ChangeStatusKeepsValid | Application/Services/RecipeService.cs:160-187 | Every stored status stays one of the seven |
| Workflow.Assign | Application/Services/MunicipalityService.cs:175-193 | Success exactly for an existing ABIERTA recipe and an existing municipality; the recipe becomes PENDIENTE, assigned to it, stamped; nothing else changes |
| Workflow.AssignThenReviewable | Application/Services/MunicipalityService.cs:186-188 | An assigned recipe can be reviewed by its municipality |
| Workflow.AssignKeepsValid | Application/Services/MunicipalityService.cs:175-193 | Every stored status stays one of the seven |
| Workflow.ActionNamed | Application/Services/MunicipalityService.cs:197-201 | A recognised action is one of the four, named exactly |
| Workflow.ActionNamedName | Application/Services/MunicipalityService.cs:197 | Each of the four actions is recognised |
| Workflow.ActionCheck | Application/Services/MunicipalityService.cs:212-228 | Rejection and observation need a non-blank observation; redirection needs an existing municipality other than the reviewing one |
| Workflow.Reviewed | Application/Services/MunicipalityService.cs:242-260 | Approval, rejection and observation set the status to the action; a redirection keeps the status and moves the assignment; both stamp the recipe |
| Workflow.ReviewAs | Application/Services/MunicipalityService.cs:203-262 | Success exactly when the recipe exists, is assigned to the reviewing municipality, is PENDIENTE and the action's checks pass; one log is appended; only that recipe changes |
| Workflow.Review | Application/Services/MunicipalityService.cs:195-263 | An unknown action is an argument error; otherwise as above, with exactly one log appended and the earlier logs kept |
| Workflow.ReviewLogTarget | Application/Services/MunicipalityService.cs:230-239 | A log has a target municipality exactly when it records a redirection, and then it is the requested target |
| Workflow.ReviewLogged | Application/Services/MunicipalityService.cs:230-240 | The new log records the recipe, the municipality, the normalised action, the observation and the user |
| Workflow.ReviewOutcome | Application/Services/MunicipalityService.cs:242-257 | Each action's effect on status and assignment, with the checks that allowed it |
| Workflow.ReviewKeepsValid | Application/Services/MunicipalityService.cs:195-263 | Every stored status stays one of the seven |
| Workflow.RoleName | Application/Services/MunicipalityService.cs:279 | The first role of the user, or "Desconocido" without one |
| Workflow.SendMessage | Application/Services/MunicipalityService.cs:269-309 | Success exactly for an existing recipe and user; the trimmed message is appended; an applicator answering an OBSERVADA recipe sends it back to PENDIENTE, and otherwise the recipe is unchanged |
| Workflow.MessageOnlyReturnsObserved | Application/Services/MunicipalityService.cs:281-287 | Any other message leaves every recipe unchanged |
| Workflow.SendMessageKeepsValid | Application/Services/MunicipalityService.cs:269-309 | Every stored status stays one of the seven |
| Municipalities.ValidateCoords | Application/Services/MunicipalityService.cs:19-26 | Passes exactly when each present coordinate is within its inclusive range; the latitude is checked first |
| Municipalities.CoordsBoundsInclusive | Application/Services/MunicipalityService.cs:21-25 | The poles and the antimeridian pass; 90.5 and -180.5 fail |
| Municipalities.Overwrite | Application/Services/MunicipalityService.cs:149 | A supplied name replaces the old one, trimmed; an absent one keeps it |
| Municipalities.OverwriteOpt | Application/Services/MunicipalityService.cs:150-151 | The same for province and department |
| Municipalities.OverwriteWith | Application/Services/MunicipalityService.cs:153-156 | A supplied value replaces the old one; an absent one keeps it |
| Municipalities.Apply | Application/Services/MunicipalityService.cs:149-159 | Only supplied fields change, creation fields are kept, and the record is stamped |
| Municipalities.Update | Application/Services/MunicipalityService.cs:139-169 | An unknown id fails; out-of-range coordinates fail; otherwise only that municipality changes, as the request says |
| Municipalities.UpdateIdempotent | Application/Services/MunicipalityService.cs:149-159 | Applying the same request twice is applying it once |
| Municipalities.UpdateNothing | Application/Services/MunicipalityService.cs:158-159 | An empty request only stamps the record |
| GeoInsights.PartialScore | Application/Services/GeoInsightsService.cs:229-236 | Score 1 exactly when the class names "Ia"; 2 exactly for "Ib" without "Ia"; 99 exactly when no marker appears |
| GeoInsights.PartialScoreMiddle | Application/Services/GeoInsightsService.cs:232-234 | Score 3 for "II" without "III"; 4 for "III" without "IV"; 5 for "IV" otherwise; each only without "Ia" and "Ib" |
| GeoInsights.MarkersNest | Application/Services/GeoInsightsService.cs:232-233 | A class naming "III" also names "II" |
| GeoInsights.GetToxScore | Application/Services/GeoInsightsService.cs:220-237 | The score is 1 to 5 or 99; 99 for a missing or empty class; a listed class in any case scores as the table says |
| GeoInsights.ListedScore | Application/Services/GeoInsightsService.cs:225-226 | The lookup ignores case |
| GeoInsights.ClassNameScore | Application/Services/GeoInsightsService.cs:15-22 | "Ia" to "IV" score 1 to 5 |
| GeoInsights.ClaseNameScore | Application/Services/GeoInsightsService.cs:15-22 | "Clase Ia" to "Clase IV" score 1 to 5 |
| GeoInsights.Unlisted | Application/Services/GeoInsightsService.cs:228-236 | A class the table does not list is matched partially, after trimming |
| GeoInsights.PaddedNameScore | Application/Services/GeoInsightsService.cs:228-236 | A class name with a leading space misses the table and still scores its class through the partial match |
| GeoInsights.LowestFrom | Application/Services/GeoInsightsService.cs:203-215 | The scan ends with -1 exactly when no product counts, otherwise at the first product of lowest score |
| GeoInsights.FirstLowestUnique | Application/Services/GeoInsightsService.cs:206-215 | There is only one first product of lowest score |
| GeoInsights.GetMaxToxClass | Application/Services/GeoInsightsService.cs:201-218 | null exactly when no product has a non-empty class; otherwise the class of the first product of lowest score |
| GeoInsights.MaxToxScore | Application/Services/GeoInsightsService.cs:77-78 | The recipe's score is at most every classed product's score and equals one of them, or 99 when none is classed |
| GeoInsights.OrderedVertices | Application/Services/GeoInsightsService.cs:82-83 | The vertices are a permutation of the lot's, sorted by order |
| GeoInsights.Points | Application/Services/GeoInsightsService.cs:84 | One point per vertex, with its latitude and longitude |
| GeoInsights.MeanWithin | Application/Services/GeoInsightsService.cs:87-88 | The average of values within bounds is within them |
| GeoInsights.CenterInBox | Application/Services/GeoInsightsService.cs:87-88 | The centre of a polygon lies within any box that holds its vertices |
| GeoInsights.ApplicationOf | Application/Services/GeoInsightsService.cs:82-110 | An application carries the recipe and lot ids, the surface, the lot's vertices as points in `Order` order, the centre of those points, and the recipe's worst class and score |
| GeoInsights.ApplicationsOf | Application/Services/GeoInsightsService.cs:77-111 | One application per lot with a vertex, in lot order, all sharing the recipe's worst class |
| GeoInsights.ApplicationsOfMember | Application/Services/GeoInsightsService.cs:80-111 | An application belongs to a recipe's list exactly when it is built from one of its lots with a vertex |
| GeoInsights.ApplicationsMember | Application/Services/GeoInsightsService.cs:68-111 | An application is listed exactly when it is built from a lot with a vertex of some recipe |
| GeoInsights.FirstsIds | Application/Services/GeoInsightsService.cs:113-130 | Deduplication keeps every id |
| GeoInsights.FirstsDistinct | Application/Services/GeoInsightsService.cs:113-130 | No id is kept twice |
| GeoInsights.FirstsMember | Application/Services/GeoInsightsService.cs:113-130 | A point is kept exactly when it is the first with its id |
| GeoInsights.CollectFirsts | Application/Services/GeoInsightsService.cs:114-130 | The dictionary loop keeps the first point of each id, in order of first appearance |
| GeoInsights.DedupById | Application/Services/GeoInsightsService.cs:113-130 | Distinct ids, the same ids as the input, and exactly the first point of each id |
| GeoInsights.DedupInOrder | Application/Services/GeoInsightsService.cs:113-130 | The kept points come in order of first appearance |
| GeoInsights.DedupIdempotent | Application/Services/GeoInsightsService.cs:113-130 | Deduplicating again changes nothing |
| GeoInsights.FirstsAll | Application/Services/GeoInsightsService.cs:113-130 | Points with distinct ids are all kept, in order |
| GeoInsights.HectaresAppend | Application/Services/GeoInsightsService.cs:160 | The hectare total of two lists is the sum of their totals |
| GeoInsights.HectaresUnknown | Application/Services/GeoInsightsService.cs:160 | Applications without a surface add nothing |
| GeoInsights.ProductNamesEmpty | Application/Services/GeoInsightsService.cs:161 | No product name exactly when no application has a product |
| GeoInsights.AdvisorNamesEmpty | Application/Services/GeoInsightsService.cs:166 | No advisor name exactly when no application has an advisor |
| GeoInsights.DistinctCount | Application/Services/GeoInsightsService.cs:161-166 | The number of distinct names is at most the number of names, and 0 exactly when there are none |
| GeoInsights.HighToxPresent | Application/Services/GeoInsightsService.cs:162 | The high-toxicity count is positive exactly when some application scores at most 2 |
| GeoInsights.KpisOf | Application/Services/GeoInsightsService.cs:157-167 | The total is the number of applications; high-toxicity is the number of applications with a score of at most 2; hectares sum the known surfaces; unique products and advisors are the sizes of the sets of product names and of named advisors; no point is at risk |
| GeoInsights.HighToxCount | Application/Services/GeoInsightsService.cs:162 | The high-toxicity count is the number of indices whose score is at most 2 |
| GeoInsights.ProductNamesSet | Application/Services/GeoInsightsService.cs:161 | The flattened product names hold exactly the names of the products of the applications |
| GeoInsights.AdvisorNamesSet | Application/Services/GeoInsightsService.cs:166 | The advisor names hold exactly the names of the applications that have an advisor |
| GeoInsights.GetGeoInsights | Application/Services/GeoInsightsService.cs:62-198 | The applications of all recipes; the indicators of exactly those applications; sensitive points with distinct ids, exactly the ids of all recipes' points, with zero nearby counts |

## Left out

- PDF decoding (`PdfDocument.Open`, `GetWords`, the text extractor): the model starts from each page's positioned words and from the raw text.
- Persistence and plumbing: EF Core queries, `SaveChangesAsync`, the HTTP controllers and middleware. A service call is a function from the store to a new store or a `Failure`. `ServiceErrors.KindOf` gives the exception type; the exception messages are not modelled.
- The listing's filters and the geo request's filters are database predicates. Both listings start from the already filtered recipes.
- `availableFilters` of the map view is not modelled.
- `CreateAsync`, `GetNearbyAsync`, `GetRecipeByIdAsync` and `GetMessagesAsync` are outside the modelled core.
- The proximity loop, `HaversineKm` and `GenerateAlerts` are commented out or never called. The nearby counts and the at-risk count stay 0, as in the code.
- The regular expressions that capture fields (`FindGroup` patterns, the product pattern, the name-candidate pattern, the anchors) are parameters of the `Engine` record. Only what the surrounding code does with their captures is modelled.
- RecipeText.TitleCaseSafe: the `es-AR` title casing is a parameter, so only the blank case and the argument it receives are stated.
- Dates.ParseDate: the lenient `DateOnly.Parse(value, es-AR)` fallback is a parameter; only the exact `d/M/yyyy` format is interpreted.
- RecipeText.ParseDecimalText: `decimal.TryParse` with `NumberStyles.Number` is modelled by `Numbers.ParseDecimal` (optional sign, digits, optional fraction; white space may separate a trailing sign from the number but not a leading one). Every comma has become a point first, so no thousands separator reaches the parser, and the style admits no exponent. White space is the number reader's set (space, tab to carriage return), not the wider set `string.Trim` removes. Trailing NUL characters, which .NET's reader also accepts, are not modelled. Only the range and precision of `decimal` are not modelled.
- LotRows.ParseDecimalCell: `NumberStyles.Any` is modelled by the same reader. The cell is first cut down to digits, points and `-`, so currency symbols, exponents, parentheses and separators never reach the parser, and the reader is exact on what remains. Only the range and precision of `decimal` are not modelled.
- Character classes are ASCII plus the Spanish accented letters. Whitespace is the Latin-1 whitespace set. `char.IsLetterOrDigit`, `ToUpperInvariant` and `\s` are not full Unicode.
- Coordinates are exact `real`s, not doubles, and `decimal`s are exact too. `BandY` rounds half to even on the exact quotient.
- Columns.LayoutPartition: `double.MaxValue` as the last column's end is modelled as no end; a word centred beyond `double.MaxValue` cannot occur.
- PdfLotsExtractor.cs:87-100 and :122-133 compute ranges and a list that are never used, and are not modelled.
- RecipeText.NormalizeClean: stated for any list of non-empty labels free of carriage returns and tabs. That the concrete label list meets this premise is not proved: the verifier cannot decide character membership in long string literals.
- RecipeText.AfterNthSpec: stated for `n >= 1` and a non-empty marker, the only way the parser calls it.
- LotRows.MergeKeepsFigures: a row with numbers that absorbs a continuation does change its texts. What is proved is that no row with numbers is dropped and that all numbers keep their order. Rows are not claimed to stay unchanged.
- LotRows.MergeSettles: the "no continuation left" result needs every row to carry something. `LotsExtractor.Emit` guarantees this, and `LotRows.MergeNeedsSubstantiveRows` shows it is needed.
- RecipeParser.PartiesOf: the requester-name fallback reads the `name` capture (`RecipeParser.RequesterName`). The parser reads capture 1, the label after the name (see "## Findings", `RecipeParser.RequesterNameAsWritten`).
- Query.GetRecipes: the listing serves the page at the exact offset `(Page-1)*PageSize` (`Query.PageItems`). Where that product exceeds `Int32.MaxValue`, the service's wrapped skip count fails the request or serves another window instead (see "## Findings", `Query.PageItemsAsWritten`).
- Query.TotalPages: `Math.Ceiling(total / (double)size)` is taken as the exact integer ceiling. For counts within `int` and sizes up to 100, the double quotient does not cross an integer.
- GeoInsights.DedupById: `Dictionary.Values` is taken to enumerate in insertion order, which holds for a dictionary without removals.
- GeoInsights.ApplicationOf: the centre is the exact mean of the vertices; `decimal` rounding in `Average` is not modelled.
- GeoInsights.PaddedNameScore: the partial-match lemmas are stated for classes the table does not list; listed classes take the table's score.
- The parsed recipe's document fields (application type, diagnosis, treatment, machine, notes, wind) are only carried through; they are captures of the regex parameter.

## Findings

| source | as written | input that shows it | evidently intended | confidence | as-written member | corrected member |
|---|---|---|---|---|---|---|
| Application/Services/RecipeService.cs:41 | `Skip((request.Page - 1) * request.PageSize)` multiplies two `int`s in unchecked 32-bit arithmetic, and `Validate` bounds only the page size. For Page = 21474838 the product wraps to -2147483596; SQL Server rejects the negative OFFSET, so the request fails. For Page = 42949674 it wraps to 4, so items 4..103 come back | Page = 21474838 or 42949674, PageSize = 100 | skip 2147483700 or 4294967300 items, giving an empty page | not executed | Query.WrappedSkipPages | Query.PageItems |
| Application/Services/RecipePdfParser.cs:67-70 | `FindGroup` reads group 1 by default. .NET numbers unnamed groups before named ones, so group 1 of the name-line pattern is the terminator alternation in the look-ahead and `(?<name>…)` is group 2. When no name is found before the tax id label, the requester is named after the label that follows the name (`CUIL /`, `Domicilio:`, …) or "" | "Nombre / Razón social: JUAN PEREZ Domicilio: CALLE 1" | the requester name "JUAN PEREZ", read from the `name` group | not executed | RecipeParser.RequesterNameTakesLabel | RecipeParser.RequesterName |

=== FILE: columns.dfy ===
/** Column layout of the lot table (steps 3-4 of `ExtractLots`) and the
    text of one cell (`JoinInRange`). The seven heading centres are sorted by
    x; each column owns the x range from its own heading centre up to, but
    not including, the next heading centre, and the right-most column is
    unbounded. A word belongs to a column when its centre lies in that range. */
module Columns {
  import opened Wrappers
  import opened Text
  import opened Seqs
  import opened Sorting
  import opened PageWords

  /** A heading: which column, and the x of its centre. */
  datatype Column = Column(key: ColumnKey, x: real)

  /** The x range of a column; `end == None` stands for `double.MaxValue`. */
  datatype Span = Span(start: real, end: Option<real>)

  predicate InSpan(x: real, sp: Span) {
    sp.start <= x && (sp.end.None? || x < sp.end.value)
  }

  /** The seven headings in the order the extractor lists them. */
  function Headings(centre: ColumnKey -> real): (hs: seq<Column>)
    ensures |hs| == 7
    ensures forall i :: 0 <= i < 7 ==> hs[i] == Column(AllKeys[i], centre(AllKeys[i]))
  {
    [Column(Nombre, centre(Nombre)), Column(Superficie, centre(Superficie)),
     Column(Localidad, centre(Localidad)), Column(Departamento, centre(Departamento)),
     Column(Orden, centre(Orden)), Column(Latitud, centre(Latitud)),
     Column(Longitud, centre(Longitud))]
  }

  function ColumnX(c: Column): real {
    c.x
  }

  /** `cols`: the headings ordered by centre x (stable). */
  function Layout(centre: ColumnKey -> real): (cols: seq<Column>)
    ensures |cols| == 7
    ensures multiset(cols) == multiset(Headings(centre))
  {
    SortBy(Headings(centre), ColumnX)
  }

  /** `cols.FindIndex(c => c.key == k)`. */
  function KeyIndex(cols: seq<Column>, k: ColumnKey): (i: int)
    ensures -1 <= i < |cols|
    ensures i >= 0 ==> cols[i].key == k && forall j :: 0 <= j < i ==> cols[j].key != k
    ensures i < 0 ==> forall j :: 0 <= j < |cols| ==> cols[j].key != k
  {
    FirstIndex(cols, (c: Column) => c.key == k)
  }

  /** The span of the column at position `i` of the sorted layout. */
  function SpanAt(cols: seq<Column>, i: nat): Span
    requires i < |cols|
  {
    Span(cols[i].x, if i < |cols| - 1 then Some(cols[i + 1].x) else None)
  }

  /** `(Start(k), End(k))`: from the column's own centre to the next
      centre in x order, unbounded for the last column. */
  function ColumnSpan(cols: seq<Column>, k: ColumnKey): Span
    requires KeyIndex(cols, k) >= 0
  {
    SpanAt(cols, KeyIndex(cols, k))
  }

  predicate DistinctKeys(cols: seq<Column>) {
    forall i, j :: 0 <= i < j < |cols| ==> cols[i].key != cols[j].key
  }

  predicate StrictlyIncreasing(cols: seq<Column>) {
    forall i, j :: 0 <= i < j < |cols| ==> cols[i].x < cols[j].x
  }

  /** The index of the last column whose start is at or left of `x`,
      searching from column `i`. */
  lemma {:induction false} LastStartAtMost(cols: seq<Column>, x: real, i: nat) returns (j: nat)
    requires StrictlyIncreasing(cols)
    requires i < |cols| && cols[i].x <= x
    ensures i <= j < |cols| && InSpan(x, SpanAt(cols, j))
    decreases |cols| - i
  {
    if i + 1 < |cols| && cols[i + 1].x <= x {
      j := LastStartAtMost(cols, x, i + 1);
    } else {
      j := i;
    }
  }

  /** With strictly increasing centres the spans tile the line from the
      first centre rightwards: a position left of the first centre is in no
      span, any other position is in exactly one. */
  lemma SpanPartition(cols: seq<Column>, x: real)
    requires cols != [] && StrictlyIncreasing(cols)
    ensures x < cols[0].x ==> forall i :: 0 <= i < |cols| ==> !InSpan(x, SpanAt(cols, i))
    ensures cols[0].x <= x ==> exists i :: 0 <= i < |cols| && InSpan(x, SpanAt(cols, i))
    ensures forall i, j :: 0 <= i < j < |cols| ==> !(InSpan(x, SpanAt(cols, i)) && InSpan(x, SpanAt(cols, j)))
  {
    if cols[0].x <= x {
      var j := LastStartAtMost(cols, x, 0);
    }
    forall i, j | 0 <= i < j < |cols|
      ensures !(InSpan(x, SpanAt(cols, i)) && InSpan(x, SpanAt(cols, j)))
    {
      assert i + 1 < |cols|;
      assert cols[i + 1].x <= cols[j].x;
    }
  }

  lemma HeadingsDistinct(centre: ColumnKey -> real)
    requires forall a, b :: a != b ==> centre(a) != centre(b)
    ensures forall i, j :: 0 <= i < j < 7 ==> Headings(centre)[i].x != Headings(centre)[j].x
  {
  }

  lemma HeadingOf(centre: ColumnKey -> real, k: ColumnKey) returns (i: nat)
    ensures i < 7 && Headings(centre)[i] == Column(k, centre(k))
  {
    match k
    case Nombre => i := 0;
    case Superficie => i := 1;
    case Localidad => i := 2;
    case Departamento => i := 3;
    case Orden => i := 4;
    case Latitud => i := 5;
    case Longitud => i := 6;
  }

  /** Column `k` sits in the layout with its own centre. */
  lemma LayoutHas(centre: ColumnKey -> real, k: ColumnKey) returns (i: nat)
    ensures i < 7 && Layout(centre)[i] == Column(k, centre(k))
  {
    var h := HeadingOf(centre, k);
    var cols := Layout(centre);
    assert Column(k, centre(k)) in multiset(Headings(centre));
    assert Column(k, centre(k)) in multiset(cols);
    i :| 0 <= i < |cols| && cols[i] == Column(k, centre(k));
  }

  lemma PermutationDistinctKeys(a: seq<Column>, b: seq<Column>)
    requires multiset(a) == multiset(b) && DistinctKeys(b)
    ensures DistinctKeys(a)
  {
    DistinctPermutation(a, b, (c: Column) => c.key);
  }

  lemma PermutationDistinctCentres(a: seq<Column>, b: seq<Column>)
    requires multiset(a) == multiset(b)
    requires forall i, j :: 0 <= i < j < |b| ==> b[i].x != b[j].x
    ensures forall i, j :: 0 <= i < j < |a| ==> a[i].x != a[j].x
  {
    DistinctPermutation(a, b, ColumnX);
  }

  lemma SortedDistinctIncreasing(cols: seq<Column>)
    requires SortedBy(cols, ColumnX)
    requires forall i, j :: 0 <= i < j < |cols| ==> cols[i].x != cols[j].x
    ensures StrictlyIncreasing(cols)
  {
  }

  lemma LayoutDistinctKeys(centre: ColumnKey -> real)
    ensures DistinctKeys(Layout(centre))
  {
    HeadingsKeys(centre);
    PermutationDistinctKeys(Layout(centre), Headings(centre));
  }

  lemma HeadingsKeys(centre: ColumnKey -> real)
    ensures DistinctKeys(Headings(centre))
  {
  }

  lemma SortIncreasing(hs: seq<Column>)
    requires forall i, j :: 0 <= i < j < |hs| ==> hs[i].x != hs[j].x
    ensures StrictlyIncreasing(SortBy(hs, ColumnX))
  {
    PermutationDistinctCentres(SortBy(hs, ColumnX), hs);
    SortBySorted(hs, ColumnX);
    SortedDistinctIncreasing(SortBy(hs, ColumnX));
  }

  lemma LayoutIncreasing(centre: ColumnKey -> real)
    requires forall a, b :: a != b ==> centre(a) != centre(b)
    ensures StrictlyIncreasing(Layout(centre))
  {
    HeadingsDistinct(centre);
    SortIncreasing(Headings(centre));
  }

  /** The layout of seven headings with pairwise distinct centres: the keys
      are distinct, the centres strictly increase, and every key has a
      column. */
  lemma LayoutWellFormed(centre: ColumnKey -> real)
    requires forall a, b :: a != b ==> centre(a) != centre(b)
    ensures DistinctKeys(Layout(centre)) && StrictlyIncreasing(Layout(centre))
    ensures forall k :: KeyIndex(Layout(centre), k) >= 0
  {
    LayoutDistinctKeys(centre);
    LayoutIncreasing(centre);
    forall k: ColumnKey
      ensures KeyIndex(Layout(centre), k) >= 0
    {
      var i := LayoutHas(centre, k);
    }
  }

  lemma KeyIndexDistinct(cols: seq<Column>, i: nat)
    requires DistinctKeys(cols) && i < |cols|
    ensures KeyIndex(cols, cols[i].key) == i
  {
  }

  /** In the layout, the column found for key `k` is the heading of `k`. */
  lemma KeyIndexOf(centre: ColumnKey -> real, k: ColumnKey)
    ensures KeyIndex(Layout(centre), k) >= 0
    ensures Layout(centre)[KeyIndex(Layout(centre), k)] == Column(k, centre(k))
  {
    var i := LayoutHas(centre, k);
    LayoutDistinctKeys(centre);
    KeyIndexDistinct(Layout(centre), i);
  }

  lemma SpanUnique(centre: ColumnKey -> real, x: real, a: ColumnKey, b: ColumnKey)
    requires forall a, b :: a != b ==> centre(a) != centre(b)
    requires KeyIndex(Layout(centre), a) >= 0 && KeyIndex(Layout(centre), b) >= 0
    requires InSpan(x, ColumnSpan(Layout(centre), a)) && InSpan(x, ColumnSpan(Layout(centre), b))
    ensures a == b
  {
    var cols := Layout(centre);
    LayoutIncreasing(centre);
    SpanPartition(cols, x);
    var i := KeyIndex(cols, a);
    var j := KeyIndex(cols, b);
    assert InSpan(x, SpanAt(cols, i)) && InSpan(x, SpanAt(cols, j));
    assert !(i < j) && !(j < i);
  }

  lemma SpanExists(centre: ColumnKey -> real, x: real, k: ColumnKey) returns (b: ColumnKey)
    requires forall a, b :: a != b ==> centre(a) != centre(b)
    requires centre(k) <= x
    ensures KeyIndex(Layout(centre), b) >= 0 && InSpan(x, ColumnSpan(Layout(centre), b))
  {
    var cols := Layout(centre);
    LayoutIncreasing(centre);
    KeyIndexOf(centre, k);
    var i := KeyIndex(cols, k);
    assert cols[0].x <= cols[i].x;
    SpanPartition(cols, x);
    var j :| 0 <= j < |cols| && InSpan(x, SpanAt(cols, j));
    b := cols[j].key;
    LayoutDistinctKeys(centre);
    KeyIndexDistinct(cols, j);
  }

  /** Every position at or right of some heading centre falls in exactly one
      column; a position left of every heading falls in none. */
  lemma LayoutPartition(centre: ColumnKey -> real, x: real)
    requires forall a, b :: a != b ==> centre(a) != centre(b)
    ensures forall k :: KeyIndex(Layout(centre), k) >= 0
    ensures (exists k :: InSpan(x, ColumnSpan(Layout(centre), k))) <==> exists k :: centre(k) <= x
    ensures forall a, b :: InSpan(x, ColumnSpan(Layout(centre), a)) && InSpan(x, ColumnSpan(Layout(centre), b)) ==> a == b
  {
    forall k: ColumnKey
      ensures KeyIndex(Layout(centre), k) >= 0
      ensures ColumnSpan(Layout(centre), k).start == centre(k)
    {
      KeyIndexOf(centre, k);
    }
    forall a, b | InSpan(x, ColumnSpan(Layout(centre), a)) && InSpan(x, ColumnSpan(Layout(centre), b))
      ensures a == b
    {
      SpanUnique(centre, x, a, b);
    }
    if exists k :: centre(k) <= x {
      var k :| centre(k) <= x;
      var b := SpanExists(centre, x, k);
    }
  }

  // ---------------------------------------------------------------------
  // JoinInRange
  // ---------------------------------------------------------------------

  /** `Select(w => w.Text.Trim()).Where(t => !string.IsNullOrWhiteSpace(t))`. */
  function TrimmedTexts(ws: seq<Word>): (parts: seq<string>)
    ensures forall k :: 0 <= k < |parts| ==> parts[k] != [] && IsTrimmed(parts[k])
  {
    if ws == [] then []
    else
      var t := Trim(ws[0].text);
      var rest := TrimmedTexts(ws[1..]);
      ConsParts(t, rest);
      if t == [] then rest else [t] + rest
  }

  /** Putting a trimmed text, when it is not empty, in front of non-empty
      trimmed parts gives non-empty trimmed parts. */
  lemma ConsParts(t: string, rest: seq<string>)
    requires IsTrimmed(t)
    requires forall k :: 0 <= k < |rest| ==> rest[k] != [] && IsTrimmed(rest[k])
    ensures var parts := if t == [] then rest else [t] + rest;
      forall k :: 0 <= k < |parts| ==> parts[k] != [] && IsTrimmed(parts[k])
  {
  }

  /** The parts are the trimmed texts of the non-blank words, in order. */
  lemma {:induction false} TrimmedTextsPick(ws: seq<Word>)
    ensures TrimmedTexts(ws) == Pick(ws, (w: Word) => !IsBlank(w.text), (w: Word) => Trim(w.text))
    decreases |ws|
  {
    if ws != [] {
      TrimmedTextsPick(ws[1..]);
    }
  }

  /** The trimmed text of every non-blank word is among the parts. */
  lemma {:induction false} TrimmedTextsHas(ws: seq<Word>, i: nat)
    requires i < |ws| && !IsBlank(ws[i].text)
    ensures Trim(ws[i].text) in TrimmedTexts(ws)
    decreases i
  {
    var rest := TrimmedTexts(ws[1..]);
    if i > 0 {
      TrimmedTextsHas(ws[1..], i - 1);
      assert ws[1..][i - 1] == ws[i];
      assert Trim(ws[i].text) in rest;
    } else {
      assert Trim(ws[0].text) != [];
    }
  }

  /** There are no parts exactly when every word is blank. */
  lemma {:induction false} TrimmedTextsEmpty(ws: seq<Word>)
    ensures TrimmedTexts(ws) == [] <==> forall i :: 0 <= i < |ws| ==> IsBlank(ws[i].text)
    decreases |ws|
  {
    if ws != [] {
      TrimmedTextsEmpty(ws[1..]);
      assert forall i :: 1 <= i < |ws| ==> ws[i] == ws[1..][i - 1];
    }
  }

  predicate InColumn(sp: Span, w: Word) {
    InSpan(CenterX(w), sp)
  }

  /** The words of the row centred in the span, ordered by left edge. */
  function CellWords(row: seq<Word>, sp: Span): (ws: seq<Word>)
    ensures multiset(ws) == multiset(Filter(row, (w: Word) => InColumn(sp, w)))
    ensures SortedBy(ws, LeftEdge)
  {
    SortBySorted(Filter(row, (w: Word) => InColumn(sp, w)), LeftEdge);
    SortBy(Filter(row, (w: Word) => InColumn(sp, w)), LeftEdge)
  }

  /** `JoinInRange`: the trimmed texts of the row's words centred in the
      span, left to right, joined with single spaces. */
  function JoinInRange(row: seq<Word>, sp: Span): (r: string)
    ensures IsTrimmed(r)
    ensures r == [] <==> forall i :: 0 <= i < |row| && InColumn(sp, row[i]) ==> IsBlank(row[i].text)
    ensures forall i :: 0 <= i < |row| && InColumn(sp, row[i]) && !IsBlank(row[i].text) ==>
              Contains(r, Trim(row[i].text))
  {
    CellText(row, sp);
    Cell(row, sp)
  }

  /** The cell is the single-space join of the non-blank trimmed texts of
      its words, taken in left-to-right order. */
  lemma JoinInRangeIsJoin(row: seq<Word>, sp: Span)
    ensures JoinInRange(row, sp) == Join(TrimmedTexts(CellWords(row, sp)), " ")
  {
    CellIsJoin(row, sp);
  }

  lemma CellText(row: seq<Word>, sp: Span)
    ensures IsTrimmed(Cell(row, sp))
    ensures Cell(row, sp) == [] <==> forall i :: 0 <= i < |row| && InColumn(sp, row[i]) ==> IsBlank(row[i].text)
    ensures forall i :: 0 <= i < |row| && InColumn(sp, row[i]) && !IsBlank(row[i].text) ==>
              Contains(Cell(row, sp), Trim(row[i].text))
  {
    CellEmpty(row, sp);
    CellContains(row, sp);
  }

  lemma CellIsJoin(row: seq<Word>, sp: Span)
    ensures Cell(row, sp) == Join(TrimmedTexts(CellWords(row, sp)), " ")
  {
    CellJoinTrimmed(TrimmedTexts(CellWords(row, sp)));
  }

  lemma CellEmptyParts(row: seq<Word>, sp: Span)
    ensures Cell(row, sp) == [] <==> TrimmedTexts(CellWords(row, sp)) == []
  {
    var parts := TrimmedTexts(CellWords(row, sp));
    CellJoinTrimmed(parts);
    assert Cell(row, sp) == Join(parts, " ");
  }

  lemma CellEmpty(row: seq<Word>, sp: Span)
    ensures Cell(row, sp) == [] <==> forall i :: 0 <= i < |row| && InColumn(sp, row[i]) ==> IsBlank(row[i].text)
  {
    CellEmptyParts(row, sp);
    CellEmptyIff(row, sp);
  }

  lemma CellContains(row: seq<Word>, sp: Span)
    ensures forall i :: 0 <= i < |row| && InColumn(sp, row[i]) && !IsBlank(row[i].text) ==>
              Contains(Cell(row, sp), Trim(row[i].text))
  {
    CellIsJoin(row, sp);
    CellContainsWords(row, sp);
  }

  /** The trimmed join of the cell's texts. */
  function Cell(row: seq<Word>, sp: Span): string {
    Trim(Join(TrimmedTexts(CellWords(row, sp)), " "))
  }

  lemma CellJoinTrimmed(parts: seq<string>)
    requires forall k :: 0 <= k < |parts| ==> parts[k] != [] && IsTrimmed(parts[k])
    ensures var j := Join(parts, " "); IsTrimmed(j) && Trim(j) == j && (j == [] <==> parts == [])
  {
    JoinTrimmed(parts);
    TrimOfTrimmed(Join(parts, " "));
  }

  lemma InCell(row: seq<Word>, sp: Span, i: nat)
    requires i < |row| && InColumn(sp, row[i])
    ensures row[i] in CellWords(row, sp)
  {
    var p := (w: Word) => InColumn(sp, w);
    FilterKeeps(row, p, i);
    assert row[i] in multiset(CellWords(row, sp));
  }

  lemma CellEmptyIff(row: seq<Word>, sp: Span)
    ensures TrimmedTexts(CellWords(row, sp)) == [] <==>
            forall i :: 0 <= i < |row| && InColumn(sp, row[i]) ==> IsBlank(row[i].text)
  {
    var ws := CellWords(row, sp);
    var p := (w: Word) => InColumn(sp, w);
    TrimmedTextsEmpty(ws);
    if TrimmedTexts(ws) == [] {
      forall i | 0 <= i < |row| && InColumn(sp, row[i])
        ensures IsBlank(row[i].text)
      {
        InCell(row, sp, i);
      }
    }
    if forall i :: 0 <= i < |row| && InColumn(sp, row[i]) ==> IsBlank(row[i].text) {
      forall j | 0 <= j < |ws|
        ensures IsBlank(ws[j].text)
      {
        assert ws[j] in multiset(Filter(row, p));
        var k :| 0 <= k < |Filter(row, p)| && Filter(row, p)[k] == ws[j];
        FilterFrom(row, p, k);
      }
    }
  }

  lemma CellContainsWords(row: seq<Word>, sp: Span)
    ensures forall i :: 0 <= i < |row| && InColumn(sp, row[i]) && !IsBlank(row[i].text) ==>
              Contains(Join(TrimmedTexts(CellWords(row, sp)), " "), Trim(row[i].text))
  {
    var ws := CellWords(row, sp);
    var parts := TrimmedTexts(ws);
    var r := Join(parts, " ");
    forall i | 0 <= i < |row| && InColumn(sp, row[i]) && !IsBlank(row[i].text)
      ensures Contains(r, Trim(row[i].text))
    {
      InCell(row, sp, i);
      var j :| 0 <= j < |ws| && ws[j] == row[i];
      TrimmedTextsHas(ws, j);
      var k :| 0 <= k < |parts| && parts[k] == Trim(row[i].text);
      JoinContainsPart(parts, " ", k);
      var m :| 0 <= m <= |r| - |parts[k]| && MatchesAt(r, parts[k], m);
      ContainsAt(r, parts[k], m);
    }
  }

  /** Words outside the span do not influence the cell. */
  lemma JoinInRangeIgnoresOthers(row: seq<Word>, others: seq<Word>, sp: Span)
    requires forall i :: 0 <= i < |others| ==> !InColumn(sp, others[i])
    ensures JoinInRange(row + others, sp) == JoinInRange(row, sp)
  {
    var p := (w: Word) => InColumn(sp, w);
    FilterConcat(row, others, p);
    FilterNone(others, p);
    assert Filter(row + others, p) == Filter(row, p);
  }
}

=== FILE: dates.dfy ===
/** Calendar dates as `RecipePdfParser` reads them: `DateOnly.TryParseExact`
    with the format "d/M/yyyy", the culture's lenient parser as a fallback,
    and `default(DateOnly)` for a missing value. */
module Dates {
  import opened Wrappers
  import opened Text
  import opened Numbers

  /** A `DateOnly`. */
  datatype Date = Date(year: int, month: int, day: int)

  /** `default(DateOnly)`: 1 January of the year 1. */
  const DefaultDate: Date := Date(1, 1, 1)

  /** The Gregorian leap-year rule. */
  predicate IsLeap(y: int) {
    y % 4 == 0 && (y % 100 != 0 || y % 400 == 0)
  }

  function DaysInMonth(y: int, m: int): (n: int)
    requires 1 <= m <= 12
    ensures 28 <= n <= 31
    ensures n == 29 <==> m == 2 && IsLeap(y)
  {
    if m == 2 then (if IsLeap(y) then 29 else 28)
    else if m == 4 || m == 6 || m == 9 || m == 11 then 30
    else 31
  }

  /** A date `DateOnly` can represent. */
  predicate Valid(d: Date) {
    1 <= d.year <= 9999 && 1 <= d.month <= 12 && 1 <= d.day <= DaysInMonth(d.year, d.month)
  }

  /** The index of the first '/', or the length of the text. */
  function SlashAt(s: string): (i: nat)
    ensures i <= |s|
    ensures i < |s| ==> s[i] == '/'
    ensures forall k :: 0 <= k < i ==> s[k] != '/'
  {
    if s == [] then 0
    else if s[0] == '/' then 0
    else SlashAt(s[1..]) + 1
  }

  /** `DateOnly.TryParseExact(s, "d/M/yyyy")`: one or two digits of day, one
      or two of month and four of year, separated by single slashes, naming
      a real date; anything else fails. */
  function ParseExact(s: string): (r: Option<Date>)
    ensures r.Some? ==> Valid(r.value)
  {
    var a := SlashAt(s);
    if a == |s| then None
    else
      var rest := s[a + 1..];
      var b := SlashAt(rest);
      if b == |rest| then None
      else
        var ds, ms, ys := s[..a], rest[..b], rest[b + 1..];
        if !(1 <= |ds| <= 2 && 1 <= |ms| <= 2 && |ys| == 4) then None
        else if !(AllDigits(ds) && AllDigits(ms) && AllDigits(ys)) then None
        else
          var d := Date(DigitsValue(ys), DigitsValue(ms), DigitsValue(ds));
          if Valid(d) then Some(d) else None
  }

  /** `ParseDate`: a missing or blank value gives `default(DateOnly)`; a
      value is trimmed and read with the exact format, and failing that with
      the culture's lenient parser `lenient`, whose failure (`None`) is the
      `FormatException` of `DateOnly.Parse`. */
  function ParseDate(value: Option<string>, lenient: string -> Option<Date>): (r: Result<Date, string>)
    ensures (value.None? || IsBlank(value.value)) ==> r == Ok(DefaultDate)
    ensures r.Err? ==> value.Some? && ParseExact(Trim(value.value)).None? && lenient(Trim(value.value)).None?
  {
    if value.None? || IsBlank(value.value) then Ok(DefaultDate)
    else
      var t := Trim(value.value);
      match ParseExact(t)
      case Some(d) => Ok(d)
      case None =>
        match lenient(t)
        case Some(d) => Ok(d)
        case None => Err("FormatException")
  }

  /** `ParseDateNullable`: null for a missing or blank value, otherwise
      `ParseDate`. */
  function ParseDateNullable(value: Option<string>, lenient: string -> Option<Date>): (r: Result<Option<Date>, string>)
    ensures (value.None? || IsBlank(value.value)) ==> r == Ok(None)
    ensures r.Ok? && r.value.Some? ==> ParseDate(value, lenient) == Ok(r.value.value)
    ensures r.Err? <==> ParseDate(value, lenient).Err?
  {
    if value.None? || IsBlank(value.value) then Ok(None)
    else
      match ParseDate(value, lenient)
      case Ok(d) => Ok(Some(d))
      case Err(e) => Err(e)
  }

  // ---------------------------------------------------------------------
  // Formatting, and the round trip
  // ---------------------------------------------------------------------

  function Pow10(k: nat): (p: nat)
    ensures p >= 1
  {
    if k == 0 then 1 else 10 * Pow10(k - 1)
  }

  lemma {:induction false} FormatNatWidth(n: nat, k: nat)
    requires 1 <= k && n < Pow10(k)
    ensures |FormatNat(n)| <= k
    decreases k
  {
    if n >= 10 {
      assert k >= 2;
      FormatNatWidth(n / 10, k - 1);
    }
  }

  /** `n` zeros. */
  function Zeros(n: nat): (z: string)
    ensures |z| == n && AllDigits(z)
  {
    if n == 0 then [] else "0" + Zeros(n - 1)
  }

  /** Leading zeros do not change the value of a string of digits. */
  lemma {:induction false} LeadingZeros(n: nat, s: string)
    requires AllDigits(s)
    ensures DigitsValue(Zeros(n) + s) == DigitsValue(s)
    decreases |s|
  {
    if s == [] {
      ZerosValue(n);
      assert Zeros(n) + s == Zeros(n);
    } else {
      var t := Zeros(n) + s;
      assert t[..|t| - 1] == Zeros(n) + s[..|s| - 1];
      LeadingZeros(n, s[..|s| - 1]);
    }
  }

  lemma {:induction false} ZerosValue(n: nat)
    ensures DigitsValue(Zeros(n)) == 0
    decreases n
  {
    if n > 0 {
      assert Zeros(n)[..n - 1] == Zeros(n - 1) by {
        ZerosShift(n);
      }
      ZerosValue(n - 1);
    }
  }

  lemma ZerosShift(n: nat)
    requires n > 0
    ensures Zeros(n) == Zeros(n - 1) + "0"
    decreases n
  {
    if n > 1 {
      ZerosShift(n - 1);
    }
  }

  /** The text "d/M/yyyy" of a date: day and month without padding, the
      year padded to four digits. */
  function FormatDate(d: Date): (s: string)
    requires Valid(d)
  {
    YearWidth(d.year);
    FormatNat(d.day) + "/" + FormatNat(d.month) + "/" + Zeros(4 - |FormatNat(d.year)|) + FormatNat(d.year)
  }

  lemma YearWidth(y: nat)
    requires 1 <= y <= 9999
    ensures |FormatNat(y)| <= 4
  {
    assert Pow10(4) == 10000;
    FormatNatWidth(y, 4);
  }

  lemma SmallWidth(n: nat)
    requires n <= 31
    ensures |FormatNat(n)| <= 2
  {
    assert Pow10(2) == 100;
    FormatNatWidth(n, 2);
  }

  /** The first slash follows the leading digits. */
  lemma SlashAfterDigits(a: string, b: string)
    requires AllDigits(a)
    ensures SlashAt(a + "/" + b) == |a|
  {
    var s := a + "/" + b;
    forall k | 0 <= k < |a|
      ensures s[k] != '/'
    {
      assert s[k] == a[k] && IsDigit(a[k]);
    }
    assert s[|a|] == '/';
  }

  /** Three runs of digits joined by slashes split back into the runs. */
  lemma FieldsOf(ds: string, ms: string, ys: string)
    requires AllDigits(ds) && AllDigits(ms) && AllDigits(ys)
    ensures var s := ds + "/" + ms + "/" + ys; var a := SlashAt(s);
      && a == |ds| && s[..a] == ds
      && SlashAt(s[a + 1..]) == |ms|
      && s[a + 1..][..|ms|] == ms && s[a + 1..][|ms| + 1..] == ys
  {
    var rest := ms + "/" + ys;
    assert ds + "/" + ms + "/" + ys == ds + "/" + rest;
    SlashAfterDigits(ds, rest);
    SlashAfterDigits(ms, ys);
    assert (ds + "/" + rest)[|ds| + 1..] == rest;
  }

  /** Well-shaped fields parse to the date they name, if it is real. */
  lemma ParseExactFields(ds: string, ms: string, ys: string)
    requires AllDigits(ds) && AllDigits(ms) && AllDigits(ys)
    requires 1 <= |ds| <= 2 && 1 <= |ms| <= 2 && |ys| == 4
    ensures var d := Date(DigitsValue(ys), DigitsValue(ms), DigitsValue(ds));
      ParseExact(ds + "/" + ms + "/" + ys) == if Valid(d) then Some(d) else None
  {
    FieldsOf(ds, ms, ys);
  }

  /** Every valid date survives formatting and exact parsing. */
  lemma ParseExactFormat(d: Date)
    requires Valid(d)
    ensures ParseExact(FormatDate(d)) == Some(d)
  {
    var ds, ms, ys := FormatFields(d);
    ParseExactFields(ds, ms, ys);
  }

  /** The three digit runs of a formatted date, with the values they read as. */
  lemma FormatFields(d: Date) returns (ds: string, ms: string, ys: string)
    requires Valid(d)
    ensures FormatDate(d) == ds + "/" + ms + "/" + ys
    ensures AllDigits(ds) && AllDigits(ms) && AllDigits(ys)
    ensures 1 <= |ds| <= 2 && 1 <= |ms| <= 2 && |ys| == 4
    ensures DigitsValue(ds) == d.day && DigitsValue(ms) == d.month && DigitsValue(ys) == d.year
  {
    YearWidth(d.year);
    SmallWidth(d.day);
    SmallWidth(d.month);
    ds, ms := FormatNat(d.day), FormatNat(d.month);
    ys := PadYear(d.year);
    FormatNatValue(d.day);
    FormatNatValue(d.month);
  }

  /** The year padded with zeros to four digits, read back. */
  lemma PadYear(y: nat) returns (ys: string)
    requires 1 <= y <= 9999
    ensures |FormatNat(y)| <= 4 && ys == Zeros(4 - |FormatNat(y)|) + FormatNat(y)
    ensures AllDigits(ys) && |ys| == 4 && DigitsValue(ys) == y
  {
    YearWidth(y);
    ys := Zeros(4 - |FormatNat(y)|) + FormatNat(y);
    FormatNatValue(y);
    LeadingZeros(4 - |FormatNat(y)|, FormatNat(y));
  }

  /** A valid date in the "d/M/yyyy" form that the parser's date patterns
      capture never reaches the lenient fallback. */
  lemma ParseDateExact(d: Date, lenient: string -> Option<Date>)
    requires Valid(d)
    ensures ParseDate(Some(FormatDate(d)), lenient) == Ok(d)
  {
    var s := FormatDate(d);
    ParseExactFormat(d);
    assert IsDigit(s[0]);
    assert IsDigit(s[|s| - 1]) by {
      assert s[|s| - 1] == FormatNat(d.year)[|FormatNat(d.year)| - 1];
    }
    TrimOfTrimmed(s);
  }

  /** Exact parsing accepts 29 February only in leap years. */
  lemma LeapDay(y: int)
    requires 1 <= y <= 9999
    ensures Valid(Date(y, 2, 29)) <==> IsLeap(y)
  {
  }
}

=== FILE: errors.dfy ===
/** The failures of the recipe and municipality services, each with the
    exception type the service throws for it (the HTTP middleware maps the
    type to a status code). */
module ServiceErrors {

  /** The .NET exception types the services throw. */
  datatype Kind = ArgumentError | InvalidOperation | Unauthorized

  datatype Failure =
    | InvalidStatus(status: string)
    | RecipeNotFound
    | TransitionNotAllowed(from: string, to: string)
    | NotOpen
    | MunicipalityNotFound
    | InvalidAction(action: string)
    | NotAssignedToMunicipality
    | NotPending(status: string)
    | ObservationRequired
    | TargetRequired
    | SameTarget
    | TargetNotFound
    | UserNotFound
    | InvalidLatitude
    | InvalidLongitude

  /** The exception type thrown for each failure. */
  function KindOf(f: Failure): Kind {
    match f
    case InvalidStatus(_) => ArgumentError
    case InvalidAction(_) => ArgumentError
    case ObservationRequired => ArgumentError
    case TargetRequired => ArgumentError
    case SameTarget => ArgumentError
    case InvalidLatitude => ArgumentError
    case InvalidLongitude => ArgumentError
    case NotAssignedToMunicipality => Unauthorized
    case _ => InvalidOperation
  }
}

=== FILE: geo_insights.dfy ===
/** The map view of `GeoInsightsService`: each recipe's worst toxicological
    class, one application per lot that has a polygon, the sensitive points
    of all recipes without repetitions, and the headline figures. The
    recipes arrive already filtered by the request (the filters are
    database predicates and are not modelled). */
module GeoInsights {
  import opened Wrappers
  import opened Text
  import opened Numbers
  import opened Seqs
  import opened Sorting

  // ---------------------------------------------------------------------
  // Toxicological scores
  // ---------------------------------------------------------------------

  /** The classes of the WHO hazard classification, most dangerous first. */
  datatype ToxClass = Ia | Ib | II | III | IV

  /** Lower is more dangerous; 99 is an unknown class. */
  function ClassScore(c: ToxClass): int {
    match c
    case Ia => 1
    case Ib => 2
    case II => 3
    case III => 4
    case IV => 5
  }

  const UnknownScore: int := 99

  /** The bare name of each class, as the lookup table writes it. */
  function ClassName(c: ToxClass): string {
    match c
    case Ia => "Ia"
    case Ib => "Ib"
    case II => "II"
    case III => "III"
    case IV => "IV"
  }

  /** `ToxScoreMap`. Its comparer is `OrdinalIgnoreCase`, which compares the
      upper-case forms, so the keys are stored upper-cased and looked up by
      the upper-case form of the class. */
  const ToxScoreMap: map<string, int> := map[
    "IA" := 1, "CLASE IA" := 1, "IA - EXTREMADAMENTE PELIGROSO" := 1,
    "IB" := 2, "CLASE IB" := 2, "IB - ALTAMENTE PELIGROSO" := 2,
    "II" := 3, "CLASE II" := 3, "II - MODERADAMENTE PELIGROSO" := 3,
    "III" := 4, "CLASE III" := 4, "III - LIGERAMENTE PELIGROSO" := 4,
    "IV" := 5, "CLASE IV" := 5, "IV - NORMALMENTE NO PELIGROSO" := 5]

  /** The upper-case form of a string, given character by character. */
  lemma UpperIs(s: string, u: string)
    requires |s| == |u| && forall i :: 0 <= i < |s| ==> UpperChar(s[i]) == u[i]
    ensures Upper(s) == u
  {
  }

  /** The markers the partial match looks for, upper-cased. */
  lemma MarkersUpper()
    ensures Upper("Ia") == "IA" && Upper("Ib") == "IB" && Upper("II") == "II"
    ensures Upper("III") == "III" && Upper("IV") == "IV"
  {
    UpperIs("Ia", "IA");
    UpperIs("Ib", "IB");
    UpperIs("II", "II");
    UpperIs("III", "III");
    UpperIs("IV", "IV");
  }

  /** A text that contains "III" contains "II". */
  lemma MarkersNest(n: string)
    ensures ContainsCI(n, "III") ==> ContainsCI(n, "II")
  {
    MarkersUpper();
    if ContainsCI(n, "III") {
      assert "III" == "" + "II" + "I";
      InfixContains(Upper(n), "", "II", "I");
    }
  }

  /** The partial match for a class the table does not list: the first
      marker found, case-insensitively, decides. */
  function PartialScore(n: string): (r: int)
    ensures r == 1 <==> ContainsCI(n, "Ia")
    ensures r == 2 <==> !ContainsCI(n, "Ia") && ContainsCI(n, "Ib")
    ensures r == UnknownScore <==> (!ContainsCI(n, "Ia") && !ContainsCI(n, "Ib")
      && !ContainsCI(n, "II") && !ContainsCI(n, "IV"))
  {
    MarkersNest(n);
    if ContainsCI(n, "Ia") then 1
    else if ContainsCI(n, "Ib") then 2
    else if ContainsCI(n, "II") && !ContainsCI(n, "III") then 3
    else if ContainsCI(n, "III") && !ContainsCI(n, "IV") then 4
    else if ContainsCI(n, "IV") then 5
    else UnknownScore
  }

  /** The middle scores of the partial match. Since "III" contains "II", a
      class naming "III" but not "IV" scores 4, and a class naming "IV"
      scores 5 unless it also names "II" without "III" (as "IIV" does). */
  lemma PartialScoreMiddle(n: string)
    ensures PartialScore(n) == 3 <==> (!ContainsCI(n, "Ia") && !ContainsCI(n, "Ib")
      && ContainsCI(n, "II") && !ContainsCI(n, "III"))
    ensures PartialScore(n) == 4 <==> (!ContainsCI(n, "Ia") && !ContainsCI(n, "Ib")
      && ContainsCI(n, "III") && !ContainsCI(n, "IV"))
    ensures PartialScore(n) == 5 <==> (!ContainsCI(n, "Ia") && !ContainsCI(n, "Ib")
      && ContainsCI(n, "IV") && (ContainsCI(n, "III") || !ContainsCI(n, "II")))
  {
    MarkersNest(n);
  }

  /** `GetToxScore`: a missing or empty class is unknown; a class the table
      lists has its score; any other is matched partially after trimming. */
  function GetToxScore(t: Option<string>): (r: int)
    ensures r in {1, 2, 3, 4, 5, UnknownScore}
    ensures t.None? || t.value == [] ==> r == UnknownScore
    ensures t.Some? && Upper(t.value) in ToxScoreMap ==> r == ToxScoreMap[Upper(t.value)]
  {
    if t.None? || t.value == [] then UnknownScore
    else if Upper(t.value) in ToxScoreMap then ToxScoreMap[Upper(t.value)]
    else PartialScore(Trim(t.value))
  }

  /** A name the table lists, in any case, scores as the table says. */
  lemma ListedScore(t: string, u: string, score: int)
    requires |t| == |u| && forall i :: 0 <= i < |t| ==> UpperChar(t[i]) == u[i]
    requires u in ToxScoreMap && ToxScoreMap[u] == score
    ensures GetToxScore(Some(t)) == score
  {
    UpperIs(t, u);
  }

  /** The bare name of each class scores that class. */
  lemma ClassNameScore(c: ToxClass)
    ensures GetToxScore(Some(ClassName(c))) == ClassScore(c)
  {
    match c
    case Ia => ListedScore("Ia", "IA", 1);
    case Ib => ListedScore("Ib", "IB", 2);
    case II => ListedScore("II", "II", 3);
    case III => ListedScore("III", "III", 4);
    case IV => ListedScore("IV", "IV", 5);
  }

  /** "Clase" followed by a name whose listed form is "CLASE " + `u`. */
  lemma ClaseScore(n: string, u: string, score: int)
    requires |n| == |u| && forall i :: 0 <= i < |n| ==> UpperChar(n[i]) == u[i]
    requires "CLASE " + u in ToxScoreMap && ToxScoreMap["CLASE " + u] == score
    ensures GetToxScore(Some("Clase " + n)) == score
  {
    UpperIs("Clase ", "CLASE ");
    UpperIs(n, u);
    UpperConcat("Clase ", n);
  }

  /** "Clase" followed by the name of a class scores that class. */
  lemma ClaseNameScore(c: ToxClass)
    ensures GetToxScore(Some("Clase " + ClassName(c))) == ClassScore(c)
  {
    match c
    case Ia =>
      assert "CLASE " + "IA" == "CLASE IA";
      ClaseScore("Ia", "IA", 1);
    case Ib =>
      assert "CLASE " + "IB" == "CLASE IB";
      ClaseScore("Ib", "IB", 2);
    case II =>
      assert "CLASE " + "II" == "CLASE II";
      ClaseScore("II", "II", 3);
    case III =>
      assert "CLASE " + "III" == "CLASE III";
      ClaseScore("III", "III", 4);
    case IV =>
      assert "CLASE " + "IV" == "CLASE IV";
      ClaseScore("IV", "IV", 5);
  }

  /** A class the table does not list is matched partially. */
  lemma Unlisted(t: string)
    requires t != [] && Upper(t) !in ToxScoreMap
    ensures GetToxScore(Some(t)) == PartialScore(Trim(t))
  {
  }

  /** No key of the table starts with a space. */
  lemma SpaceFirstUnlisted(n: string)
    ensures Upper(" " + n) !in ToxScoreMap
  {
    UpperConcat(" ", n);
    UpperIs(" ", " ");
    assert Upper(" " + n)[0] == ' ';
  }

  /** A leading space is trimmed away. */
  lemma TrimLeadingSpace(n: string)
    requires IsTrimmed(n)
    ensures Trim(" " + n) == n
  {
    assert (" " + n)[1..] == n;
    assert TrimStart(" " + n) == TrimStart(n);
    TrimOfTrimmed(n);
    if n != [] {
      assert TrimStart(n) == n;
    }
  }

  /** The partial match scores the names of the three most dangerous
      classes as their classes. */
  lemma PartialOfUpperName(c: ToxClass)
    requires c.Ia? || c.Ib? || c.II?
    ensures PartialScore(ClassName(c)) == ClassScore(c)
  {
    MarkersUpper();
    match c
    case Ia =>
      assert MatchesAt("IA", "IA", 0);
    case Ib =>
      NotContainsAbsent("IB", "IA", 'A');
      assert MatchesAt("IB", "IB", 0);
    case II =>
      NotContainsAbsent("II", "IA", 'A');
      NotContainsAbsent("II", "IB", 'B');
      NotContainsOther("II", "III");
      assert MatchesAt("II", "II", 0);
  }

  /** The partial match scores the names of the two least dangerous
      classes as their classes. */
  lemma PartialOfLowerName(c: ToxClass)
    requires c.III? || c.IV?
    ensures PartialScore(ClassName(c)) == ClassScore(c)
  {
    MarkersUpper();
    match c
    case III =>
      NotContainsAbsent("III", "IA", 'A');
      NotContainsAbsent("III", "IB", 'B');
      NotContainsAbsent("III", "IV", 'V');
      assert MatchesAt("III", "III", 0);
    case IV =>
      NotContainsAbsent("IV", "IA", 'A');
      NotContainsAbsent("IV", "IB", 'B');
      NotContainsOther("IV", "II");
      NotContainsOther("IV", "III");
      assert MatchesAt("IV", "IV", 0);
  }

  /** A trimmed name preceded by a space is matched partially. */
  lemma PaddedScore(n: string)
    requires IsTrimmed(n) && n != []
    ensures GetToxScore(Some(" " + n)) == PartialScore(n)
  {
    SpaceFirstUnlisted(n);
    Unlisted(" " + n);
    TrimLeadingSpace(n);
  }

  /** The partial match agrees with the table on the bare class names:
      one preceded by a space is not in the table, yet scores its class. */
  lemma PaddedNameScore(c: ToxClass)
    ensures GetToxScore(Some(" " + ClassName(c))) == ClassScore(c)
  {
    if c.III? || c.IV? {
      PartialOfLowerName(c);
    } else {
      PartialOfUpperName(c);
    }
    PaddedScore(ClassName(c));
  }

  // ---------------------------------------------------------------------
  // The worst class of a recipe
  // ---------------------------------------------------------------------

  /** A product of a recipe as the map shows it. */
  datatype GeoProduct = GeoProduct(productName: string, toxicologicalClass: Option<string>, senasaRegistry: Option<string>)

  /** A product with a non-empty class; the others are skipped. */
  predicate Classed(p: GeoProduct) {
    p.toxicologicalClass.Some? && p.toxicologicalClass.value != []
  }

  function Score(p: GeoProduct): int {
    GetToxScore(p.toxicologicalClass)
  }

  /** Among the first `n` elements, `i` is the first one that `counts` with
      the lowest `score`. */
  predicate FirstLowest<T>(xs: seq<T>, counts: T -> bool, score: T -> int, n: int, i: int) {
    && 0 <= i < n <= |xs| && counts(xs[i])
    && (forall j :: 0 <= j < n && counts(xs[j]) ==> score(xs[i]) <= score(xs[j]))
    && (forall j :: 0 <= j < i && counts(xs[j]) ==> score(xs[i]) < score(xs[j]))
  }

  /** At most one element is the first lowest one. */
  lemma FirstLowestUnique<T>(xs: seq<T>, counts: T -> bool, score: T -> int, n: int, i: int, i': int)
    requires FirstLowest(xs, counts, score, n, i) && FirstLowest(xs, counts, score, n, i')
    ensures i == i'
  {
  }

  /** The loop of `GetMaxToxClass` from element `k` on, the lowest so far
      being `at` (-1 for none yet) with score `lowest`, which starts at
      `int.MaxValue`. Elements that do not count are skipped and only a
      strictly lower score replaces the lowest so far. */
  function LowestFrom<T>(xs: seq<T>, counts: T -> bool, score: T -> int, k: nat, at: int, lowest: int): (i: int)
    requires forall j :: 0 <= j < |xs| ==> score(xs[j]) < Int32Max
    requires k <= |xs| && -1 <= at < k
    requires at == -1 ==> lowest == Int32Max && forall j :: 0 <= j < k ==> !counts(xs[j])
    requires at >= 0 ==> FirstLowest(xs, counts, score, k, at) && lowest == score(xs[at])
    ensures -1 <= i < |xs|
    ensures i == -1 <==> forall j :: 0 <= j < |xs| ==> !counts(xs[j])
    ensures i >= 0 ==> FirstLowest(xs, counts, score, |xs|, i)
    decreases |xs| - k
  {
    if k == |xs| then at
    else if !counts(xs[k]) then LowestFrom(xs, counts, score, k + 1, at, lowest)
    else if score(xs[k]) < lowest then LowestFrom(xs, counts, score, k + 1, k, score(xs[k]))
    else LowestFrom(xs, counts, score, k + 1, at, lowest)
  }

  /** `GetMaxToxClass`: the class of the first product with the lowest
      score, or none when no product has a class. */
  function GetMaxToxClass(ps: seq<GeoProduct>): (r: Option<string>)
    ensures r.None? <==> forall j :: 0 <= j < |ps| ==> !Classed(ps[j])
    ensures r.Some? ==> exists i :: FirstLowest(ps, Classed, Score, |ps|, i) && r == ps[i].toxicologicalClass
  {
    var i := LowestFrom(ps, Classed, Score, 0, -1, Int32Max);
    if i < 0 then None else ps[i].toxicologicalClass
  }

  /** The score of the worst class is the lowest score of a classed
      product, and unknown when there is none. */
  lemma MaxToxScore(ps: seq<GeoProduct>)
    ensures forall j :: 0 <= j < |ps| && Classed(ps[j]) ==> GetToxScore(GetMaxToxClass(ps)) <= Score(ps[j])
    ensures (forall j :: 0 <= j < |ps| ==> !Classed(ps[j])) ==> GetToxScore(GetMaxToxClass(ps)) == UnknownScore
    ensures (exists j :: 0 <= j < |ps| && Classed(ps[j])) ==> exists j :: 0 <= j < |ps| && Classed(ps[j]) && GetToxScore(GetMaxToxClass(ps)) == Score(ps[j])
  {
    var m := GetMaxToxClass(ps);
    if m.Some? {
      var i :| FirstLowest(ps, Classed, Score, |ps|, i) && m == ps[i].toxicologicalClass;
      assert Score(ps[i]) == GetToxScore(m);
    }
  }

  // ---------------------------------------------------------------------
  // Applications
  // ---------------------------------------------------------------------

  /** A corner of a lot's polygon, with its position in the polygon. */
  datatype GeoVertex = GeoVertex(order: int, latitude: real, longitude: real)

  datatype GeoLot = GeoLot(
    id: int,
    lotName: string,
    locality: Option<string>,
    department: Option<string>,
    surfaceHa: Option<real>,
    vertices: seq<GeoVertex>)

  datatype SensitivePoint = SensitivePoint(
    id: int,
    name: string,
    kind: Option<string>,
    latitude: real,
    longitude: real,
    locality: Option<string>)

  /** A stored recipe with what the map needs of it. */
  datatype GeoRecipe = GeoRecipe(
    id: int,
    rfdNumber: int,
    status: string,
    issueDate: Option<int>,
    crop: Option<string>,
    advisorName: Option<string>,
    requesterName: Option<string>,
    products: seq<GeoProduct>,
    lots: seq<GeoLot>,
    sensitivePoints: seq<SensitivePoint>)

  datatype LatLng = LatLng(lat: real, lng: real)

  /** `GeoApplicationDto`: one lot of one recipe. */
  datatype Application = Application(
    recipeId: int,
    rfdNumber: int,
    status: string,
    issueDate: Option<int>,
    lotId: int,
    lotName: string,
    locality: Option<string>,
    department: Option<string>,
    surfaceHa: Option<real>,
    vertices: seq<LatLng>,
    centerLat: real,
    centerLng: real,
    products: seq<GeoProduct>,
    crop: Option<string>,
    advisorName: Option<string>,
    requesterName: Option<string>,
    maxToxClass: Option<string>,
    toxScore: int)

  /** The position of a vertex, as a sort key. */
  function VertexOrder(v: GeoVertex): real {
    v.order as real
  }

  /** `OrderBy(v => v.Order)`: the vertices in polygon order; vertices with
      the same position keep their stored order. */
  function OrderedVertices(vs: seq<GeoVertex>): (r: seq<GeoVertex>)
    ensures multiset(r) == multiset(vs)
    ensures SortedBy(r, VertexOrder)
  {
    SortBySorted(vs, VertexOrder);
    SortBy(vs, VertexOrder)
  }

  function Point(v: GeoVertex): LatLng {
    LatLng(v.latitude, v.longitude)
  }

  /** `p` is the point of one of the vertices `vs`. */
  predicate PointOf(p: LatLng, vs: seq<GeoVertex>) {
    exists j :: 0 <= j < |vs| && p == Point(vs[j])
  }

  function Points(vs: seq<GeoVertex>): (r: seq<LatLng>)
    ensures |r| == |vs| && forall i :: 0 <= i < |vs| ==> r[i] == Point(vs[i])
  {
    seq(|vs|, i requires 0 <= i < |vs| => Point(vs[i]))
  }

  function Sum(xs: seq<real>): real {
    if xs == [] then 0.0 else xs[0] + Sum(xs[1..])
  }

  /** `Average`, in exact arithmetic. */
  function Mean(xs: seq<real>): real
    requires xs != []
  {
    Sum(xs) / (|xs| as real)
  }

  /** Bounds of every element bound the sum, `|xs|` times over. */
  lemma {:induction false} SumWithin(xs: seq<real>, lo: real, hi: real)
    requires forall i :: 0 <= i < |xs| ==> lo <= xs[i] <= hi
    ensures (|xs| as real) * lo <= Sum(xs) <= (|xs| as real) * hi
    decreases |xs|
  {
    if xs != [] {
      SumWithin(xs[1..], lo, hi);
      var n := |xs| as real;
      assert n * lo == (n - 1.0) * lo + lo;
      assert n * hi == (n - 1.0) * hi + hi;
    }
  }

  /** Bounds of every element bound the mean. */
  lemma MeanWithin(xs: seq<real>, lo: real, hi: real)
    requires xs != []
    requires forall i :: 0 <= i < |xs| ==> lo <= xs[i] <= hi
    ensures lo <= Mean(xs) <= hi
  {
    SumWithin(xs, lo, hi);
    var n := |xs| as real;
    assert Mean(xs) * n == Sum(xs);
  }

  function Lats(ps: seq<LatLng>): (r: seq<real>)
    ensures |r| == |ps| && forall i :: 0 <= i < |ps| ==> r[i] == ps[i].lat
  {
    seq(|ps|, i requires 0 <= i < |ps| => ps[i].lat)
  }

  function Lngs(ps: seq<LatLng>): (r: seq<real>)
    ensures |r| == |ps| && forall i :: 0 <= i < |ps| ==> r[i] == ps[i].lng
  {
    seq(|ps|, i requires 0 <= i < |ps| => ps[i].lng)
  }

  /** The centre of a polygon: the mean latitude and the mean longitude
      of its corners. */
  function Center(pts: seq<LatLng>): LatLng
    requires pts != []
  {
    LatLng(Mean(Lats(pts)), Mean(Lngs(pts)))
  }

  /** The centre of a polygon lies in every box that holds its corners. */
  lemma CenterInBox(pts: seq<LatLng>, south: real, north: real, west: real, east: real)
    requires pts != []
    requires forall k :: 0 <= k < |pts| ==> south <= pts[k].lat <= north && west <= pts[k].lng <= east
    ensures south <= Center(pts).lat <= north && west <= Center(pts).lng <= east
  {
    MeanWithin(Lats(pts), south, north);
    MeanWithin(Lngs(pts), west, east);
  }

  /** A lot the map can draw. */
  predicate HasPolygon(l: GeoLot) {
    l.vertices != []
  }

  /** The application of lot `lot` of recipe `r`, whose worst class is
      `worst` with score `score`: the polygon in vertex order and its
      centre. */
  function ApplicationOf(r: GeoRecipe, worst: Option<string>, score: int, lot: GeoLot): (a: Application)
    requires HasPolygon(lot)
    ensures a.recipeId == r.id && a.lotId == lot.id && a.surfaceHa == lot.surfaceHa
    ensures |a.vertices| == |lot.vertices| && a.vertices != []
    ensures forall k :: 0 <= k < |a.vertices| ==> PointOf(a.vertices[k], lot.vertices)
    ensures a.vertices == Points(OrderedVertices(lot.vertices))
    ensures LatLng(a.centerLat, a.centerLng) == Center(a.vertices)
    ensures a.maxToxClass == worst && a.toxScore == score
  {
    var vs := OrderedVertices(lot.vertices);
    var pts := Points(vs);
    assert forall k :: 0 <= k < |vs| ==> vs[k] in multiset(lot.vertices);
    var c := Center(pts);
    Application(r.id, r.rfdNumber, r.status, r.issueDate, lot.id, lot.lotName, lot.locality, lot.department,
      lot.surfaceHa, pts, c.lat, c.lng, r.products, r.crop, r.advisorName, r.requesterName, worst, score)
  }

  /** The applications of one recipe: one per lot with a polygon, in lot
      order, each carrying the recipe's worst class, which is computed
      once. */
  function ApplicationsOf(r: GeoRecipe): (apps: seq<Application>)
    ensures |apps| == |Filter(r.lots, HasPolygon)|
    ensures forall i :: 0 <= i < |apps| ==>
      HasPolygon(Filter(r.lots, HasPolygon)[i]) && apps[i] == ApplicationOf(r, GetMaxToxClass(r.products), GetToxScore(GetMaxToxClass(r.products)), Filter(r.lots, HasPolygon)[i])
  {
    var lots := Filter(r.lots, HasPolygon);
    var worst := GetMaxToxClass(r.products);
    var score := GetToxScore(worst);
    seq(|lots|, i requires 0 <= i < |lots| => ApplicationOf(r, worst, score, lots[i]))
  }

  /** The application of a lot of `r`. */
  function LotApplication(r: GeoRecipe, lot: GeoLot): Application
    requires HasPolygon(lot)
  {
    ApplicationOf(r, GetMaxToxClass(r.products), GetToxScore(GetMaxToxClass(r.products)), lot)
  }

  /** The applications of all recipes, recipe by recipe. */
  function Applications(rs: seq<GeoRecipe>): seq<Application> {
    ConcatMap(rs, ApplicationsOf)
  }

  /** Every application of a recipe is that of one of its lots with a
      polygon. */
  lemma ApplicationsOfFrom(r: GeoRecipe, k: int) returns (lot: GeoLot)
    requires 0 <= k < |ApplicationsOf(r)|
    ensures lot in r.lots && HasPolygon(lot) && ApplicationsOf(r)[k] == LotApplication(r, lot)
  {
    var lots := Filter(r.lots, HasPolygon);
    FilterFrom(r.lots, HasPolygon, k);
    lot := lots[k];
  }

  /** The lot an application of a recipe comes from. */
  lemma ApplicationOfLot(r: GeoRecipe, a: Application) returns (lot: GeoLot)
    requires a in ApplicationsOf(r)
    ensures lot in r.lots && HasPolygon(lot) && a == LotApplication(r, lot)
  {
    var k :| 0 <= k < |ApplicationsOf(r)| && ApplicationsOf(r)[k] == a;
    lot := ApplicationsOfFrom(r, k);
  }

  /** Every lot of a recipe with a polygon has its application. */
  lemma ApplicationsOfHas(r: GeoRecipe, lot: GeoLot)
    requires lot in r.lots && HasPolygon(lot)
    ensures LotApplication(r, lot) in ApplicationsOf(r)
  {
    var lots := Filter(r.lots, HasPolygon);
    var j :| 0 <= j < |r.lots| && r.lots[j] == lot;
    FilterKeeps(r.lots, HasPolygon, j);
    var k :| 0 <= k < |lots| && lots[k] == lot;
    assert ApplicationsOf(r)[k] == LotApplication(r, lot);
  }

  /** The applications of a recipe are those of its lots with a polygon. */
  lemma ApplicationsOfMember(r: GeoRecipe, a: Application)
    ensures a in ApplicationsOf(r) <==> exists lot :: lot in r.lots && HasPolygon(lot) && a == LotApplication(r, lot)
  {
    if a in ApplicationsOf(r) {
      var k :| 0 <= k < |ApplicationsOf(r)| && ApplicationsOf(r)[k] == a;
      var lot := ApplicationsOfFrom(r, k);
    }
    if exists lot :: lot in r.lots && HasPolygon(lot) && a == LotApplication(r, lot) {
      var lot :| lot in r.lots && HasPolygon(lot) && a == LotApplication(r, lot);
      ApplicationsOfHas(r, lot);
    }
  }

  /** Each application is that of a lot with a polygon of one of the
      recipes. */
  lemma ApplicationsFrom(rs: seq<GeoRecipe>, a: Application) returns (i: nat, lot: GeoLot)
    requires a in Applications(rs)
    ensures i < |rs| && lot in rs[i].lots && HasPolygon(lot) && a == LotApplication(rs[i], lot)
  {
    i := ConcatMapFrom(rs, ApplicationsOf, a);
    lot := ApplicationOfLot(rs[i], a);
  }

  /** Each lot with a polygon of one of the recipes has its application. */
  lemma ApplicationsHas(rs: seq<GeoRecipe>, i: int, lot: GeoLot)
    requires 0 <= i < |rs| && lot in rs[i].lots && HasPolygon(lot)
    ensures LotApplication(rs[i], lot) in Applications(rs)
  {
    ApplicationsOfHas(rs[i], lot);
    ConcatMapHas(rs, ApplicationsOf, i, LotApplication(rs[i], lot));
  }

  /** The applications are exactly those of the recipes' lots with a
      polygon. */
  lemma ApplicationsMember(rs: seq<GeoRecipe>, a: Application)
    ensures a in Applications(rs) <==> exists i, lot :: 0 <= i < |rs| && lot in rs[i].lots && HasPolygon(lot) && a == LotApplication(rs[i], lot)
  {
    if a in Applications(rs) {
      var i, lot := ApplicationsFrom(rs, a);
    }
    if exists i, lot :: 0 <= i < |rs| && lot in rs[i].lots && HasPolygon(lot) && a == LotApplication(rs[i], lot) {
      var i, lot :| 0 <= i < |rs| && lot in rs[i].lots && HasPolygon(lot) && a == LotApplication(rs[i], lot);
      ApplicationsHas(rs, i, lot);
    }
  }

  // ---------------------------------------------------------------------
  // Sensitive points
  // ---------------------------------------------------------------------

  function Ids(ps: seq<SensitivePoint>): set<int> {
    set p | p in ps :: p.id
  }

  /** No earlier point than the one at `i` has its id. */
  predicate FirstOfId(ps: seq<SensitivePoint>, i: int) {
    0 <= i < |ps| && forall j :: 0 <= j < i ==> ps[j].id != ps[i].id
  }

  /** The reference: the first point of each id among the first `n`, in
      order. */
  function Firsts(ps: seq<SensitivePoint>, n: nat): seq<SensitivePoint>
    requires n <= |ps|
  {
    if n == 0 then [] else Firsts(ps, n - 1) + (if FirstOfId(ps, n - 1) then [ps[n - 1]] else [])
  }

  /** The ids kept among the first `n` points are all the ids among them. */
  lemma {:induction false} FirstsIds(ps: seq<SensitivePoint>, n: nat)
    requires n <= |ps|
    ensures Ids(Firsts(ps, n)) == Ids(ps[..n])
  {
    if n > 0 {
      FirstsIds(ps, n - 1);
      FirstsIdsStep(ps, n);
    }
  }

  lemma FirstsIdsStep(ps: seq<SensitivePoint>, n: nat)
    requires 0 < n <= |ps| && Ids(Firsts(ps, n - 1)) == Ids(ps[..n - 1])
    ensures Ids(Firsts(ps, n)) == Ids(ps[..n])
  {
    assert ps[..n] == ps[..n - 1] + [ps[n - 1]];
    assert Ids(ps[..n]) == Ids(ps[..n - 1]) + {ps[n - 1].id};
    var f := Firsts(ps, n - 1);
    if FirstOfId(ps, n - 1) {
      assert Ids(f + [ps[n - 1]]) == Ids(f) + {ps[n - 1].id};
    } else {
      var j :| 0 <= j < n - 1 && ps[j].id == ps[n - 1].id;
      assert ps[j] in ps[..n - 1];
    }
  }

  /** The kept points have pairwise distinct ids. */
  lemma {:induction false} FirstsDistinct(ps: seq<SensitivePoint>, n: nat)
    requires n <= |ps|
    ensures forall i, j :: 0 <= i < j < |Firsts(ps, n)| ==> Firsts(ps, n)[i].id != Firsts(ps, n)[j].id
  {
    if n > 0 {
      FirstsDistinct(ps, n - 1);
      var f := Firsts(ps, n - 1);
      if FirstOfId(ps, n - 1) {
        FirstsIds(ps, n - 1);
        forall i | 0 <= i < |f|
          ensures f[i].id != ps[n - 1].id
        {
          assert f[i].id in Ids(ps[..n - 1]);
          var q :| q in ps[..n - 1] && q.id == f[i].id;
          var j :| 0 <= j < n - 1 && ps[..n - 1][j] == q;
        }
      }
    }
  }

  /** A kept point is the first of its id. */
  lemma {:induction false} FirstsFrom(ps: seq<SensitivePoint>, n: nat, x: SensitivePoint) returns (i: nat)
    requires n <= |ps| && x in Firsts(ps, n)
    ensures i < n && FirstOfId(ps, i) && x == ps[i]
  {
    var f := Firsts(ps, n - 1);
    if x in f {
      i := FirstsFrom(ps, n - 1, x);
    } else {
      i := n - 1;
    }
  }

  /** The first point of each id is kept. */
  lemma {:induction false} FirstsHas(ps: seq<SensitivePoint>, n: nat, i: nat)
    requires i < n <= |ps| && FirstOfId(ps, i)
    ensures ps[i] in Firsts(ps, n)
  {
    if i < n - 1 {
      FirstsHas(ps, n - 1, i);
    }
  }

  /** A point is kept exactly when it is the first of its id. */
  lemma FirstsMember(ps: seq<SensitivePoint>, n: nat, x: SensitivePoint)
    requires n <= |ps|
    ensures x in Firsts(ps, n) <==> exists i :: 0 <= i < n && FirstOfId(ps, i) && x == ps[i]
  {
    if x in Firsts(ps, n) {
      var i := FirstsFrom(ps, n, x);
    }
    if exists i :: 0 <= i < n && FirstOfId(ps, i) && x == ps[i] {
      var i :| 0 <= i < n && FirstOfId(ps, i) && x == ps[i];
      FirstsHas(ps, n, i);
    }
  }

  /** The loop that fills `allSensitivePoints` from point `k` on, `acc`
      being the dictionary's values so far: a point whose id is already a
      key is skipped. */
  function CollectFrom(ps: seq<SensitivePoint>, k: nat, acc: seq<SensitivePoint>): seq<SensitivePoint>
    requires k <= |ps|
    decreases |ps| - k
  {
    if k == |ps| then acc
    else if ps[k].id in Ids(acc) then CollectFrom(ps, k + 1, acc)
    else CollectFrom(ps, k + 1, acc + [ps[k]])
  }

  /** The loop keeps the first point of each id, in order. */
  lemma {:induction false} CollectFirsts(ps: seq<SensitivePoint>, k: nat)
    requires k <= |ps|
    ensures CollectFrom(ps, k, Firsts(ps, k)) == Firsts(ps, |ps|)
    decreases |ps| - k
  {
    if k < |ps| {
      FirstsIds(ps, k);
      if ps[k].id in Ids(Firsts(ps, k)) {
        var q :| q in ps[..k] && q.id == ps[k].id;
        var j :| 0 <= j < k && ps[..k][j] == q;
        assert !FirstOfId(ps, k);
        assert Firsts(ps, k + 1) == Firsts(ps, k);
      } else {
        forall j | 0 <= j < k
          ensures ps[j].id != ps[k].id
        {
          assert ps[j] == ps[..k][j];
        }
        assert Firsts(ps, k + 1) == Firsts(ps, k) + [ps[k]];
      }
      CollectFirsts(ps, k + 1);
    }
  }

  /** The dictionary's values: the points of all recipes, each id once,
      the first point with an id winning, in order of first appearance. */
  function DedupById(ps: seq<SensitivePoint>): (r: seq<SensitivePoint>)
    ensures forall i, j :: 0 <= i < j < |r| ==> r[i].id != r[j].id
    ensures Ids(r) == Ids(ps)
    ensures forall x :: x in r <==> exists i :: FirstOfId(ps, i) && x == ps[i]
  {
    CollectFirsts(ps, 0);
    FirstsIds(ps, |ps|);
    FirstsDistinct(ps, |ps|);
    assert ps[..|ps|] == ps;
    assert forall x :: x in Firsts(ps, |ps|) <==> exists i :: FirstOfId(ps, i) && x == ps[i] by {
      forall x {
        FirstsMember(ps, |ps|, x);
      }
    }
    CollectFrom(ps, 0, [])
  }

  /** The order of the kept points is that of their first appearance. */
  lemma DedupInOrder(ps: seq<SensitivePoint>)
    ensures DedupById(ps) == Firsts(ps, |ps|)
  {
    CollectFirsts(ps, 0);
  }

  /** Deduplicating twice is deduplicating once. */
  lemma DedupIdempotent(ps: seq<SensitivePoint>)
    ensures DedupById(DedupById(ps)) == DedupById(ps)
  {
    var r := DedupById(ps);
    DedupInOrder(r);
    FirstsAll(r, |r|);
  }

  /** With distinct ids every point is the first of its id. */
  lemma {:induction false} FirstsAll(ps: seq<SensitivePoint>, n: nat)
    requires n <= |ps|
    requires forall i, j :: 0 <= i < j < |ps| ==> ps[i].id != ps[j].id
    ensures Firsts(ps, n) == ps[..n]
  {
    if n > 0 {
      FirstsAll(ps, n - 1);
      assert FirstOfId(ps, n - 1);
      assert ps[..n] == ps[..n - 1] + [ps[n - 1]];
    }
  }

  // ---------------------------------------------------------------------
  // Headline figures
  // ---------------------------------------------------------------------

  /** `Where(a => a.SurfaceHa.HasValue).Sum(a => a.SurfaceHa)`. */
  function Hectares(apps: seq<Application>): real {
    if apps == [] then 0.0
    else (if apps[0].surfaceHa.Some? then apps[0].surfaceHa.value else 0.0) + Hectares(apps[1..])
  }

  /** The surface of two lists is the sum of their surfaces. */
  lemma {:induction false} HectaresAppend(a: seq<Application>, b: seq<Application>)
    ensures Hectares(a + b) == Hectares(a) + Hectares(b)
    decreases |a|
  {
    if a == [] {
      assert a + b == b;
    } else {
      assert (a + b)[0] == a[0];
      assert (a + b)[1..] == a[1..] + b;
      HectaresAppend(a[1..], b);
    }
  }

  /** Lots without a surface add nothing. */
  lemma {:induction false} HectaresUnknown(apps: seq<Application>)
    requires forall i :: 0 <= i < |apps| ==> apps[i].surfaceHa.None?
    ensures Hectares(apps) == 0.0
    decreases |apps|
  {
    if apps != [] {
      HectaresUnknown(apps[1..]);
    }
  }

  /** The names of the products of one application. */
  function Names(ps: seq<GeoProduct>): (r: seq<string>)
    ensures |r| == |ps| && forall i :: 0 <= i < |ps| ==> r[i] == ps[i].productName
  {
    seq(|ps|, i requires 0 <= i < |ps| => ps[i].productName)
  }

  /** `SelectMany(a => a.Products).Select(p => p.ProductName)`. */
  function ProductNames(apps: seq<Application>): seq<string> {
    if apps == [] then [] else Names(apps[0].products) + ProductNames(apps[1..])
  }

  /** There are product names exactly when some application has a product. */
  lemma {:induction false} ProductNamesEmpty(apps: seq<Application>)
    ensures ProductNames(apps) == [] <==> forall i :: 0 <= i < |apps| ==> apps[i].products == []
    decreases |apps|
  {
    if apps != [] {
      ProductNamesEmpty(apps[1..]);
      assert forall i :: 1 <= i < |apps| ==> apps[i] == apps[1..][i - 1];
    }
  }

  /** The product names of the applications, as a set. */
  function ProductNameSet(apps: seq<Application>): set<string> {
    set i, j | 0 <= i < |apps| && 0 <= j < |apps[i].products| :: apps[i].products[j].productName
  }

  /** The distinct product names are those of some product of some
      application. */
  lemma {:induction false} ProductNamesSet(apps: seq<Application>)
    ensures (set x | x in ProductNames(apps)) == ProductNameSet(apps)
    decreases |apps|
  {
    if apps != [] {
      ProductNamesSet(apps[1..]);
      var head, rest := Names(apps[0].products), ProductNames(apps[1..]);
      assert ProductNames(apps) == head + rest;
      forall x | x in ProductNames(apps)
        ensures x in ProductNameSet(apps)
      {
        if x in head {
          var j :| 0 <= j < |head| && head[j] == x;
          assert x == apps[0].products[j].productName;
        } else {
          assert x in ProductNameSet(apps[1..]);
          var i, j :| 0 <= i < |apps[1..]| && 0 <= j < |apps[1..][i].products| && x == apps[1..][i].products[j].productName;
          assert apps[1..][i] == apps[i + 1];
        }
      }
      forall x | x in ProductNameSet(apps)
        ensures x in ProductNames(apps)
      {
        var i, j :| 0 <= i < |apps| && 0 <= j < |apps[i].products| && x == apps[i].products[j].productName;
        if i == 0 {
          assert (head + rest)[j] == x;
        } else {
          assert apps[1..][i - 1] == apps[i];
          assert x in ProductNameSet(apps[1..]);
          assert x in rest;
        }
      }
    }
  }

  /** The advisor names of the applications, as a set. */
  function AdvisorSet(apps: seq<Application>): set<string> {
    set i | 0 <= i < |apps| && apps[i].advisorName.Some? :: apps[i].advisorName.value
  }

  /** The distinct advisor names are those of the applications that have
      one. */
  lemma {:induction false} AdvisorNamesSet(apps: seq<Application>)
    ensures (set x | x in AdvisorNames(apps)) == AdvisorSet(apps)
    decreases |apps|
  {
    if apps != [] {
      AdvisorNamesSet(apps[1..]);
      var head := if apps[0].advisorName.Some? then [apps[0].advisorName.value] else [];
      var rest := AdvisorNames(apps[1..]);
      assert AdvisorNames(apps) == head + rest;
      forall x | x in AdvisorNames(apps)
        ensures x in AdvisorSet(apps)
      {
        if x !in head {
          assert x in AdvisorSet(apps[1..]);
          var i :| 0 <= i < |apps[1..]| && apps[1..][i].advisorName.Some? && x == apps[1..][i].advisorName.value;
          assert apps[1..][i] == apps[i + 1];
        }
      }
      forall x | x in AdvisorSet(apps)
        ensures x in AdvisorNames(apps)
      {
        var i :| 0 <= i < |apps| && apps[i].advisorName.Some? && x == apps[i].advisorName.value;
        if i == 0 {
          assert (head + rest)[0] == x;
        } else {
          assert apps[1..][i - 1] == apps[i];
          assert x in AdvisorSet(apps[1..]);
          assert x in rest;
        }
      }
    }
  }

  /** `Where(a => a.AdvisorName != null).Select(a => a.AdvisorName)`. */
  function AdvisorNames(apps: seq<Application>): (r: seq<string>)
    ensures |r| <= |apps|
  {
    if apps == [] then []
    else (if apps[0].advisorName.Some? then [apps[0].advisorName.value] else []) + AdvisorNames(apps[1..])
  }

  /** There are advisor names exactly when some application has an advisor. */
  lemma {:induction false} AdvisorNamesEmpty(apps: seq<Application>)
    ensures AdvisorNames(apps) == [] <==> forall i :: 0 <= i < |apps| ==> apps[i].advisorName.None?
    decreases |apps|
  {
    if apps != [] {
      AdvisorNamesEmpty(apps[1..]);
      assert forall i :: 1 <= i < |apps| ==> apps[i] == apps[1..][i - 1];
    }
  }

  /** The distinct values of a list are no more than its length. */
  lemma {:induction false} DistinctBound(xs: seq<string>)
    ensures |set x | x in xs| <= |xs|
    ensures xs != [] ==> |set x | x in xs| > 0
    decreases |xs|
  {
    if xs != [] {
      assert xs[0] in (set x | x in xs);
      DistinctBound(xs[1..]);
      assert (set x | x in xs) == {xs[0]} + (set x | x in xs[1..]);
    }
  }

  /** `Distinct().Count()`. */
  function DistinctCount(xs: seq<string>): (n: nat)
    ensures n <= |xs|
    ensures n == 0 <==> xs == []
  {
    DistinctBound(xs);
    |set x | x in xs|
  }

  /** An application of class Ia or Ib. */
  predicate IsHighTox(a: Application) {
    a.toxScore <= 2
  }

  /** `GeoInsightsKpis`. */
  datatype Kpis = Kpis(
    totalApplications: nat,
    totalHectares: real,
    uniqueProducts: nat,
    highToxApplications: nat,
    sensitivePointsAtRisk: nat,
    uniqueAdvisors: nat)

  /** The headline figures. The count of sensitive points at risk is
      switched off and always zero. */
  function KpisOf(apps: seq<Application>): (k: Kpis)
    ensures k.totalApplications == |apps|
    ensures k.highToxApplications <= k.totalApplications
    ensures k.highToxApplications > 0 <==> exists i :: 0 <= i < |apps| && apps[i].toxScore <= 2
    ensures k.uniqueAdvisors <= k.totalApplications
    ensures k.uniqueAdvisors == 0 <==> forall i :: 0 <= i < |apps| ==> apps[i].advisorName.None?
    ensures k.uniqueProducts == 0 <==> forall i :: 0 <= i < |apps| ==> apps[i].products == []
    ensures k.sensitivePointsAtRisk == 0
    ensures k.highToxApplications == |set i | 0 <= i < |apps| && apps[i].toxScore <= 2|
    ensures k.uniqueProducts == |ProductNameSet(apps)|
    ensures k.uniqueAdvisors == |AdvisorSet(apps)|
    ensures k.totalHectares == Hectares(apps)
  {
    HighToxPresent(apps);
    AdvisorNamesEmpty(apps);
    ProductNamesEmpty(apps);
    HighToxCount(apps);
    ProductNamesSet(apps);
    assert DistinctCount(ProductNames(apps)) == |ProductNameSet(apps)|;
    AdvisorNamesSet(apps);
    Kpis(|apps|, Hectares(apps), DistinctCount(ProductNames(apps)), Count(apps, IsHighTox), 0,
      DistinctCount(AdvisorNames(apps)))
  }

  /** The high-toxicity count is the number of applications scoring 2 or
      less. */
  lemma HighToxCount(apps: seq<Application>)
    ensures Count(apps, IsHighTox) == |set i | 0 <= i < |apps| && apps[i].toxScore <= 2|
  {
    CountIndices(apps, IsHighTox);
    var b := set i | 0 <= i < |apps| && apps[i].toxScore <= 2;
    assert Indices(apps, IsHighTox, |apps|) == b by {
      forall i ensures i in Indices(apps, IsHighTox, |apps|) <==> i in b {
      }
    }
  }

  /** Some application is high-toxicity exactly when the count is positive. */
  lemma HighToxPresent(apps: seq<Application>)
    ensures Count(apps, IsHighTox) > 0 <==> exists i :: 0 <= i < |apps| && IsHighTox(apps[i])
  {
    if exists i :: 0 <= i < |apps| && IsHighTox(apps[i]) {
      var i :| 0 <= i < |apps| && IsHighTox(apps[i]);
      FilterKeeps(apps, IsHighTox, i);
    }
    if Count(apps, IsHighTox) > 0 {
      FilterFrom(apps, IsHighTox, 0);
    }
  }

  // ---------------------------------------------------------------------
  // The response
  // ---------------------------------------------------------------------

  /** `GeoSensitivePointDto`; the nearby counts are never filled in. */
  datatype PointView = PointView(point: SensitivePoint, nearbyApplications: nat, nearbyHighTox: nat)

  /** `GeoInsightsResponse` without the alerts (always empty) and the
      available filters. */
  datatype Insights = Insights(applications: seq<Application>, sensitivePoints: seq<PointView>, kpis: Kpis)

  /** The views of the points, with no application counted near them. */
  function PointViews(points: seq<SensitivePoint>): (views: seq<PointView>)
    ensures |views| == |points|
    ensures forall i :: 0 <= i < |views| ==> views[i].point == points[i]
    ensures forall v :: v in views ==> v.nearbyApplications == 0 && v.nearbyHighTox == 0
    ensures (set v | v in views :: v.point.id) == Ids(points)
  {
    var views := seq(|points|, i requires 0 <= i < |points| => PointView(points[i], 0, 0));
    assert (set v | v in views :: v.point.id) == Ids(points) by {
      forall id | id in Ids(points)
        ensures id in (set v | v in views :: v.point.id)
      {
        var p :| p in points && p.id == id;
        var i :| 0 <= i < |points| && points[i] == p;
        assert views[i] in views;
      }
    }
    views
  }

  /** The sensitive points of all recipes, recipe by recipe. */
  function AllPoints(rs: seq<GeoRecipe>): seq<SensitivePoint> {
    if rs == [] then [] else rs[0].sensitivePoints + AllPoints(rs[1..])
  }

  /** `GetGeoInsightsAsync` on the recipes the filters let through. */
  function GetGeoInsights(rs: seq<GeoRecipe>): (r: Insights)
    ensures r.applications == Applications(rs)
    ensures r.kpis == KpisOf(r.applications)
    ensures forall i, j :: 0 <= i < j < |r.sensitivePoints| ==> r.sensitivePoints[i].point.id != r.sensitivePoints[j].point.id
    ensures (set v | v in r.sensitivePoints :: v.point.id) == Ids(AllPoints(rs))
    ensures forall v :: v in r.sensitivePoints ==> v.nearbyApplications == 0 && v.nearbyHighTox == 0
  {
    var apps := Applications(rs);
    var views := PointViews(DedupById(AllPoints(rs)));
    Insights(apps, views, KpisOf(apps))
  }
}

=== FILE: locality.dfy ===
/** `ParseLocalityAndDepartment`: the locality and department of a lot, with
    the repair for a header whose department ran into the locality cell
    ("Marcos Aldao Juarez" for locality "Camilo Aldao" in department
    "Marcos Juarez"). Title casing is the culture's `TextInfo.ToTitleCase`,
    a parameter `toTitle`. */
module Locality {
  import opened Wrappers
  import opened Text
  import opened Seqs
  import opened RecipeText
  import opened LotRows

  /** `CleanToken`: the letters of the class `[A-ZÁÉÍÓÚÜÑ]`, matched
      ignoring case, of a token, upper-cased. */
  function CleanToken(t: string): (r: string)
    ensures |r| <= |t|
    ensures forall i :: 0 <= i < |r| ==> IsUpperLetter(r[i])
  {
    Upper(Filter(t, IsLetter))
  }

  /** A token of letters only is cleaned to its upper-case form. */
  lemma CleanLetters(t: string)
    requires forall i :: 0 <= i < |t| ==> IsLetter(t[i])
    ensures CleanToken(t) == Upper(t)
  {
    FilterAll(t, IsLetter);
  }

  /** Cleaning ignores everything but letters: signs around a token do not
      change it. */
  lemma CleanIgnoresSigns(a: string, t: string, b: string)
    requires forall i :: 0 <= i < |a| ==> !IsLetter(a[i])
    requires forall i :: 0 <= i < |b| ==> !IsLetter(b[i])
    ensures CleanToken(a + t + b) == CleanToken(t)
  {
    FilterConcat(a + t, b, IsLetter);
    FilterConcat(a, t, IsLetter);
    FilterNone(a, IsLetter);
    FilterNone(b, IsLetter);
    assert Filter(a, IsLetter) + Filter(t, IsLetter) + Filter(b, IsLetter) == Filter(t, IsLetter);
  }

  /** The space-separated tokens of the locality cell, each trimmed. */
  function Tokens(loc: string): (ts: seq<string>)
    ensures forall k :: 0 <= k < |ts| ==> IsTrimmed(ts[k]) && ' ' !in ts[k]
  {
    var ws := SplitSpaces(loc);
    TrimsKeepOut(ws, ' ');
    seq(|ws|, k requires 0 <= k < |ws| => Trim(ws[k]))
  }

  /** Trimming never brings in a character. */
  lemma TrimsKeepOut(ws: seq<string>, c: char)
    requires forall k :: 0 <= k < |ws| ==> c !in ws[k]
    ensures forall k :: 0 <= k < |ws| ==> c !in Trim(ws[k])
  {
    forall k | 0 <= k < |ws|
      ensures c !in Trim(ws[k])
    {
      TrimKeepsAbsent(ws[k], c);
    }
  }

  /** `\bCAMILO\s+ALDAO\b`, ignoring case, at position `p`. */
  predicate CamiloAldaoAt(s: string, p: nat)
    requires p <= |s|
  {
    && (p == 0 || !IsWordChar(s[p - 1]))
    && p + 6 <= |s| && Upper(s[p..p + 6]) == "CAMILO"
    && var q := SpanOf(s, p + 6, IsWhite);
      && q > p + 6
      && q + 5 <= |s| && Upper(s[q..q + 5]) == "ALDAO"
      && (q + 5 == |s| || !IsWordChar(s[q + 5]))
  }

  /** `Regex.IsMatch(text, @"\bCAMILO\s+ALDAO\b", IgnoreCase)` on `s[p..]`,
      word boundaries judged on the whole text. */
  predicate MentionsCamiloAldao(s: string, p: nat)
    requires p <= |s|
    decreases |s| - p
  {
    CamiloAldaoAt(s, p) || (p < |s| && MentionsCamiloAldao(s, p + 1))
  }

  /** A match anywhere at or after `p` is found. */
  lemma {:induction false} MentionsAt(s: string, p: nat, k: nat)
    requires p <= k <= |s| && CamiloAldaoAt(s, k)
    ensures MentionsCamiloAldao(s, p)
    decreases k - p
  {
    if p < k {
      MentionsAt(s, p + 1, k);
    }
  }

  /** The locality and department read for a lot. */
  datatype Place = Place(locality: string, department: string)

  /** The department-in-locality case: three tokens, the last "JUAREZ". */
  predicate IsJuarezCase(ts: seq<string>) {
    |ts| == 3 && CleanToken(ts[2]) == "JUAREZ"
  }

  /** The texts chosen before title casing: the cells as they are, or the
      locality cell split into locality and department. */
  function Guess(loc: string, dept: string, text: string): (g: Place)
    ensures dept != [] || loc == [] ==> g == Place(loc, dept)
    ensures loc == [] ==> g.locality == []
  {
    if loc != [] && dept != [] then Place(loc, dept)
    else if loc == [] then Place([], dept)
    else
      var ts := Tokens(loc);
      if IsJuarezCase(ts) then
        var l := if CleanToken(ts[1]) == "ALDAO" || MentionsCamiloAldao(text, 0) then "CAMILO ALDAO" else ts[1];
        Place(l, ts[0] + " " + ts[2])
      else if |ts| == 4 then
        Place(ts[0] + " " + ts[1], ts[2] + " " + ts[3])
      else Place(loc, dept)
  }

  /** `ParseLocalityAndDepartment(rawLocality, rawDepartment, text)`. */
  function LocalityAndDepartment(
    toTitle: string -> string, rawLoc: Option<string>, rawDept: Option<string>, text: string): (r: Place)
    ensures !Present(rawLoc) ==> r.locality == []
    ensures Present(rawDept) ==> r == Place(TitleCaseSafe(toTitle, TrimOrEmpty(rawLoc)), TitleCaseSafe(toTitle, TrimOrEmpty(rawDept)))
  {
    var g := Guess(TrimOrEmpty(rawLoc), TrimOrEmpty(rawDept), text);
    Place(TitleCaseSafe(toTitle, g.locality), TitleCaseSafe(toTitle, g.department))
  }

  /** A word as the documents print it: non-empty, trimmed, without spaces. */
  predicate IsWord(w: string) {
    w != [] && IsTrimmed(w) && ' ' !in w
  }

  /** The tokens of a single-space join of words are the words. */
  lemma TokensOfJoin(ws: seq<string>)
    requires forall k :: 0 <= k < |ws| ==> IsWord(ws[k])
    ensures Tokens(Join(ws, " ")) == ws
    ensures IsTrimmed(Join(ws, " ")) && (Join(ws, " ") == [] <==> ws == [])
  {
    SplitJoin(ws);
    JoinTrimmed(ws);
    var ts := Tokens(Join(ws, " "));
    forall k | 0 <= k < |ws|
      ensures ts[k] == ws[k]
    {
      TrimOfTrimmed(ws[k]);
    }
  }

  /** Four words in the locality cell and no department: the first two are
      the locality, the last two the department. */
  lemma SplitFourWords(ws: seq<string>, text: string)
    requires |ws| == 4 && forall k :: 0 <= k < |ws| ==> IsWord(ws[k])
    ensures Guess(Join(ws, " "), [], text) == Place(ws[0] + " " + ws[1], ws[2] + " " + ws[3])
  {
    TokensOfJoin(ws);
  }

  /** Splitting four words two and two loses no word. */
  lemma FourWordsKept(ws: seq<string>)
    requires |ws| == 4
    ensures (ws[0] + " " + ws[1]) + " " + (ws[2] + " " + ws[3]) == Join(ws, " ")
  {
    assert ws[2..][1..] == ws[3..];
    assert ws[1..][1..] == ws[2..];
    assert Join(ws[2..], " ") == ws[2] + " " + ws[3];
    assert Join(ws[1..], " ") == ws[1] + " " + (ws[2] + " " + ws[3]);
  }

  /** Three words ending in "Juarez" and no department: the department is
      the first and the last word, the locality the middle one, or Camilo
      Aldao when the middle word is "Aldao" or the document names Camilo
      Aldao anywhere. */
  lemma SplitJuarez(ws: seq<string>, text: string)
    requires |ws| == 3 && forall k :: 0 <= k < |ws| ==> IsWord(ws[k])
    requires CleanToken(ws[2]) == "JUAREZ"
    ensures Guess(Join(ws, " "), [], text) == Place(
      if CleanToken(ws[1]) == "ALDAO" || MentionsCamiloAldao(text, 0) then "CAMILO ALDAO" else ws[1],
      ws[0] + " " + ws[2])
  {
    var j := Join(ws, " ");
    TokensOfJoin(ws);
    GuessJuarez(j, text);
  }

  /** The Juarez case of `Guess`, on any locality cell. */
  lemma GuessJuarez(loc: string, text: string)
    requires loc != [] && IsJuarezCase(Tokens(loc))
    ensures var ts := Tokens(loc);
      Guess(loc, [], text) == Place(
        if CleanToken(ts[1]) == "ALDAO" || MentionsCamiloAldao(text, 0) then "CAMILO ALDAO" else ts[1],
        ts[0] + " " + ts[2])
  {
  }

  /** Any other locality cell without a department is kept whole. */
  lemma NoSplit(ws: seq<string>, text: string)
    requires forall k :: 0 <= k < |ws| ==> IsWord(ws[k])
    requires |ws| != 4 && !IsJuarezCase(ws)
    ensures Guess(Join(ws, " "), [], text) == Place(Join(ws, " "), [])
  {
    TokensOfJoin(ws);
  }

  /** The run-together header of the documents: "Marcos Aldao Juarez" is
      Camilo Aldao in Marcos Juarez. */
  lemma MarcosAldaoJuarez(text: string)
    ensures Guess("Marcos Aldao Juarez", [], text) == Place("CAMILO ALDAO", "Marcos Juarez")
  {
    var ws := ["Marcos", "Aldao", "Juarez"];
    ExampleWords();
    ExampleClean();
    ExampleJoin3();
    ThreeWords(ws, "Marcos", "Aldao", "Juarez");
    SplitJuarez(ws, text);
    ExampleConcat();
  }

  lemma ThreeWords(ws: seq<string>, a: string, b: string, c: string)
    requires ws == [a, b, c] && IsWord(a) && IsWord(b) && IsWord(c)
    ensures |ws| == 3 && forall k :: 0 <= k < |ws| ==> IsWord(ws[k])
    ensures ws[0] == a && ws[1] == b && ws[2] == c
  {
  }

  lemma ExampleJoin3()
    ensures Join(["Marcos", "Aldao", "Juarez"], " ") == "Marcos Aldao Juarez"
  {
    var ws := ["Marcos", "Aldao", "Juarez"];
    assert ws[1..][1..] == ["Juarez"];
  }

  lemma ExampleConcat()
    ensures "Marcos" + " " + "Juarez" == "Marcos Juarez"
  {
  }

  lemma ExampleWords()
    ensures IsWord("Marcos") && IsWord("Aldao") && IsWord("Juarez")
  {
  }

  lemma ExampleClean()
    ensures CleanToken("Aldao") == "ALDAO" && CleanToken("Juarez") == "JUAREZ"
  {
    CleanWord("Aldao", "ALDAO");
    CleanWord("Juarez", "JUAREZ");
  }

  /** A word of ASCII letters is cleaned to the word in capitals. */
  lemma CleanWord(w: string, u: string)
    requires |w| == |u|
    requires forall i :: 0 <= i < |w| ==> IsAsciiUpper(u[i]) && (w[i] == u[i] || w[i] as int == u[i] as int + 32)
    ensures CleanToken(w) == u
  {
    CleanLetters(w);
    forall i | 0 <= i < |w|
      ensures Upper(w)[i] == u[i]
    {
    }
  }
}

=== FILE: lot_assembly.dfy ===
/** `BuildLotsFromLotRows`: grouping the rows of the lot table into lots. A
    row with a name and a surface, locality or department opens a lot; a
    row with a vertex and no lot header adds the vertex to the last lot;
    rows whose name repeats a column title are skipped; in the end each
    lot's vertices are put in `Order` with a stable sort. */
module LotAssembly {
  import opened Wrappers
  import opened Text
  import opened Seqs
  import opened Sorting
  import opened RecipeText
  import opened LotRows
  import opened Locality
  import opened Recipe

  /** Column titles that leak into the name cell. */
  const TitleNames: seq<string> := ["NOMBRE", "LOTES", "(HAS.)", "SUPERFICIE", "LOCALIDAD", "DEPARTAMENTO"]

  /** The trimmed name cell. */
  function NameOf(r: LotRow): (n: string)
    ensures IsTrimmed(n)
  {
    TrimOrEmpty(r.nombre)
  }

  /** A row whose name is a column title, ignoring case. */
  predicate IsTitleEcho(r: LotRow) {
    NameOf(r) != [] && Upper(NameOf(r)) in TitleNames
  }

  /** Order, latitude and longitude are all present. */
  predicate HasVertex(r: LotRow) {
    r.orden.Some? && r.latitud.Some? && r.longitud.Some?
  }

  /** A lot starts at a row with a name and a surface, locality or
      department. */
  predicate IsLotHeader(r: LotRow) {
    NameOf(r) != [] && (r.superficieHa.Some? || Present(r.localidad) || Present(r.departamento))
  }

  /** A row that opens a lot. */
  predicate OpensLot(r: LotRow) {
    !IsTitleEcho(r) && IsLotHeader(r)
  }

  /** A row whose vertex is kept, once some lot is open. */
  predicate CarriesVertex(r: LotRow) {
    !IsTitleEcho(r) && HasVertex(r)
  }

  function VertexOf(r: LotRow): ParsedVertex {
    ParsedVertex(r.orden.GetOr(0), r.latitud.GetOr(0.0), r.longitud.GetOr(0.0))
  }

  /** The vertices a header row brings with it. */
  function OwnVertices(r: LotRow): (vs: seq<ParsedVertex>)
    ensures |vs| <= 1
    ensures vs == [] <==> !HasVertex(r)
  {
    if HasVertex(r) then [VertexOf(r)] else []
  }

  /** The lot a header row opens: title-cased name, the repaired locality
      and department, the surface, and the row's own vertex if it has one. */
  function OpenLot(toTitle: string -> string, text: string, r: LotRow): (l: ParsedLot)
    ensures l.lotName == LotNameOf(toTitle)(r)
    ensures l.vertices == OwnVertices(r)
    ensures l.surfaceHa == r.superficieHa
  {
    var place := LocalityAndDepartment(toTitle, r.localidad, r.departamento, text);
    ParsedLot(TitleCaseSafe(toTitle, NameOf(r)), Some(place.locality), Some(place.department),
      r.superficieHa, OwnVertices(r))
  }

  /** The last lot with one more vertex. */
  function AddToLast(lots: seq<ParsedLot>, v: ParsedVertex): (r: seq<ParsedLot>)
    requires lots != []
    ensures |r| == |lots|
  {
    var n := |lots| - 1;
    lots[n := lots[n].(vertices := lots[n].vertices + [v])]
  }

  /** One turn of the loop over the rows. */
  function Step(toTitle: string -> string, text: string, lots: seq<ParsedLot>, r: LotRow): seq<ParsedLot> {
    if IsTitleEcho(r) then lots
    else if IsLotHeader(r) then lots + [OpenLot(toTitle, text, r)]
    else if HasVertex(r) && lots != [] then AddToLast(lots, VertexOf(r))
    else lots
  }

  function StepOf(toTitle: string -> string, text: string): (seq<ParsedLot>, LotRow) -> seq<ParsedLot> {
    (lots, r) => Step(toTitle, text, lots, r)
  }

  /** The loop over the rows, from the lots gathered so far. */
  function Gather(toTitle: string -> string, text: string, rows: seq<LotRow>, lots: seq<ParsedLot>): seq<ParsedLot> {
    FoldLeft(StepOf(toTitle, text), lots, rows)
  }

  /** The key of the final sort. */
  function OrderKey(v: ParsedVertex): real {
    v.order as real
  }

  /** A lot with its vertices in `Order`. */
  function SortVertices(l: ParsedLot): (s: ParsedLot)
    ensures s.vertices == SortBy(l.vertices, OrderKey)
    ensures s.(vertices := l.vertices) == l
  {
    l.(vertices := SortBy(l.vertices, OrderKey))
  }

  /** `BuildLotsFromLotRows(rows, normalizedText)`. */
  function BuildLots(toTitle: string -> string, text: string, rows: seq<LotRow>): (lots: seq<ParsedLot>)
    ensures |lots| == |Gather(toTitle, text, rows, [])|
    ensures forall i :: 0 <= i < |lots| ==>
      multiset(lots[i].vertices) == multiset(Gather(toTitle, text, rows, [])[i].vertices)
  {
    var g := Gather(toTitle, text, rows, []);
    seq(|g|, i requires 0 <= i < |g| => SortVertices(g[i]))
  }

  // ---------------------------------------------------------------------
  // What the loop keeps
  // ---------------------------------------------------------------------

  /** The names of the lots. */
  function Names(lots: seq<ParsedLot>): (ns: seq<string>)
    ensures |ns| == |lots|
  {
    seq(|lots|, i requires 0 <= i < |lots| => lots[i].lotName)
  }

  /** The vertex lists of the lots. */
  function Groups(lots: seq<ParsedLot>): (gs: seq<seq<ParsedVertex>>)
    ensures |gs| == |lots|
  {
    seq(|lots|, i requires 0 <= i < |lots| => lots[i].vertices)
  }

  /** The title-cased name a header row gives its lot. */
  function LotNameOf(toTitle: string -> string): LotRow -> string {
    r => TitleCaseSafe(toTitle, NameOf(r))
  }

  /** One row adds at most one name, its own, when it opens a lot. */
  lemma StepNames(toTitle: string -> string, text: string, lots: seq<ParsedLot>, r: LotRow)
    ensures Names(Step(toTitle, text, lots, r))
      == Names(lots) + (if OpensLot(r) then [LotNameOf(toTitle)(r)] else [])
  {
    if OpensLot(r) {
      NamesAppend(lots, OpenLot(toTitle, text, r));
    } else if !IsTitleEcho(r) && HasVertex(r) && lots != [] {
      NamesAddToLast(lots, VertexOf(r));
    }
  }

  lemma NamesAppend(lots: seq<ParsedLot>, l: ParsedLot)
    ensures Names(lots + [l]) == Names(lots) + [l.lotName]
  {
  }

  lemma NamesAddToLast(lots: seq<ParsedLot>, v: ParsedVertex)
    requires lots != []
    ensures Names(AddToLast(lots, v)) == Names(lots)
  {
  }

  /** Every row that opens a lot adds one lot, named after the row, at the
      end; no other row adds or renames one. */
  lemma GatherNames(toTitle: string -> string, text: string, rows: seq<LotRow>, lots: seq<ParsedLot>)
    ensures Names(Gather(toTitle, text, rows, lots)) == Names(lots) + Pick(rows, OpensLot, LotNameOf(toTitle))
  {
    var f := StepOf(toTitle, text);
    var inv := (x: seq<ParsedLot>) => true;
    forall x, t | inv(x)
      ensures inv(f(x, t)) && Names(f(x, t)) == Names(x) + (if OpensLot(t) then [LotNameOf(toTitle)(t)] else [])
    {
      StepNames(toTitle, text, x, t);
    }
    FoldPick(f, lots, rows, inv, Names, OpensLot, LotNameOf(toTitle));
  }

  lemma GroupsAppend(lots: seq<ParsedLot>, l: ParsedLot)
    ensures Flatten(Groups(lots + [l])) == Flatten(Groups(lots)) + l.vertices
  {
    assert Groups(lots + [l]) == Groups(lots) + [l.vertices];
    FlattenAppend(Groups(lots), l.vertices);
  }

  lemma GroupsAddToLast(lots: seq<ParsedLot>, v: ParsedVertex)
    requires lots != []
    ensures Flatten(Groups(AddToLast(lots, v))) == Flatten(Groups(lots)) + [v]
  {
    var n := |lots| - 1;
    assert Groups(AddToLast(lots, v)) == Groups(lots)[n := Groups(lots)[n] + [v]];
    FlattenAppendLast(Groups(lots), v);
  }

  /** Once a lot is open, one row adds its vertex, if it carries one, at the
      end of the groups, and leaves a lot open. */
  lemma StepVertices(toTitle: string -> string, text: string, lots: seq<ParsedLot>, r: LotRow)
    requires lots != []
    ensures Step(toTitle, text, lots, r) != []
    ensures Flatten(Groups(Step(toTitle, text, lots, r)))
      == Flatten(Groups(lots)) + (if CarriesVertex(r) then [VertexOf(r)] else [])
  {
    if IsTitleEcho(r) {
    } else if IsLotHeader(r) {
      GroupsAppend(lots, OpenLot(toTitle, text, r));
    } else if HasVertex(r) {
      GroupsAddToLast(lots, VertexOf(r));
    }
  }

  /** Once a lot is open, the vertices of the groups are the vertices
      already there followed by those of every later row that carries one,
      in row order: none is lost, none invented. */
  lemma GatherVertices(toTitle: string -> string, text: string, rows: seq<LotRow>, lots: seq<ParsedLot>)
    requires lots != []
    ensures Flatten(Groups(Gather(toTitle, text, rows, lots))) == Flatten(Groups(lots)) + Pick(rows, CarriesVertex, VertexOf)
  {
    var f := StepOf(toTitle, text);
    var inv := (x: seq<ParsedLot>) => x != [];
    var h := (x: seq<ParsedLot>) => Flatten(Groups(x));
    forall x, t | inv(x)
      ensures inv(f(x, t)) && h(f(x, t)) == h(x) + (if CarriesVertex(t) then [VertexOf(t)] else [])
    {
      StepVertices(toTitle, text, x, t);
    }
    FoldPick(f, lots, rows, inv, h, CarriesVertex, VertexOf);
  }

  /** Before the first lot opens, rows change nothing: vertices there are
      dropped. */
  lemma {:induction false} GatherBeforeFirst(toTitle: string -> string, text: string, rows: seq<LotRow>, k: nat)
    requires k <= |rows| && forall j :: 0 <= j < k ==> !OpensLot(rows[j])
    ensures Gather(toTitle, text, rows, []) == Gather(toTitle, text, rows[k..], [])
    decreases k
  {
    if k > 0 {
      assert Step(toTitle, text, [], rows[0]) == [];
      GatherBeforeFirst(toTitle, text, rows[1..], k - 1);
      assert rows[1..][k - 1..] == rows[k..];
    }
  }

  /** With no lot opened, nothing is gathered. */
  lemma NoHeaderNoLots(toTitle: string -> string, text: string, rows: seq<LotRow>)
    requires forall j :: 0 <= j < |rows| ==> !OpensLot(rows[j])
    ensures Gather(toTitle, text, rows, []) == []
  {
    GatherBeforeFirst(toTitle, text, rows, |rows|);
  }

  /** The first lot opened starts the gathering. */
  lemma GatherFirst(toTitle: string -> string, text: string, rows: seq<LotRow>, k: nat)
    requires k < |rows| && OpensLot(rows[k])
    ensures Gather(toTitle, text, rows[k..], []) == Gather(toTitle, text, rows[k + 1..], [OpenLot(toTitle, text, rows[k])])
  {
    assert rows[k..][1..] == rows[k + 1..];
    assert Step(toTitle, text, [], rows[k]) == [OpenLot(toTitle, text, rows[k])];
  }

  lemma FlattenOne(l: ParsedLot)
    ensures Flatten(Groups([l])) == l.vertices
  {
    assert Groups([l]) == [l.vertices];
    assert Flatten([l.vertices]) == l.vertices + Flatten([l.vertices][1..]);
  }

  /** The lots: one per row that opens a lot, named after it, in row order. */
  lemma BuildLotsNames(toTitle: string -> string, text: string, rows: seq<LotRow>)
    ensures Names(Gather(toTitle, text, rows, [])) == Pick(rows, OpensLot, LotNameOf(toTitle))
  {
    GatherNames(toTitle, text, rows, []);
    assert Names([]) == [];
  }

  /** The vertices of the lots together are, lot after lot, the vertices of
      the rows from the first lot header on; those before it are dropped. */
  lemma BuildLotsVertices(toTitle: string -> string, text: string, rows: seq<LotRow>, k: nat)
    requires k < |rows| && OpensLot(rows[k]) && forall j :: 0 <= j < k ==> !OpensLot(rows[j])
    ensures Flatten(Groups(Gather(toTitle, text, rows, []))) == Pick(rows[k..], CarriesVertex, VertexOf)
  {
    var r := rows[k];
    var first := OpenLot(toTitle, text, r);
    GatherBeforeFirst(toTitle, text, rows, k);
    GatherFirst(toTitle, text, rows, k);
    GatherVertices(toTitle, text, rows[k + 1..], [first]);
    FlattenOne(first);
    assert first.vertices == (if CarriesVertex(r) then [VertexOf(r)] else []);
    PickFirst(rows[k..], CarriesVertex, VertexOf);
    assert rows[k..][0] == r && rows[k..][1..] == rows[k + 1..];
  }

  /** After the sort each lot's vertices are in ascending `Order`, are a
      permutation of the gathered ones, and vertices with equal `Order`
      keep their row order. */
  lemma BuildLotsSorted(toTitle: string -> string, text: string, rows: seq<LotRow>, i: nat, k: real)
    requires i < |BuildLots(toTitle, text, rows)|
    ensures var v := BuildLots(toTitle, text, rows)[i].vertices;
      var g := Gather(toTitle, text, rows, [])[i].vertices;
      && SortedBy(v, OrderKey)
      && KeyClass(v, OrderKey, k) == KeyClass(g, OrderKey, k)
  {
    var g := Gather(toTitle, text, rows, [])[i].vertices;
    SortBySorted(g, OrderKey);
    SortByStable(g, OrderKey, k);
  }
}

=== FILE: lot_rows.dfy ===
/** The rows of the lot table (`PdfLotsExtractor.LotRow`), the cell
    parsers, and `MergeContinuationLines`, which folds a second visual line
    of a lot (the rest of a long name, locality or department) into the row
    above it. */
module LotRows {
  import opened Wrappers
  import opened Text
  import opened Numbers
  import opened Seqs

  /** One row of the lot table. Decimal cells are exact rationals. */
  datatype LotRow = LotRow(
    nombre: Option<string>,
    superficieHa: Option<real>,
    localidad: Option<string>,
    departamento: Option<string>,
    orden: Option<int>,
    latitud: Option<real>,
    longitud: Option<real>)

  /** `NullIfEmpty`: null for blank text, otherwise the text trimmed with
      every whitespace run collapsed to one space. */
  function NullIfEmpty(s: string): (r: Option<string>)
    ensures r.None? <==> IsBlank(s)
    ensures r.Some? ==> r.value != [] && Tidy(r.value)
  {
    if IsBlank(s) then None else Some(Collapse(s))
  }

  /** Applying `NullIfEmpty` to its own result changes nothing. */
  lemma NullIfEmptyIdempotent(s: string)
    requires NullIfEmpty(s).Some?
    ensures NullIfEmpty(NullIfEmpty(s).value) == NullIfEmpty(s)
  {
    CollapseOfTidy(Collapse(s));
  }

  /** `!string.IsNullOrWhiteSpace(o)`. */
  predicate Present(o: Option<string>) {
    o.Some? && !IsBlank(o.value)
  }

  /** `(o ?? "").Trim()`. */
  function TrimOrEmpty(o: Option<string>): (t: string)
    ensures IsTrimmed(t)
    ensures t == [] <==> !Present(o)
  {
    Trim(o.GetOr(""))
  }

  // ---------------------------------------------------------------------
  // AppendDedup
  // ---------------------------------------------------------------------

  /** `AppendDedup(a, b)`: `a` followed by `b`, unless `b` is blank, equal to
      `a` ignoring case, or already present in `a` as its last word group or
      as a space-delimited inner group. Both sides are trimmed first. */
  function AppendDedup(a: Option<string>, b: Option<string>): (r: string)
    ensures IsTrimmed(r)
    ensures r == [] <==> !Present(a) && !Present(b)
  {
    Combine(TrimOrEmpty(a), TrimOrEmpty(b))
  }

  /** The result of `AppendDedup` starts with the trimmed `a`, contains the
      trimmed `b` (ignoring case), and is at most one space longer than the
      two together. */
  lemma AppendDedupKeeps(a: Option<string>, b: Option<string>)
    ensures StartsWith(AppendDedup(a, b), TrimOrEmpty(a))
    ensures ContainsCI(AppendDedup(a, b), TrimOrEmpty(b))
    ensures |AppendDedup(a, b)| <= |TrimOrEmpty(a)| + 1 + |TrimOrEmpty(b)|
  {
    CombineKeeps(TrimOrEmpty(a), TrimOrEmpty(b));
  }

  /** The outcomes of `AppendDedup` case by case: a blank side yields the
      other one trimmed, a repeat of `b` yields `a`, and anything else joins
      the two with one space. */
  lemma AppendDedupCases(a: Option<string>, b: Option<string>)
    ensures !Present(b) ==> AppendDedup(a, b) == TrimOrEmpty(a)
    ensures Present(b) && !Present(a) ==> AppendDedup(a, b) == TrimOrEmpty(b)
    ensures var aa, bb := TrimOrEmpty(a), TrimOrEmpty(b);
      Present(a) && Present(b) && (EqualsCI(aa, bb) || Duplicated(aa, bb)) ==> AppendDedup(a, b) == aa
    ensures var aa, bb := TrimOrEmpty(a), TrimOrEmpty(b);
      Present(a) && Present(b) && !EqualsCI(aa, bb) && !Duplicated(aa, bb) ==> AppendDedup(a, b) == aa + " " + bb
  {
    var aa, bb := TrimOrEmpty(a), TrimOrEmpty(b);
    if Present(a) && Present(b) && !EqualsCI(aa, bb) && !Duplicated(aa, bb) {
      AppendJoins(aa, bb);
    }
  }

  /** The body of `AppendDedup` on the trimmed texts; a trimmed text is blank
      exactly when it is empty. */
  function Combine(aa: string, bb: string): (r: string)
    requires IsTrimmed(aa) && IsTrimmed(bb)
    ensures IsTrimmed(r)
    ensures r == [] <==> aa == [] && bb == []
  {
    if bb == [] then aa
    else if aa == [] then bb
    else if EqualsCI(aa, bb) then aa
    else if Duplicated(aa, bb) then aa
    else
      JoinedTrim(aa, bb);
      Trim(aa + " " + bb)
  }

  lemma CombineKeeps(aa: string, bb: string)
    requires IsTrimmed(aa) && IsTrimmed(bb)
    ensures StartsWith(Combine(aa, bb), aa)
    ensures ContainsCI(Combine(aa, bb), bb)
    ensures |Combine(aa, bb)| <= |aa| + 1 + |bb|
  {
    if bb == [] {
      assert MatchesAt(Upper(aa), Upper(bb), 0);
    } else if aa == [] {
      assert MatchesAt(Upper(bb), Upper(bb), 0);
    } else if EqualsCI(aa, bb) {
      assert MatchesAt(Upper(aa), Upper(bb), 0);
    } else if Duplicated(aa, bb) {
      DuplicatedContains(aa, bb);
    } else {
      JoinedTrim(aa, bb);
      JoinedParts(aa, bb);
    }
  }

  /** `aaU.EndsWith(" " + bbU) || aaU.Contains(" " + bbU + " ")`. */
  predicate Duplicated(aa: string, bb: string) {
    EndsWith(Upper(aa), " " + Upper(bb)) || Contains(Upper(aa), " " + Upper(bb) + " ")
  }

  lemma DuplicatedContains(aa: string, bb: string)
    requires Duplicated(aa, bb)
    ensures ContainsCI(aa, bb)
  {
    if EndsWith(Upper(aa), " " + Upper(bb)) {
      SuffixContains(Upper(aa), " ", Upper(bb));
    } else {
      InfixContains(Upper(aa), " ", Upper(bb), " ");
    }
  }

  lemma JoinedTrim(aa: string, bb: string)
    requires aa != [] && bb != [] && IsTrimmed(aa) && IsTrimmed(bb)
    ensures Trim(aa + " " + bb) == aa + " " + bb
  {
    TrimmedAround(aa, " ", bb);
    TrimOfTrimmed(aa + " " + bb);
  }

  lemma JoinedParts(aa: string, bb: string)
    ensures StartsWith(aa + " " + bb, aa)
    ensures ContainsCI(aa + " " + bb, bb)
  {
    ContainsTailCI(aa + " ", bb);
    assert (aa + " " + bb)[..|aa|] == aa;
  }

  /** `Upper(aa + " " + bb)` ends with `" " + Upper(bb)`. */
  lemma JoinedEndsWith(aa: string, bb: string)
    ensures EndsWith(Upper(aa + " " + bb), " " + Upper(bb))
  {
    UpperConcat(aa + " ", bb);
    UpperConcat(aa, " ");
    assert Upper(" ") == " " by {
      assert Upper(" ")[0] == UpperChar(' ');
    }
    var u := Upper(aa + " " + bb);
    assert u == Upper(aa) + " " + Upper(bb);
    assert u[|u| - |" " + Upper(bb)|..] == " " + Upper(bb);
  }

  lemma {:induction false} CombineIdempotent(aa: string, bb: string)
    requires IsTrimmed(aa) && IsTrimmed(bb)
    ensures Combine(Combine(aa, bb), bb) == Combine(aa, bb)
  {
    if bb != [] && aa != [] && !EqualsCI(aa, bb) && !Duplicated(aa, bb) {
      JoinedTrim(aa, bb);
      JoinedEndsWith(aa, bb);
      assert Duplicated(aa + " " + bb, bb);
    }
  }

  lemma AppendDedupTrimmed(r: string, b: Option<string>)
    requires IsTrimmed(r)
    ensures AppendDedup(Some(r), b) == Combine(r, TrimOrEmpty(b))
  {
    TrimOfTrimmed(r);
  }

  /** Appending the same continuation twice is the same as appending it once. */
  lemma AppendDedupIdempotent(a: Option<string>, b: Option<string>)
    ensures AppendDedup(Some(AppendDedup(a, b)), b) == AppendDedup(a, b)
  {
    AppendDedupTrimmed(AppendDedup(a, b), b);
    CombineIdempotent(TrimOrEmpty(a), TrimOrEmpty(b));
  }

  /** Sufficient conditions for `AppendDedup` to append: the texts differ in
      their first letter, and `a` has no space, or `b` starts with a
      non-letter that does not occur in `a`. */
  lemma NotDuplicated(x: string, y: string)
    requires x != [] && y != []
    requires UpperChar(x[0]) != UpperChar(y[0])
    requires ' ' !in x || (!IsLetter(y[0]) && y[0] !in x)
    ensures !EqualsCI(x, y) && !Duplicated(x, y)
  {
    assert Upper(x)[0] != Upper(y)[0];
    NotAtEnd(x, y);
    NotInside(x, y);
  }

  lemma NotAtEnd(x: string, y: string)
    requires y != []
    requires ' ' !in x || (!IsLetter(y[0]) && y[0] !in x)
    ensures !EndsWith(Upper(x), " " + Upper(y))
  {
    var u := Upper(x);
    var pat := " " + Upper(y);
    if EndsWith(u, pat) {
      var k := |u| - |pat|;
      assert u[k] == u[k..][0] == pat[0];
      assert u[k + 1] == u[k..][1] == pat[1];
      NoJoinAt(x, y, k);
      assert false;
    }
  }

  lemma NotInside(x: string, y: string)
    requires y != []
    requires ' ' !in x || (!IsLetter(y[0]) && y[0] !in x)
    ensures !Contains(Upper(x), " " + Upper(y) + " ")
  {
    var u := Upper(x);
    var pat := " " + Upper(y) + " ";
    if Contains(u, pat) {
      var k := ContainsWitness(u, pat);
      assert u[k] == u[k..k + |pat|][0] == pat[0];
      assert u[k + 1] == u[k..k + |pat|][1] == pat[1];
      NoJoinAt(x, y, k);
      assert false;
    }
  }

  /** Under the conditions of `NotDuplicated`, no space in `Upper(x)` is
      followed by the first letter of `Upper(y)`. */
  lemma NoJoinAt(x: string, y: string, k: int)
    requires y != []
    requires ' ' !in x || (!IsLetter(y[0]) && y[0] !in x)
    requires 0 <= k && k + 1 < |x|
    ensures !(Upper(x)[k] == ' ' && Upper(x)[k + 1] == UpperChar(y[0]))
  {
  }

  // ---------------------------------------------------------------------
  // Cell parsers
  // ---------------------------------------------------------------------

  predicate IsIntChar(c: char) {
    IsDigit(c) || c == '-'
  }

  predicate IsDecimalChar(c: char) {
    IsDigit(c) || c == '.' || c == '-'
  }

  /** `ParseIntNullable`: null for blank text; otherwise the digits and
      minus signs of the text read by `int.TryParse`. */
  function ParseIntCell(s: string): (r: Option<int>)
    ensures IsBlank(s) ==> r == None
    ensures r.Some? ==> IsInt32(r.value)
  {
    if IsBlank(s) then None else ParseInt32(Filter(s, IsIntChar))
  }

  /** `ParseDecimalNullable`: null for blank text; otherwise commas become
      points, everything but digits, points and minus signs is dropped, and
      the rest is read by `decimal.TryParse`. */
  function ParseDecimalCell(s: string): (r: Option<real>)
    ensures IsBlank(s) ==> r == None
  {
    if IsBlank(s) then None else ParseDecimal(Filter(Replace(Trim(s), ",", "."), IsDecimalChar))
  }

  lemma NotBlankDigits(s: string)
    requires s != [] && AllDigits(s)
    ensures !IsBlank(s)
  {
    assert !IsWhite(s[0]);
  }

  /** A cell holding a natural number in range reads back as that number. */
  lemma ParseIntCellFormat(n: nat)
    requires n <= Int32Max
    ensures ParseIntCell(FormatNat(n)) == Some(n)
  {
    var s := FormatNat(n);
    NotBlankDigits(s);
    FilterAll(s, IsIntChar);
    ParseInt32Format(n);
  }

  lemma ReplaceAbsent(s: string)
    requires AllDigits(s)
    ensures Replace(s, ",", ".") == s
  {
    NoCommaInDigits(s);
  }

  lemma NoCommaInDigits(s: string)
    requires AllDigits(s)
    ensures !Contains(s, ",")
  {
    forall k | 0 <= k
      ensures !MatchesAt(s, ",", k)
    {
      if k < |s| {
        assert s[k..k + 1][0] == s[k];
        assert IsDigit(s[k]);
      }
    }
  }

  /** A cell holding a natural number reads back as that number. */
  lemma ParseDecimalCellFormat(n: nat)
    ensures ParseDecimalCell(FormatNat(n)) == Some(n as real)
  {
    var s := FormatNat(n);
    NotBlankDigits(s);
    TrimOfTrimmed(s);
    ReplaceAbsent(s);
    FilterAll(s, IsDecimalChar);
    ParseDecimalFormat(n);
  }

  // ---------------------------------------------------------------------
  // MergeContinuationLines
  // ---------------------------------------------------------------------

  /** `bHasNoVertex`. */
  predicate HasNoVertex(r: LotRow) {
    r.orden.None? && r.latitud.None? && r.longitud.None?
  }

  /** `bLooksLikeContinuation`: no vertex data, no surface, some text. */
  predicate IsContinuation(r: LotRow) {
    && HasNoVertex(r)
    && (Present(r.nombre) || Present(r.localidad) || Present(r.departamento))
    && r.superficieHa.None?
  }

  /** Row `a` with the texts of continuation `b` appended. */
  function Absorb(a: LotRow, b: LotRow): (m: LotRow)
    ensures m.superficieHa == a.superficieHa && m.orden == a.orden
    ensures m.latitud == a.latitud && m.longitud == a.longitud
  {
    a.(nombre := NullIfEmpty(AppendDedup(a.nombre, b.nombre)),
       localidad := NullIfEmpty(AppendDedup(a.localidad, b.localidad)),
       departamento := NullIfEmpty(AppendDedup(a.departamento, b.departamento)))
  }

  /** The loop of `MergeContinuationLines` from index `i`: when the next row
      is a continuation it is absorbed and the same index is examined again
      (the `i--`), otherwise the loop moves on. */
  function MergeFrom(rows: seq<LotRow>, i: nat): (r: seq<LotRow>)
    ensures |r| <= |rows|
    decreases |rows|, |rows| - i
  {
    if i + 1 >= |rows| then rows
    else if IsContinuation(rows[i + 1]) then
      MergeFrom(AbsorbAt(rows, i), i)
    else MergeFrom(rows, i + 1)
  }

  function MergeContinuationLines(rows: seq<LotRow>): seq<LotRow> {
    MergeFrom(rows, 0)
  }

  /** The numeric cells of a row. */
  datatype Figures = Figures(superficieHa: Option<real>, orden: Option<int>, latitud: Option<real>, longitud: Option<real>)

  function FiguresOf(r: LotRow): Figures {
    Figures(r.superficieHa, r.orden, r.latitud, r.longitud)
  }

  predicate HasFigures(r: LotRow) {
    !HasNoVertex(r) || r.superficieHa.Some?
  }

  /** The figures of the rows that carry any, in order. */
  function FigureRows(rows: seq<LotRow>): seq<Figures> {
    Pick(rows, HasFigures, FiguresOf)
  }

  lemma FigureRowsConcat(a: seq<LotRow>, b: seq<LotRow>)
    ensures FigureRows(a + b) == FigureRows(a) + FigureRows(b)
  {
    PickConcat(a, b, HasFigures, FiguresOf);
  }

  /** Replacing a row and the continuation after it by a row with the same
      figures keeps the figure rows. */
  lemma ReplacePairFigures(pre: seq<LotRow>, x: LotRow, y: LotRow, post: seq<LotRow>, m: LotRow)
    requires FiguresOf(m) == FiguresOf(x) && HasFigures(m) == HasFigures(x) && !HasFigures(y)
    ensures FigureRows(pre + [m] + post) == FigureRows(pre + [x, y] + post)
  {
    FigureRowsConcat(pre + [m], post);
    FigureRowsConcat(pre, [m]);
    FigureRowsConcat(pre + [x, y], post);
    FigureRowsConcat(pre, [x, y]);
    assert [x, y][1..] == [y];
    assert FigureRows([y]) == [];
  }

  /** The row list after absorbing row `i + 1` into row `i`. */
  function AbsorbAt(rows: seq<LotRow>, i: nat): (next: seq<LotRow>)
    requires i + 1 < |rows|
    ensures |next| == |rows| - 1
  {
    rows[..i] + [Absorb(rows[i], rows[i + 1])] + rows[i + 2..]
  }

  lemma AbsorbAtSplit(rows: seq<LotRow>, i: nat)
    requires i + 1 < |rows|
    ensures rows == rows[..i] + [rows[i], rows[i + 1]] + rows[i + 2..]
  {
  }

  /** Merging never loses, adds or reorders numeric data: the rows that carry
      a surface, order or coordinate survive with those cells unchanged. */
  lemma {:induction false} MergeKeepsFigures(rows: seq<LotRow>, i: nat)
    ensures FigureRows(MergeFrom(rows, i)) == FigureRows(rows)
    decreases |rows|, |rows| - i
  {
    if i + 1 < |rows| {
      if IsContinuation(rows[i + 1]) {
        var m := Absorb(rows[i], rows[i + 1]);
        AbsorbAtSplit(rows, i);
        ReplacePairFigures(rows[..i], rows[i], rows[i + 1], rows[i + 2..], m);
        MergeKeepsFigures(AbsorbAt(rows, i), i);
      } else {
        MergeKeepsFigures(rows, i + 1);
      }
    }
  }

  /** A row worth emitting: the extractor drops rows with no text and no
      numbers before merging. */
  predicate Substantive(r: LotRow) {
    Present(r.nombre) || Present(r.localidad) || Present(r.departamento) || HasFigures(r)
  }

  predicate AllSubstantive(rows: seq<LotRow>) {
    forall k :: 0 <= k < |rows| ==> Substantive(rows[k])
  }

  /** No row after the first and up to index `upTo` is a continuation. */
  predicate NoContinuations(rows: seq<LotRow>, upTo: nat) {
    forall k :: 1 <= k < |rows| && k <= upTo ==> !IsContinuation(rows[k])
  }

  lemma AbsorbSubstantive(a: LotRow, b: LotRow)
    requires IsContinuation(b)
    ensures Substantive(Absorb(a, b))
  {
  }

  /** Replacing a row and the continuation after it by a substantive row with
      the same figures keeps every row substantive and keeps the rows up to
      the replaced one free of continuations. */
  lemma ReplacePairShape(pre: seq<LotRow>, x: LotRow, y: LotRow, post: seq<LotRow>, m: LotRow)
    requires AllSubstantive(pre + [x, y] + post) && NoContinuations(pre + [x, y] + post, |pre|)
    requires Substantive(m) && HasFigures(m) == HasFigures(x)
    ensures AllSubstantive(pre + [m] + post) && NoContinuations(pre + [m] + post, |pre|)
  {
    var rows := pre + [x, y] + post;
    var next := pre + [m] + post;
    forall k | 0 <= k < |next|
      ensures Substantive(next[k])
    {
      if k < |pre| {
        assert next[k] == rows[k];
      } else if k > |pre| {
        assert next[k] == rows[k + 1];
      }
    }
    forall k | 1 <= k < |next| && k <= |pre|
      ensures !IsContinuation(next[k])
    {
      if k < |pre| {
        assert next[k] == rows[k];
      } else {
        assert rows[k] == x;
      }
    }
  }

  lemma {:induction false} MergeFromShape(rows: seq<LotRow>, i: nat)
    requires AllSubstantive(rows) && NoContinuations(rows, i)
    ensures AllSubstantive(MergeFrom(rows, i))
    ensures NoContinuations(MergeFrom(rows, i), |MergeFrom(rows, i)|)
    decreases |rows|, |rows| - i
  {
    if i + 1 < |rows| {
      if IsContinuation(rows[i + 1]) {
        var m := Absorb(rows[i], rows[i + 1]);
        AbsorbSubstantive(rows[i], rows[i + 1]);
        AbsorbAtSplit(rows, i);
        ReplacePairShape(rows[..i], rows[i], rows[i + 1], rows[i + 2..], m);
        MergeFromShape(AbsorbAt(rows, i), i);
      } else {
        MergeFromShape(rows, i + 1);
      }
    }
  }

  /** When no row from `i + 1` on is a continuation the loop changes nothing. */
  lemma {:induction false} MergeFromSettled(rows: seq<LotRow>, i: nat)
    requires forall k :: i < k < |rows| ==> !IsContinuation(rows[k])
    ensures MergeFrom(rows, i) == rows
    decreases |rows| - i
  {
    if i + 1 < |rows| {
      MergeFromSettled(rows, i + 1);
    }
  }

  /** On rows that all carry text or numbers (as the extractor emits them):
      after merging no row but the first is a continuation, every row still
      carries text or numbers, and merging again changes nothing. */
  lemma MergeSettles(rows: seq<LotRow>)
    requires AllSubstantive(rows)
    ensures var merged := MergeContinuationLines(rows);
      && AllSubstantive(merged)
      && (forall k :: 1 <= k < |merged| ==> !IsContinuation(merged[k]))
      && MergeContinuationLines(merged) == merged
  {
    var merged := MergeContinuationLines(rows);
    MergeFromShape(rows, 0);
    MergeFromSettled(merged, 0);
  }

  /** The example documented with `MergeContinuationLines`: a second line
      carrying "2", "ALDAO" and "JUAREZ" completes "LOTE PRUEBA",
      "CAMILO" and "MARCOS", and disappears. */
  lemma MergeExample(rows: seq<LotRow>)
    requires rows == [
        LotRow(Some("LOTE PRUEBA"), Some(2.3), Some("CAMILO"), Some("MARCOS"), Some(1), Some(-32.4), Some(-62.5)),
        LotRow(Some("2"), None, Some("ALDAO"), Some("JUAREZ"), None, None, None)]
    ensures MergeContinuationLines(rows)
      == [LotRow(Some("LOTE PRUEBA 2"), Some(2.3), Some("CAMILO ALDAO"), Some("MARCOS JUAREZ"), Some(1), Some(-32.4), Some(-62.5))]
  {
    var a := rows[0];
    var b := rows[1];
    NotBlankWitness(b.nombre.value, 0);
    assert IsContinuation(b);
    assert rows == [a, b];
    MergePair(a, b);
    ExampleAbsorb(a, b);
  }

  /** A row followed by its continuation merges into one row. */
  lemma MergePair(a: LotRow, b: LotRow)
    requires IsContinuation(b)
    ensures MergeContinuationLines([a, b]) == [Absorb(a, b)]
  {
    MergeStep([a, b], 0);
    AbsorbPair(a, b);
  }

  lemma AbsorbPair(a: LotRow, b: LotRow)
    ensures AbsorbAt([a, b], 0) == [Absorb(a, b)]
  {
    SpliceFirstPair(a, b, Absorb(a, b));
  }

  /** One step of the loop: a continuation after row `i` is absorbed and
      row `i` is examined again. */
  lemma MergeStep(rows: seq<LotRow>, i: nat)
    requires i + 1 < |rows| && IsContinuation(rows[i + 1])
    ensures MergeFrom(rows, i) == MergeFrom(AbsorbAt(rows, i), i)
  {
  }

  lemma ExampleAbsorb(a: LotRow, b: LotRow)
    requires a.nombre == Some("LOTE PRUEBA") && a.localidad == Some("CAMILO") && a.departamento == Some("MARCOS")
    requires b.nombre == Some("2") && b.localidad == Some("ALDAO") && b.departamento == Some("JUAREZ")
    ensures Absorb(a, b).nombre == Some("LOTE PRUEBA 2")
    ensures Absorb(a, b).localidad == Some("CAMILO ALDAO")
    ensures Absorb(a, b).departamento == Some("MARCOS JUAREZ")
  {
    AbsorbName(a, b);
    AbsorbLocality(a, b);
    AbsorbDepartment(a, b);
  }

  lemma AbsorbName(a: LotRow, b: LotRow)
    requires a.nombre == Some("LOTE PRUEBA") && b.nombre == Some("2")
    ensures Absorb(a, b).nombre == Some("LOTE PRUEBA 2")
  {
    ExampleName(a.nombre.value, b.nombre.value, "LOTE PRUEBA 2");
  }

  lemma AbsorbLocality(a: LotRow, b: LotRow)
    requires a.localidad == Some("CAMILO") && b.localidad == Some("ALDAO")
    ensures Absorb(a, b).localidad == Some("CAMILO ALDAO")
  {
    ExampleLocality(a.localidad.value, b.localidad.value, "CAMILO ALDAO");
  }

  lemma AbsorbDepartment(a: LotRow, b: LotRow)
    requires a.departamento == Some("MARCOS") && b.departamento == Some("JUAREZ")
    ensures Absorb(a, b).departamento == Some("MARCOS JUAREZ")
  {
    ExampleDepartment(a.departamento.value, b.departamento.value, "MARCOS JUAREZ");
  }

  lemma ExampleName(x: string, y: string, z: string)
    requires x == "LOTE PRUEBA" && y == "2" && z == "LOTE PRUEBA 2"
    ensures NullIfEmpty(AppendDedup(Some(x), Some(y))) == Some(z)
  {
    ExampleJoin(x, y, z);
  }

  lemma ExampleLocality(x: string, y: string, z: string)
    requires x == "CAMILO" && y == "ALDAO" && z == "CAMILO ALDAO"
    ensures NullIfEmpty(AppendDedup(Some(x), Some(y))) == Some(z)
  {
    ExampleJoin(x, y, z);
  }

  lemma ExampleDepartment(x: string, y: string, z: string)
    requires x == "MARCOS" && y == "JUAREZ" && z == "MARCOS JUAREZ"
    ensures NullIfEmpty(AppendDedup(Some(x), Some(y))) == Some(z)
  {
    DepartmentWords(x, y, z);
    ExampleJoin(x, y, z);
  }

  lemma DepartmentWords(x: string, y: string, z: string)
    requires x == "MARCOS" && y == "JUAREZ" && z == "MARCOS JUAREZ"
    ensures x != [] && y != [] && Tidy(x) && Tidy(y) && Spaced(x + " " + y)
    ensures UpperChar(x[0]) != UpperChar(y[0]) && ' ' !in x && z == x + " " + y
  {
  }

  lemma ExampleJoin(x: string, y: string, z: string)
    requires x != [] && y != [] && Tidy(x) && Tidy(y) && Spaced(x + " " + y)
    requires UpperChar(x[0]) != UpperChar(y[0])
    requires ' ' !in x || (!IsLetter(y[0]) && y[0] !in x)
    requires z == x + " " + y
    ensures NullIfEmpty(AppendDedup(Some(x), Some(y))) == Some(z)
  {
    AppendExample(x, y);
  }

  /** Appending a word that is not yet present. */
  lemma AppendExample(x: string, y: string)
    requires x != [] && y != [] && Tidy(x) && Tidy(y) && Spaced(x + " " + y)
    requires UpperChar(x[0]) != UpperChar(y[0])
    requires ' ' !in x || (!IsLetter(y[0]) && y[0] !in x)
    ensures NullIfEmpty(AppendDedup(Some(x), Some(y))) == Some(x + " " + y)
  {
    NotDuplicated(x, y);
    AppendJoins(x, y);
    TrimmedAround(x, " ", y);
    NullIfEmptyTidy(x + " " + y);
  }

  /** Two texts that are neither equal nor contained in one another are
      joined with a space. */
  lemma AppendJoins(x: string, y: string)
    requires x != [] && y != [] && IsTrimmed(x) && IsTrimmed(y)
    requires !EqualsCI(x, y) && !Duplicated(x, y)
    ensures AppendDedup(Some(x), Some(y)) == x + " " + y
  {
    TrimOfTrimmed(x);
    TrimOfTrimmed(y);
    JoinedTrim(x, y);
  }

  lemma NullIfEmptyTidy(s: string)
    requires s != [] && Tidy(s)
    ensures NullIfEmpty(s) == Some(s)
  {
    NotBlankWitness(s, 0);
    CollapseOfTidy(s);
  }


  /** Without the guarantee that every row carries text or numbers the merge
      is not idempotent: an empty row absorbs the continuation after it and
      becomes a continuation itself, which a second pass folds further up. */
  lemma MergeNeedsSubstantiveRows(n: LotRow, e: LotRow, c: LotRow)
    requires !Substantive(e) && IsContinuation(c)
    ensures MergeContinuationLines([n, e, c]) == [n, Absorb(e, c)]
    ensures MergeContinuationLines(MergeContinuationLines([n, e, c])) != MergeContinuationLines([n, e, c])
  {
    MergeEmptyRow(n, e, c);
    AbsorbIntoEmpty(e, c);
    MergePair(n, Absorb(e, c));
  }

  lemma MergeEmptyRow(n: LotRow, e: LotRow, c: LotRow)
    requires !Substantive(e) && IsContinuation(c)
    ensures MergeContinuationLines([n, e, c]) == [n, Absorb(e, c)]
  {
    MergeSkip([n, e, c], 0);
    MergeStep([n, e, c], 1);
    AbsorbSecond(n, e, c);
    MergeFromSettled([n, Absorb(e, c)], 1);
  }

  /** An empty row that absorbs a continuation becomes a continuation. */
  lemma AbsorbIntoEmpty(e: LotRow, c: LotRow)
    requires !Substantive(e) && IsContinuation(c)
    ensures IsContinuation(Absorb(e, c))
  {
    AbsorbSubstantive(e, c);
  }

  lemma AbsorbSecond(n: LotRow, e: LotRow, c: LotRow)
    ensures AbsorbAt([n, e, c], 1) == [n, Absorb(e, c)]
  {
    SpliceSecondPair(n, e, c, Absorb(e, c));
  }

  /** One step of the loop: a row that is not a continuation is kept. */
  lemma MergeSkip(rows: seq<LotRow>, i: nat)
    requires i + 1 < |rows| && !IsContinuation(rows[i + 1])
    ensures MergeFrom(rows, i) == MergeFrom(rows, i + 1)
  {
  }
}

=== FILE: lots_extractor.dfy ===
/** `PdfLotsExtractor.ExtractLots`: per page, find the header line of the
    lot table, cut the data words below it into visual rows, read the seven
    cells of each row, drop header echoes and empty rows, stop at the
    "PUNTOS SENSIBLES" section, and merge continuation lines. The first page
    that yields any lot wins. */
module LotsExtractor {
  import opened Wrappers
  import opened Text
  import opened Seqs
  import opened Sorting
  import opened PageWords
  import opened Columns
  import opened VisualRows
  import opened LotRows

  // ---------------------------------------------------------------------
  // Header detection
  // ---------------------------------------------------------------------

  /** The words of the page whose normalised text is a heading. */
  function HeaderWords(words: seq<Word>): (hw: seq<Word>)
    ensures |hw| <= |words|
    ensures forall i :: 0 <= i < |hw| ==> IsHeaderWord(hw[i])
  {
    Filter(words, IsHeaderWord)
  }

  predicate InBand(b: int, w: Word) {
    BandOf(w) == b
  }

  /** The header line: the header words of the busiest band, left to right. */
  function HeaderLine(hw: seq<Word>): (line: seq<Word>)
    requires hw != []
    ensures multiset(line) == multiset(Filter(hw, (w: Word) => InBand(HeaderBand(hw), w)))
    ensures SortedBy(line, LeftEdge)
  {
    SortBySorted(Filter(hw, (w: Word) => InBand(HeaderBand(hw), w)), LeftEdge);
    SortBy(Filter(hw, (w: Word) => InBand(HeaderBand(hw), w)), LeftEdge)
  }

  /** The located table: the band of its header line and the x of each
      heading. */
  datatype Table = Table(band: int, line: seq<Word>, centre: ColumnKey -> real)

  /** `FindX` for every heading of the header line. */
  function Centres(line: seq<Word>): ColumnKey -> real {
    (k: ColumnKey) => FindX(line, Keyword(k))
  }

  /** Step 3 of `ExtractLots`: the table of a header line, unless some
      heading is missing from it (its `FindX` is below zero). */
  function LineTable(band: int, line: seq<Word>): (t: Option<Table>)
    ensures t.Some? ==> t.value.band == band && t.value.line == line
  {
    var c := Centres(line);
    if exists i :: 0 <= i < |AllKeys| && c(AllKeys[i]) < 0.0 then None
    else Some(Table(band, line, c))
  }

  /** Steps 1-3 of `ExtractLots`: a page with fewer than five header words
      has no table; otherwise the header line decides. */
  function DetectTable(words: seq<Word>): (t: Option<Table>)
    ensures t.Some? ==> |HeaderWords(words)| >= 5
  {
    var hw := HeaderWords(words);
    if |hw| < 5 then None
    else LineTable(HeaderBand(hw), HeaderLine(hw))
  }

  /** Every column is listed. */
  lemma KeyListed(k: ColumnKey) returns (i: nat)
    ensures i < |AllKeys| && AllKeys[i] == k
  {
    i := match k
      case Nombre => 0 case Superficie => 1 case Localidad => 2 case Departamento => 3
      case Orden => 4 case Latitud => 5 case Longitud => 6;
  }

  /** A header line missing a heading yields no table. */
  lemma LineTableMissing(band: int, line: seq<Word>, k: ColumnKey)
    requires forall j :: 0 <= j < |line| ==> NormalizeKey(line[j].text) != Keyword(k)
    ensures LineTable(band, line).None?
  {
    assert Centres(line)(k) == -1.0;
    var i := KeyListed(k);
    assert Centres(line)(AllKeys[i]) < 0.0;
  }

  /** A page lacks a table when it has fewer than five header words, or when
      some heading is missing from its header line. */
  lemma DetectTableNone(words: seq<Word>, k: ColumnKey)
    ensures |HeaderWords(words)| < 5 ==> DetectTable(words).None?
    ensures var hw := HeaderWords(words);
      |hw| >= 5 && (forall j :: 0 <= j < |HeaderLine(hw)| ==> NormalizeKey(HeaderLine(hw)[j].text) != Keyword(k))
      ==> DetectTable(words).None?
  {
    var hw := HeaderWords(words);
    if |hw| >= 5 && forall j :: 0 <= j < |HeaderLine(hw)| ==> NormalizeKey(HeaderLine(hw)[j].text) != Keyword(k) {
      LineTableMissing(HeaderBand(hw), HeaderLine(hw), k);
    }
  }

  /** In the table of a header line, each heading's x is the centre of a
      word of the line reading that heading. */
  lemma LineTableFound(band: int, line: seq<Word>, k: ColumnKey) returns (j: nat)
    requires LineTable(band, line).Some?
    ensures j < |line| && NormalizeKey(line[j].text) == Keyword(k)
    ensures CenterX(line[j]) == LineTable(band, line).value.centre(k)
  {
    var i := KeyListed(k);
    var c := Centres(line);
    assert c(AllKeys[i]) >= 0.0;
    j := FoundKeyword(line, Keyword(k), c(k));
  }

  /** A word of the header line is a header word of the header band. */
  lemma HeaderLineFrom(hw: seq<Word>, j: nat)
    requires hw != [] && j < |HeaderLine(hw)|
    ensures HeaderLine(hw)[j] in hw && BandOf(HeaderLine(hw)[j]) == HeaderBand(hw)
  {
    var w := HeaderLine(hw)[j];
    var p := (x: Word) => InBand(HeaderBand(hw), x);
    assert w in multiset(Filter(hw, p));
    var n :| 0 <= n < |Filter(hw, p)| && Filter(hw, p)[n] == w;
    FilterFrom(hw, p, n);
  }

  /** The same for the table of a page's header words. */
  lemma HeaderTableSome(hw: seq<Word>, k: ColumnKey) returns (w: Word)
    requires hw != [] && LineTable(HeaderBand(hw), HeaderLine(hw)).Some?
    ensures var t := LineTable(HeaderBand(hw), HeaderLine(hw)).value;
      && w in t.line && w in hw
      && NormalizeKey(w.text) == Keyword(k)
      && BandOf(w) == t.band
      && CenterX(w) == t.centre(k)
  {
    var j := LineTableFound(HeaderBand(hw), HeaderLine(hw), k);
    w := HeaderLine(hw)[j];
    HeaderLineFrom(hw, j);
  }

  /** A detected table has, for every heading, a word of the page reading
      that heading, in the header band, whose centre is the heading's x. */
  lemma DetectTableSome(words: seq<Word>, k: ColumnKey) returns (w: Word)
    requires DetectTable(words).Some?
    ensures var t := DetectTable(words).value;
      && w in t.line && w in words
      && NormalizeKey(w.text) == Keyword(k)
      && BandOf(w) == t.band
      && CenterX(w) == t.centre(k)
  {
    var hw := HeaderWords(words);
    assert DetectTable(words) == LineTable(HeaderBand(hw), HeaderLine(hw));
    w := HeaderTableSome(hw, k);
    FilterMember(words, IsHeaderWord, w);
  }

  /** A non-negative `FindX` comes from a word reading the heading. */
  lemma FoundKeyword(line: seq<Word>, kw: string, x: real) returns (j: nat)
    requires x == FindX(line, kw) && x >= 0.0
    ensures j < |line| && NormalizeKey(line[j].text) == kw && CenterX(line[j]) == x
  {
    if forall j :: 0 <= j < |line| ==> NormalizeKey(line[j].text) != kw {
      assert false;
    }
    j :| 0 <= j < |line| && NormalizeKey(line[j].text) == kw && x == CenterX(line[j]);
  }

  // ---------------------------------------------------------------------
  // Row processing
  // ---------------------------------------------------------------------

  /** The seven cell texts of a visual row. */
  datatype Cells = Cells(nombre: string, sup: string, loc: string, dept: string,
                         orden: string, lat: string, lon: string)

  /** The cell of column `k`: the row's words centred between the heading
      and the next heading to its right. */
  function CellOf(row: seq<Word>, centre: ColumnKey -> real, k: ColumnKey): string {
    KeyIndexOf(centre, k);
    JoinInRange(row, ColumnSpan(Layout(centre), k))
  }

  function CellsOf(row: seq<Word>, centre: ColumnKey -> real): Cells {
    Cells(CellOf(row, centre, Nombre), CellOf(row, centre, Superficie),
          CellOf(row, centre, Localidad), CellOf(row, centre, Departamento),
          CellOf(row, centre, Orden), CellOf(row, centre, Latitud),
          CellOf(row, centre, Longitud))
  }

  /** The texts of a row's words. */
  function Texts(row: seq<Word>): (ts: seq<string>)
    ensures |ts| == |row|
    ensures forall i :: 0 <= i < |row| ==> ts[i] == row[i].text
  {
    seq(|row|, i requires 0 <= i < |row| => row[i].text)
  }

  /** The row opening the "PUNTOS SENSIBLES" section ends the table. */
  predicate IsStopRow(row: seq<Word>) {
    var all := Upper(Join(Texts(row), " "));
    Contains(all, "PUNTOS") && Contains(all, "SENSIBLES")
  }

  /** `looksLikeHeaderFragment`. The "HAS." / "HAS)" / "HAS(" alternatives
      are kept as written; a normalised key holds letters and digits only,
      so they never match. */
  predicate LooksLikeHeaderFragment(c: Cells) {
    var nNombre := NormalizeKey(c.nombre);
    || nNombre == "HAS" || nNombre == "HAS." || nNombre == "HAS)" || nNombre == "HAS("
    || ContainsCI(c.nombre, "(Has")
    || nNombre == "NOMBRE"
    || NormalizeKey(c.loc) == "LOCALIDAD"
    || NormalizeKey(c.dept) == "DEPARTAMENTO"
    || NormalizeKey(c.orden) == "ORDEN"
    || NormalizeKey(c.lat) == "LATITUD"
    || NormalizeKey(c.lon) == "LONGITUD"
    || NormalizeKey(c.sup) == "HAS"
    || ContainsCI(c.sup, "(Has")
  }

  /** The repeated-header test that follows; every row it catches was
      already caught by `LooksLikeHeaderFragment`. */
  predicate RepeatsHeader(c: Cells) {
    || NormalizeKey(c.nombre) == "NOMBRE" || NormalizeKey(c.loc) == "LOCALIDAD"
    || NormalizeKey(c.dept) == "DEPARTAMENTO"
  }

  /** No text cell of the row echoes its column's heading. */
  predicate NotHeaderEcho(r: LotRow) {
    && (r.nombre.None? || (NormalizeKey(r.nombre.value) != "NOMBRE" && NormalizeKey(r.nombre.value) != "HAS"))
    && (r.localidad.None? || NormalizeKey(r.localidad.value) != "LOCALIDAD")
    && (r.departamento.None? || NormalizeKey(r.departamento.value) != "DEPARTAMENTO")
  }

  /** The lot of one row's cells, or nothing for a header fragment and for a
      row whose cells are all blank or unparsable. */
  function Emit(c: Cells): (r: Option<LotRow>)
    ensures r.Some? ==> Substantive(r.value) && NotHeaderEcho(r.value)
  {
    if LooksLikeHeaderFragment(c) || RepeatsHeader(c) then None
    else
      var sup := ParseDecimalCell(c.sup);
      var orden := ParseIntCell(c.orden);
      var lat := ParseDecimalCell(c.lat);
      var lon := ParseDecimalCell(c.lon);
      if IsBlank(c.nombre) && sup.None? && IsBlank(c.loc) && IsBlank(c.dept)
         && orden.None? && lat.None? && lon.None?
      then None
      else
        PresentNullIfEmpty(c.nombre);
        PresentNullIfEmpty(c.loc);
        PresentNullIfEmpty(c.dept);
        NullIfEmptyKey(c.nombre);
        NullIfEmptyKey(c.loc);
        NullIfEmptyKey(c.dept);
        Some(LotRow(NullIfEmpty(c.nombre), sup, NullIfEmpty(c.loc), NullIfEmpty(c.dept), orden, lat, lon))
  }

  /** A cell turned into an optional text is present exactly when the cell
      is not blank. */
  lemma PresentNullIfEmpty(s: string)
    ensures Present(NullIfEmpty(s)) <==> !IsBlank(s)
  {
    if !IsBlank(s) {
      var v := NullIfEmpty(s).value;
      assert v != [] && IsTrimmed(v);
      assert !IsWhite(v[0]);
    }
  }

  /** Collapsing whitespace keeps the normalised key of a cell. */
  lemma NullIfEmptyKey(s: string)
    ensures NullIfEmpty(s).Some? ==> NormalizeKey(NullIfEmpty(s).value) == NormalizeKey(s)
  {
    NormalizeKeyCollapse(s);
  }

  /** The repeated-header test never fires on its own. */
  lemma RepeatsHeaderSubsumed(c: Cells)
    requires RepeatsHeader(c)
    ensures LooksLikeHeaderFragment(c)
  {
  }

  /** Header fragments and rows with nothing readable are dropped; a row
      with a non-blank name that is no header fragment is kept with that
      name, whitespace collapsed. */
  lemma EmitDrops(c: Cells)
    ensures LooksLikeHeaderFragment(c) ==> Emit(c).None?
    ensures (IsBlank(c.nombre) && IsBlank(c.sup) && IsBlank(c.loc) && IsBlank(c.dept)
             && IsBlank(c.orden) && IsBlank(c.lat) && IsBlank(c.lon)) ==> Emit(c).None?
  {
  }

  lemma EmitKeeps(c: Cells)
    requires !LooksLikeHeaderFragment(c) && !IsBlank(c.nombre)
    ensures Emit(c).Some? && Emit(c).value.nombre == Some(Collapse(c.nombre))
  {
    assert !RepeatsHeader(c);
    assert NullIfEmpty(c.nombre) == Some(Collapse(c.nombre));
  }

  function RowLot(row: seq<Word>, centre: ColumnKey -> real): Option<LotRow> {
    Emit(CellsOf(row, centre))
  }

  /** An emitted lot: it carries text or numbers and echoes no heading. */
  predicate Clean(l: LotRow) {
    Substantive(l) && NotHeaderEcho(l)
  }

  /** The rows' lots in order, up to the first stop row. */
  function ProcessRows(rows: seq<seq<Word>>, centre: ColumnKey -> real): (r: seq<LotRow>)
    ensures |r| <= |rows|
    ensures forall i :: 0 <= i < |r| ==> Clean(r[i])
  {
    PickUntilAll(rows, IsStopRow, (row: seq<Word>) => RowLot(row, centre), Clean);
    PickUntil(rows, IsStopRow, (row: seq<Word>) => RowLot(row, centre))
  }

  /** Nothing at or after a stop row contributes. */
  lemma ProcessRowsStops(rows: seq<seq<Word>>, centre: ColumnKey -> real, k: nat)
    requires k < |rows| && IsStopRow(rows[k])
    ensures ProcessRows(rows, centre) == ProcessRows(rows[..k], centre)
  {
    PickUntilStops(rows, IsStopRow, (row: seq<Word>) => RowLot(row, centre), k);
  }

  /** Before any stop row, every row contributes its own lot, in order. */
  lemma ProcessRowsConcat(a: seq<seq<Word>>, b: seq<seq<Word>>, centre: ColumnKey -> real)
    requires forall i :: 0 <= i < |a| ==> !IsStopRow(a[i])
    ensures ProcessRows(a + b, centre) == ProcessRows(a, centre) + ProcessRows(b, centre)
  {
    PickUntilConcat(a, b, IsStopRow, (row: seq<Word>) => RowLot(row, centre));
  }

  // ---------------------------------------------------------------------
  // Pages and the document
  // ---------------------------------------------------------------------

  /** Words lying more than two bands below the header line. */
  predicate IsDataWord(band: int, w: Word) {
    BandOf(w) < band - 2
  }

  function DataWords(words: seq<Word>, band: int): (d: seq<Word>)
    ensures forall i :: 0 <= i < |d| ==> BandOf(d[i]) < band - 2
  {
    Filter(words, (w: Word) => IsDataWord(band, w))
  }

  /** The header words never reach the data. */
  lemma HeaderNotData(words: seq<Word>, w: Word)
    requires DetectTable(words).Some?
    requires BandOf(w) == DetectTable(words).value.band
    ensures w !in DataWords(words, DetectTable(words).value.band)
  {
  }

  /** The lots read below a detected header line. */
  function TableLots(words: seq<Word>, t: Table): seq<LotRow> {
    var data := DataWords(words, t.band);
    if data == [] then []
    else MergeContinuationLines(ProcessRows(GroupByVisualRows(data, 4.0), t.centre))
  }

  /** The lots of one page. */
  function PageLots(words: seq<Word>): seq<LotRow> {
    match DetectTable(words)
    case None => []
    case Some(t) => TableLots(words, t)
  }

  /** The lots of a table all carry text or numbers, no lot after the first
      is a continuation line, and merging again changes nothing. */
  lemma TableLotsSettled(words: seq<Word>, t: Table)
    ensures var r := TableLots(words, t);
      && AllSubstantive(r)
      && (forall k :: 1 <= k < |r| ==> !IsContinuation(r[k]))
      && MergeContinuationLines(r) == r
  {
    var data := DataWords(words, t.band);
    if data != [] {
      var rows := ProcessRows(GroupByVisualRows(data, 4.0), t.centre);
      assert AllSubstantive(rows);
      MergeSettles(rows);
    }
  }

  /** Merging loses no numbers: the figures of a table's lots are those of
      its rows, in order. */
  lemma TableLotsFigures(words: seq<Word>, t: Table)
    ensures FigureRows(TableLots(words, t)) == FigureRows(ProcessRows(GroupByVisualRows(DataWords(words, t.band), 4.0), t.centre))
  {
    var data := DataWords(words, t.band);
    if data != [] {
      MergeKeepsFigures(ProcessRows(GroupByVisualRows(data, 4.0), t.centre), 0);
    } else {
      VisualRowsSpec(data, 4.0);
      EmptyRows(GroupByVisualRows(data, 4.0));
    }
  }

  /** Non-empty rows have an empty flattened multiset only when there are none. */
  lemma EmptyRows(gs: seq<seq<Word>>)
    requires NonEmptyRows(gs)
    ensures FlatMultiset(gs) == multiset{} <==> gs == []
  {
    if gs != [] {
      FlatMultisetMember(gs, 0, 0);
    }
  }

  /** The same facts for a page. */
  lemma PageLotsSettled(words: seq<Word>)
    ensures var r := PageLots(words);
      && AllSubstantive(r)
      && (forall k :: 1 <= k < |r| ==> !IsContinuation(r[k]))
      && MergeContinuationLines(r) == r
  {
    match DetectTable(words)
    case None =>
    case Some(t) => TableLotsSettled(words, t);
  }

  /** `ExtractLots`: the lots of the first page that has any, else none. */
  function ExtractLots(pages: seq<seq<Word>>): (r: seq<LotRow>)
    ensures r == [] <==> forall p :: 0 <= p < |pages| ==> PageLots(pages[p]) == []
  {
    FirstNonEmpty(pages, PageLots)
  }

  /** A non-empty result is the lots of one page, and every earlier page
      yielded nothing. */
  lemma ExtractLotsFirst(pages: seq<seq<Word>>) returns (p: nat)
    requires ExtractLots(pages) != []
    ensures p < |pages| && ExtractLots(pages) == PageLots(pages[p])
    ensures forall q :: 0 <= q < p ==> PageLots(pages[q]) == []
  {
    p := FirstNonEmptyAt(pages, PageLots);
  }
}

=== FILE: municipalities.dfy ===
/** `MunicipalityService`'s record keeping: the coordinate check shared by
    creation, update and the nearby search, and the partial update of a
    municipality. The clock (`DateTime.UtcNow`) is the parameter `now`. */
module Municipalities {
  import opened Wrappers
  import opened Text
  import opened ServiceErrors

  /** A point in time, as the services stamp it. */
  type Instant = int

  /** `Municipality`, with its audit fields. Coordinates are `decimal`s,
      modelled exactly. */
  datatype Municipality = Municipality(
    name: string,
    province: Option<string>,
    department: Option<string>,
    latitude: Option<real>,
    longitude: Option<real>,
    userId: Option<int>,
    createdAt: Instant,
    createdByUserId: Option<int>,
    updatedAt: Option<Instant>,
    updatedByUserId: Option<int>)

  /** A latitude that is absent or within `[-90, 90]`. */
  predicate LatitudeOk(lat: Option<real>) {
    lat.None? || -90.0 <= lat.value <= 90.0
  }

  /** A longitude that is absent or within `[-180, 180]`. */
  predicate LongitudeOk(lng: Option<real>) {
    lng.None? || -180.0 <= lng.value <= 180.0
  }

  /** `ValidateCoords`: the latitude is checked first, then the longitude;
      `None` means the check passes. */
  function ValidateCoords(lat: Option<real>, lng: Option<real>): (r: Option<Failure>)
    ensures r.None? <==> LatitudeOk(lat) && LongitudeOk(lng)
    ensures r == Some(InvalidLatitude) <==> !LatitudeOk(lat)
    ensures r == Some(InvalidLongitude) <==> LatitudeOk(lat) && !LongitudeOk(lng)
  {
    if lat.Some? && (lat.value < -90.0 || lat.value > 90.0) then Some(InvalidLatitude)
    else if lng.Some? && (lng.value < -180.0 || lng.value > 180.0) then Some(InvalidLongitude)
    else None
  }

  /** The bounds are inclusive: the poles and the antimeridian pass. */
  lemma CoordsBoundsInclusive()
    ensures ValidateCoords(Some(-90.0), Some(180.0)).None?
    ensures ValidateCoords(Some(90.0), Some(-180.0)).None?
    ensures ValidateCoords(Some(90.5), None) == Some(InvalidLatitude)
    ensures ValidateCoords(None, Some(-180.5)) == Some(InvalidLongitude)
  {
  }

  /** `UpdateMunicipalityRequest`: every field optional. */
  datatype UpdateRequest = UpdateRequest(
    name: Option<string>,
    province: Option<string>,
    department: Option<string>,
    latitude: Option<real>,
    longitude: Option<real>,
    userId: Option<int>)

  /** A supplied text replaces the old one, trimmed; an absent one keeps it. */
  function Overwrite(current: string, given: Option<string>): (r: string)
    ensures given.None? ==> r == current
    ensures given.Some? ==> r == Trim(given.value)
  {
    match given
    case None => current
    case Some(v) => Trim(v)
  }

  /** The same for a nullable text field. */
  function OverwriteOpt(current: Option<string>, given: Option<string>): (r: Option<string>)
    ensures given.None? ==> r == current
    ensures given.Some? ==> r == Some(Trim(given.value))
  {
    match given
    case None => current
    case Some(v) => Some(Trim(v))
  }

  /** A supplied value replaces the old one; an absent one keeps it. */
  function OverwriteWith<T>(current: Option<T>, given: Option<T>): (r: Option<T>)
    ensures given.None? ==> r == current
    ensures given.Some? ==> r == given
  {
    if given.Some? then given else current
  }

  /** The fields of `m` a request may change are changed as the request
      says and the creation fields are kept. */
  predicate UpdatedAs(m: Municipality, req: UpdateRequest, m': Municipality) {
    && (if req.name.Some? then m'.name == Trim(req.name.value) else m'.name == m.name)
    && (if req.province.Some? then m'.province == Some(Trim(req.province.value)) else m'.province == m.province)
    && (if req.department.Some? then m'.department == Some(Trim(req.department.value)) else m'.department == m.department)
    && (if req.latitude.Some? then m'.latitude == req.latitude else m'.latitude == m.latitude)
    && (if req.longitude.Some? then m'.longitude == req.longitude else m'.longitude == m.longitude)
    && (if req.userId.Some? then m'.userId == req.userId else m'.userId == m.userId)
    && m'.createdAt == m.createdAt && m'.createdByUserId == m.createdByUserId
  }

  /** The changed record. */
  function Apply(m: Municipality, req: UpdateRequest, userId: int, now: Instant): (m': Municipality)
    ensures UpdatedAs(m, req, m')
    ensures m'.updatedAt == Some(now) && m'.updatedByUserId == Some(userId)
  {
    m.(name := Overwrite(m.name, req.name),
       province := OverwriteOpt(m.province, req.province),
       department := OverwriteOpt(m.department, req.department),
       latitude := OverwriteWith(m.latitude, req.latitude),
       longitude := OverwriteWith(m.longitude, req.longitude),
       userId := OverwriteWith(m.userId, req.userId),
       updatedAt := Some(now),
       updatedByUserId := Some(userId))
  }

  /** `UpdateAsync`: an unknown id fails, then coordinates out of range
      fail; otherwise only the supplied fields are overwritten and the
      record is stamped. No other municipality changes. */
  function Update(ms: map<int, Municipality>, id: int, req: UpdateRequest, userId: int, now: Instant): (r: Result<map<int, Municipality>, Failure>)
    ensures id !in ms ==> r == Err(MunicipalityNotFound)
    ensures id in ms ==> (r.Ok? <==> LatitudeOk(req.latitude) && LongitudeOk(req.longitude))
    ensures r.Ok? ==> r.value.Keys == ms.Keys && UpdatedAs(ms[id], req, r.value[id])
    ensures r.Ok? ==> r.value[id].updatedAt == Some(now) && r.value[id].updatedByUserId == Some(userId)
    ensures r.Ok? ==> forall k :: k in ms && k != id ==> r.value[k] == ms[k]
  {
    if id !in ms then Err(MunicipalityNotFound)
    else
      match ValidateCoords(req.latitude, req.longitude)
      case Some(f) => Err(f)
      case None => Ok(ms[id := Apply(ms[id], req, userId, now)])
  }

  /** Applying the same request twice is applying it once. */
  lemma UpdateIdempotent(ms: map<int, Municipality>, id: int, req: UpdateRequest, userId: int, now: Instant)
    requires Update(ms, id, req, userId, now).Ok?
    ensures Update(Update(ms, id, req, userId, now).value, id, req, userId, now) == Update(ms, id, req, userId, now)
  {
    var m1 := Update(ms, id, req, userId, now).value;
    var a := m1[id];
    var b := Apply(a, req, userId, now);
    if req.name.Some? {
      TrimIdempotent(req.name.value);
    }
    if req.province.Some? {
      TrimIdempotent(req.province.value);
    }
    if req.department.Some? {
      TrimIdempotent(req.department.value);
    }
    assert b == a;
    assert m1[id := b] == m1;
  }

  /** A request that supplies nothing only stamps the record. */
  lemma UpdateNothing(ms: map<int, Municipality>, id: int, userId: int, now: Instant)
    requires id in ms
    ensures Update(ms, id, UpdateRequest(None, None, None, None, None, None), userId, now)
         == Ok(ms[id := ms[id].(updatedAt := Some(now), updatedByUserId := Some(userId))])
  {
  }
}

=== FILE: name_selection.dfy ===
/** `ExtractNameBeforeAnchor`: the requester's or advisor's name is one of
    the "Nombre / Razón social:" captures before an anchor (the tax-id or
    licence label). The two regular expressions are parameters: `anchorAt`
    gives the index of the anchor match, `candidates` the `name` captures of
    the candidate pattern in order. The choice among the captures is
    modelled exactly. */
module NameSelection {
  import opened Wrappers
  import opened Text
  import opened Seqs
  import opened RecipeText

  /** The preferred keywords for the requester, in order of preference. */
  const RequesterKeywords: seq<string> := [
    "MUNICIPALIDAD", "COMUNA", "MINISTERIO", "SECRETAR", "COOPERATIVA", "S.A", "S.R.L"
  ]

  /** For each keyword in turn, the first candidate containing it (ignoring
      case); the first keyword with such a candidate decides. */
  function PreferredIndex(ms: seq<string>, kws: seq<string>): (r: Option<nat>)
    ensures r.Some? ==> r.value < |ms|
    decreases |kws|
  {
    if kws == [] then None
    else
      var i := FirstIndex(ms, m => ContainsCI(m, kws[0]));
      if i >= 0 then Some(i) else PreferredIndex(ms, kws[1..])
  }

  /** A preferred candidate contains some keyword `j`, no earlier candidate
      contains that keyword, and no candidate contains an earlier keyword. */
  lemma {:induction false} PreferredIndexSome(ms: seq<string>, kws: seq<string>) returns (j: nat)
    requires PreferredIndex(ms, kws).Some?
    ensures var i := PreferredIndex(ms, kws).value;
      && j < |kws| && ContainsCI(ms[i], kws[j])
      && (forall k :: 0 <= k < i ==> !ContainsCI(ms[k], kws[j]))
      && (forall k, l :: 0 <= k < |ms| && 0 <= l < j ==> !ContainsCI(ms[k], kws[l]))
    decreases |kws|
  {
    var i := FirstIndex(ms, m => ContainsCI(m, kws[0]));
    if i >= 0 {
      j := 0;
    } else {
      var j' := PreferredIndexSome(ms, kws[1..]);
      j := j' + 1;
      forall k, l | 0 <= k < |ms| && 0 <= l < j
        ensures !ContainsCI(ms[k], kws[l])
      {
        if l > 0 {
          assert kws[l] == kws[1..][l - 1];
        }
      }
    }
  }

  /** No preference exactly when no candidate contains any keyword. */
  lemma {:induction false} PreferredIndexNone(ms: seq<string>, kws: seq<string>)
    ensures PreferredIndex(ms, kws).None? <==>
      forall k, l :: 0 <= k < |ms| && 0 <= l < |kws| ==> !ContainsCI(ms[k], kws[l])
    decreases |kws|
  {
    if kws != [] {
      PreferredIndexNone(ms, kws[1..]);
      var i := FirstIndex(ms, m => ContainsCI(m, kws[0]));
      if i < 0 {
        forall k, l | 0 <= k < |ms| && 1 <= l < |kws|
          ensures ContainsCI(ms[k], kws[l]) == ContainsCI(ms[k], kws[1..][l - 1])
        {
        }
      }
    }
  }

  /** The candidate chosen: the preferred one if any, else the first or the
      last one as `takeLast` says. */
  function Choose(ms: seq<string>, takeLast: bool, kws: seq<string>): (r: string)
    requires ms != []
    ensures r in ms
  {
    match PreferredIndex(ms, kws)
    case Some(i) => ms[i]
    case None => if takeLast then ms[|ms| - 1] else ms[0]
  }

  /** The earliest keyword that some candidate contains wins, and the first
      candidate containing it is the one returned. */
  lemma KeywordWins(ms: seq<string>, takeLast: bool, kws: seq<string>, i: nat, j: nat)
    requires i < |ms| && j < |kws| && ContainsCI(ms[i], kws[j])
    requires forall k :: 0 <= k < i ==> !ContainsCI(ms[k], kws[j])
    requires forall k, l :: 0 <= k < |ms| && 0 <= l < j ==> !ContainsCI(ms[k], kws[l])
    ensures Choose(ms, takeLast, kws) == ms[i]
  {
    PreferredIndexNone(ms, kws);
    var i' := PreferredIndex(ms, kws).value;
    var j' := PreferredIndexSome(ms, kws);
    assert j' == j;
    assert i' == i;
  }

  /** When no candidate contains a keyword, the flag decides. */
  lemma NoKeywordFallsBack(ms: seq<string>, takeLast: bool, kws: seq<string>)
    requires ms != []
    requires forall k, l :: 0 <= k < |ms| && 0 <= l < |kws| ==> !ContainsCI(ms[k], kws[l])
    ensures Choose(ms, takeLast, kws) == if takeLast then ms[|ms| - 1] else ms[0]
  {
    PreferredIndexNone(ms, kws);
  }

  /** `ExtractNameBeforeAnchor`: "" for blank text, a missing anchor or no
      candidate before the anchor; otherwise the cleaned-up chosen
      candidate. A match index never lies beyond the text; `Before` keeps
      the model total for an engine that claims otherwise. */
  function ExtractNameBeforeAnchor(
    text: string, anchorAt: string -> Option<nat>, candidates: string -> seq<string>,
    takeLast: bool, kws: seq<string>): (r: string)
    ensures IsBlank(text) || anchorAt(text).None? ==> r == []
    ensures !IsBlank(text) && anchorAt(text).Some? && candidates(Before(text, anchorAt(text).value)) == [] ==> r == []
    ensures Tidy(r)
  {
    if IsBlank(text) then []
    else
      match anchorAt(text)
      case None => []
      case Some(a) =>
        var ms := candidates(Before(text, a));
        if ms == [] then [] else CleanupName(Choose(ms, takeLast, kws))
  }

  /** `text.Substring(0, index)`. */
  function Before(text: string, index: nat): (r: string)
    ensures index <= |text| ==> r == text[..index]
  {
    if index <= |text| then text[..index] else text
  }

  /** The chosen name, when there is one, is a candidate from before the
      anchor, cleaned up. */
  lemma ExtractNameChosen(
    text: string, anchorAt: string -> Option<nat>, candidates: string -> seq<string>,
    takeLast: bool, kws: seq<string>) returns (m: string)
    requires !IsBlank(text) && anchorAt(text).Some?
    requires candidates(Before(text, anchorAt(text).value)) != []
    ensures m in candidates(Before(text, anchorAt(text).value))
    ensures ExtractNameBeforeAnchor(text, anchorAt, candidates, takeLast, kws) == CleanupName(m)
  {
    m := Choose(candidates(Before(text, anchorAt(text).value)), takeLast, kws);
  }
}

=== FILE: numbers.dfy ===
/** Numeric helpers: `Math.Round` (round half to even), 32-bit integer
    arithmetic, and the textual number grammars accepted by `int.TryParse`
    and `decimal.TryParse` under the invariant culture. Decimal values are
    modelled as exact rationals (`real`). */
module Numbers {
  import opened Wrappers
  import opened Text

  const Int32Min: int := -0x8000_0000
  const Int32Max: int := 0x7FFF_FFFF

  predicate IsInt32(x: int) {
    Int32Min <= x <= Int32Max
  }

  /** Two's-complement wrap-around of C#'s unchecked `int` arithmetic. */
  function Wrap32(x: int): (r: int)
    ensures IsInt32(r)
    ensures (r - x) % 0x1_0000_0000 == 0
    ensures IsInt32(x) ==> r == x
  {
    (x - Int32Min) % 0x1_0000_0000 + Int32Min
  }

  /** `Math.Round(x)`: nearest integer, ties to the even neighbour. */
  function RoundHalfEven(x: real): (r: int)
    ensures x - 0.5 <= r as real <= x + 0.5
    ensures r as real - x == 0.5 || x - r as real == 0.5 ==> r % 2 == 0
  {
    var f := x.Floor;
    var d := x - f as real;
    if d < 0.5 then f
    else if d > 0.5 then f + 1
    else if f % 2 == 0 then f else f + 1
  }

  /** Value of a string of decimal digits. */
  function DigitsValue(s: string): (v: nat)
    requires forall i :: 0 <= i < |s| ==> IsDigit(s[i])
  {
    if s == [] then 0
    else
      assert IsDigit(s[|s| - 1]);
      DigitsValue(s[..|s| - 1]) * 10 + (s[|s| - 1] as int - '0' as int)
  }

  predicate AllDigits(s: string) {
    forall i :: 0 <= i < |s| ==> IsDigit(s[i])
  }

  /** The value of the digits after a decimal point: `0.d1d2...dn`. */
  function FractionValue(fp: string): (v: real)
    requires AllDigits(fp)
    ensures 0.0 <= v <= 1.0
  {
    FractionFrom(fp, 0)
  }

  /** The value of the digits of `fp` from `k` on, read as a fraction. */
  function FractionFrom(fp: string, k: nat): (v: real)
    requires AllDigits(fp) && k <= |fp|
    ensures 0.0 <= v <= 1.0
    decreases |fp| - k
  {
    if k == |fp| then 0.0
    else
      assert IsDigit(fp[k]);
      ((fp[k] as int - '0' as int) as real + FractionFrom(fp, k + 1)) / 10.0
  }

  /** The decimal text of a natural number, as `ToString()` prints it. */
  function FormatNat(n: nat): (s: string)
    ensures s != [] && AllDigits(s)
  {
    if n < 10 then [('0' as int + n) as char]
    else FormatNat(n / 10) + [('0' as int + n % 10) as char]
  }

  lemma {:induction false} FormatNatValue(n: nat)
    ensures DigitsValue(FormatNat(n)) == n
  {
    var s := FormatNat(n);
    if n >= 10 {
      FormatNatValue(n / 10);
      assert s[..|s| - 1] == FormatNat(n / 10);
    }
  }

  predicate IsSign(c: char) {
    c == '-' || c == '+'
  }

  /** The index of the first decimal point of `b`, or -1. */
  function DotIndex(b: string): (i: int)
    ensures -1 <= i < |b|
    ensures i >= 0 ==> b[i] == '.'
  {
    DotFrom(b, 0)
  }

  /** The index of the first decimal point of `b` at or after `k`, or -1. */
  function DotFrom(b: string, k: nat): (i: int)
    requires k <= |b|
    ensures i == -1 || k <= i < |b|
    ensures i >= 0 ==> b[i] == '.'
    decreases |b| - k
  {
    if k == |b| then -1
    else if b[k] == '.' then k
    else DotFrom(b, k + 1)
  }

  /** Digits with at most one decimal point and at least one digit. */
  function DecimalBody(b: string): (r: Option<real>)
    ensures r.Some? ==> r.value >= 0.0
  {
    var i := DotIndex(b);
    if i < 0 then
      if b != [] && AllDigits(b) then Some(DigitsValue(b) as real) else None
    else
      var ip := b[..i];
      var fp := b[i + 1..];
      if AllDigits(ip) && AllDigits(fp) && |ip| + |fp| > 0 then
        Some(DigitsValue(ip) as real + FractionValue(fp))
      else None
  }

  /** The white space .NET's number reader skips: the space and the
      characters from tab to carriage return. */
  predicate IsNumberWhite(c: char) {
    c == ' ' || '\t' <= c <= '\r'
  }

  /** The end of `s[..n]` once its trailing number white space is
      dropped. */
  function WhiteEnd(s: string, n: nat): (e: nat)
    requires n <= |s|
    ensures e <= n
    ensures e == 0 || !IsNumberWhite(s[e - 1])
  {
    if n > 0 && IsNumberWhite(s[n - 1]) then WhiteEnd(s, n - 1) else n
  }

  /** White space running from `d` to `n`, after a character that is not
      white space, is all dropped. */
  lemma {:induction false} WhiteEndAt(s: string, d: nat, n: nat)
    requires 0 < d <= n <= |s| && !IsNumberWhite(s[d - 1])
    requires forall i :: d <= i < n ==> IsNumberWhite(s[i])
    ensures WhiteEnd(s, n) == d
    decreases n
  {
    if n > d {
      WhiteEndAt(s, d, n - 1);
    }
  }

  /** The first index at or after `k` that is not number white space, or
      `|s|`. */
  function WhiteStart(s: string, k: nat): (i: nat)
    requires k <= |s|
    ensures k <= i <= |s|
    ensures i == |s| || !IsNumberWhite(s[i])
    decreases |s| - k
  {
    if k < |s| && IsNumberWhite(s[k]) then WhiteStart(s, k + 1) else k
  }

  /** What the number reader looks at: the text without the number white
      space around it. */
  function NumberTrim(s: string): (t: string)
    ensures |t| <= |s|
  {
    var i := WhiteStart(s, 0);
    var j := WhiteEnd(s, |s|);
    if i < j then s[i..j] else []
  }

  /** `WhiteStart` skips only white space. */
  lemma {:induction false} WhiteStartSkips(s: string, k: nat)
    requires k <= |s|
    ensures forall m :: k <= m < WhiteStart(s, k) ==> IsNumberWhite(s[m])
    decreases |s| - k
  {
    if k < |s| && IsNumberWhite(s[k]) {
      WhiteStartSkips(s, k + 1);
    }
  }

  /** `WhiteEnd` drops only white space. */
  lemma {:induction false} WhiteEndSkips(s: string, n: nat)
    requires n <= |s|
    ensures forall m :: WhiteEnd(s, n) <= m < n ==> IsNumberWhite(s[m])
    decreases n
  {
    if n > 0 && IsNumberWhite(s[n - 1]) {
      WhiteEndSkips(s, n - 1);
    }
  }

  /** The number trim is the infix at `i` between runs of number white
      space, and it neither starts nor ends with white space. */
  lemma NumberTrimShape(s: string) returns (i: nat)
    ensures i + |NumberTrim(s)| <= |s| && NumberTrim(s) == s[i..i + |NumberTrim(s)|]
    ensures forall m :: 0 <= m < i ==> IsNumberWhite(s[m])
    ensures forall m :: i + |NumberTrim(s)| <= m < |s| ==> IsNumberWhite(s[m])
    ensures NumberTrim(s) != [] ==> !IsNumberWhite(NumberTrim(s)[0])
    ensures NumberTrim(s) != [] ==> !IsNumberWhite(NumberTrim(s)[|NumberTrim(s)| - 1])
  {
    var a := WhiteStart(s, 0);
    var b := WhiteEnd(s, |s|);
    WhiteStartSkips(s, 0);
    WhiteEndSkips(s, |s|);
    if a < b {
      i := a;
    } else {
      i := b;
    }
  }

  /** Text that neither starts nor ends with number white space is read
      whole. */
  lemma NumberTrimOf(s: string)
    requires s != [] && !IsNumberWhite(s[0]) && !IsNumberWhite(s[|s| - 1])
    ensures NumberTrim(s) == s
  {
    assert WhiteStart(s, 0) == 0;
    assert WhiteEnd(s, |s|) == |s|;
    assert s[0..|s|] == s;
  }

  /** The number text without its sign: the body starts at `start`. */
  datatype Signed = Signed(negative: bool, start: nat, body: string)

  /** One optional sign, written before or after the number; text with a
      sign at both ends is rejected. White space may separate the number
      from a trailing sign, but not a leading sign from the number (the
      invariant culture's negative pattern is `-n`). */
  function SplitSign(t: string): (r: Option<Signed>)
    requires t != []
    ensures r.Some? ==> r.value.start + |r.value.body| <= |t|
    ensures r.Some? ==> r.value.body == t[r.value.start..r.value.start + |r.value.body|]
  {
    var lead := IsSign(t[0]);
    var b0 := if lead then t[1..] else t;
    var trail := b0 != [] && IsSign(b0[|b0| - 1]);
    if lead && trail then None
    else
      var b := if trail then b0[..WhiteEnd(b0, |b0| - 1)] else b0;
      var negative := (lead && t[0] == '-') || (trail && b0[|b0| - 1] == '-');
      Some(Signed(negative, if lead then 1 else 0, b))
  }

  /** `decimal.TryParse` with `NumberStyles.Number` (or `Any`, on text
      without currency symbols, parentheses or exponents) under the invariant
      culture, for text without thousands separators: optional surrounding
      number white space, one optional sign written before or after the
      number. */
  function ParseDecimal(s: string): (r: Option<real>)
  {
    var t := NumberTrim(s);
    if t == [] then None
    else match SplitSign(t)
      case None => None
      case Some(sg) =>
        match DecimalBody(sg.body)
        case None => None
        case Some(v) => Some(if sg.negative then -v else v)
  }

  /** A successful parse saw at least one digit: the index of one. */
  lemma ParseDecimalDigitAt(s: string) returns (i: nat)
    requires ParseDecimal(s).Some?
    ensures i < |s| && IsDigit(s[i])
  {
    var t, off, sg := ParseDecimalSome(s);
    var j := BodyDigitAt(sg.body);
    i := off + sg.start + j;
    assert sg.body[j] == t[sg.start + j];
    assert t[sg.start + j] == s[i];
  }

  /** What a successful parse read: the trimmed text `t`, found at `off`,
      and its number body `sg`, which the body reader accepts. */
  lemma ParseDecimalSome(s: string) returns (t: string, off: nat, sg: Signed)
    requires ParseDecimal(s).Some?
    ensures off + |t| <= |s| && t == s[off..off + |t|]
    ensures sg.start + |sg.body| <= |t| && sg.body == t[sg.start..sg.start + |sg.body|]
    ensures DecimalBody(sg.body).Some?
  {
    t := NumberTrim(s);
    off := WhiteStart(s, 0);
    sg := SplitSign(t).value;
  }

  /** A blank text (`string.IsNullOrWhiteSpace`) never parses. */
  lemma ParseDecimalBlank(s: string)
    requires IsBlank(s)
    ensures ParseDecimal(s) == None
  {
    ParseDecimalHasDigit(s);
  }

  lemma ParseDecimalHasDigit(s: string)
    ensures ParseDecimal(s).Some? ==> exists i :: 0 <= i < |s| && IsDigit(s[i])
  {
    if ParseDecimal(s).Some? {
      var i := ParseDecimalDigitAt(s);
    }
  }

  /** An accepted number body holds a digit: the index of one. */
  lemma BodyDigitAt(b: string) returns (j: nat)
    requires DecimalBody(b).Some?
    ensures j < |b| && IsDigit(b[j])
  {
    var i := DotIndex(b);
    if i < 0 || |b[..i]| > 0 {
      j := 0;
    } else {
      j := i + 1;
    }
  }

  /** A string of digits has no decimal point. */
  lemma NoDotInDigits(s: string)
    requires AllDigits(s)
    ensures DotIndex(s) == -1
  {
    NoDotFrom(s, 0);
  }

  lemma {:induction false} NoDotFrom(s: string, k: nat)
    requires AllDigits(s) && k <= |s|
    ensures DotFrom(s, k) == -1
    decreases |s| - k
  {
    if k < |s| {
      assert IsDigit(s[k]);
      NoDotFrom(s, k + 1);
    }
  }

  lemma ParseDecimalDigits(s: string)
    requires s != [] && AllDigits(s)
    ensures ParseDecimal(s) == Some(DigitsValue(s) as real)
  {
    DigitsTrimmed(s);
    SplitSignDigits(s);
    DecimalBodyDigits(s);
  }

  /** A trailing sign may stand apart from the digits: `"5 -"` reads -5. */
  lemma ParseDecimalSignAfterWhite(d: string, w: string)
    requires d != [] && AllDigits(d)
    requires forall i :: 0 <= i < |w| ==> IsNumberWhite(w[i])
    ensures ParseDecimal(d + w + "-") == Some(-(DigitsValue(d) as real))
  {
    var s := d + w + "-";
    assert IsDigit(d[0]);
    assert s[0] == d[0] && s[|s| - 1] == '-';
    NumberTrimOf(s);
    SplitSignTrailing(d, w);
    DecimalBodyDigits(d);
    ParseDecimalOf(s, Signed(true, 0, d), DigitsValue(d) as real);
  }

  /** The parse of a text, from what its trimmed form splits into. */
  lemma ParseDecimalOf(s: string, sg: Signed, v: real)
    requires NumberTrim(s) != [] && SplitSign(NumberTrim(s)) == Some(sg)
    requires DecimalBody(sg.body) == Some(v)
    ensures ParseDecimal(s) == Some(if sg.negative then -v else v)
  {
  }

  lemma SplitSignTrailing(d: string, w: string)
    requires d != [] && AllDigits(d)
    requires forall i :: 0 <= i < |w| ==> IsNumberWhite(w[i])
    ensures SplitSign(d + w + "-") == Some(Signed(true, 0, d))
  {
    var s := d + w + "-";
    assert IsDigit(d[0]) && IsDigit(d[|d| - 1]);
    assert s[0] == d[0] && s[|s| - 1] == '-' && s[|d| - 1] == d[|d| - 1];
    forall i | |d| <= i < |s| - 1
      ensures IsNumberWhite(s[i])
    {
      assert s[i] == w[i - |d|];
    }
    TrailingMinusAt(s, |d|);
    assert s[..|d|] == d;
  }

  /** A text with no leading sign, ending in `-` after white space that
      starts at `n`, is the negated text before `n`. */
  lemma TrailingMinusAt(s: string, n: nat)
    requires 0 < n < |s| && !IsSign(s[0]) && s[|s| - 1] == '-'
    requires !IsNumberWhite(s[n - 1])
    requires forall i :: n <= i < |s| - 1 ==> IsNumberWhite(s[i])
    ensures SplitSign(s) == Some(Signed(true, 0, s[..n]))
  {
    WhiteEndAt(s, n, |s| - 1);
  }

  lemma DigitsTrimmed(s: string)
    requires s != [] && AllDigits(s)
    ensures NumberTrim(s) == s
  {
    assert IsDigit(s[0]) && IsDigit(s[|s| - 1]);
    NumberTrimOf(s);
  }

  lemma SplitSignDigits(s: string)
    requires s != [] && AllDigits(s)
    ensures SplitSign(s) == Some(Signed(false, 0, s))
  {
    assert IsDigit(s[0]) && IsDigit(s[|s| - 1]);
  }

  lemma DecimalBodyDigits(s: string)
    requires s != [] && AllDigits(s)
    ensures DecimalBody(s) == Some(DigitsValue(s) as real)
  {
    NoDotInDigits(s);
  }

  /** Printing a natural number and parsing it back gives the number. */
  lemma ParseDecimalFormat(n: nat)
    ensures ParseDecimal(FormatNat(n)) == Some(n as real)
  {
    ParseDecimalDigits(FormatNat(n));
    FormatNatValue(n);
  }

  /** `int.TryParse` (`NumberStyles.Integer`): optional surrounding number white space,
      an optional leading sign and at least one digit; values outside the
      32-bit range are rejected. */
  function ParseInt32(s: string): (r: Option<int>)
    ensures r.Some? ==> IsInt32(r.value)
  {
    var t := NumberTrim(s);
    if t == [] then None
    else
      var b := if IsSign(t[0]) then t[1..] else t;
      if b == [] || !AllDigits(b) then None
      else
        var d: int := DigitsValue(b);
        var v := if t[0] == '-' then -d else d;
        if IsInt32(v) then Some(v) else None
  }

  lemma ParseInt32Format(n: nat)
    requires n <= Int32Max
    ensures ParseInt32(FormatNat(n)) == Some(n)
  {
    var s := FormatNat(n);
    DigitsTrimmed(s);
    assert IsDigit(s[0]);
    FormatNatValue(n);
  }

  /** A successful integer parse saw a digit: the index of one. */
  lemma ParseInt32DigitAt(s: string) returns (i: nat)
    requires ParseInt32(s).Some?
    ensures i < |s| && IsDigit(s[i])
  {
    var t := NumberTrim(s);
    var off := WhiteStart(s, 0);
    var k := if IsSign(t[0]) then 1 else 0;
    assert IsDigit(t[k]);
    i := off + k;
    assert t[k] == s[off + k];
  }

  /** A blank text never parses as an integer. */
  lemma ParseInt32Blank(s: string)
    requires IsBlank(s)
    ensures ParseInt32(s) == None
  {
    ParseInt32HasDigit(s);
  }

  lemma ParseInt32HasDigit(s: string)
    ensures ParseInt32(s).Some? ==> exists i :: 0 <= i < |s| && IsDigit(s[i])
  {
    if ParseInt32(s).Some? {
      var i := ParseInt32DigitAt(s);
    }
  }
}

=== FILE: page_words.dfy ===
/** The words of one PDF page and the detection of the lot table's header:
    keyword normalisation, the horizontal bands used to find the header line,
    and the x position of each column heading
    (`PdfLotsExtractor.Normalize`, `BandY`, `FindX` and steps 1-3 of
    `ExtractLots`). */
module PageWords {
  import opened Text
  import opened Numbers
  import opened Seqs

  /** A word as the PDF text layer reports it: its text and the left, right
      and bottom edges of its bounding box (y grows upwards). */
  datatype Word = Word(text: string, left: real, right: real, bottom: real)

  /** The horizontal centre of a word's box. */
  function CenterX(w: Word): real {
    (w.left + w.right) / 2.0
  }

  /** Sort key of `OrderBy(w => w.BoundingBox.Left)`. */
  function LeftEdge(w: Word): real {
    w.left
  }

  /** Upper-cased letters and digits of `s`, in order. */
  function LettersAndDigits(s: string): (r: string)
    ensures |r| <= |s|
    ensures forall i :: 0 <= i < |r| ==> IsLetterOrDigit(r[i]) && !IsLowerLetter(r[i])
  {
    if s == [] then []
    else (if IsLetterOrDigit(s[0]) then [UpperChar(s[0])] else []) + LettersAndDigits(s[1..])
  }

  /** `Normalize`: `s.Trim().ToUpperInvariant()` keeping only letters and
      digits. Upper-casing a character keeps its letter/digit class, so
      filtering before or after upper-casing is the same. */
  function NormalizeKey(s: string): (r: string)
    ensures |r| <= |s|
    ensures forall i :: 0 <= i < |r| ==> IsLetterOrDigit(r[i]) && !IsLowerLetter(r[i])
  {
    LettersAndDigits(Trim(s))
  }

  lemma {:induction false} LettersAndDigitsConcat(a: string, b: string)
    ensures LettersAndDigits(a + b) == LettersAndDigits(a) + LettersAndDigits(b)
    decreases |a|
  {
    if a != [] {
      assert (a + b)[0] == a[0];
      assert (a + b)[1..] == a[1..] + b;
      LettersAndDigitsConcat(a[1..], b);
    } else {
      assert a + b == b;
    }
  }

  lemma {:induction false} LettersAndDigitsBlank(s: string)
    requires IsBlank(s)
    ensures LettersAndDigits(s) == []
    decreases |s|
  {
    if s != [] {
      assert IsWhite(s[0]);
      LettersAndDigitsBlank(s[1..]);
    }
  }

  /** Whitespace never reaches a normalised key: trimming is irrelevant. */
  lemma NormalizeKeyUntrimmed(s: string)
    ensures NormalizeKey(s) == LettersAndDigits(s)
  {
    var i := TrimInfix(s);
    LettersAndDigitsFramed(s, Trim(s), i);
  }

  /** Blank margins around `t` add no letters or digits. */
  lemma LettersAndDigitsFramed(s: string, t: string, i: nat)
    requires i + |t| <= |s| && t == s[i..i + |t|]
    requires IsBlank(s[..i]) && IsBlank(s[i + |t|..])
    ensures LettersAndDigits(t) == LettersAndDigits(s)
  {
    var pre, post := s[..i], s[i + |t|..];
    assert s == pre + t + post;
    LettersAndDigitsConcat(pre + t, post);
    LettersAndDigitsConcat(pre, t);
    LettersAndDigitsBlank(pre);
    LettersAndDigitsBlank(post);
  }

  lemma LettersAndDigitsCons(c: char, t: string)
    ensures LettersAndDigits([c] + t) == (if IsLetterOrDigit(c) then [UpperChar(c)] else []) + LettersAndDigits(t)
  {
    assert ([c] + t)[1..] == t;
  }

  /** Squashing whitespace runs does not change the letters and digits. */
  lemma {:induction false} LettersAndDigitsSquash(s: string)
    ensures LettersAndDigits(Squash(s)) == LettersAndDigits(s)
    decreases |s|
  {
    if s != [] {
      LettersAndDigitsSquash(s[1..]);
      SquashStep(s);
    }
  }

  lemma SquashStep(s: string)
    requires s != []
    requires LettersAndDigits(Squash(s[1..])) == LettersAndDigits(s[1..])
    ensures LettersAndDigits(Squash(s)) == LettersAndDigits(s)
  {
    assert s == [s[0]] + s[1..];
    if !IsWhite(s[0]) {
      SquashKeepStep(s);
    } else {
      DropNonLetter(s[0], s[1..]);
      if |s| > 1 && IsWhite(s[1]) {
        assert Squash(s) == Squash(s[1..]);
      } else {
        assert Squash(s) == [' '] + Squash(s[1..]);
        DropNonLetter(' ', Squash(s[1..]));
      }
    }
  }

  lemma SquashKeepStep(s: string)
    requires s != [] && !IsWhite(s[0])
    requires LettersAndDigits(Squash(s[1..])) == LettersAndDigits(s[1..])
    ensures LettersAndDigits(Squash(s)) == LettersAndDigits(s)
  {
    assert s == [s[0]] + s[1..];
    assert Squash(s) == [s[0]] + Squash(s[1..]);
    LettersAndDigitsCons(s[0], Squash(s[1..]));
    LettersAndDigitsCons(s[0], s[1..]);
  }

  /** A whitespace character is neither a letter nor a digit. */
  lemma DropNonLetter(c: char, t: string)
    requires IsWhite(c)
    ensures LettersAndDigits([c] + t) == LettersAndDigits(t)
  {
    assert !IsLetterOrDigit(c);
    LettersAndDigitsCons(c, t);
  }

  /** Collapsing whitespace does not change the normalised key. */
  lemma NormalizeKeyCollapse(s: string)
    ensures NormalizeKey(Collapse(s)) == NormalizeKey(s)
  {
    NormalizeKeyUntrimmed(Collapse(s));
    LettersAndDigitsSquash(Trim(s));
    NormalizeKeyUntrimmed(s);
  }

  /** The seven headings of the lot table. */
  datatype ColumnKey = Nombre | Superficie | Localidad | Departamento | Orden | Latitud | Longitud

  /** The normalised heading text of each column. */
  function Keyword(k: ColumnKey): (s: string)
    ensures |s| >= 5
  {
    match k
    case Nombre => "NOMBRE"
    case Superficie => "SUPERFICIE"
    case Localidad => "LOCALIDAD"
    case Departamento => "DEPARTAMENTO"
    case Orden => "ORDEN"
    case Latitud => "LATITUD"
    case Longitud => "LONGITUD"
  }

  /** The columns in the order the extractor lists them. */
  const AllKeys: seq<ColumnKey> := [Nombre, Superficie, Localidad, Departamento, Orden, Latitud, Longitud]

  lemma KeywordInjective(a: ColumnKey, b: ColumnKey)
    ensures Keyword(a) == Keyword(b) <==> a == b
  {
    if a != b {
      assert Keyword(a)[..5] != Keyword(b)[..5] || |Keyword(a)| != |Keyword(b)|;
    }
  }

  /** Two different columns never take their centre from the same header
      word. */
  lemma KeywordWordsDistinct(line: seq<Word>, a: ColumnKey, b: ColumnKey)
    requires a != b
    ensures FindKeyword(line, Keyword(a)) < 0 || FindKeyword(line, Keyword(a)) != FindKeyword(line, Keyword(b))
  {
    KeywordInjective(a, b);
  }

  /** `t is "NOMBRE" or "SUPERFICIE" or ... or "LONGITUD"`. */
  predicate IsKeyword(t: string) {
    t == "NOMBRE" || t == "SUPERFICIE" || t == "LOCALIDAD" || t == "DEPARTAMENTO"
    || t == "ORDEN" || t == "LATITUD" || t == "LONGITUD"
  }

  /** The keywords are exactly the headings of the seven columns. */
  lemma IsKeywordIff(t: string)
    ensures IsKeyword(t) <==> exists k: ColumnKey :: t == Keyword(k)
  {
    if IsKeyword(t) {
      assert exists k: ColumnKey :: t == Keyword(k) by {
        if t == "NOMBRE" { assert t == Keyword(Nombre); }
        else if t == "SUPERFICIE" { assert t == Keyword(Superficie); }
        else if t == "LOCALIDAD" { assert t == Keyword(Localidad); }
        else if t == "DEPARTAMENTO" { assert t == Keyword(Departamento); }
        else if t == "ORDEN" { assert t == Keyword(Orden); }
        else if t == "LATITUD" { assert t == Keyword(Latitud); }
        else { assert t == Keyword(Longitud); }
      }
    }
  }

  /** A word whose normalised text is one of the seven headings. */
  predicate IsHeaderWord(w: Word) {
    IsKeyword(NormalizeKey(w.text))
  }

  /** `BandY`: the word's bottom edge in bands of 3 points, rounded half to even. */
  function BandY(y: real): (b: int)
    ensures y / 3.0 - 0.5 <= b as real <= y / 3.0 + 0.5
  {
    RoundHalfEven(y / 3.0)
  }

  function BandOf(w: Word): int {
    BandY(w.bottom)
  }

  /** The number of words in band `b`. */
  function BandCount(ws: seq<Word>, b: int): nat {
    if ws == [] then 0 else (if BandOf(ws[0]) == b then 1 else 0) + BandCount(ws[1..], b)
  }

  /** `GroupBy(band).OrderByDescending(count).First()` over the first `k`
      words: groups come out in order of first appearance and the sort is
      stable, so the winner is the band of the earliest word whose band has
      the largest count. The result is the index of that word. */
  function Busiest(ws: seq<Word>, k: nat): (j: nat)
    requires 0 < k <= |ws|
    ensures j < k
    ensures forall m :: 0 <= m < k ==> BandCount(ws, BandOf(ws[m])) <= BandCount(ws, BandOf(ws[j]))
    ensures forall m :: 0 <= m < j ==> BandCount(ws, BandOf(ws[m])) < BandCount(ws, BandOf(ws[j]))
  {
    if k == 1 then 0
    else
      var j := Busiest(ws, k - 1);
      if BandCount(ws, BandOf(ws[k - 1])) > BandCount(ws, BandOf(ws[j])) then k - 1 else j
  }

  /** The index of the first word in band `b`, or -1. */
  function FirstInBand(ws: seq<Word>, b: int): (i: int)
    ensures -1 <= i < |ws|
    ensures i >= 0 ==> BandOf(ws[i]) == b && forall j :: 0 <= j < i ==> BandOf(ws[j]) != b
    ensures i == -1 ==> forall j :: 0 <= j < |ws| ==> BandOf(ws[j]) != b
  {
    FirstIndex(ws, (w: Word) => BandOf(w) == b)
  }

  /** The band of the header line: a band of the most header words and,
      among equally busy bands, the one that appears first. */
  function HeaderBand(hw: seq<Word>): (b: int)
    requires hw != []
    ensures exists i :: 0 <= i < |hw| && BandOf(hw[i]) == b
    ensures forall i :: 0 <= i < |hw| ==> BandCount(hw, BandOf(hw[i])) <= BandCount(hw, b)
    ensures 0 <= FirstInBand(hw, b)
    ensures forall i :: 0 <= i < |hw| && BandCount(hw, BandOf(hw[i])) == BandCount(hw, b) ==> FirstInBand(hw, b) <= i
  {
    var j := Busiest(hw, |hw|);
    assert 0 <= FirstInBand(hw, BandOf(hw[j])) <= j;
    BandOf(hw[j])
  }

  /** The index of the first word whose normalised text is `kw`, or -1
      (`FirstOrDefault`). */
  function FindKeyword(line: seq<Word>, kw: string): (i: int)
    ensures -1 <= i < |line|
    ensures i >= 0 ==> NormalizeKey(line[i].text) == kw
    ensures i >= 0 ==> forall j :: 0 <= j < i ==> NormalizeKey(line[j].text) != kw
    ensures i == -1 ==> forall j :: 0 <= j < |line| ==> NormalizeKey(line[j].text) != kw
  {
    FirstIndex(line, (w: Word) => NormalizeKey(w.text) == kw)
  }

  /** `FindX`: the centre of the first word reading `kw`, or -1 when there
      is none. */
  function FindX(line: seq<Word>, kw: string): (x: real)
    ensures (forall j :: 0 <= j < |line| ==> NormalizeKey(line[j].text) != kw) ==> x == -1.0
    ensures (exists j :: 0 <= j < |line| && NormalizeKey(line[j].text) == kw) ==>
              exists j :: 0 <= j < |line| && NormalizeKey(line[j].text) == kw && x == CenterX(line[j])
    ensures FindKeyword(line, kw) >= 0 ==> x == CenterX(line[FindKeyword(line, kw)])
  {
    var i := FindKeyword(line, kw);
    if i < 0 then -1.0 else CenterX(line[i])
  }
  /** The x of a heading is the centre of the leftmost word of the line
      that reads it. */
  lemma FindXFirst(line: seq<Word>, kw: string, i: nat)
    requires i < |line| && NormalizeKey(line[i].text) == kw
    requires forall j :: 0 <= j < i ==> NormalizeKey(line[j].text) != kw
    ensures FindX(line, kw) == CenterX(line[i])
  {
    FirstIndexOf(line, (w: Word) => NormalizeKey(w.text) == kw, i);
  }

}

=== FILE: parsed_recipe.dfy ===
/** The parser's output: a recipe with its products, lots and vertices.
    `decimal` values are `real`, nullable values are `Option`. */
module Recipe {
  import opened Wrappers
  import opened Dates

  datatype ParsedVertex = ParsedVertex(order: int, latitude: real, longitude: real)

  datatype ParsedLot = ParsedLot(
    lotName: string,
    locality: Option<string>,
    department: Option<string>,
    surfaceHa: Option<real>,
    vertices: seq<ParsedVertex>)

  datatype ParsedProduct = ParsedProduct(
    productType: Option<string>,
    productName: string,
    senasaRegistry: Option<string>,
    toxicologicalClass: Option<string>,
    doseValue: Option<real>,
    doseUnit: Option<string>,
    dosePerUnit: Option<string>,
    totalValue: Option<real>,
    totalUnit: Option<string>)

  datatype ParsedSensitivePoint = ParsedSensitivePoint(
    name: string,
    kind: Option<string>,
    locality: Option<string>,
    department: Option<string>,
    latitude: real,
    longitude: real)

  datatype ParsedRecipe = ParsedRecipe(
    rfdNumber: int,
    status: string,
    issueDate: Date,
    possibleStartDate: Option<Date>,
    recommendedDate: Option<Date>,
    expirationDate: Option<Date>,
    requesterName: string,
    requesterTaxId: string,
    advisorName: string,
    advisorLicense: string,
    applicationType: Option<string>,
    crop: Option<string>,
    diagnosis: Option<string>,
    treatment: Option<string>,
    machineToUse: Option<string>,
    machinePlate: Option<string>,
    machineLegalName: Option<string>,
    machineType: Option<string>,
    unitSurfaceHa: Option<real>,
    tempMin: Option<real>,
    tempMax: Option<real>,
    humidityMin: Option<real>,
    humidityMax: Option<real>,
    windMinKmh: Option<real>,
    windMaxKmh: Option<real>,
    windDirection: Option<string>,
    notes: Option<string>,
    products: seq<ParsedProduct>,
    lots: seq<ParsedLot>,
    sensitivePoints: seq<ParsedSensitivePoint>)
}

=== FILE: products.dfy ===
/** `ParseProducts`: the clean-up passes that separate the glued columns of
    the products block, and the construction of one product per match of
    the product pattern. The pattern itself is a parameter. */
module Products {
  import opened Wrappers
  import opened Text
  import opened Seqs
  import opened RecipeText
  import opened Recipe

  // ---------------------------------------------------------------------
  // Adjacent pairs
  // ---------------------------------------------------------------------

  /** No two adjacent characters of `s` form a pair `bad` rejects. */
  predicate NoPair(s: string, bad: (char, char) -> bool) {
    forall i :: 0 <= i < |s| - 1 ==> !bad(s[i], s[i + 1])
  }

  /** A pair predicate that never involves whitespace. */
  predicate Solid(bad: (char, char) -> bool) {
    forall a, b :: bad(a, b) ==> !IsWhite(a) && !IsWhite(b)
  }

  predicate UpperThenDigit(a: char, b: char) {
    IsUpperLetter(a) && IsDigit(b)
  }

  predicate DigitThenUpper(a: char, b: char) {
    IsDigit(a) && IsUpperLetter(b)
  }

  /** No letter of `[A-ZÁÉÍÓÚÜÑ]` directly next to a digit, either way. */
  predicate Separated(s: string) {
    NoPair(s, UpperThenDigit) && NoPair(s, DigitThenUpper)
  }

  lemma SolidPairs()
    ensures Solid(UpperThenDigit) && Solid(DigitThenUpper)
  {
  }

  lemma NoPairSlice(s: string, a: nat, b: nat, bad: (char, char) -> bool)
    requires a <= b <= |s| && NoPair(s, bad)
    ensures NoPair(s[a..b], bad)
  {
    forall i | 0 <= i < b - a - 1
      ensures !bad(s[a..b][i], s[a..b][i + 1])
    {
      assert s[a..b][i] == s[a + i] && s[a..b][i + 1] == s[a + i + 1];
    }
  }

  lemma NoPairConcat(x: string, y: string, bad: (char, char) -> bool)
    requires NoPair(x, bad) && NoPair(y, bad)
    requires x != [] && y != [] ==> !bad(x[|x| - 1], y[0])
    ensures NoPair(x + y, bad)
  {
    var s := x + y;
    forall i | 0 <= i < |s| - 1
      ensures !bad(s[i], s[i + 1])
    {
      if i + 1 < |x| {
        assert s[i] == x[i] && s[i + 1] == x[i + 1];
      } else if i >= |x| {
        assert s[i] == y[i - |x|] && s[i + 1] == y[i - |x| + 1];
      }
    }
  }

  // ---------------------------------------------------------------------
  // Inserting spaces
  // ---------------------------------------------------------------------

  /** `s[i..]` with a space inserted after every index `mark` selects: the
      effect of a regex replacement that matches only between two
      characters, or that replaces a match by itself followed by a space. */
  function SpaceAfterFrom(s: string, mark: nat -> bool, i: nat): (r: string)
    requires i <= |s|
    ensures i < |s| ==> r != [] && r[0] == s[i]
    decreases |s| - i
  {
    if i == |s| then []
    else [s[i]] + (if mark(i) then " " else "") + SpaceAfterFrom(s, mark, i + 1)
  }

  /** Spaces go at least between every rejected pair: then the result
      holds no rejected pair. */
  lemma {:induction false} SpaceAfterNoPair(s: string, mark: nat -> bool, i: nat, bad: (char, char) -> bool)
    requires i <= |s| && Solid(bad)
    requires forall k :: i <= k < |s| - 1 && bad(s[k], s[k + 1]) ==> mark(k)
    ensures NoPair(SpaceAfterFrom(s, mark, i), bad)
    decreases |s| - i
  {
    if i < |s| {
      SpaceAfterNoPair(s, mark, i + 1, bad);
      var head := [s[i]] + (if mark(i) then " " else "");
      assert NoPair(head, bad) by {
        if mark(i) {
          assert !bad(s[i], ' ');
        }
      }
      NoPairConcat(head, SpaceAfterFrom(s, mark, i + 1), bad);
    }
  }

  /** The text without its spaces. */
  function Unspaced(s: string): string {
    Filter(s, c => c != ' ')
  }

  /** Putting spaces after a prefix, in front of a text that equals another
      up to spaces, keeps the two equal up to spaces. */
  lemma UnspacedSplice(t: string, u: string, a: string, sp: string, x: string, y: string)
    requires t == a + sp + x && u == a + y
    requires Unspaced(x) == Unspaced(y) && (sp == [] || sp == " ")
    ensures Unspaced(t) == Unspaced(u)
  {
    FilterConcat(a + sp, x, c => c != ' ');
    FilterConcat(a, sp, c => c != ' ');
    FilterConcat(a, y, c => c != ' ');
  }

  /** Inserting spaces changes nothing but the spaces. */
  lemma {:induction false} SpaceAfterUnspaced(s: string, mark: nat -> bool, i: nat)
    requires i <= |s|
    ensures Unspaced(SpaceAfterFrom(s, mark, i)) == Unspaced(s[i..])
    decreases |s| - i
  {
    if i < |s| {
      SpaceAfterUnspaced(s, mark, i + 1);
      var sp := if mark(i) then " " else "";
      FilterConcat([s[i]] + sp, SpaceAfterFrom(s, mark, i + 1), c => c != ' ');
      FilterConcat([s[i]], sp, c => c != ' ');
      assert s[i..] == [s[i]] + s[i + 1..];
      FilterConcat([s[i]], s[i + 1..], c => c != ' ');
    }
  }

  // ---------------------------------------------------------------------
  // The passes
  // ---------------------------------------------------------------------

  /** The column headings glued into the block, each replaced by a space. */
  const FieldLabels: seq<string> := [
    "Tipo deproducto", "Nombre", "Nro registroSENASA", "Clasetoxicológica",
    "Dosis", "UM/UM", "Total producto aaplicar"
  ]

  /** None of the glued headings is empty. */
  lemma FieldLabelsNonEmpty()
    ensures forall i :: 0 <= i < |FieldLabels| ==> FieldLabels[i] != []
  {
    forall i | 0 <= i < |FieldLabels|
      ensures FieldLabels[i] != []
    {
      assert |FieldLabels[i]| >= 4;
    }
  }

  function BlankLabels(s: string, labels: seq<string>): string
    requires forall i :: 0 <= i < |labels| ==> labels[i] != []
    decreases |labels|
  {
    if labels == [] then s
    else BlankLabels(Replace(s, labels[0], " "), labels[1..])
  }

  /** The pair at `i`, `i + 1` is rejected by `bad`. */
  predicate PairAt(s: string, bad: (char, char) -> bool, i: nat) {
    i + 1 < |s| && bad(s[i], s[i + 1])
  }

  /** `(?<=[A-ZÁÉÍÓÚÜÑ])(?=\d)` → " ". */
  function SplitUpperDigit(s: string): string {
    SpaceAfterFrom(s, (i: nat) => PairAt(s, UpperThenDigit, i), 0)
  }

  /** `(?<=\d)(?=[A-ZÁÉÍÓÚÜÑ])` → " ". */
  function SplitDigitUpper(s: string): string {
    SpaceAfterFrom(s, (i: nat) => PairAt(s, DigitThenUpper, i), 0)
  }

  /** The product types of the product pattern. */
  const TypeKeywords: seq<string> := [
    "FORMULADO", "CALDO", "SÓLIDO", "SOLIDO", "LIQUIDO", "LÍQUIDO", "CEBO", "GRANULADO"
  ]

  /** `kw` ends just before index `e` and starts at a word boundary. */
  predicate KeywordAt(s: string, e: nat, kw: string) {
    |kw| <= e <= |s| && s[e - |kw|..e] == kw && (e == |kw| || !IsWordChar(s[e - |kw| - 1]))
  }

  /** `\b(FORMULADO|…|GRANULADO)(?=[A-ZÁÉÍÓÚÜÑ])` → "$1 ". The keywords
      are letters only and none is a prefix of another, so the matches
      are exactly the keyword ends followed by an upper-case letter. */
  function SpaceKeywords(s: string): string {
    SpaceAfterFrom(s, (i: nat) => KeywordBefore(s, i), 0)
  }

  /** A product type ends at `i` and an upper-case letter follows. */
  predicate KeywordBefore(s: string, i: nat) {
    i + 1 < |s| && IsUpperLetter(s[i + 1])
    && exists k :: 0 <= k < |TypeKeywords| && KeywordAt(s, i + 1, TypeKeywords[k])
  }

  /** The toxicological class numerals, in the pattern's order. */
  const ToxNumerals: seq<string> := ["I", "II", "III", "IV"]

  predicate IsToxChar(c: char) {
    IsUpperLetter(c) || c == ' '
  }

  /** Where `\s*[A-ZÁÉÍÓÚÜÑ ]+(?=\d)` ends when started at `b`, with the
      `\s*` giving back characters from `w` down to none. */
  function ToxTail(s: string, b: nat, w: nat): (e: Option<nat>)
    requires b + w <= |s|
    ensures e.Some? ==> b < e.value < |s|
    decreases w
  {
    var e := SpanOf(s, b + w, IsToxChar);
    if e > b + w && e < |s| && IsDigit(s[e]) then Some(e)
    else if w == 0 then None
    else ToxTail(s, b, w - 1)
  }

  /** The rest of the class pattern after a numeral ending at `q`:
      `\s*-` then the tail. */
  function ToxAfterNumeral(s: string, q: nat): (e: Option<nat>)
    requires q <= |s|
    ensures e.Some? ==> q < e.value < |s|
  {
    var d := SpanOf(s, q, IsWhite);
    if d < |s| && s[d] == '-' then ToxTail(s, d + 1, SpanOf(s, d + 1, IsWhite) - (d + 1))
    else None
  }

  /** The end of a match of `(?:I|II|III|IV)\s*-\s*[A-ZÁÉÍÓÚÜÑ ]+(?=\d)`
      at `p`, the numerals tried in order from the `k`-th. */
  function ToxMatch(s: string, p: nat, k: nat): (e: Option<nat>)
    requires p <= |s|
    ensures e.Some? ==> p < e.value < |s|
    decreases |ToxNumerals| - k
  {
    if k >= |ToxNumerals| then None
    else
      var n := ToxNumerals[k];
      var r := if p + |n| <= |s| && s[p..p + |n|] == n then ToxAfterNumeral(s, p + |n|) else None;
      if r.Some? then r else ToxMatch(s, p, k + 1)
  }

  /** `((?:I|II|III|IV)\s*-\s*[A-ZÁÉÍÓÚÜÑ ]+)(?=\d)` → "$1 ", scanning left
      to right from `p` and resuming after each match. */
  function ToxSpacing(s: string, p: nat): (r: string)
    requires p <= |s|
    ensures p < |s| ==> r != [] && r[0] == s[p]
    decreases |s| - p
  {
    if p == |s| then []
    else
      match ToxMatch(s, p, 0)
      case Some(e) => s[p..e] + " " + ToxSpacing(s, e)
      case None => [s[p]] + ToxSpacing(s, p + 1)
  }

  lemma {:induction false} ToxSpacingNoPair(s: string, p: nat, bad: (char, char) -> bool)
    requires p <= |s| && Solid(bad) && NoPair(s, bad)
    ensures NoPair(ToxSpacing(s, p), bad)
    decreases |s| - p
  {
    if p < |s| {
      match ToxMatch(s, p, 0)
      case Some(e) =>
        ToxSpacingNoPair(s, e, bad);
        NoPairSlice(s, p, e, bad);
        assert !bad(s[e - 1], ' ');
        NoPairConcat(s[p..e], " ", bad);
        NoPairConcat(s[p..e] + " ", ToxSpacing(s, e), bad);
      case None =>
        ToxSpacingNoPair(s, p + 1, bad);
        NoPairConcat([s[p]], ToxSpacing(s, p + 1), bad);
    }
  }

  /** The class pass too changes nothing but the spaces. */
  lemma {:induction false} ToxSpacingUnspaced(s: string, p: nat)
    requires p <= |s|
    ensures Unspaced(ToxSpacing(s, p)) == Unspaced(s[p..])
    decreases |s| - p
  {
    if p < |s| {
      match ToxMatch(s, p, 0)
      case Some(e) =>
        ToxSpacingUnspaced(s, e);
        ToxSpacingMatchStep(s, p, e);
      case None =>
        ToxSpacingUnspaced(s, p + 1);
        ToxSpacingSkipStep(s, p);
    }
  }

  /** A class match at `p` is copied with one space after it. */
  lemma ToxSpacingMatch(s: string, p: nat, e: nat)
    requires p < |s| && ToxMatch(s, p, 0) == Some(e)
    ensures e <= |s| && ToxSpacing(s, p) == s[p..e] + " " + ToxSpacing(s, e)
  {
  }

  /** Without a class match at `p`, its character is copied as it is. */
  lemma ToxSpacingSkip(s: string, p: nat)
    requires p < |s| && ToxMatch(s, p, 0).None?
    ensures ToxSpacing(s, p) == [s[p]] + [] + ToxSpacing(s, p + 1)
  {
  }

  lemma ToxSpacingMatchStep(s: string, p: nat, e: nat)
    requires p < |s| && ToxMatch(s, p, 0) == Some(e)
    requires Unspaced(ToxSpacing(s, e)) == Unspaced(s[e..])
    ensures Unspaced(ToxSpacing(s, p)) == Unspaced(s[p..])
  {
    ToxSpacingMatch(s, p, e);
    SliceSplit(s, p, e);
    UnspacedSplice(ToxSpacing(s, p), s[p..], s[p..e], " ", ToxSpacing(s, e), s[e..]);
  }

  lemma ToxSpacingSkipStep(s: string, p: nat)
    requires p < |s| && ToxMatch(s, p, 0).None?
    requires Unspaced(ToxSpacing(s, p + 1)) == Unspaced(s[p + 1..])
    ensures Unspaced(ToxSpacing(s, p)) == Unspaced(s[p..])
  {
    ToxSpacingSkip(s, p);
    SliceSplit(s, p, p + 1);
    assert s[p..p + 1] == [s[p]];
    UnspacedSplice(ToxSpacing(s, p), s[p..], [s[p]], [], ToxSpacing(s, p + 1), s[p + 1..]);
  }

  /** A suffix is its first part followed by the rest. */
  lemma SliceSplit(s: string, p: nat, e: nat)
    requires p <= e <= |s|
    ensures s[p..] == s[p..e] + s[e..]
  {
  }

  /** Squashing whitespace keeps every non-whitespace neighbour pair. */
  lemma {:induction false} SquashNoPair(s: string, bad: (char, char) -> bool)
    requires Solid(bad) && NoPair(s, bad)
    ensures NoPair(Squash(s), bad)
    decreases |s|
  {
    if s != [] {
      NoPairSlice(s, 1, |s|, bad);
      SquashNoPair(s[1..], bad);
      if !IsWhite(s[0]) && |s| > 1 {
        SquashHead(s[1..]);
        NoPairConcat([s[0]], Squash(s[1..]), bad);
      } else if !IsWhite(s[0]) {
        NoPairConcat([s[0]], Squash(s[1..]), bad);
      } else if |s| == 1 || !IsWhite(s[1]) {
        NoPairConcat(" ", Squash(s[1..]), bad);
      }
    }
  }

  lemma SquashTrimNoPair(s: string, bad: (char, char) -> bool)
    requires Solid(bad) && NoPair(s, bad)
    ensures NoPair(SquashTrim(s), bad)
  {
    SquashNoPair(s, bad);
    var q := Squash(s);
    var i := TrimOffset(q);
    NoPairSlice(q, i, i + |Trim(q)|, bad);
  }

  /** The first passes: squash and trim, then blank the glued headings. */
  function Unglued(block: string): string {
    FieldLabelsNonEmpty();
    BlankLabels(SquashTrim(block), FieldLabels)
  }

  /** Split letters from digits, upper-case-then-digit first. */
  function SplitLettersDigits(s: string): string {
    SplitDigitUpper(SplitUpperDigit(s))
  }

  /** Space the product types, then the toxicological classes. */
  function SpaceTypesAndClasses(s: string): string {
    ToxSpacing(SpaceKeywords(s), 0)
  }

  /** The passes of `ParseProducts` before the product pattern runs, ending
      with a last squash and trim. */
  function PrepareBlock(block: string): (r: string)
    ensures Tidy(r)
  {
    SquashTrim(SpaceTypesAndClasses(SplitLettersDigits(Unglued(block))))
  }

  lemma SplitUpperDigitFixes(s: string)
    ensures NoPair(SplitUpperDigit(s), UpperThenDigit)
  {
    SolidPairs();
    SpaceAfterNoPair(s, (i: nat) => PairAt(s, UpperThenDigit, i), 0, UpperThenDigit);
  }

  lemma SplitDigitUpperFixes(s: string)
    requires NoPair(s, UpperThenDigit)
    ensures Separated(SplitDigitUpper(s))
  {
    SolidPairs();
    var mark := (i: nat) => PairAt(s, DigitThenUpper, i);
    SpaceAfterNoPair(s, mark, 0, DigitThenUpper);
    SpaceAfterNoPair(s, mark, 0, UpperThenDigit);
  }

  lemma SpaceKeywordsKeeps(s: string)
    requires Separated(s)
    ensures Separated(SpaceKeywords(s))
  {
    SolidPairs();
    var mark := (i: nat) => KeywordBefore(s, i);
    SpaceAfterNoPair(s, mark, 0, DigitThenUpper);
    SpaceAfterNoPair(s, mark, 0, UpperThenDigit);
  }

  lemma SplitLettersDigitsSeparated(s: string)
    ensures Separated(SplitLettersDigits(s))
  {
    SplitUpperDigitFixes(s);
    SplitDigitUpperFixes(SplitUpperDigit(s));
  }

  lemma SpaceTypesAndClassesKeeps(s: string)
    requires Separated(s)
    ensures Separated(SpaceTypesAndClasses(s))
  {
    SolidPairs();
    SpaceKeywordsKeeps(s);
    ToxSpacingNoPair(SpaceKeywords(s), 0, UpperThenDigit);
    ToxSpacingNoPair(SpaceKeywords(s), 0, DigitThenUpper);
  }

  /** After the passes no letter of `[A-ZÁÉÍÓÚÜÑ]` touches a digit, and
      the block has no leading, trailing or doubled space. */
  lemma PrepareBlockSeparated(block: string)
    ensures Tidy(PrepareBlock(block)) && Separated(PrepareBlock(block))
  {
    SolidPairs();
    var s3 := SplitLettersDigits(Unglued(block));
    SplitLettersDigitsSeparated(Unglued(block));
    SpaceTypesAndClassesKeeps(s3);
    SquashTrimNoPair(SpaceTypesAndClasses(s3), UpperThenDigit);
    SquashTrimNoPair(SpaceTypesAndClasses(s3), DigitThenUpper);
  }

  // ---------------------------------------------------------------------
  // Products
  // ---------------------------------------------------------------------

  /** `\bVEGETAL\s*AKTIV\b` (ignoring case) at `p`: the end of the match. */
  function VegetalAktivAt(s: string, p: nat): (e: Option<nat>)
    requires p <= |s|
    ensures e.Some? ==> p + 12 <= e.value <= |s|
  {
    if p > 0 && IsWordChar(s[p - 1]) then None
    else if p + 7 > |s| || Upper(s[p..p + 7]) != "VEGETAL" then None
    else
      var q := SpanOf(s, p + 7, IsWhite);
      if q + 5 > |s| || Upper(s[q..q + 5]) != "AKTIV" then None
      else if q + 5 < |s| && IsWordChar(s[q + 5]) then None
      else Some(q + 5)
  }

  /** `Regex.Replace(name, @"\bVEGETAL\s*AKTIV\b", "VEGETAL AKTIV",
      IgnoreCase)` on `s[p..]`. */
  function VegetalAktiv(s: string, p: nat): string
    requires p <= |s|
    decreases |s| - p
  {
    if p == |s| then []
    else
      match VegetalAktivAt(s, p)
      case Some(e) => "VEGETAL AKTIV" + VegetalAktiv(s, e)
      case None => [s[p]] + VegetalAktiv(s, p + 1)
  }

  /** A name that does not mention VEGETAL (in any case) is left alone. */
  lemma VegetalAktivAbsent(s: string, p: nat)
    requires p <= |s| && !Contains(Upper(s), "VEGETAL")
    ensures VegetalAktiv(s, p) == s[p..]
  {
    forall q | p <= q < |s|
      ensures VegetalAktivAt(s, q) == None
    {
      VegetalAbsentAt(s, q);
    }
    VegetalAktivNoMatch(s, p);
  }

  /** With no match from `p` on, the text is copied as it is. */
  lemma {:induction false} VegetalAktivNoMatch(s: string, p: nat)
    requires p <= |s|
    requires forall q :: p <= q < |s| ==> VegetalAktivAt(s, q) == None
    ensures VegetalAktiv(s, p) == s[p..]
    decreases |s| - p
  {
    if p < |s| {
      VegetalAktivSkip(s, p);
      VegetalAktivNoMatch(s, p + 1);
      assert s[p..] == [s[p]] + s[p + 1..];
    }
  }

  /** Without a match at `p`, its character is copied as it is. */
  lemma VegetalAktivSkip(s: string, p: nat)
    requires p < |s| && VegetalAktivAt(s, p) == None
    ensures VegetalAktiv(s, p) == [s[p]] + VegetalAktiv(s, p + 1)
  {
  }

  /** Without VEGETAL in the text there is no match anywhere. */
  lemma VegetalAbsentAt(s: string, p: nat)
    requires p < |s| && !Contains(Upper(s), "VEGETAL")
    ensures VegetalAktivAt(s, p) == None
  {
    if p + 7 <= |s| && Upper(s[p..p + 7]) == "VEGETAL" {
      UpperSlice(s, p, p + 7);
      assert MatchesAt(Upper(s), "VEGETAL", p);
      ContainsAt(Upper(s), "VEGETAL", p);
      assert false;
    }
  }

  /** The captures of one match of the product pattern. */
  datatype ProductMatch = ProductMatch(
    kind: string, name: string, senasa: string, tox: string,
    dose: string, doseUnit: string, total: string, totalUnit: string)

  /** The product of one match: captures trimmed, the VEGETAL AKTIV
      spelling unified, quantities read as decimals, no dose per unit. */
  function ProductOf(m: ProductMatch): ParsedProduct
  {
    ParsedProduct(
      Some(Trim(m.kind)),
      VegetalAktiv(Trim(m.name), 0),
      Some(Trim(m.senasa)),
      Some(Trim(m.tox)),
      ParseDecimalText(m.dose),
      Some(Trim(m.doseUnit)),
      None,
      ParseDecimalText(m.total),
      Some(Trim(m.totalUnit)))
  }

  /** The product's text fields are trimmed, it has no dose per unit, and a
      blank quantity has no value. */
  lemma ProductOfFields(m: ProductMatch)
    ensures var p := ProductOf(m);
      && p.dosePerUnit == None
      && p.productType.Some? && p.senasaRegistry.Some? && p.toxicologicalClass.Some?
      && IsTrimmed(p.productType.value) && IsTrimmed(p.senasaRegistry.value)
      && IsTrimmed(p.toxicologicalClass.value)
      && (IsBlank(m.dose) ==> p.doseValue == None)
      && (IsBlank(m.total) ==> p.totalValue == None)
  {
  }

  /** `ParseProducts`: one product per match of the product pattern
      (`matches`, the regex engine) in the prepared block. */
  function ParseProducts(block: string, matches: string -> seq<ProductMatch>): (r: seq<ParsedProduct>)
    ensures |r| == |matches(PrepareBlock(block))|
  {
    ProductsOf(matches(PrepareBlock(block)))
  }

  /** The products of the matches, in match order. */
  function ProductsOf(ms: seq<ProductMatch>): (r: seq<ParsedProduct>)
    ensures |r| == |ms| && forall i :: 0 <= i < |r| ==> r[i] == ProductOf(ms[i])
  {
    seq(|ms|, i requires 0 <= i < |ms| => ProductOf(ms[i]))
  }
}

=== FILE: query.dfy ===
/** The listing of recipes (`RecipeService.GetRecipesAsync`): the request's
    paging is clamped by `RecipeQueryRequest.Validate`, the filtered list is
    ordered by the requested sort key, and one page of it is returned with
    the page count. The filters are database predicates and are taken as
    already applied: the listing starts from the filtered recipes. */
module Query {
  import opened Wrappers
  import opened Text
  import opened Numbers
  import opened Sorting

  const DefaultPage: int := 1
  const DefaultPageSize: int := 20
  const MaxPageSize: int := 100

  /** The paging part of `RecipeQueryRequest`: C# `int`s, as bound from the
      query string. */
  datatype Paging = Paging(page: int, pageSize: int)

  /** The paging a listing can use. */
  predicate IsValid(q: Paging) {
    q.page >= 1 && 1 <= q.pageSize <= MaxPageSize
  }

  /** `Validate`: a page below 1 becomes the first page; a page size below 1
      becomes the default size, one above the maximum becomes the maximum. */
  function Validate(q: Paging): (v: Paging)
    requires IsInt32(q.page) && IsInt32(q.pageSize)
    ensures IsValid(v) && IsInt32(v.page)
    ensures IsValid(q) ==> v == q
    ensures q.page < 1 ==> v.page == DefaultPage
    ensures q.page >= 1 ==> v.page == q.page
    ensures 1 <= q.pageSize <= MaxPageSize ==> v.pageSize == q.pageSize
    ensures q.pageSize < 1 ==> v.pageSize == DefaultPageSize
    ensures q.pageSize > MaxPageSize ==> v.pageSize == MaxPageSize
  {
    var page := if q.page < 1 then 1 else q.page;
    var size := if q.pageSize < 1 then DefaultPageSize else q.pageSize;
    var size' := if size > MaxPageSize then MaxPageSize else size;
    Paging(page, size')
  }

  /** Validating twice is validating once. */
  lemma ValidateIdempotent(q: Paging)
    requires IsInt32(q.page) && IsInt32(q.pageSize)
    ensures Validate(Validate(q)) == Validate(q)
  {
  }

  /** A page size below 1 is reset to the default 20, not to the nearest
      valid size 1. */
  lemma ValidateZeroSize(page: int)
    requires IsInt32(page)
    ensures Validate(Paging(page, 0)).pageSize == 20
  {
  }

  // ---------------------------------------------------------------------
  // Pages
  // ---------------------------------------------------------------------

  /** `Math.Ceiling(totalItems / (double)pageSize)`. For counts that fit an
      `int` and sizes of at most 100 the double quotient is exact enough for
      the ceiling to be the integer one. */
  function TotalPages(total: nat, size: nat): (t: nat)
    requires size >= 1
    ensures (t - 1) * size < total <= t * size || (total == 0 && t == 0)
  {
    (total + size - 1) / size
  }

  /** The page count is the least number of pages that hold every item. */
  lemma TotalPagesLeast(total: nat, size: nat, n: nat)
    requires size >= 1 && total <= n * size
    ensures TotalPages(total, size) <= n
  {
    assert (n + 1) * size == n * size + size;
    DivBelow(total + size - 1, size, n + 1);
  }

  lemma DivBelow(a: nat, b: nat, q: nat)
    requires b >= 1 && a < q * b
    ensures a / b < q
  {
    var d := a / b;
    assert d * b + a % b == a;
    if d >= q {
      MulMono(q, d, b);
    }
  }

  /** The number of items a listing skips: `(Page - 1) * PageSize`,
      computed without overflow. */
  function Offset(v: Paging): (n: nat)
    requires IsValid(v)
    ensures n == (v.page - 1) * v.pageSize
  {
    (v.page - 1) * v.pageSize
  }

  /** The skip count as `GetRecipesAsync` computes it: `(Page - 1) *
      PageSize` in C#'s unchecked 32-bit arithmetic. */
  function SkipCountAsWritten(v: Paging): (n: int)
    requires IsValid(v) && IsInt32(v.page)
    ensures IsInt32(n)
    ensures IsInt32(Offset(v)) ==> n == Offset(v)
  {
    Wrap32((v.page - 1) * v.pageSize)
  }

  /** Page 21474838 of size 100 should skip 2147483700 items; the 32-bit
      product wraps to a negative count instead. */
  lemma SkipCountWraps()
    ensures IsValid(Paging(21474838, 100)) && IsInt32(21474838)
    ensures Offset(Paging(21474838, 100)) == 2147483700
    ensures SkipCountAsWritten(Paging(21474838, 100)) == -2147483596
  {
  }

  /** The page as the service serves it: the wrapped skip count goes to the
      database, which rejects a negative OFFSET (`None`); otherwise the
      window at the wrapped count. */
  function PageItemsAsWritten<T>(xs: seq<T>, v: Paging): (r: Option<seq<T>>)
    requires IsValid(v) && IsInt32(v.page)
    ensures r.None? <==> SkipCountAsWritten(v) < 0
    ensures IsInt32(Offset(v)) ==> r == Some(PageItems(xs, v))
  {
    var n := SkipCountAsWritten(v);
    if n < 0 then None else Some(Window(xs, n, v.pageSize))
  }

  /** Two pages past the 32-bit range: page 21474838 of size 100 fails
      outright, and page 42949674 of size 100 serves items 4..103 of the
      list; the exact offset leaves both pages empty. */
  lemma WrappedSkipPages<T>(xs: seq<T>)
    requires 104 <= |xs| < 2147483700
    ensures IsValid(Paging(21474838, 100)) && IsInt32(21474838)
    ensures PageItemsAsWritten(xs, Paging(21474838, 100)).None?
    ensures PageItems(xs, Paging(21474838, 100)) == []
    ensures IsValid(Paging(42949674, 100)) && IsInt32(42949674)
    ensures PageItemsAsWritten(xs, Paging(42949674, 100)) == Some(xs[4..104])
    ensures PageItems(xs, Paging(42949674, 100)) == []
  {
    var v := Paging(42949674, 100);
    assert Offset(v) == 4294967300;
    assert SkipCountAsWritten(v) == 4;
    assert Window(xs, 4, 100) == xs[4..104];
    assert Offset(Paging(21474838, 100)) >= |xs|;
  }

  /** `Skip(offset).Take(size)` on a list. */
  function Window<T>(xs: seq<T>, offset: nat, size: nat): (r: seq<T>)
    ensures |r| == if offset >= |xs| then 0 else if offset + size <= |xs| then size else |xs| - offset
    ensures forall i :: 0 <= i < |r| ==> offset + i < |xs| && r[i] == xs[offset + i]
  {
    if offset >= |xs| then []
    else if offset + size >= |xs| then xs[offset..]
    else xs[offset..offset + size]
  }

  /** The items of page `v`: those at indices `[(Page-1)*PageSize,
      Page*PageSize)` of the list. */
  function PageItems<T>(xs: seq<T>, v: Paging): (r: seq<T>)
    requires IsValid(v)
    ensures |r| == if Offset(v) >= |xs| then 0
      else if v.page * v.pageSize <= |xs| then v.pageSize else |xs| - Offset(v)
    ensures forall i :: 0 <= i < |r| ==> r[i] == xs[Offset(v) + i]
  {
    Window(xs, Offset(v), v.pageSize)
  }

  /** An item sits on exactly the page its index falls in. */
  lemma PageOfItem<T>(xs: seq<T>, size: nat, i: nat)
    requires 1 <= size <= MaxPageSize && i < |xs|
    ensures var v := Paging(i / size + 1, size);
      Offset(v) <= i && i - Offset(v) < |PageItems(xs, v)| && PageItems(xs, v)[i - Offset(v)] == xs[i]
  {
    var q := i / size;
    var v := Paging(q + 1, size);
    assert q * size + i % size == i;
    assert Offset(v) == q * size;
    assert Offset(v) <= i < Offset(v) + size;
  }

  /** Every page up to the page count starts inside the list; every page
      after it is empty. */
  lemma PagesInRange<T>(xs: seq<T>, v: Paging)
    requires IsValid(v)
    ensures v.page <= TotalPages(|xs|, v.pageSize) ==> PageItems(xs, v) != []
    ensures v.page > TotalPages(|xs|, v.pageSize) ==> PageItems(xs, v) == []
  {
    var t := TotalPages(|xs|, v.pageSize);
    if v.page <= t {
      MulMono(v.page - 1, t - 1, v.pageSize);
      assert Offset(v) < |xs|;
    } else {
      MulMono(t, v.page - 1, v.pageSize);
      assert Offset(v) >= |xs|;
    }
  }

  lemma MulMono(a: int, b: int, c: nat)
    requires a <= b
    ensures a * c <= b * c
  {
    assert b * c - a * c == (b - a) * c;
  }

  // ---------------------------------------------------------------------
  // Sorting
  // ---------------------------------------------------------------------

  /** The columns a listing can be ordered by. */
  datatype SortKey = ByRfdNumber | ByStatus | ByIssueDate | ByExpirationDate | ByRequester | ByAdvisor | ByCreatedAt

  /** The lower-case name `ApplySorting` matches for each key. */
  function KeyName(k: SortKey): string {
    match k
    case ByRfdNumber => "rfdnumber"
    case ByStatus => "status"
    case ByIssueDate => "issuedate"
    case ByExpirationDate => "expirationdate"
    case ByRequester => "requester"
    case ByAdvisor => "advisor"
    case ByCreatedAt => "createdat"
  }

  /** The key named by a lower-cased `SortBy`, or the creation time for any
      other name. */
  function KeyNamed(name: string): (k: SortKey)
    ensures k != ByCreatedAt ==> KeyName(k) == name
  {
    if name == "rfdnumber" then ByRfdNumber
    else if name == "status" then ByStatus
    else if name == "issuedate" then ByIssueDate
    else if name == "expirationdate" then ByExpirationDate
    else if name == "requester" then ByRequester
    else if name == "advisor" then ByAdvisor
    else ByCreatedAt
  }

  /** The switch on `SortBy.ToLower()`. */
  function SortKeyOf(sortBy: string): (k: SortKey)
    ensures k != ByCreatedAt ==> Lower(sortBy) == KeyName(k)
  {
    KeyNamed(Lower(sortBy))
  }

  /** Each key is selected by its own name. */
  lemma KeyNamedName(k: SortKey)
    ensures KeyNamed(KeyName(k)) == k
  {
  }

  /** An unknown name falls back to the creation time. */
  lemma UnknownKeyFallsBack(sortBy: string)
    requires forall k: SortKey :: Lower(sortBy) != KeyName(k)
    ensures SortKeyOf(sortBy) == ByCreatedAt
  {
  }

  /** Names that differ only in case select the same key. */
  lemma SortKeyIgnoresCase(a: string, b: string)
    requires Lower(a) == Lower(b)
    ensures SortKeyOf(a) == SortKeyOf(b)
  {
  }

  /** The listing's order: the key's value of each item (its rank in the
      database's order for that column) ascending, or descending on
      request. */
  function OrderKey<T>(rank: (SortKey, T) -> real, k: SortKey, descending: bool): T -> real {
    x => if descending then -rank(k, x) else rank(k, x)
  }

  /** `ApplySorting`: a stable ordering by the selected key. */
  function ApplySorting<T>(xs: seq<T>, sortBy: string, descending: bool, rank: (SortKey, T) -> real): (r: seq<T>)
    ensures multiset(r) == multiset(xs)
    ensures SortedBy(r, OrderKey(rank, SortKeyOf(sortBy), descending))
  {
    var key := OrderKey(rank, SortKeyOf(sortBy), descending);
    SortBySorted(xs, key);
    SortBy(xs, key)
  }

  // ---------------------------------------------------------------------
  // The listing
  // ---------------------------------------------------------------------

  /** `PagedResponse`. */
  datatype PagedResponse<T> = PagedResponse(items: seq<T>, page: int, pageSize: int, totalPages: nat, totalItems: nat)

  /** The listing request: its paging and ordering. */
  datatype Listing = Listing(paging: Paging, sortBy: string, descending: bool)

  /** `GetRecipesAsync` from the filtered recipes. */
  function GetRecipes<T>(filtered: seq<T>, q: Listing, rank: (SortKey, T) -> real): (r: PagedResponse<T>)
    requires IsInt32(q.paging.page) && IsInt32(q.paging.pageSize)
    ensures Paging(r.page, r.pageSize) == Validate(q.paging)
    ensures IsValid(Paging(r.page, r.pageSize)) && r.totalItems == |filtered|
    ensures r.items == PageItems(ApplySorting(filtered, q.sortBy, q.descending, rank), Paging(r.page, r.pageSize))
    ensures r.totalItems <= r.totalPages * r.pageSize
    ensures (r.totalPages - 1) * r.pageSize < r.totalItems || r.totalPages == r.totalItems == 0
  {
    var v := Validate(q.paging);
    var sorted := ApplySorting(filtered, q.sortBy, q.descending, rank);
    PagedResponse(PageItems(sorted, v), v.page, v.pageSize, TotalPages(|sorted|, v.pageSize), |sorted|)
  }
}

=== FILE: recipe_parser.dfy ===
/** `RecipePdfParser.Parse`: from the document's raw text and the words of
    its pages to a `ParsedRecipe`. The regular expressions of the parser are
    an `Engine` of functions (one capture per named pattern), the lot table
    comes from `LotsExtractor.ExtractLots` over the pages' words, and every
    helper the parser calls is the one modelled in its own module. */
module RecipeParser {
  import opened Wrappers
  import opened Text
  import opened Numbers
  import opened Seqs
  import opened RecipeText
  import opened Dates
  import opened Recipe
  import opened Products
  import opened NameSelection
  import opened PageWords
  import opened LotRows
  import opened LotsExtractor
  import opened LotAssembly

  /** The patterns `FindGroup` is called with, by what they capture. */
  datatype Pattern =
    | RfdNumber | StatusWord
    | IssueDateText | PossibleStartText | RecommendedText | ExpirationText
    | TaxIdText | RequesterNameLine | LicenseText
    | ApplicationTypeText | CropText | DiagnosisText | TreatmentText | MachineText
    | TemperatureRange | HumidityRange | WindRange | WindDirectionText
    | NotesText | UnitSurfaceText

  /** The anchors of the two name searches. */
  datatype Anchor = TaxIdLabel | LicenseLabel

  /** The .NET regular expressions and culture services the parser relies
      on. `group(text, p, k)` is `FindGroup(text, p, k)`: capture `k` of the
      first match of `p`, or null. */
  datatype Engine = Engine(
    group: (string, Pattern, nat) -> Option<string>,
    anchorAt: (string, Anchor) -> Option<nat>,
    nameCandidates: string -> seq<string>,
    productMatches: string -> seq<ProductMatch>,
    lenientDate: string -> Option<Date>,
    toTitle: string -> string)

  const PageBreak: string := "-----PAGE-----"

  function Find(e: Engine, text: string, p: Pattern): Option<string> {
    e.group(text, p, 1)
  }

  /** `FindGroup(...)?.Trim()`. */
  function FindTrimmed(e: Engine, text: string, p: Pattern): (r: Option<string>)
    ensures r.Some? ==> IsTrimmed(r.value)
    ensures r.None? <==> Find(e, text, p).None?
  {
    match Find(e, text, p)
    case None => None
    case Some(s) => Some(Trim(s))
  }

  /** `ParseDecimalNullable` of a capture that may be null. */
  function DecimalOf(o: Option<string>): (r: Option<real>)
    ensures o.None? ==> r.None?
  {
    match o
    case None => None
    case Some(s) => ParseDecimalText(s)
  }

  /** A block, or the whole page when the block is blank. */
  function OrPage(block: string, page: string): (r: string)
    ensures IsBlank(block) ==> r == page
    ensures !IsBlank(block) ==> r == block
  {
    if IsBlank(block) then page else block
  }

  /** The requester's tax id: the captured text, trimmed, with every
      non-digit removed. */
  function TaxId(e: Engine, block: string): (r: string)
    ensures AllDigits(r)
    ensures Find(e, block, TaxIdText).None? ==> r == []
  {
    DigitsOf(FindTrimmed(e, block, TaxIdText).GetOr(""))
  }

  /** The capture groups of the `Nombre / Razón social:` line pattern. .NET
      numbers the unnamed groups before the named ones, so group 1 is the
      terminator alternation inside the look-ahead (`CUIL /`, `Domicilio:`,
      `Contacto:`, the next block's title, or the empty match at the end)
      and the `name` group is group 2. */
  const TerminatorGroup: nat := 1
  const NameGroup: nat := 2

  /** The requester's name as the candidates before the tax id label give
      it, or blank. */
  function RequesterByAnchor(e: Engine, block: string): (r: string)
    ensures Tidy(r)
    ensures e.anchorAt(block, TaxIdLabel).None? ==> r == []
  {
    ExtractNameBeforeAnchor(block, t => e.anchorAt(t, TaxIdLabel), e.nameCandidates, false, RequesterKeywords)
  }

  /** The requester's name as the parser computes it: the candidate before
      the tax id, or failing that `FindGroup` of the name line with its
      default group 1, which holds the label that follows the name. */
  function RequesterNameAsWritten(e: Engine, block: string): (r: string)
    ensures Tidy(r)
    ensures !IsBlank(RequesterByAnchor(e, block)) ==> r == RequesterByAnchor(e, block)
    ensures IsBlank(RequesterByAnchor(e, block)) && e.group(block, RequesterNameLine, TerminatorGroup).None? ==> r == []
  {
    var byAnchor := RequesterByAnchor(e, block);
    if !IsBlank(byAnchor) then byAnchor
    else CleanupName(e.group(block, RequesterNameLine, TerminatorGroup).GetOr(""))
  }

  /** The requester's name: the candidate before the tax id, or failing that
      the `name` capture of the first `Nombre / Razón social:` line, cleaned
      up. */
  function RequesterName(e: Engine, block: string): (r: string)
    ensures Tidy(r)
    ensures !IsBlank(RequesterByAnchor(e, block)) ==> r == RequesterByAnchor(e, block)
    ensures IsBlank(RequesterByAnchor(e, block)) && e.group(block, RequesterNameLine, NameGroup).None? ==> r == []
  {
    var byAnchor := RequesterByAnchor(e, block);
    if !IsBlank(byAnchor) then byAnchor
    else CleanupName(e.group(block, RequesterNameLine, NameGroup).GetOr(""))
  }

  /** Without a name before the tax id, a clean captured name is the
      requester's name as it stands. */
  lemma RequesterNameFallback(e: Engine, block: string, name: string)
    requires IsBlank(RequesterByAnchor(e, block))
    requires e.group(block, RequesterNameLine, NameGroup) == Some(name)
    requires name != [] && Tidy(name) && !Contains(name, NameLabel)
    ensures RequesterName(e, block) == name
  {
    CleanupNameFixpoint(name);
  }

  /** As written, the same fallback yields the clean terminator label. */
  lemma RequesterNameAsWrittenFallback(e: Engine, block: string, tail: string)
    requires IsBlank(RequesterByAnchor(e, block))
    requires e.group(block, RequesterNameLine, TerminatorGroup) == Some(tail)
    requires tail != [] && Tidy(tail) && !Contains(tail, NameLabel)
    ensures RequesterNameAsWritten(e, block) == tail
  {
    CleanupNameFixpoint(tail);
  }

  /** The two readings differ only in the fallback. */
  lemma RequesterNamesAgree(e: Engine, block: string)
    requires !IsBlank(RequesterByAnchor(e, block)) || e.group(block, RequesterNameLine, TerminatorGroup) == e.group(block, RequesterNameLine, NameGroup)
    ensures RequesterNameAsWritten(e, block) == RequesterName(e, block)
  {
  }

  /** A requester block without a tax id label. */
  const SampleRequesterBlock: string := "Nombre / Razón social: JUAN PEREZ Domicilio: CALLE 1"

  /** What .NET's regular expressions yield on the sample block: no tax id
      label, and on the name line the terminator `Domicilio:` as group 1 and
      `JUAN PEREZ` as the `name` group. */
  function SampleEngine(): (e: Engine)
    ensures e.anchorAt(SampleRequesterBlock, TaxIdLabel).None?
  {
    Engine(
      (t: string, p: Pattern, k: nat) =>
        if t == SampleRequesterBlock && p == RequesterNameLine && k == TerminatorGroup then Some("Domicilio:")
        else if t == SampleRequesterBlock && p == RequesterNameLine && k == NameGroup then Some("JUAN PEREZ")
        else None,
      (t: string, a: Anchor) => None,
      (t: string) => [],
      (t: string) => [],
      (t: string) => None,
      (t: string) => t)
  }

  /** The parser's fallback names the requester after the label that
      follows the name; the `name` group gives the name. */
  lemma RequesterNameTakesLabel()
    ensures RequesterNameAsWritten(SampleEngine(), SampleRequesterBlock) == "Domicilio:"
    ensures RequesterName(SampleEngine(), SampleRequesterBlock) == "JUAN PEREZ"
  {
    var e := SampleEngine();
    var b := SampleRequesterBlock;
    assert RequesterByAnchor(e, b) == [];
    SampleGroups();
    WordsTidy("Domicilio:", "");
    WordsTidy("JUAN", "PEREZ");
    assert "JUAN" + " " + "PEREZ" == "JUAN PEREZ";
    ShortLabelFree("Domicilio:");
    ShortLabelFree("JUAN PEREZ");
    RequesterNameAsWrittenFallback(e, b, "Domicilio:");
    RequesterNameFallback(e, b, "JUAN PEREZ");
  }

  lemma SampleGroups()
    ensures SampleEngine().group(SampleRequesterBlock, RequesterNameLine, TerminatorGroup) == Some("Domicilio:")
    ensures SampleEngine().group(SampleRequesterBlock, RequesterNameLine, NameGroup) == Some("JUAN PEREZ")
  {
  }

  /** A word, or two words joined by one space, without white space of
      their own is tidy. */
  lemma WordsTidy(a: string, b: string)
    requires a != [] && forall i :: 0 <= i < |a| ==> a[i] != ' ' && !IsWhite(a[i])
    requires forall i :: 0 <= i < |b| ==> b[i] != ' ' && !IsWhite(b[i])
    ensures b == [] ==> Tidy(a)
    ensures b != [] ==> Tidy(a + " " + b)
  {
    if b != [] {
      var s := a + " " + b;
      forall i | 0 <= i < |s| - 1
        ensures !(IsWhite(s[i]) && IsWhite(s[i + 1]))
      {
        if i < |a| - 1 {
          assert s[i] == a[i];
        } else if i == |a| - 1 {
          assert s[i] == a[i];
        } else {
          assert s[i + 1] == b[i - |a|];
        }
      }
    }
  }

  /** Text shorter than the name label cannot hold it. */
  lemma ShortLabelFree(s: string)
    requires |s| < 22
    ensures !Contains(s, NameLabel)
  {
    assert |NameLabel| == 22;
  }

  /** The advisor's name: the last candidate before the licence number. */
  function AdvisorName(e: Engine, block: string): (r: string)
    ensures Tidy(r)
  {
    ExtractNameBeforeAnchor(block, t => e.anchorAt(t, LicenseLabel), e.nameCandidates, true, [])
  }

  /** The two pages of the normalised text, each trimmed. */
  function Pages(normalized: string): (pp: (string, string))
    ensures IsTrimmed(pp.0) && IsTrimmed(pp.1)
  {
    (Trim(Between(normalized, "", PageBreak)), Trim(AfterNth(normalized, PageBreak, 1)))
  }

  /** The dates of the first page: the issue date defaults when missing,
      the others are null when missing; a date that cannot be read fails. */
  datatype Dated = Dated(issue: Date, possibleStart: Option<Date>, recommended: Option<Date>, expiration: Option<Date>)

  function DatesOf(e: Engine, page1: string): (r: Result<Dated, string>)
    ensures Find(e, page1, IssueDateText).None? && r.Ok? ==> r.value.issue == DefaultDate
    ensures r.Ok? ==> ParseDate(Find(e, page1, IssueDateText), e.lenientDate).Ok?
  {
    var issue := ParseDate(Find(e, page1, IssueDateText), e.lenientDate);
    var start := ParseDateNullable(Find(e, page1, PossibleStartText), e.lenientDate);
    var recommended := ParseDateNullable(Find(e, page1, RecommendedText), e.lenientDate);
    var expiration := ParseDateNullable(Find(e, page1, ExpirationText), e.lenientDate);
    if issue.Err? then Err(issue.error)
    else if start.Err? then Err(start.error)
    else if recommended.Err? then Err(recommended.error)
    else if expiration.Err? then Err(expiration.error)
    else Ok(Dated(issue.value, start.value, recommended.value, expiration.value))
  }

  /** The requester and the advisor. */
  datatype Parties = Parties(requesterName: string, requesterTaxId: string, advisorName: string, advisorLicense: string)

  function PartiesOf(e: Engine, page1: string): (r: Parties)
    ensures AllDigits(r.requesterTaxId)
    ensures Tidy(r.requesterName) && Tidy(r.advisorName) && IsTrimmed(r.advisorLicense)
  {
    var requesterBlock := OrPage(Between(page1, "Datos usuario responsable solicitante", "Datos asesor fitosanitario"), page1);
    var advisorBlock := OrPage(Between(page1, "Datos asesor fitosanitario", "Datos de aplicación"), page1);
    Parties(RequesterName(e, requesterBlock), TaxId(e, requesterBlock),
      AdvisorName(e, advisorBlock), FindTrimmed(e, advisorBlock, LicenseText).GetOr(""))
  }

  /** The application data of the first page and the unit's surface on the
      second. */
  datatype Applied = Applied(
    applicationType: Option<string>, crop: Option<string>, diagnosis: Option<string>,
    treatment: Option<string>, machineToUse: Option<string>, notes: Option<string>,
    unitSurfaceHa: Option<real>)

  function AppliedOf(e: Engine, page1: string, page2: string): (r: Applied)
    ensures Find(e, page2, UnitSurfaceText).None? ==> r.unitSurfaceHa.None?
    ensures r.crop.Some? ==> IsTrimmed(r.crop.value)
  {
    Applied(
      FindTrimmed(e, page1, ApplicationTypeText),
      FindTrimmed(e, page1, CropText),
      FindTrimmed(e, page1, DiagnosisText),
      FindTrimmed(e, page1, TreatmentText),
      FindTrimmed(e, page1, MachineText),
      FindTrimmed(e, page1, NotesText),
      DecimalOf(FindTrimmed(e, page2, UnitSurfaceText)))
  }

  /** The recommended weather: each range gives its two bounds. */
  datatype Climate = Climate(
    tempMin: Option<real>, tempMax: Option<real>, humidityMin: Option<real>, humidityMax: Option<real>,
    windMin: Option<real>, windMax: Option<real>, windDirection: Option<string>)

  function ClimateOf(e: Engine, block: string): (r: Climate)
    ensures e.group(block, TemperatureRange, 1).None? ==> r.tempMin.None?
    ensures e.group(block, TemperatureRange, 2).None? ==> r.tempMax.None?
  {
    Climate(
      DecimalOf(e.group(block, TemperatureRange, 1)),
      DecimalOf(e.group(block, TemperatureRange, 2)),
      DecimalOf(e.group(block, HumidityRange, 1)),
      DecimalOf(e.group(block, HumidityRange, 2)),
      DecimalOf(e.group(block, WindRange, 1)),
      DecimalOf(e.group(block, WindRange, 2)),
      FindTrimmed(e, block, WindDirectionText))
  }

  /** The recipe number: `ParseLong(capture) ?? 0`. */
  function RfdOf(e: Engine, page1: string): (n: int)
    ensures 0 <= n <= Int64Max
    ensures Find(e, page1, RfdNumber).None? ==> n == 0
  {
    match Find(e, page1, RfdNumber)
    case None => 0
    case Some(s) => ParseLong(s).GetOr(0)
  }

  function Assemble(
    rfd: int, status: string, dated: Dated, parties: Parties, applied: Applied, climate: Climate,
    products: seq<ParsedProduct>, lots: seq<ParsedLot>): (r: ParsedRecipe)
    ensures r.requesterTaxId == parties.requesterTaxId && r.requesterName == parties.requesterName
    ensures r.advisorName == parties.advisorName
    ensures r.rfdNumber == rfd && r.status == status && r.lots == lots && r.products == products
    ensures r.sensitivePoints == []
  {
    ParsedRecipe(
      rfd, status, dated.issue, dated.possibleStart, dated.recommended, dated.expiration,
      parties.requesterName, parties.requesterTaxId, parties.advisorName, parties.advisorLicense,
      applied.applicationType, applied.crop, applied.diagnosis, applied.treatment, applied.machineToUse,
      None, None, None,
      applied.unitSurfaceHa,
      climate.tempMin, climate.tempMax, climate.humidityMin, climate.humidityMax,
      climate.windMin, climate.windMax, climate.windDirection,
      applied.notes,
      products, lots, [])
  }

  /** The block of recommended products on the first page. */
  function ProductsBlock(page1: string): string {
    Between(page1, "Productos recomendados para ser aplicados", "Condiciones climatológicas recomendadas para el tratamiento")
  }

  /** The block of recommended weather on the first page. */
  function ClimateBlock(page1: string): string {
    Between(page1, "Condiciones climatológicas recomendadas para el tratamiento", "Indicaciones generales para la aplicación:")
  }

  /** The recipe read from the two pages, with the lots given. */
  function ParsePages(e: Engine, page1: string, page2: string, lots: seq<ParsedLot>): (r: Result<ParsedRecipe, string>)
    ensures r.Ok? ==> AllDigits(r.value.requesterTaxId)
    ensures r.Ok? ==> Tidy(r.value.requesterName) && Tidy(r.value.advisorName)
    ensures r.Ok? ==> 0 <= r.value.rfdNumber <= Int64Max && IsTrimmed(r.value.status)
    ensures r.Ok? ==> r.value.lots == lots
    ensures r.Ok? ==> r.value.sensitivePoints == []
    ensures r.Err? <==> DatesOf(e, page1).Err?
  {
    match DatesOf(e, page1)
    case Err(err) => Err(err)
    case Ok(dated) =>
      Ok(Assemble(
        RfdOf(e, page1),
        Trim(Find(e, page1, StatusWord).GetOr("")),
        dated,
        PartiesOf(e, page1),
        AppliedOf(e, page1, page2),
        ClimateOf(e, ClimateBlock(page1)),
        ParseProducts(ProductsBlock(page1), e.productMatches),
        lots))
  }

  /** The recipe read from normalised, non-blank text. */
  function ParseNormalized(e: Engine, pages: seq<seq<Word>>, normalized: string): (r: Result<ParsedRecipe, string>)
    ensures r.Ok? ==> AllDigits(r.value.requesterTaxId)
    ensures r.Ok? ==> Tidy(r.value.requesterName) && Tidy(r.value.advisorName)
    ensures r.Ok? ==> 0 <= r.value.rfdNumber <= Int64Max && IsTrimmed(r.value.status)
    ensures r.Ok? ==> r.value.lots == BuildLots(e.toTitle, normalized, ExtractLots(pages))
    ensures r.Ok? ==> r.value.sensitivePoints == []
  {
    var pp := Pages(normalized);
    ParsePages(e, pp.0, pp.1, BuildLots(e.toTitle, normalized, ExtractLots(pages)))
  }

  /** `Parse(pdf, rawText)`: blank raw text is an argument error; otherwise
      the recipe read from the normalised text, with the lots of the
      pages' lot table. */
  function Parse(e: Engine, pages: seq<seq<Word>>, rawText: string): (r: Result<ParsedRecipe, string>)
    ensures IsBlank(rawText) ==> r.Err?
    ensures !IsBlank(rawText) ==> r == ParseNormalized(e, pages, NormalizeText(rawText))
  {
    if IsBlank(rawText) then Err("ArgumentException: Texto PDF vacío.")
    else ParseNormalized(e, pages, NormalizeText(rawText))
  }
}

=== FILE: recipe_text.dfy ===
/** The text helpers of `RecipePdfParser`: cuts between labels (`Between`,
    `AfterNth`), the normalisation of the extracted text (`Normalize`),
    `CleanupName`, `TitleCaseSafe`, and the null-tolerant number readers
    (`ParseDecimalNullable`, `ParseLong`, the tax-id digit filter). */
module RecipeText {
  import opened Wrappers
  import opened Text
  import opened Numbers
  import opened Seqs

  // ---------------------------------------------------------------------
  // Case-insensitive search on slices
  // ---------------------------------------------------------------------

  lemma UpperSlice(s: string, a: nat, b: nat)
    requires a <= b <= |s|
    ensures Upper(s[a..b]) == Upper(s)[a..b]
  {
  }

  /** An occurrence inside a slice is an occurrence in the whole string. */
  lemma MatchInSlice(s: string, a: nat, b: nat, pat: string, p: nat)
    requires a <= b <= |s| && MatchesAt(Upper(s[a..b]), Upper(pat), p)
    ensures MatchesAt(Upper(s), Upper(pat), a + p) && a + p + |pat| <= b
  {
    UpperSlice(s, a, b);
    assert Upper(s)[a + p..a + p + |pat|] == Upper(s[a..b])[p..p + |pat|];
  }

  // ---------------------------------------------------------------------
  // Between
  // ---------------------------------------------------------------------

  /** Where the text after the start label begins: 0 for an empty label,
      just past the label's first case-insensitive occurrence, or -1 when
      the label does not occur. */
  function AfterLabel(text: string, start: string): (i: int)
    ensures -1 <= i <= |text|
    ensures start == [] ==> i == 0
    ensures start != [] && i < 0 ==> !ContainsCI(text, start)
    ensures start != [] && i >= 0 ==> |start| <= i && MatchesAt(Upper(text), Upper(start), i - |start|)
    ensures start != [] && i >= 0 ==> forall k :: 0 <= k < i - |start| ==> !MatchesAt(Upper(text), Upper(start), k)
  {
    if start == [] then 0
    else
      var k := IndexFromCI(text, start, 0);
      if k < 0 then -1 else k + |start|
  }

  /** `Between(text, start, end)`: the text after the first occurrence of
      `start` up to the next occurrence of `end` (both case-insensitive),
      or to the end of the text; empty when `start` does not occur. */
  function Between(text: string, start: string, end: string): (r: string)
    ensures AfterLabel(text, start) < 0 ==> r == []
    ensures AfterLabel(text, start) >= 0 ==> StartsWith(text[AfterLabel(text, start)..], r)
  {
    var i := AfterLabel(text, start);
    if i < 0 then []
    else
      var j := IndexFromCI(text, end, i);
      if j < 0 then text[i..] else text[i..j]
  }

  /** `Between` always returns a piece of the text. */
  lemma BetweenInfix(text: string, start: string, end: string) returns (a: nat)
    ensures a + |Between(text, start, end)| <= |text|
    ensures Between(text, start, end) == text[a..a + |Between(text, start, end)|]
  {
    var i := AfterLabel(text, start);
    a := if i >= 0 then i else 0;
  }

  /** Where the piece ends: at the next case-insensitive occurrence of the
      end label, or at the end of the text when there is none. */
  lemma BetweenShape(text: string, start: string, end: string) returns (e: nat)
    requires AfterLabel(text, start) >= 0
    ensures AfterLabel(text, start) <= e <= |text|
    ensures Between(text, start, end) == text[AfterLabel(text, start)..e]
    ensures e == IndexFrom(Upper(text), Upper(end), AfterLabel(text, start)) || (e == |text| && IndexFrom(Upper(text), Upper(end), AfterLabel(text, start)) < 0)
  {
    var i := AfterLabel(text, start);
    var j := IndexFrom(Upper(text), Upper(end), i);
    e := if j < 0 then |text| else j;
  }

  /** The piece stops where the end label next occurs, or at the end of
      the text. */
  lemma BetweenStops(text: string, start: string, end: string)
    requires AfterLabel(text, start) >= 0
    ensures var i := AfterLabel(text, start); var r := Between(text, start, end);
      i + |r| == |text| || MatchesAt(Upper(text), Upper(end), i + |r|)
  {
    var e := BetweenShape(text, start, end);
  }

  /** When the end label does not occur after the start label, the piece
      runs to the end of the text. */
  lemma BetweenToEnd(text: string, start: string, end: string)
    requires AfterLabel(text, start) >= 0
    requires forall k :: AfterLabel(text, start) <= k ==> !MatchesAt(Upper(text), Upper(end), k)
    ensures Between(text, start, end) == text[AfterLabel(text, start)..]
  {
    var e := BetweenShape(text, start, end);
  }

  /** A slice holding no occurrence of `m` does not contain `m`. */
  lemma SliceNoMatch(u: string, m: string, a: nat, b: nat)
    requires a <= b <= |u|
    requires forall k :: a <= k && k + |m| <= b ==> !MatchesAt(u, m, k)
    ensures !Contains(u[a..b], m)
  {
    if Contains(u[a..b], m) {
      var p := ContainsWitness(u[a..b], m);
      assert p + |m| <= b - a;
      var w := u[a..b];
      assert w[p..p + |m|] == m;
      var v := u[a + p..a + p + |m|];
      forall k | 0 <= k < |m|
        ensures v[k] == m[k]
      {
        assert m[k] == w[p..p + |m|][k] == w[p + k];
      }
      assert v == m;
      assert MatchesAt(u, m, a + p);
    }
  }

  /** The piece never contains a non-empty end label. */
  lemma BetweenNoEnd(text: string, start: string, end: string)
    requires AfterLabel(text, start) >= 0 && end != []
    ensures !ContainsCI(Between(text, start, end), end)
  {
    var i := AfterLabel(text, start);
    var u, m := Upper(text), Upper(end);
    var e := BetweenShape(text, start, end);
    UpperSlice(text, i, e);
    SliceNoMatch(u, m, i, e);
  }

  // ---------------------------------------------------------------------
  // AfterNth
  // ---------------------------------------------------------------------

  /** Every position at or after `from` where `pat` occurs in `s`, in
      increasing order, overlapping occurrences included. */
  function Occurrences(s: string, pat: string, from: nat): (ps: seq<nat>)
    ensures forall i :: 0 <= i < |ps| ==> from <= ps[i] && MatchesAt(s, pat, ps[i])
    ensures forall i, j :: 0 <= i < j < |ps| ==> ps[i] < ps[j]
    decreases |s| + 1 - from
  {
    if from + |pat| > |s| then []
    else (if MatchesAt(s, pat, from) then [from] else []) + Occurrences(s, pat, from + 1)
  }

  /** No occurrence is missing from the list. */
  lemma {:induction false} OccurrencesComplete(s: string, pat: string, from: nat, k: nat)
    requires from <= k && MatchesAt(s, pat, k)
    ensures k in Occurrences(s, pat, from)
    decreases k - from
  {
    if from < k {
      OccurrencesComplete(s, pat, from + 1, k);
    }
  }

  /** `IndexOf` finds the first listed occurrence. */
  lemma {:induction false} IndexFromFirst(s: string, pat: string, from: nat)
    ensures var ps := Occurrences(s, pat, from);
      IndexFrom(s, pat, from) == if ps == [] then -1 else ps[0]
    decreases |s| + 1 - from
  {
    if from + |pat| <= |s| && !MatchesAt(s, pat, from) {
      IndexFromFirst(s, pat, from + 1);
    }
  }

  /** Past the first listed occurrence come the later ones. */
  lemma {:induction false} OccurrencesAfter(s: string, pat: string, from: nat)
    requires Occurrences(s, pat, from) != []
    ensures var ps := Occurrences(s, pat, from);
      ps[1..] == Occurrences(s, pat, ps[0] + 1)
    decreases |s| + 1 - from
  {
    if !MatchesAt(s, pat, from) {
      OccurrencesAfter(s, pat, from + 1);
    }
  }

  /** The loop of `AfterNth` on the upper-cased text and marker: the index
      of the `n`-th hit, each search starting one past the previous hit,
      or -1. */
  function NthHit(u: string, m: string, n: nat): (i: int)
    ensures -1 <= i && (i >= 0 ==> i + |m| <= |u|)
    decreases n
  {
    if n == 0 then -1
    else
      var prev := NthHit(u, m, n - 1);
      if n > 1 && prev < 0 then -1
      else IndexFrom(u, m, prev + 1)
  }

  /** The `n`-th hit is the `n`-th listed occurrence (and the occurrences
      after it are the rest of the list); with fewer occurrences there is
      no hit. */
  predicate NthAgrees(u: string, m: string, n: nat) {
    var ps := Occurrences(u, m, 0);
    var i := NthHit(u, m, n);
    && (|ps| < n ==> i == -1)
    && (1 <= n <= |ps| ==> i == ps[n - 1] && Occurrences(u, m, i + 1) == ps[n..])
  }

  lemma NthHitFirst(u: string, m: string)
    ensures NthAgrees(u, m, 1)
  {
    IndexFromFirst(u, m, 0);
    if Occurrences(u, m, 0) != [] {
      OccurrencesAfter(u, m, 0);
    }
  }

  /** One more search from past the `n`-th occurrence finds the next one. */
  lemma OccurrenceStep(u: string, m: string, ps: seq<nat>, n: nat, prev: nat)
    requires 1 <= n <= |ps| && prev == ps[n - 1] && Occurrences(u, m, prev + 1) == ps[n..]
    ensures IndexFrom(u, m, prev + 1) == if |ps| == n then -1 else ps[n]
    ensures |ps| > n ==> Occurrences(u, m, ps[n] + 1) == ps[n + 1..]
  {
    IndexFromFirst(u, m, prev + 1);
    if |ps| > n {
      OccurrencesAfter(u, m, prev + 1);
      assert ps[n..][1..] == ps[n + 1..];
    }
  }

  lemma NthHitStep(u: string, m: string, n: nat)
    requires n >= 1 && NthAgrees(u, m, n)
    ensures NthAgrees(u, m, n + 1)
  {
    var ps := Occurrences(u, m, 0);
    var prev := NthHit(u, m, n);
    var next := NthHit(u, m, n + 1);
    assert next == if prev < 0 then -1 else IndexFrom(u, m, prev + 1);
    if |ps| < n {
      assert prev == -1 && next == -1;
    } else {
      assert prev == ps[n - 1] && Occurrences(u, m, prev + 1) == ps[n..];
      OccurrenceStep(u, m, ps, n, prev);
      if |ps| == n {
        assert next == -1;
      } else {
        assert next == ps[n] && Occurrences(u, m, next + 1) == ps[n + 1..];
      }
    }
  }

  lemma {:induction false} NthHitOccurrence(u: string, m: string, n: nat)
    requires n >= 1
    ensures NthAgrees(u, m, n)
    decreases n
  {
    if n == 1 {
      NthHitFirst(u, m);
    } else {
      NthHitOccurrence(u, m, n - 1);
      NthHitStep(u, m, n - 1);
    }
  }

  /** `AfterNth(text, marker, n)`: the text after the `n`-th hit of
      `marker`, or "" when there are fewer hits. For `n <= 0` the loop does
      not run and the text is cut at `marker.Length - 1`. The requirements
      exclude the arguments for which the slicing or `IndexOf` throws. */
  function AfterNth(text: string, marker: string, n: int): (r: string)
    requires n <= 0 ==> 1 <= |marker| <= |text| + 1
    requires n >= 1 && marker == [] ==> n <= |text| + 1
  {
    if n <= 0 then text[|marker| - 1..]
    else
      var idx := NthHit(Upper(text), Upper(marker), n);
      if idx < 0 then [] else text[idx + |marker|..]
  }

  /** With fewer than `n` occurrences of `marker` the result is empty;
      otherwise it is the suffix after the `n`-th occurrence. */
  lemma AfterNthSpec(text: string, marker: string, n: nat)
    requires n >= 1 && marker != []
    ensures var ps := Occurrences(Upper(text), Upper(marker), 0);
      && (|ps| < n ==> AfterNth(text, marker, n) == [])
      && (|ps| >= n ==> ps[n - 1] + |marker| <= |text| && AfterNth(text, marker, n) == text[ps[n - 1] + |marker|..])
  {
    var u, m := Upper(text), Upper(marker);
    NthHitOccurrence(u, m, n);
    var ps := Occurrences(u, m, 0);
    var idx := NthHit(u, m, n);
    assert |u| == |text| && |m| == |marker|;
    assert AfterNth(text, marker, n) == if idx < 0 then [] else text[idx + |marker|..];
    if |ps| < n {
      assert idx == -1;
    } else {
      assert idx == ps[n - 1];
    }
  }

  // ---------------------------------------------------------------------
  // Normalize
  // ---------------------------------------------------------------------

  /** Replacing every `c` by a text without `c` leaves no `c`. */
  lemma {:induction false} ReplaceDropsChar(s: string, c: char, rep: string)
    requires c !in rep
    ensures c !in Replace(s, [c], rep)
    decreases |s|
  {
    if |s| >= 1 {
      ReplaceDropsChar(s[|[c]|..], c, rep);
      ReplaceDropsChar(s[1..], c, rep);
    }
  }

  /** Replacing never introduces a character absent from the text and from
      the replacement. */
  lemma {:induction false} ReplaceKeepsAbsent(s: string, pat: string, rep: string, c: char)
    requires |pat| > 0 && c !in s && c !in rep
    ensures c !in Replace(s, pat, rep)
    decreases |s|
  {
    if |s| >= |pat| {
      ReplaceKeepsAbsent(s[|pat|..], pat, rep, c);
      ReplaceKeepsAbsent(s[1..], pat, rep, c);
    }
  }

  /** `Replace("\r\n", "\n").Replace("\r", "\n")`. */
  function UnifyNewlines(s: string): (r: string)
    ensures '\r' !in r
  {
    ReplaceDropsChar(Replace(s, "\r\n", "\n"), '\r', "\n");
    Replace(Replace(s, "\r\n", "\n"), "\r", "\n")
  }

  predicate IsSpaceOrTab(c: char) {
    c == ' ' || c == '\t'
  }

  /** `Regex.Replace(s, @"[ \t]+", " ")`: every run of spaces and tabs
      becomes one space. */
  function SquashBlanks(s: string): (r: string)
    ensures '\t' !in r
    ensures '\r' !in s ==> '\r' !in r
    decreases |s|
  {
    if s == [] then []
    else if IsSpaceOrTab(s[0]) then
      if |s| > 1 && IsSpaceOrTab(s[1]) then SquashBlanks(s[1..]) else " " + SquashBlanks(s[1..])
    else [s[0]] + SquashBlanks(s[1..])
  }

  /** The labels that `Normalize` moves to the start of a line. */
  const BreakLabels: seq<string> := [
    "RECETA FITOSANITARIA DIGITAL",
    "ABIERTA", "CERRADA", "ANULADA",
    "Fecha de emisión:",
    "Fecha posible inicio aplicación:",
    "RFD Nro.:",
    "Fecha recomendada de aplicación:",
    "Fecha de vencimiento:",
    "Datos usuario responsable solicitante",
    "Datos asesor fitosanitario",
    "Datos de aplicación",
    "Tipo de aplicación:",
    "Cultivo:",
    "Diagnóstico:",
    "Tratamiento:",
    "Máquina a utilizar:",
    "Nro. matrícula máquina:",
    "Productos recomendados para ser aplicados",
    "Condiciones climatológicas recomendadas para el tratamiento",
    "Indicaciones generales para la aplicación:",
    "Área de tratamiento y puntos sensibles",
    "Superficie unidad de uso Has.:",
    "Lotes",
    "Puntos sensibles",
    "-----PAGE-----"
  ]

  /** Labels free of the character `c`. */
  predicate LabelsWithout(labels: seq<string>, c: char) {
    forall i :: 0 <= i < |labels| ==> labels[i] != [] && c !in labels[i]
  }

  /** `text = text.Replace(l, "\n" + l)` for each label in turn. */
  function InsertBreaks(s: string, labels: seq<string>): string
    requires forall i :: 0 <= i < |labels| ==> labels[i] != []
    decreases |labels|
  {
    if labels == [] then s
    else InsertBreaks(Replace(s, labels[0], "\n" + labels[0]), labels[1..])
  }

  lemma {:induction false} InsertBreaksKeepsAbsent(s: string, labels: seq<string>, c: char)
    requires LabelsWithout(labels, c) && c != '\n' && c !in s
    ensures c !in InsertBreaks(s, labels)
    decreases |labels|
  {
    if labels != [] {
      ReplaceKeepsAbsent(s, labels[0], "\n" + labels[0], c);
      InsertBreaksKeepsAbsent(Replace(s, labels[0], "\n" + labels[0]), labels[1..], c);
    }
  }

  /** The end of the longest run of characters satisfying `p` from `from`. */
  function SpanOf(s: string, from: nat, p: char -> bool): (e: nat)
    requires from <= |s|
    ensures from <= e <= |s|
    ensures forall k :: from <= k < e ==> p(s[k])
    ensures e < |s| ==> !p(s[e])
    decreases |s| - from
  {
    if from < |s| && p(s[from]) then SpanOf(s, from + 1, p) else from
  }

  /** The length of the match of `Página\s*\d+\s*de\s*\d+` (ignoring case)
      at the start of `s`, or 0. Whitespace and digits are disjoint, so the
      greedy quantifiers never give anything back. */
  function PageMarkLength(s: string): (e: nat)
    ensures e <= |s|
  {
    if |s| < 6 || Upper(s[..6]) != "PÁGINA" then 0
    else
      var a := SpanOf(s, 6, IsWhite);
      var b := SpanOf(s, a, IsDigit);
      if b == a then 0
      else
        var c := SpanOf(s, b, IsWhite);
        if c + 2 > |s| || Upper(s[c..c + 2]) != "DE" then 0
        else
          var d := SpanOf(s, c + 2, IsWhite);
          var e := SpanOf(s, d, IsDigit);
          if e == d then 0 else e
  }

  /** `Regex.Replace(text, @"Página\s*\d+\s*de\s*\d+", "", IgnoreCase)`:
      matches are removed left to right, scanning resumes after each. */
  function RemovePageMarks(s: string): (r: string)
    ensures |r| <= |s|
    decreases |s|
  {
    if s == [] then []
    else
      var m := PageMarkLength(s);
      if m > 0 then RemovePageMarks(s[m..]) else [s[0]] + RemovePageMarks(s[1..])
  }

  /** Removing page marks only deletes characters. */
  lemma {:induction false} RemovePageMarksKeepsAbsent(s: string, c: char)
    requires c !in s
    ensures c !in RemovePageMarks(s)
    decreases |s|
  {
    if s != [] {
      var m := PageMarkLength(s);
      if m > 0 {
        RemovePageMarksKeepsAbsent(s[m..], c);
      } else {
        RemovePageMarksKeepsAbsent(s[1..], c);
      }
    }
  }

  /** `Normalize` with its label list as a parameter: unify line ends,
      squash runs of spaces and tabs, start a new line before each label,
      drop "Página n de m" marks, trim. */
  function NormalizeWith(labels: seq<string>, text: string): string
    requires forall i :: 0 <= i < |labels| ==> labels[i] != []
  {
    Trim(RemovePageMarks(InsertBreaks(SquashBlanks(UnifyNewlines(text)), labels)))
  }

  /** `Normalize` itself. */
  function NormalizeText(text: string): string {
    NormalizeWith(BreakLabels, text)
  }

  /** With labels free of carriage returns and tabs, the normalised text is
      trimmed and holds no carriage return and no tab. */
  lemma NormalizeClean(labels: seq<string>, text: string)
    requires LabelsWithout(labels, '\r') && LabelsWithout(labels, '\t')
    ensures var r := NormalizeWith(labels, text);
      IsTrimmed(r) && '\r' !in r && '\t' !in r
  {
    var a := SquashBlanks(UnifyNewlines(text));
    InsertBreaksKeepsAbsent(a, labels, '\r');
    InsertBreaksKeepsAbsent(a, labels, '\t');
    var b := InsertBreaks(a, labels);
    RemovePageMarksKeepsAbsent(b, '\r');
    RemovePageMarksKeepsAbsent(b, '\t');
    TrimKeepsAbsent(RemovePageMarks(b), '\r');
    TrimKeepsAbsent(RemovePageMarks(b), '\t');
  }

  // ---------------------------------------------------------------------
  // Names
  // ---------------------------------------------------------------------

  const NameLabel: string := "Nombre / Razón social:"

  /** `CleanupName`: "" for blank text; otherwise the name label (with one
      or two colons) removed, whitespace runs squashed, and the result
      trimmed. */
  function CleanupName(s: string): (r: string)
    ensures IsBlank(s) ==> r == []
    ensures Tidy(r)
  {
    if IsBlank(s) then []
    else SquashTrim(Replace(Replace(s, NameLabel + ":", ""), NameLabel, ""))
  }

  /** A text containing `p + q` contains `p`. */
  lemma ContainsPrefix(s: string, p: string, q: string)
    requires Contains(s, p + q)
    ensures Contains(s, p)
  {
    var k := ContainsWitness(s, p + q);
    assert s[k..k + |p|] == (p + q)[..|p|];
    ContainsAt(s, p, k);
  }

  /** Deleting `p + q` and then `p` leaves a text without `p` alone. */
  lemma DeleteAbsent(s: string, p: string, q: string)
    requires |p| > 0 && !Contains(s, p)
    ensures Replace(Replace(s, p + q, []), p, []) == s
  {
    if Contains(s, p + q) {
      ContainsPrefix(s, p, q);
    }
    ReplaceAbsent(s, p + q, []);
    ReplaceAbsent(s, p, []);
  }

  /** On a label-free text `CleanupName` only normalises whitespace. */
  lemma CleanupNameLabelFree(s: string)
    requires !IsBlank(s) && !Contains(s, NameLabel)
    ensures CleanupName(s) == SquashTrim(s)
  {
    DeleteAbsent(s, NameLabel, ":");
  }

  /** A tidy, label-free name is its own clean-up. */
  lemma CleanupNameFixpoint(s: string)
    requires s != [] && Tidy(s) && !Contains(s, NameLabel)
    ensures CleanupName(s) == s
  {
    assert !IsWhite(s[0]);
    CleanupNameLabelFree(s);
    SquashOfSpaced(s);
    TrimOfTrimmed(s);
  }

  /** `TitleCaseSafe`: "" for blank text; otherwise the culture's title
      casing (`toTitle`, the `es-AR` `TextInfo.ToTitleCase`) of the
      collapsed, lower-cased text. */
  function TitleCaseSafe(toTitle: string -> string, s: string): (r: string)
    ensures IsBlank(s) ==> r == []
  {
    if IsBlank(s) then [] else toTitle(Lower(Collapse(s)))
  }

  /** Lower-casing keeps whitespace where it is. */
  lemma LowerTidy(c: string)
    requires Tidy(c)
    ensures Tidy(Lower(c))
    ensures forall i :: 0 <= i < |c| ==> !IsUpperLetter(Lower(c)[i])
  {
    var t := Lower(c);
    forall i | 0 <= i < |c|
      ensures IsWhite(t[i]) <==> IsWhite(c[i])
      ensures IsWhite(c[i]) ==> t[i] == c[i]
      ensures !IsUpperLetter(t[i])
    {
      assert t[i] == LowerChar(c[i]);
    }
  }

  /** What reaches the culture's title casing is non-empty, tidy and has no
      upper-case letter. */
  lemma TitleCaseArgument(s: string)
    requires !IsBlank(s)
    ensures var t := Lower(Collapse(s));
      t != [] && Tidy(t) && forall i :: 0 <= i < |t| ==> !IsUpperLetter(t[i])
  {
    LowerTidy(Collapse(s));
  }

  // ---------------------------------------------------------------------
  // Numbers in text
  // ---------------------------------------------------------------------

  /** `ParseDecimalNullable` of the parser: null for blank text; otherwise
      trimmed, commas read as decimal points, `decimal.TryParse` with
      `NumberStyles.Number`. */
  function ParseDecimalText(s: string): (r: Option<real>)
    ensures IsBlank(s) ==> r == None
  {
    if IsBlank(s) then None else ParseDecimal(Replace(Trim(s), ",", "."))
  }

  lemma ReplaceCommaDigits(a: string, b: string)
    requires AllDigits(a) && AllDigits(b)
    ensures Replace(a + "," + b, ",", ".") == a + "." + b
  {
    assert "," == [','];
    assert ',' !in a by {
      forall k | 0 <= k < |a| ensures a[k] != ',' { assert IsDigit(a[k]); }
    }
    ReplaceBefore(a, b, ',', ".");
    NoCommaIn(b);
  }

  /** Replacing a one-character pattern that first occurs after `a`. */
  lemma {:induction false} ReplaceBefore(a: string, b: string, c: char, rep: string)
    requires c !in a
    ensures Replace(a + [c] + b, [c], rep) == a + rep + Replace(b, [c], rep)
    decreases |a|
  {
    if a == [] {
      ReplaceFirstHit(b, c, rep);
    } else {
      ReplaceBefore(a[1..], b, c, rep);
      ReplaceKeepFirst(a, b, c, rep, Replace(b, [c], rep));
    }
  }

  lemma ReplaceFirstHit(b: string, c: char, rep: string)
    ensures Replace([c] + b, [c], rep) == rep + Replace(b, [c], rep)
  {
    var s := [] + [c] + b;
    assert s == [c] + b && s[..1] == [c] && s[1..] == b;
    ReplaceHit(s, [c], rep);
  }

  lemma ReplaceKeepFirst(a: string, b: string, c: char, rep: string, t: string)
    requires a != [] && a[0] != c
    requires Replace(a[1..] + [c] + b, [c], rep) == a[1..] + rep + t
    ensures Replace(a + [c] + b, [c], rep) == a + rep + t
  {
    var s := a + [c] + b;
    var u := a[1..] + [c] + b;
    HeadSplit(a, [c] + b);
    assert s == a + ([c] + b) && u == a[1..] + ([c] + b);
    ReplaceMissTail(s, u, [c], rep);
    HeadSplit(a, rep + t);
    assert a + rep + t == a + (rep + t);
    assert a[1..] + rep + t == a[1..] + (rep + t);
  }

  lemma ReplaceMissTail(s: string, u: string, pat: string, rep: string)
    requires 0 < |pat| <= |s| && s[..|pat|] != pat && s[1..] == u
    ensures Replace(s, pat, rep) == [s[0]] + Replace(u, pat, rep)
  {
    ReplaceMiss(s, pat, rep);
  }

  lemma HeadSplit(a: string, x: string)
    requires a != []
    ensures (a + x)[0] == a[0] && (a + x)[..1] == [a[0]]
    ensures (a + x)[1..] == a[1..] + x && a + x == [a[0]] + (a[1..] + x)
  {
  }

  /** A match at the start is replaced and the scan resumes after it. */
  lemma ReplaceHit(s: string, pat: string, rep: string)
    requires 0 < |pat| <= |s| && s[..|pat|] == pat
    ensures Replace(s, pat, rep) == rep + Replace(s[|pat|..], pat, rep)
  {
  }

  /** Without a match at the start, the first character is kept. */
  lemma ReplaceMiss(s: string, pat: string, rep: string)
    requires 0 < |pat| <= |s| && s[..|pat|] != pat
    ensures Replace(s, pat, rep) == [s[0]] + Replace(s[1..], pat, rep)
  {
  }

  lemma NoCommaIn(s: string)
    requires AllDigits(s)
    ensures Replace(s, ",", ".") == s
  {
    forall k | 0 <= k
      ensures !MatchesAt(s, ",", k)
    {
      if k < |s| {
        assert s[k..k + 1][0] == s[k];
      }
    }
    ReplaceAbsent(s, ",", ".");
  }

  lemma NoCommaAtAll(a: string, b: string)
    requires AllDigits(a) && AllDigits(b)
    ensures Replace(a + "." + b, ",", ".") == a + "." + b
  {
    var s := a + "." + b;
    forall k | 0 <= k
      ensures !MatchesAt(s, ",", k)
    {
      if k < |s| {
        assert s[k..k + 1][0] == s[k];
        assert k < |a| ==> s[k] == a[k];
        assert k > |a| ==> s[k] == b[k - |a| - 1];
      }
    }
    ReplaceAbsent(s, ",", ".");
  }

  /** A decimal comma reads like a decimal point. */
  lemma DecimalCommaAsPoint(a: string, b: string)
    requires AllDigits(a) && AllDigits(b)
    ensures ParseDecimalText(a + "," + b) == ParseDecimalText(a + "." + b)
  {
    var c, p := a + "," + b, a + "." + b;
    assert c[|a|] == ',' && p[|a|] == '.';
    assert !IsBlank(c) && !IsBlank(p);
    assert IsTrimmed(c) by {
      assert c[0] == (if a == [] then ',' else a[0]);
      assert c[|c| - 1] == (if b == [] then ',' else b[|b| - 1]);
    }
    assert IsTrimmed(p) by {
      assert p[0] == (if a == [] then '.' else a[0]);
      assert p[|p| - 1] == (if b == [] then '.' else b[|b| - 1]);
    }
    TrimOfTrimmed(c);
    TrimOfTrimmed(p);
    ReplaceCommaDigits(a, b);
    NoCommaAtAll(a, b);
  }

  const Int64Max: int := 0x7FFF_FFFF_FFFF_FFFF

  /** `Regex.Replace(s, @"\D", "")`: the digits of the text, in order. */
  function DigitsOf(s: string): (r: string)
    ensures AllDigits(r) && |r| <= |s|
  {
    Filter(s, IsDigit)
  }

  /** Text made of digits only passes unchanged; filtering twice is
      filtering once. */
  lemma DigitsOfDigits(s: string)
    ensures AllDigits(s) ==> DigitsOf(s) == s
    ensures DigitsOf(DigitsOf(s)) == DigitsOf(s)
  {
    if AllDigits(s) {
      FilterAll(s, IsDigit);
    }
    FilterAll(DigitsOf(s), IsDigit);
  }

  /** `ParseLong`: null for blank text; otherwise the digits of the text
      read by `long.TryParse`, which fails on no digits and on overflow. */
  function ParseLong(s: string): (r: Option<int>)
    ensures IsBlank(s) ==> r == None
    ensures r.Some? ==> 0 <= r.value <= Int64Max
  {
    if IsBlank(s) then None
    else
      var d := DigitsOf(s);
      if d == [] || DigitsValue(d) > Int64Max then None else Some(DigitsValue(d))
  }

  /** A number written in digits reads back. */
  lemma ParseLongFormat(n: nat)
    requires n <= Int64Max
    ensures ParseLong(FormatNat(n)) == Some(n)
  {
    var s := FormatNat(n);
    assert !IsWhite(s[0]);
    DigitsOfDigits(s);
    FormatNatValue(n);
  }
}

=== FILE: seqs.dfy ===
/** LINQ's `Where`, `Count(pred)` and `SelectMany` over sequences. */
module Seqs {
  import opened Wrappers

  /** `Where(p)`: the elements satisfying `p`, in order. */
  function Filter<T>(s: seq<T>, p: T -> bool): (r: seq<T>)
    ensures |r| <= |s|
    ensures forall i :: 0 <= i < |r| ==> p(r[i])
  {
    if s == [] then []
    else (if p(s[0]) then [s[0]] else []) + Filter(s[1..], p)
  }

  /** An element satisfying `p` survives the filter. */
  lemma {:induction false} FilterKeeps<T>(s: seq<T>, p: T -> bool, i: nat)
    requires i < |s| && p(s[i])
    ensures s[i] in Filter(s, p)
    decreases i
  {
    if i > 0 {
      FilterKeeps(s[1..], p, i - 1);
    }
  }

  /** Every element of the filtered sequence comes from the input. */
  lemma FilterFrom<T>(s: seq<T>, p: T -> bool, i: nat)
    requires i < |Filter(s, p)|
    ensures Filter(s, p)[i] in s
  {
    FilterMultiset(s, p);
    assert Filter(s, p)[i] in multiset(Filter(s, p));
  }

  /** A member of the filtered sequence is a member of the input. */
  lemma FilterMember<T>(s: seq<T>, p: T -> bool, x: T)
    requires x in Filter(s, p)
    ensures x in s
  {
    var i :| 0 <= i < |Filter(s, p)| && Filter(s, p)[i] == x;
    FilterFrom(s, p, i);
  }

  lemma {:induction false} FilterConcat<T>(a: seq<T>, b: seq<T>, p: T -> bool)
    ensures Filter(a + b, p) == Filter(a, p) + Filter(b, p)
    decreases |a|
  {
    if a == [] {
      assert a + b == b;
    } else {
      assert (a + b)[0] == a[0];
      assert (a + b)[1..] == a[1..] + b;
      FilterConcat(a[1..], b, p);
    }
  }

  /** Filtering with a predicate that holds of every element changes nothing. */
  lemma {:induction false} FilterAll<T>(s: seq<T>, p: T -> bool)
    requires forall i :: 0 <= i < |s| ==> p(s[i])
    ensures Filter(s, p) == s
    decreases |s|
  {
    if s != [] {
      FilterAll(s[1..], p);
    }
  }

  /** Filtering with a predicate that holds of no element leaves nothing. */
  lemma {:induction false} FilterNone<T>(s: seq<T>, p: T -> bool)
    requires forall i :: 0 <= i < |s| ==> !p(s[i])
    ensures Filter(s, p) == []
    decreases |s|
  {
    if s != [] {
      FilterNone(s[1..], p);
    }
  }

  lemma {:induction false} FilterMultiset<T>(s: seq<T>, p: T -> bool)
    ensures multiset(Filter(s, p)) <= multiset(s)
    decreases |s|
  {
    if s != [] {
      FilterMultiset(s[1..], p);
      assert s == [s[0]] + s[1..];
    }
  }

  /** `FindIndex(p)`: the index of the first element satisfying `p`, or -1. */
  function FirstIndex<T>(s: seq<T>, p: T -> bool): (i: int)
    ensures -1 <= i < |s|
    ensures i >= 0 ==> p(s[i]) && forall j :: 0 <= j < i ==> !p(s[j])
    ensures i == -1 ==> forall j :: 0 <= j < |s| ==> !p(s[j])
  {
    if s == [] then -1
    else if p(s[0]) then 0
    else
      var i := FirstIndex(s[1..], p);
      if i < 0 then -1 else i + 1
  }

  /** The first index is the one before which no element satisfies `p`. */
  lemma FirstIndexOf<T>(s: seq<T>, p: T -> bool, i: nat)
    requires i < |s| && p(s[i])
    requires forall j :: 0 <= j < i ==> !p(s[j])
    ensures FirstIndex(s, p) == i
  {
  }

  /** `Where(p).Select(f)`: the images of the elements satisfying `p`. */
  function Pick<T, U>(s: seq<T>, p: T -> bool, f: T -> U): (r: seq<U>)
    ensures |r| <= |s|
  {
    if s == [] then []
    else (if p(s[0]) then [f(s[0])] else []) + Pick(s[1..], p, f)
  }

  /** A `foreach` loop that updates an accumulator with `f`. */
  function FoldLeft<A, T>(f: (A, T) -> A, a: A, s: seq<T>): A
    decreases |s|
  {
    if s == [] then a else FoldLeft(f, f(a, s[0]), s[1..])
  }

  /** When every turn of a loop keeps `inv` and appends to the view `h` of
      the accumulator the image under `k` of the elements satisfying `p`,
      the whole loop appends `Pick(s, p, k)`. */
  lemma {:induction false} FoldPick<A, T, U>(f: (A, T) -> A, a: A, s: seq<T>,
    inv: A -> bool, h: A -> seq<U>, p: T -> bool, k: T -> U)
    requires inv(a)
    requires forall x, t :: inv(x) ==> inv(f(x, t)) && h(f(x, t)) == h(x) + (if p(t) then [k(t)] else [])
    ensures h(FoldLeft(f, a, s)) == h(a) + Pick(s, p, k)
    decreases |s|
  {
    if s != [] {
      var b := f(a, s[0]);
      var add := if p(s[0]) then [k(s[0])] else [];
      assert inv(b) && h(b) == h(a) + add;
      assert FoldLeft(f, a, s) == FoldLeft(f, b, s[1..]);
      FoldPick(f, b, s[1..], inv, h, p, k);
      PickFirst(s, p, k);
      assert h(FoldLeft(f, a, s)) == h(a) + add + Pick(s[1..], p, k);
      assert h(a) + add + Pick(s[1..], p, k) == h(a) + (add + Pick(s[1..], p, k));
    }
  }

  lemma PickFirst<T, U>(s: seq<T>, p: T -> bool, f: T -> U)
    requires s != []
    ensures Pick(s, p, f) == (if p(s[0]) then [f(s[0])] else []) + Pick(s[1..], p, f)
  {
  }

  lemma {:induction false} PickConcat<T, U>(a: seq<T>, b: seq<T>, p: T -> bool, f: T -> U)
    ensures Pick(a + b, p, f) == Pick(a, p, f) + Pick(b, p, f)
    decreases |a|
  {
    if a == [] {
      assert a + b == b;
    } else {
      var h := if p(a[0]) then [f(a[0])] else [];
      assert (a + b)[0] == a[0];
      assert (a + b)[1..] == a[1..] + b;
      assert Pick(a + b, p, f) == h + Pick(a[1..] + b, p, f);
      PickConcat(a[1..], b, p, f);
      assert Pick(a, p, f) == h + Pick(a[1..], p, f);
    }
  }

  /** The `Some` images under `f` of the elements before the first one
      satisfying `stop` (a `foreach` with `break` that adds what `f` yields). */
  function PickUntil<T, U>(s: seq<T>, stop: T -> bool, f: T -> Option<U>): (r: seq<U>)
    ensures |r| <= |s|
  {
    if s == [] || stop(s[0]) then []
    else (if f(s[0]).Some? then [f(s[0]).value] else []) + PickUntil(s[1..], stop, f)
  }

  /** Every result is a `Some` image, so it has any property all images have. */
  lemma {:induction false} PickUntilAll<T, U>(s: seq<T>, stop: T -> bool, f: T -> Option<U>, p: U -> bool)
    requires forall x :: f(x).Some? ==> p(f(x).value)
    ensures forall i :: 0 <= i < |PickUntil(s, stop, f)| ==> p(PickUntil(s, stop, f)[i])
    decreases |s|
  {
    if s != [] && !stop(s[0]) {
      PickUntilAll(s[1..], stop, f, p);
    }
  }

  /** Nothing at or after a stopping element contributes. */
  lemma {:induction false} PickUntilStops<T, U>(s: seq<T>, stop: T -> bool, f: T -> Option<U>, k: nat)
    requires k < |s| && stop(s[k])
    ensures PickUntil(s, stop, f) == PickUntil(s[..k], stop, f)
    decreases k
  {
    if k > 0 && !stop(s[0]) {
      PickUntilStops(s[1..], stop, f, k - 1);
      assert s[..k][1..] == s[1..][..k - 1];
      assert s[..k][0] == s[0];
    }
  }

  /** Before any stopping element, the scan distributes over concatenation. */
  lemma {:induction false} PickUntilConcat<T, U>(a: seq<T>, b: seq<T>, stop: T -> bool, f: T -> Option<U>)
    requires forall i :: 0 <= i < |a| ==> !stop(a[i])
    ensures PickUntil(a + b, stop, f) == PickUntil(a, stop, f) + PickUntil(b, stop, f)
    decreases |a|
  {
    if a == [] {
      assert a + b == b;
    } else {
      var h := if f(a[0]).Some? then [f(a[0]).value] else [];
      assert (a + b)[0] == a[0];
      assert (a + b)[1..] == a[1..] + b;
      assert PickUntil(a + b, stop, f) == h + PickUntil(a[1..] + b, stop, f);
      PickUntilConcat(a[1..], b, stop, f);
    }
  }

  /** The image of the first element whose image is not empty, or empty. */
  function FirstNonEmpty<T, U>(s: seq<T>, f: T -> seq<U>): (r: seq<U>)
    ensures r == [] <==> forall i :: 0 <= i < |s| ==> f(s[i]) == []
  {
    if s == [] then []
    else if f(s[0]) != [] then f(s[0])
    else FirstNonEmpty(s[1..], f)
  }

  /** A non-empty result is the image of one element, and every earlier
      element's image is empty. */
  lemma {:induction false} FirstNonEmptyAt<T, U>(s: seq<T>, f: T -> seq<U>) returns (i: nat)
    requires FirstNonEmpty(s, f) != []
    ensures i < |s| && FirstNonEmpty(s, f) == f(s[i])
    ensures forall j :: 0 <= j < i ==> f(s[j]) == []
    decreases |s|
  {
    if f(s[0]) != [] {
      i := 0;
    } else {
      var i' := FirstNonEmptyAt(s[1..], f);
      i := i' + 1;
      assert forall j :: 1 <= j < i ==> s[j] == s[1..][j - 1];
    }
  }

  /** Replacing the pair at 0 of a two-element sequence. */
  lemma SpliceFirstPair<T>(x: T, y: T, m: T)
    ensures [x, y][..0] + [m] + [x, y][2..] == [m]
  {
    assert [x, y][2..] == [];
  }

  /** Replacing the pair at 1 of a three-element sequence. */
  lemma SpliceSecondPair<T>(x: T, y: T, z: T, m: T)
    ensures [x, y, z][..1] + [m] + [x, y, z][3..] == [x, m]
  {
    assert [x, y, z][..1] == [x];
    assert [x, y, z][3..] == [];
  }

  /** `Count(p)`. */
  function Count<T>(s: seq<T>, p: T -> bool): (n: nat)
    ensures n <= |s|
  {
    |Filter(s, p)|
  }

  /** The positions below `n` whose element satisfies `p`. */
  function Indices<T>(s: seq<T>, p: T -> bool, n: nat): set<int>
    requires n <= |s|
  {
    set i | 0 <= i < n && p(s[i])
  }

  /** Counting the first `n` elements counts their satisfying positions. */
  lemma {:induction false} CountPrefix<T>(s: seq<T>, p: T -> bool, n: nat)
    requires n <= |s|
    ensures |Filter(s[..n], p)| == |Indices(s, p, n)|
    decreases n
  {
    if n == 0 {
      assert Indices(s, p, 0) == {};
    } else {
      CountPrefix(s, p, n - 1);
      FilterSnoc(s, p, n);
      IndicesSnoc(s, p, n);
    }
  }

  /** Extending the prefix by one element adds one to the filter exactly
      when that element satisfies `p`. */
  lemma FilterSnoc<T>(s: seq<T>, p: T -> bool, n: nat)
    requires 1 <= n <= |s|
    ensures |Filter(s[..n], p)| == |Filter(s[..n - 1], p)| + if p(s[n - 1]) then 1 else 0
  {
    assert s[..n] == s[..n - 1] + [s[n - 1]];
    FilterConcat(s[..n - 1], [s[n - 1]], p);
    assert Filter([s[n - 1]], p) == if p(s[n - 1]) then [s[n - 1]] else [];
  }

  /** Extending the bound by one adds the new position exactly when its
      element satisfies `p`. */
  lemma IndicesSnoc<T>(s: seq<T>, p: T -> bool, n: nat)
    requires 1 <= n <= |s|
    ensures |Indices(s, p, n)| == |Indices(s, p, n - 1)| + if p(s[n - 1]) then 1 else 0
  {
    assert n - 1 !in Indices(s, p, n - 1);
    if p(s[n - 1]) {
      assert Indices(s, p, n) == Indices(s, p, n - 1) + {n - 1};
    } else {
      assert Indices(s, p, n) == Indices(s, p, n - 1);
    }
  }

  /** `Count(p)` is the number of positions whose element satisfies `p`. */
  lemma CountIndices<T>(s: seq<T>, p: T -> bool)
    ensures Count(s, p) == |Indices(s, p, |s|)|
  {
    CountPrefix(s, p, |s|);
    assert s[..|s|] == s;
  }

  /** `SelectMany(f)`: the concatenation of the groups of the elements. */
  function ConcatMap<T, U>(s: seq<T>, f: T -> seq<U>): seq<U> {
    if s == [] then [] else f(s[0]) + ConcatMap(s[1..], f)
  }

  /** Whatever `ConcatMap` yields comes from the group of some element. */
  lemma {:induction false} ConcatMapFrom<T, U>(s: seq<T>, f: T -> seq<U>, x: U) returns (i: nat)
    requires x in ConcatMap(s, f)
    ensures i < |s| && x in f(s[i])
    decreases |s|
  {
    assert s != [];
    if x in f(s[0]) {
      i := 0;
    } else {
      var j := ConcatMapFrom(s[1..], f, x);
      assert s[1..][j] == s[j + 1];
      i := j + 1;
    }
  }

  /** Every member of every element's group is in `ConcatMap`. */
  lemma {:induction false} ConcatMapHas<T, U>(s: seq<T>, f: T -> seq<U>, i: nat, x: U)
    requires i < |s| && x in f(s[i])
    ensures x in ConcatMap(s, f)
    decreases |s|
  {
    if i > 0 {
      assert s[1..][i - 1] == s[i];
      ConcatMapHas(s[1..], f, i - 1, x);
    }
  }

  /** `SelectMany(g => g)`: the concatenation of all groups. */
  function Flatten<T>(ss: seq<seq<T>>): seq<T> {
    if ss == [] then [] else ss[0] + Flatten(ss[1..])
  }

  lemma {:induction false} FlattenAppend<T>(ss: seq<seq<T>>, g: seq<T>)
    ensures Flatten(ss + [g]) == Flatten(ss) + g
    decreases |ss|
  {
    if ss == [] {
      assert Flatten([g]) == g + Flatten([g][1..]);
    } else {
      assert (ss + [g])[1..] == ss[1..] + [g];
      FlattenAppend(ss[1..], g);
    }
  }

  /** Appending `x` to the last group appends it to the flattening. */
  lemma FlattenAppendLast<T>(ss: seq<seq<T>>, x: T)
    requires ss != []
    ensures Flatten(ss[|ss| - 1 := ss[|ss| - 1] + [x]]) == Flatten(ss) + [x]
  {
    var n := |ss| - 1;
    assert ss == ss[..n] + [ss[n]];
    assert ss[n := ss[n] + [x]] == ss[..n] + [ss[n] + [x]];
    FlattenAppend(ss[..n], ss[n]);
    FlattenAppend(ss[..n], ss[n] + [x]);
  }

  /** The multiset of all elements of all groups. */
  function FlatMultiset<T>(ss: seq<seq<T>>): multiset<T> {
    if ss == [] then multiset{} else multiset(ss[0]) + FlatMultiset(ss[1..])
  }

  /** The multiset of the groups is the multiset of their flattening. */
  lemma {:induction false} FlatMultisetFlatten<T>(ss: seq<seq<T>>)
    ensures FlatMultiset(ss) == multiset(Flatten(ss))
    decreases |ss|
  {
    if ss != [] {
      FlatMultisetFlatten(ss[1..]);
    }
  }

  lemma {:induction false} FlatMultisetAppend<T>(ss: seq<seq<T>>, g: seq<T>)
    ensures FlatMultiset(ss + [g]) == FlatMultiset(ss) + multiset(g)
    decreases |ss|
  {
    if ss == [] {
      assert FlatMultiset([g]) == multiset(g) + FlatMultiset([g][1..]);
    } else {
      assert (ss + [g])[1..] == ss[1..] + [g];
      FlatMultisetAppend(ss[1..], g);
    }
  }

  /** Appending `x` to group `i` adds `x` to the flattened multiset. */
  lemma {:induction false} FlatMultisetAppendTo<T>(ss: seq<seq<T>>, i: nat, x: T)
    requires i < |ss|
    ensures FlatMultiset(ss[i := ss[i] + [x]]) == FlatMultiset(ss) + multiset{x}
    decreases i
  {
    var t := ss[i := ss[i] + [x]];
    if i == 0 {
      assert t[1..] == ss[1..];
      assert multiset(ss[0] + [x]) == multiset(ss[0]) + multiset{x};
    } else {
      assert t[0] == ss[0];
      assert t[1..] == ss[1..][i - 1 := ss[1..][i - 1] + [x]];
      FlatMultisetAppendTo(ss[1..], i - 1, x);
    }
  }

  /** A member of a group is a member of the flattened multiset. */
  lemma {:induction false} FlatMultisetMember<T>(ss: seq<seq<T>>, i: nat, j: nat)
    requires i < |ss| && j < |ss[i]|
    ensures ss[i][j] in FlatMultiset(ss)
    decreases i
  {
    if i > 0 {
      FlatMultisetMember(ss[1..], i - 1, j);
    }
  }

  /** In a sequence whose elements have pairwise distinct images under `f`,
      every element occurs at most once. */
  lemma {:induction false} DistinctOnce<T, U>(b: seq<T>, f: T -> U, x: T)
    requires forall i, j :: 0 <= i < j < |b| ==> f(b[i]) != f(b[j])
    ensures multiset(b)[x] <= 1
    decreases |b|
  {
    if b != [] {
      assert b == [b[0]] + b[1..];
      DistinctOnce(b[1..], f, x);
      if b[0] == x {
        forall k | 0 <= k < |b[1..]|
          ensures b[1..][k] != x
        {
          assert f(b[0]) != f(b[k + 1]);
        }
        assert x !in b[1..];
      }
    }
  }

  /** A permutation of a sequence with pairwise distinct images under `f` has
      pairwise distinct images too. */
  lemma DistinctPermutation<T, U>(a: seq<T>, b: seq<T>, f: T -> U)
    requires multiset(a) == multiset(b)
    requires forall i, j :: 0 <= i < j < |b| ==> f(b[i]) != f(b[j])
    ensures forall i, j :: 0 <= i < j < |a| ==> f(a[i]) != f(a[j])
  {
    forall i, j | 0 <= i < j < |a|
      ensures f(a[i]) != f(a[j])
    {
      if f(a[i]) == f(a[j]) {
        assert a[i] in multiset(b) && a[j] in multiset(b);
        var p :| 0 <= p < |b| && b[p] == a[i];
        var q :| 0 <= q < |b| && b[q] == a[j];
        assert p == q;
        assert a == a[..j] + [a[j]] + a[j + 1..];
        assert a[i] in a[..j];
        assert multiset(a)[a[j]] >= 2;
        DistinctOnce(b, f, a[j]);
        assert false;
      }
    }
  }
}

=== FILE: sorting.dfy ===
/** A stable sort on a numeric key. LINQ's `OrderBy` and
    `OrderByDescending` are stable sorts; the services use them to order
    header words and data words by position, column centres by x, visual
    rows by height and lot vertices by their `Order`. A descending order is
    an ascending order on the negated key. */
module Sorting {

  /** `s` is in ascending order of `key`. */
  ghost predicate SortedBy<T>(s: seq<T>, key: T -> real) {
    forall i, j :: 0 <= i < j < |s| ==> key(s[i]) <= key(s[j])
  }

  /** The elements of `s` whose key is exactly `k`, in their order in `s`.
      A sort is stable when it keeps every such class in place. */
  function KeyClass<T>(s: seq<T>, key: T -> real, k: real): (c: seq<T>)
    ensures |c| <= |s|
  {
    if s == [] then []
    else (if key(s[0]) == k then [s[0]] else []) + KeyClass(s[1..], key, k)
  }

  /** Puts `x` in front of the first element whose key is not smaller. */
  function Insert<T>(x: T, s: seq<T>, key: T -> real): (r: seq<T>)
    ensures |r| == |s| + 1
    ensures multiset(r) == multiset(s) + multiset{x}
  {
    if s == [] || key(x) <= key(s[0]) then [x] + s
    else
      assert s == [s[0]] + s[1..];
      [s[0]] + Insert(x, s[1..], key)
  }

  /** `OrderBy(key)`: an insertion sort that keeps equal keys in input order. */
  function SortBy<T>(s: seq<T>, key: T -> real): (r: seq<T>)
    ensures |r| == |s|
    ensures multiset(r) == multiset(s)
  {
    if s == [] then []
    else
      assert s == [s[0]] + s[1..];
      Insert(s[0], SortBy(s[1..], key), key)
  }

  lemma {:induction false} InsertSorted<T>(x: T, s: seq<T>, key: T -> real)
    requires SortedBy(s, key)
    ensures SortedBy(Insert(x, s, key), key)
    decreases |s|
  {
    if s != [] && key(x) > key(s[0]) {
      InsertSorted(x, s[1..], key);
      var r := Insert(x, s[1..], key);
      forall i | 0 <= i < |r|
        ensures key(s[0]) <= key(r[i])
      {
        assert r[i] in multiset(r);
        assert r[i] in multiset(s[1..]) + multiset{x};
        if r[i] != x {
          assert r[i] in multiset(s[1..]);
          assert r[i] in s[1..];
        }
      }
    }
  }

  /** The sort puts its input in ascending key order. */
  lemma {:induction false} SortBySorted<T>(s: seq<T>, key: T -> real)
    ensures SortedBy(SortBy(s, key), key)
    decreases |s|
  {
    if s != [] {
      SortBySorted(s[1..], key);
      InsertSorted(s[0], SortBy(s[1..], key), key);
    }
  }

  lemma {:induction false} KeyClassConcat<T>(a: seq<T>, b: seq<T>, key: T -> real, k: real)
    ensures KeyClass(a + b, key, k) == KeyClass(a, key, k) + KeyClass(b, key, k)
    decreases |a|
  {
    if a == [] {
      assert a + b == b;
    } else {
      var h := if key(a[0]) == k then [a[0]] else [];
      assert (a + b)[0] == a[0];
      assert (a + b)[1..] == a[1..] + b;
      KeyClassConcat(a[1..], b, key, k);
      calc {
        KeyClass(a + b, key, k);
        h + KeyClass(a[1..] + b, key, k);
        h + (KeyClass(a[1..], key, k) + KeyClass(b, key, k));
        (h + KeyClass(a[1..], key, k)) + KeyClass(b, key, k);
        KeyClass(a, key, k) + KeyClass(b, key, k);
      }
    }
  }

  lemma {:induction false} InsertKeyClass<T>(x: T, s: seq<T>, key: T -> real, k: real)
    requires SortedBy(s, key)
    ensures KeyClass(Insert(x, s, key), key, k)
         == (if key(x) == k then [x] else []) + KeyClass(s, key, k)
    decreases |s|
  {
    if s == [] || key(x) <= key(s[0]) {
      KeyClassConcat([x], s, key, k);
    } else {
      InsertKeyClass(x, s[1..], key, k);
      KeyClassConcat([s[0]], Insert(x, s[1..], key), key, k);
    }
  }

  /** Stability: for every key value, the elements carrying it appear in the
      output in the same relative order as in the input. */
  lemma {:induction false} SortByStable<T>(s: seq<T>, key: T -> real, k: real)
    ensures KeyClass(SortBy(s, key), key, k) == KeyClass(s, key, k)
    decreases |s|
  {
    if s != [] {
      SortBySorted(s[1..], key);
      SortByStable(s[1..], key, k);
      InsertKeyClass(s[0], SortBy(s[1..], key), key, k);
    }
  }

  /** Sorting input that is already in key order changes nothing. */
  lemma {:induction false} SortByOfSorted<T>(s: seq<T>, key: T -> real)
    requires SortedBy(s, key)
    ensures SortBy(s, key) == s
    decreases |s|
  {
    if s != [] {
      assert SortedBy(s[1..], key);
      SortByOfSorted(s[1..], key);
    }
  }
}

=== FILE: text.dfy ===
/** Character classes and string primitives of the .NET runtime that the
    services rely on: `char.IsWhiteSpace`, `ToUpperInvariant`, `Trim`,
    ordinal and `OrdinalIgnoreCase` search, `string.Replace`, `string.Join`
    and the ubiquitous `Regex.Replace(s, @"\s+", " ")`.

    Characters are modelled over ASCII plus the Spanish letters the documents
    use (á é í ó ú ü ñ and their capitals). */
module Text {

  // ---------------------------------------------------------------------
  // Character classes
  // ---------------------------------------------------------------------

  /** `char.IsWhiteSpace` (and the regex class `\s`) restricted to Latin-1. */
  predicate IsWhite(c: char) {
    c == ' ' || c == '\t' || c == '\n' || c == '\r' || c == '\U{000B}' || c == '\U{000C}'
    || c == '\U{0085}' || c == '\U{00A0}'
  }

  predicate IsDigit(c: char) {
    '0' <= c <= '9'
  }

  predicate IsAsciiUpper(c: char) {
    'A' <= c <= 'Z'
  }

  predicate IsAsciiLower(c: char) {
    'a' <= c <= 'z'
  }

  /** The upper-case letters of the regex class `[A-ZÁÉÍÓÚÜÑ]`. */
  predicate IsUpperLetter(c: char) {
    IsAsciiUpper(c) || c == 'Á' || c == 'É' || c == 'Í' || c == 'Ó' || c == 'Ú' || c == 'Ü' || c == 'Ñ'
  }

  predicate IsLowerLetter(c: char) {
    IsAsciiLower(c) || c == 'á' || c == 'é' || c == 'í' || c == 'ó' || c == 'ú' || c == 'ü' || c == 'ñ'
  }

  /** `char.IsLetter`. */
  predicate IsLetter(c: char) {
    IsUpperLetter(c) || IsLowerLetter(c)
  }

  /** `char.IsLetterOrDigit`. */
  predicate IsLetterOrDigit(c: char) {
    IsLetter(c) || IsDigit(c)
  }

  /** The regex word class `\w`. */
  predicate IsWordChar(c: char) {
    IsLetterOrDigit(c) || c == '_'
  }

  /** `char.ToUpperInvariant`. */
  function UpperChar(c: char): (u: char)
    ensures IsLowerLetter(c) ==> IsUpperLetter(u)
    ensures !IsLowerLetter(c) ==> u == c
    ensures IsWhite(u) <==> IsWhite(c)
    ensures IsDigit(u) <==> IsDigit(c)
    ensures IsLetter(u) <==> IsLetter(c)
    ensures !IsLowerLetter(u)
  {
    if IsAsciiLower(c) then (c as int - 32) as char
    else if c == 'á' then 'Á'
    else if c == 'é' then 'É'
    else if c == 'í' then 'Í'
    else if c == 'ó' then 'Ó'
    else if c == 'ú' then 'Ú'
    else if c == 'ü' then 'Ü'
    else if c == 'ñ' then 'Ñ'
    else c
  }

  /** `char.ToLowerInvariant`. */
  function LowerChar(c: char): (l: char)
    ensures IsUpperLetter(c) ==> IsLowerLetter(l)
    ensures !IsUpperLetter(c) ==> l == c
    ensures UpperChar(l) == UpperChar(c)
  {
    if IsAsciiUpper(c) then (c as int + 32) as char
    else if c == 'Á' then 'á'
    else if c == 'É' then 'é'
    else if c == 'Í' then 'í'
    else if c == 'Ó' then 'ó'
    else if c == 'Ú' then 'ú'
    else if c == 'Ü' then 'ü'
    else if c == 'Ñ' then 'ñ'
    else c
  }

  /** `ToUpperInvariant` on strings: character by character. */
  function Upper(s: string): (u: string)
    ensures |u| == |s|
    ensures forall i :: 0 <= i < |s| ==> u[i] == UpperChar(s[i])
  {
    seq(|s|, i requires 0 <= i < |s| => UpperChar(s[i]))
  }

  /** `ToLowerInvariant` on strings. */
  function Lower(s: string): (l: string)
    ensures |l| == |s|
    ensures forall i :: 0 <= i < |s| ==> l[i] == LowerChar(s[i])
  {
    seq(|s|, i requires 0 <= i < |s| => LowerChar(s[i]))
  }

  lemma UpperConcat(a: string, b: string)
    ensures Upper(a + b) == Upper(a) + Upper(b)
  {
  }

  lemma UpperIdempotent(s: string)
    ensures Upper(Upper(s)) == Upper(s)
  {
  }

  /** Case-insensitive equality, `StringComparison.OrdinalIgnoreCase`. */
  predicate EqualsCI(a: string, b: string) {
    Upper(a) == Upper(b)
  }

  // ---------------------------------------------------------------------
  // Blank strings and trimming
  // ---------------------------------------------------------------------

  /** `string.IsNullOrWhiteSpace` for a non-null string. */
  predicate IsBlank(s: string) {
    forall i :: 0 <= i < |s| ==> IsWhite(s[i])
  }

  /** No leading and no trailing whitespace. */
  predicate IsTrimmed(s: string) {
    s == [] || (!IsWhite(s[0]) && !IsWhite(s[|s| - 1]))
  }

  /** `s.TrimStart()`: a suffix of `s` that does not start with whitespace. */
  function TrimStart(s: string): (r: string)
    ensures |r| <= |s| && r == s[|s| - |r|..]
    ensures r == [] || !IsWhite(r[0])
  {
    if |s| > 0 && IsWhite(s[0]) then TrimStart(s[1..]) else s
  }

  /** What `TrimStart` drops is whitespace. */
  lemma {:induction false} TrimStartBlank(s: string)
    ensures IsBlank(s[..|s| - |TrimStart(s)|])
    decreases |s|
  {
    if |s| > 0 && IsWhite(s[0]) {
      TrimStartBlank(s[1..]);
      var n := |s| - |TrimStart(s)|;
      forall i | 0 <= i < n
        ensures IsWhite(s[i])
      {
        if i > 0 {
          assert s[i] == s[1..][..n - 1][i - 1];
        }
      }
    }
  }

  /** `s.TrimEnd()`: a prefix of `s` that does not end with whitespace. */
  function TrimEnd(s: string): (r: string)
    ensures |r| <= |s| && r == s[..|r|]
    ensures r == [] || !IsWhite(r[|r| - 1])
  {
    if |s| > 0 && IsWhite(s[|s| - 1]) then TrimEnd(s[..|s| - 1]) else s
  }

  /** What `TrimEnd` drops is whitespace. */
  lemma {:induction false} TrimEndBlank(s: string)
    ensures IsBlank(s[|TrimEnd(s)|..])
    decreases |s|
  {
    if |s| > 0 && IsWhite(s[|s| - 1]) {
      var p := s[..|s| - 1];
      TrimEndBlank(p);
      var n := |TrimEnd(s)|;
      forall i | n <= i < |s|
        ensures IsWhite(s[i])
      {
        if i < |s| - 1 {
          assert s[i] == p[n..][i - n];
        }
      }
    }
  }

  lemma BlankConcat(a: string, b: string)
    ensures IsBlank(a + b) <==> IsBlank(a) && IsBlank(b)
  {
    if IsBlank(a) && IsBlank(b) {
      forall i | 0 <= i < |a + b|
        ensures IsWhite((a + b)[i])
      {
        if i < |a| { assert (a + b)[i] == a[i]; } else { assert (a + b)[i] == b[i - |a|]; }
      }
    }
    if IsBlank(a + b) {
      forall i | 0 <= i < |a| ensures IsWhite(a[i]) { assert a[i] == (a + b)[i]; }
      forall i | 0 <= i < |b| ensures IsWhite(b[i]) { assert b[i] == (a + b)[|a| + i]; }
    }
  }

  /** Whether a non-white character occurs in `s`. */
  lemma NotBlankWitness(s: string, i: int)
    requires 0 <= i < |s| && !IsWhite(s[i])
    ensures !IsBlank(s)
  {
  }

  /** Trimming both ends cuts `s` at two indices, with whitespace outside
      the cuts and a non-white first character inside. */
  lemma TrimCuts(s: string) returns (i: nat, j: nat)
    ensures i <= j <= |s|
    ensures TrimEnd(TrimStart(s)) == s[i..j]
    ensures IsBlank(s[..i]) && IsBlank(s[j..])
    ensures i < j ==> !IsWhite(s[i])
  {
    var t := TrimStart(s);
    var r := TrimEnd(t);
    TrimStartBlank(s);
    TrimEndBlank(t);
    i := |s| - |t|;
    j := i + |r|;
    assert s[i..] == t;
    assert s[j..] == t[|r|..];
    assert s[i..j] == r;
  }

  /** Trimming both ends leaves a trimmed string. */
  lemma TrimBothTrimmed(s: string)
    ensures IsTrimmed(TrimEnd(TrimStart(s)))
  {
    var t := TrimStart(s);
    var r := TrimEnd(t);
    if r != [] {
      assert r[0] == t[0];
    }
  }

  /** A string is blank exactly when trimming both ends leaves nothing. */
  lemma TrimBothEmpty(s: string)
    ensures TrimEnd(TrimStart(s)) == [] <==> IsBlank(s)
  {
    var i, j := TrimCuts(s);
    if i == j {
      assert s == s[..i] + s[j..];
      BlankConcat(s[..i], s[j..]);
    } else {
      NotBlankWitness(s, i);
    }
  }

  /** `string.Trim()`: the longest infix without surrounding whitespace. */
  function Trim(s: string): (r: string)
    ensures IsTrimmed(r)
    ensures |r| <= |s|
    ensures r == [] <==> IsBlank(s)
  {
    TrimBothEmpty(s);
    TrimBothTrimmed(s);
    TrimEnd(TrimStart(s))
  }

  /** The trimmed string is an infix of the original, framed by blanks. */
  lemma TrimInfix(s: string) returns (i: nat)
    ensures i + |Trim(s)| <= |s|
    ensures Trim(s) == s[i..i + |Trim(s)|]
    ensures IsBlank(s[..i]) && IsBlank(s[i + |Trim(s)|..])
  {
    var j;
    i, j := TrimCuts(s);
    CutInfix(s, Trim(s), i, j);
  }

  /** Where the trimmed string sits in the original. */
  lemma TrimOffset(s: string) returns (i: nat)
    ensures i + |Trim(s)| <= |s| && Trim(s) == s[i..i + |Trim(s)|]
  {
    i := TrimInfix(s);
  }

  /** Trimming only cuts: a character absent from a text is absent from it trimmed. */
  lemma TrimKeepsAbsent(s: string, c: char)
    requires c !in s
    ensures c !in Trim(s)
  {
    var i := TrimOffset(s);
    assert forall k :: 0 <= k < |Trim(s)| ==> Trim(s)[k] == s[i + k];
  }

  lemma CutInfix(s: string, t: string, i: nat, j: nat)
    requires i <= j <= |s| && t == s[i..j]
    requires IsBlank(s[..i]) && IsBlank(s[j..])
    ensures i + |t| <= |s| && t == s[i..i + |t|]
    ensures IsBlank(s[..i]) && IsBlank(s[i + |t|..])
  {
  }

  lemma TrimOfTrimmed(s: string)
    requires IsTrimmed(s)
    ensures Trim(s) == s
  {
  }

  lemma TrimIdempotent(s: string)
    ensures Trim(Trim(s)) == Trim(s)
  {
    TrimOfTrimmed(Trim(s));
  }

  // ---------------------------------------------------------------------
  // Whitespace runs: Regex.Replace(s, @"\s+", " ")
  // ---------------------------------------------------------------------

  /** Every whitespace run of `s` replaced by a single space: a whitespace
      character followed by another is dropped, the last of a run becomes
      a space. */
  function Squash(s: string): (r: string)
    ensures |r| <= |s|
    decreases |s|
  {
    if s == [] then []
    else if IsWhite(s[0]) then
      if |s| > 1 && IsWhite(s[1]) then Squash(s[1..]) else " " + Squash(s[1..])
    else [s[0]] + Squash(s[1..])
  }

  /** Whitespace normal form: every whitespace character is a plain space and
      no two whitespace characters are adjacent. */
  predicate Spaced(s: string) {
    && (forall i :: 0 <= i < |s| && IsWhite(s[i]) ==> s[i] == ' ')
    && (forall i :: 0 <= i < |s| - 1 ==> !(IsWhite(s[i]) && IsWhite(s[i + 1])))
  }

  /** Trimmed and in whitespace normal form. */
  predicate Tidy(s: string) {
    IsTrimmed(s) && Spaced(s)
  }

  /** A non-empty input squashes to a non-empty output that starts with the
      same character, or with a space when the input starts with a run. */
  lemma {:induction false} SquashHead(s: string)
    requires s != []
    ensures Squash(s) != []
    ensures IsWhite(s[0]) ==> Squash(s)[0] == ' '
    ensures !IsWhite(s[0]) ==> Squash(s)[0] == s[0]
    decreases |s|
  {
    if IsWhite(s[0]) && |s| > 1 && IsWhite(s[1]) {
      SquashHead(s[1..]);
    }
  }

  /** A non-white last character survives squashing. */
  lemma {:induction false} SquashLast(s: string)
    requires s != [] && !IsWhite(s[|s| - 1])
    ensures Squash(s) != [] && Squash(s)[|Squash(s)| - 1] == s[|s| - 1]
    decreases |s|
  {
    if |s| > 1 {
      assert s[1..][|s[1..]| - 1] == s[|s| - 1];
      SquashLast(s[1..]);
    }
  }

  lemma SpacedCons(c: char, t: string)
    requires Spaced(t)
    requires IsWhite(c) ==> c == ' ' && (t == [] || !IsWhite(t[0]))
    ensures Spaced([c] + t)
  {
    var s := [c] + t;
    forall i | 0 < i < |s|
      ensures s[i] == t[i - 1]
    {
    }
  }

  /** The output of `Squash` is in whitespace normal form. */
  lemma {:induction false} SquashSpaced(s: string)
    ensures Spaced(Squash(s))
    decreases |s|
  {
    if s != [] {
      SquashSpaced(s[1..]);
      if |s| > 1 {
        SquashHead(s[1..]);
      }
      if !(IsWhite(s[0]) && |s| > 1 && IsWhite(s[1])) {
        var c := if IsWhite(s[0]) then ' ' else s[0];
        SpacedCons(c, Squash(s[1..]));
      }
    }
  }

  /** A trimmed string squashes to a tidy one, empty only when it was. */
  lemma SquashTrimmed(t: string)
    requires IsTrimmed(t)
    ensures Tidy(Squash(t))
    ensures Squash(t) == [] <==> t == []
  {
    SquashSpaced(t);
    if t != [] {
      SquashHead(t);
      SquashLast(t);
    }
  }

  /** `Regex.Replace(s.Trim(), @"\s+", " ")`. */
  function Collapse(s: string): (r: string)
    ensures Tidy(r)
    ensures r == [] <==> IsBlank(s)
  {
    SquashTrimmed(Trim(s));
    Squash(Trim(s))
  }

  /** Cutting an infix out of a string in whitespace normal form keeps it
      in normal form. */
  lemma SpacedInfix(s: string, i: nat, j: nat)
    requires Spaced(s) && i <= j <= |s|
    ensures Spaced(s[i..j])
  {
    var t := s[i..j];
    forall k | 0 <= k < |t| - 1
      ensures !(IsWhite(t[k]) && IsWhite(t[k + 1]))
    {
      assert t[k] == s[i + k] && t[k + 1] == s[i + k + 1];
    }
  }

  /** `Regex.Replace(s, @"\s+", " ").Trim()`: squash first, then trim. */
  function SquashTrim(s: string): (r: string)
    ensures Tidy(r)
  {
    SquashSpaced(s);
    TrimSpaced(Squash(s));
    Trim(Squash(s))
  }

  lemma TrimSpaced(q: string)
    requires Spaced(q)
    ensures Spaced(Trim(q))
  {
    var i := TrimOffset(q);
    SpacedInfix(q, i, i + |Trim(q)|);
  }

  lemma SpacedTail(s: string)
    requires Spaced(s) && s != []
    ensures Spaced(s[1..])
  {
    forall i | 0 <= i < |s[1..]| - 1
      ensures !(IsWhite(s[1..][i]) && IsWhite(s[1..][i + 1]))
    {
      assert s[1..][i] == s[i + 1] && s[1..][i + 1] == s[i + 2];
    }
  }

  /** Squashing a string already in whitespace normal form changes nothing. */
  lemma {:induction false} SquashOfSpaced(s: string)
    requires Spaced(s)
    ensures Squash(s) == s
    decreases |s|
  {
    if s != [] {
      SpacedTail(s);
      SquashOfSpaced(s[1..]);
      if IsWhite(s[0]) {
        assert s[0] == ' ';
        assert |s| > 1 ==> !IsWhite(s[1]);
      }
      assert [s[0]] + s[1..] == s;
    }
  }

  lemma CollapseOfTidy(s: string)
    requires Tidy(s)
    ensures Collapse(s) == s
  {
    TrimOfTrimmed(s);
    SquashOfSpaced(s);
  }

  // ---------------------------------------------------------------------
  // Search
  // ---------------------------------------------------------------------

  /** `pat` occurs in `s` at index `k` (ordinal comparison). */
  predicate MatchesAt(s: string, pat: string, k: int) {
    0 <= k && k + |pat| <= |s| && s[k..k + |pat|] == pat
  }

  /** `s.IndexOf(pat, from, StringComparison.Ordinal)`: the first index at or
      after `from` where `pat` occurs, or -1. */
  function IndexFrom(s: string, pat: string, from: nat): (r: int)
    ensures r == -1 || (from <= r && MatchesAt(s, pat, r))
    ensures r == -1 ==> forall k :: from <= k ==> !MatchesAt(s, pat, k)
    ensures r >= 0 ==> forall k :: from <= k < r ==> !MatchesAt(s, pat, k)
    decreases |s| - from
  {
    if from + |pat| > |s| then -1
    else if s[from..from + |pat|] == pat then from
    else IndexFrom(s, pat, from + 1)
  }

  /** `s.Contains(pat)`. */
  predicate Contains(s: string, pat: string) {
    IndexFrom(s, pat, 0) >= 0
  }

  lemma ContainsAt(s: string, pat: string, k: int)
    requires MatchesAt(s, pat, k)
    ensures Contains(s, pat)
  {
  }

  lemma ContainsWitness(s: string, pat: string) returns (k: nat)
    requires Contains(s, pat)
    ensures MatchesAt(s, pat, k)
  {
    k := IndexFrom(s, pat, 0);
  }

  /** A pattern with a character the text lacks does not occur in it. */
  lemma NotContainsAbsent(s: string, pat: string, c: char)
    requires c in pat && c !in s
    ensures !Contains(s, pat)
  {
    var i :| 0 <= i < |pat| && pat[i] == c;
    forall k | 0 <= k && k + |pat| <= |s|
      ensures !MatchesAt(s, pat, k)
    {
      assert s[k..k + |pat|][i] == s[k + i] != c;
    }
  }

  /** A pattern occurs in a text of its own length only as the text. */
  lemma NotContainsOther(s: string, pat: string)
    requires |s| <= |pat| && s != pat
    ensures !Contains(s, pat)
  {
  }

  lemma ContainsInfix(a: string, b: string, c: string, pat: string)
    requires Contains(b, pat)
    ensures Contains(a + b + c, pat)
  {
    var k := ContainsWitness(b, pat);
    assert (a + b + c)[|a| + k..|a| + k + |pat|] == b[k..k + |pat|];
    ContainsAt(a + b + c, pat, |a| + k);
  }

  /** A string ending with `pre + pat` contains `pat`. */
  lemma SuffixContains(s: string, pre: string, pat: string)
    requires EndsWith(s, pre + pat)
    ensures Contains(s, pat)
  {
    var k := |s| - |pat|;
    assert s[k..k + |pat|] == (pre + pat)[|pre|..];
    ContainsAt(s, pat, k);
  }

  /** A string containing `pre + pat + post` contains `pat`. */
  lemma InfixContains(s: string, pre: string, pat: string, post: string)
    requires Contains(s, pre + pat + post)
    ensures Contains(s, pat)
  {
    var q := pre + pat + post;
    var k := ContainsWitness(s, q);
    assert s[k..k + |q|] == q;
    forall i | 0 <= i < |pat|
      ensures s[k + |pre| + i] == pat[i]
    {
      assert s[k + |pre| + i] == s[k..k + |q|][|pre| + i] == q[|pre| + i];
    }
    assert s[k + |pre|..k + |pre| + |pat|] == pat;
    ContainsAt(s, pat, k + |pre|);
  }

  lemma ContainsTailCI(a: string, b: string)
    ensures ContainsCI(a + b, b)
  {
    UpperConcat(a, b);
    assert Upper(a + b)[|a|..|a| + |b|] == Upper(b);
    ContainsAt(Upper(a + b), Upper(b), |a|);
  }

  /** Two non-empty trimmed strings around any separator form a trimmed string. */
  lemma TrimmedAround(a: string, sep: string, b: string)
    requires a != [] && b != [] && IsTrimmed(a) && IsTrimmed(b)
    ensures IsTrimmed(a + sep + b)
  {
    assert (a + sep + b)[0] == a[0];
    assert (a + sep + b)[|a + sep + b| - 1] == b[|b| - 1];
  }

  /** Case-insensitive search, `StringComparison.OrdinalIgnoreCase`. */
  function IndexFromCI(s: string, pat: string, from: nat): int {
    IndexFrom(Upper(s), Upper(pat), from)
  }

  predicate ContainsCI(s: string, pat: string) {
    Contains(Upper(s), Upper(pat))
  }

  predicate StartsWith(s: string, pat: string) {
    |pat| <= |s| && s[..|pat|] == pat
  }

  predicate EndsWith(s: string, pat: string) {
    |pat| <= |s| && s[|s| - |pat|..] == pat
  }

  // ---------------------------------------------------------------------
  // Rewriting and joining
  // ---------------------------------------------------------------------

  /** `s.Replace(pat, rep)`: ordinal, left to right, non-overlapping. */
  function Replace(s: string, pat: string, rep: string): (r: string)
    requires |pat| > 0
    ensures |s| < |pat| ==> r == s
    decreases |s|
  {
    if |s| < |pat| then s
    else if s[..|pat|] == pat then rep + Replace(s[|pat|..], pat, rep)
    else [s[0]] + Replace(s[1..], pat, rep)
  }

  /** Replacing a pattern that does not occur changes nothing. */
  lemma {:induction false} ReplaceAbsent(s: string, pat: string, rep: string)
    requires |pat| > 0 && !Contains(s, pat)
    ensures Replace(s, pat, rep) == s
    decreases |s|
  {
    if |s| >= |pat| {
      if s[..|pat|] == pat {
        assert false;
      } else {
        assert !Contains(s[1..], pat) by {
          if Contains(s[1..], pat) {
            var k := ContainsWitness(s[1..], pat);
            assert s[k + 1..k + 1 + |pat|] == s[1..][k..k + |pat|];
            ContainsAt(s, pat, k + 1);
          }
        }
        ReplaceAbsent(s[1..], pat, rep);
      }
    }
  }

  /** `string.Join(sep, parts)`. */
  function Join(parts: seq<string>, sep: string): (r: string)
    ensures parts == [] ==> r == []
    ensures |parts| == 1 ==> r == parts[0]
  {
    if parts == [] then []
    else if |parts| == 1 then parts[0]
    else parts[0] + sep + Join(parts[1..], sep)
  }

  lemma JoinContainsPart(parts: seq<string>, sep: string, k: int)
    requires 0 <= k < |parts|
    ensures exists i :: 0 <= i <= |Join(parts, sep)| - |parts[k]| && MatchesAt(Join(parts, sep), parts[k], i)
    decreases |parts|
  {
    var j := Join(parts, sep);
    if |parts| == 1 {
      assert MatchesAt(j, parts[k], 0);
    } else if k == 0 {
      assert j[..|parts[0]|] == parts[0];
      assert MatchesAt(j, parts[k], 0);
    } else {
      JoinContainsPart(parts[1..], sep, k - 1);
      var rest := Join(parts[1..], sep);
      var i :| 0 <= i <= |rest| - |parts[k]| && MatchesAt(rest, parts[k], i);
      var off := |parts[0]| + |sep|;
      assert j == parts[0] + sep + rest;
      assert j[off + i..off + i + |parts[k]|] == rest[i..i + |parts[k]|];
      assert MatchesAt(j, parts[k], off + i);
    }
  }

  /** A join of non-empty parts starts with the first part's first
      character and ends with the last part's last character. */
  lemma {:induction false} JoinEnds(parts: seq<string>, sep: string)
    requires |parts| >= 1
    requires forall k :: 0 <= k < |parts| ==> parts[k] != []
    ensures var j := Join(parts, sep); var l := parts[|parts| - 1];
      j != [] && j[0] == parts[0][0] && j[|j| - 1] == l[|l| - 1]
    decreases |parts|
  {
    if |parts| > 1 {
      var rest := Join(parts[1..], sep);
      JoinEnds(parts[1..], sep);
      assert Join(parts, sep) == (parts[0] + sep) + rest;
    }
  }

  /** A join of non-empty trimmed parts with a single space is trimmed, and
      empty only when there are no parts. */
  lemma JoinTrimmed(parts: seq<string>)
    requires forall k :: 0 <= k < |parts| ==> parts[k] != [] && IsTrimmed(parts[k])
    ensures IsTrimmed(Join(parts, " "))
    ensures Join(parts, " ") == [] <==> parts == []
  {
    if parts != [] {
      JoinEnds(parts, " ");
    }
  }

  /** `s.Split(' ', StringSplitOptions.RemoveEmptyEntries)`. */
  function SplitSpaces(s: string): (r: seq<string>)
    ensures forall k :: 0 <= k < |r| ==> r[k] != [] && ' ' !in r[k]
    decreases |s|
  {
    if s == [] then []
    else if s[0] == ' ' then SplitSpaces(s[1..])
    else
      var w := FirstToken(s);
      [w] + SplitSpaces(s[|w|..])
  }

  /** The longest prefix of `s` without a space. */
  function FirstToken(s: string): (w: string)
    ensures |w| <= |s| && w == s[..|w|]
    ensures ' ' !in w
    ensures |w| < |s| ==> s[|w|] == ' '
    ensures s != [] && s[0] != ' ' ==> w != []
  {
    if s == [] || s[0] == ' ' then [] else [s[0]] + FirstToken(s[1..])
  }

  /** The first token of a space-free word followed by a space is the word. */
  lemma {:induction false} FirstTokenOf(w: string, t: string)
    requires ' ' !in w
    ensures t == [] || t[0] == ' ' ==> FirstToken(w + t) == w
    decreases |w|
  {
    if w != [] {
      assert (w + t)[1..] == w[1..] + t;
      FirstTokenOf(w[1..], t);
    }
  }

  /** Splitting a single-space join of non-empty space-free words gives the
      words back. */
  lemma {:induction false} SplitJoin(ws: seq<string>)
    requires forall k :: 0 <= k < |ws| ==> ws[k] != [] && ' ' !in ws[k]
    ensures SplitSpaces(Join(ws, " ")) == ws
    decreases |ws|
  {
    if |ws| == 1 {
      SplitSpacesWord(ws[0], []);
      assert ws[0] + [] == ws[0];
    } else if |ws| > 1 {
      var rest := Join(ws[1..], " ");
      assert Join(ws, " ") == ws[0] + (" " + rest);
      SplitSpacesWord(ws[0], " " + rest);
      SplitSpacesSpace(rest);
      SplitJoin(ws[1..]);
    }
  }

  /** A space-free word followed by nothing or by a space splits off as
      the first token. */
  lemma SplitSpacesWord(w: string, t: string)
    requires w != [] && ' ' !in w && (t == [] || t[0] == ' ')
    ensures SplitSpaces(w + t) == [w] + SplitSpaces(t)
  {
    FirstTokenOf(w, t);
    assert (w + t)[0] == w[0];
    assert (w + t)[|w|..] == t;
  }

  /** A leading space is skipped. */
  lemma SplitSpacesSpace(r: string)
    ensures SplitSpaces(" " + r) == SplitSpaces(r)
  {
    assert (" " + r)[1..] == r;
  }
}

=== FILE: visual_rows.dfy ===
/** `GroupByVisualRows`: the data words of a page grouped into visual
    rows. Words are visited from the top of the page down; each joins the
    first existing row whose first word lies within the tolerance vertically,
    or else opens a new row. Rows are returned top to bottom. */
module VisualRows {
  import opened Seqs
  import opened Sorting
  import opened PageWords

  function Abs(x: real): real {
    if x < 0.0 then -x else x
  }

  /** Sort key of `OrderByDescending(w => w.Bottom)`. */
  function Downwards(w: Word): real {
    -w.bottom
  }

  /** Sort key of `OrderByDescending(g => g[0].Bottom)`. */
  function HeadDownwards(g: seq<Word>): real {
    if g == [] then 0.0 else -g[0].bottom
  }

  predicate NonEmptyRows(gs: seq<seq<Word>>) {
    forall i :: 0 <= i < |gs| ==> gs[i] != []
  }

  /** `Math.Abs(g[0].Bottom - w.Bottom) <= tol`. */
  predicate Near(g: seq<Word>, w: Word, tol: real) {
    g != [] && Abs(g[0].bottom - w.bottom) <= tol
  }

  /** The first row the word is near, or -1. */
  function FirstNear(gs: seq<seq<Word>>, w: Word, tol: real): (i: int)
    ensures -1 <= i < |gs|
    ensures i >= 0 ==> Near(gs[i], w, tol) && forall j :: 0 <= j < i ==> !Near(gs[j], w, tol)
    ensures i < 0 ==> forall j :: 0 <= j < |gs| ==> !Near(gs[j], w, tol)
  {
    FirstIndex(gs, (g: seq<Word>) => Near(g, w, tol))
  }

  /** One step of the outer loop: place `w` in the first near row, or open
      a new row at the end. */
  function Place(gs: seq<seq<Word>>, w: Word, tol: real): (r: seq<seq<Word>>)
    requires NonEmptyRows(gs)
    ensures NonEmptyRows(r)
    ensures |r| == |gs| || (|r| == |gs| + 1 && r[|gs|] == [w])
    ensures forall i :: 0 <= i < |gs| ==> r[i][0] == gs[i][0]
    ensures FlatMultiset(r) == FlatMultiset(gs) + multiset{w}
  {
    var i := FirstNear(gs, w, tol);
    if i < 0 then
      FlatMultisetAppend(gs, [w]);
      gs + [[w]]
    else
      FlatMultisetAppendTo(gs, i, w);
      gs[i := gs[i] + [w]]
  }

  /** The rows built from the words in visiting order. */
  function Group(ordered: seq<Word>, tol: real): (r: seq<seq<Word>>)
    ensures NonEmptyRows(r)
  {
    if ordered == [] then []
    else Place(Group(ordered[..|ordered| - 1], tol), ordered[|ordered| - 1], tol)
  }

  /** `GroupByVisualRows(words, tol)`. */
  function GroupByVisualRows(words: seq<Word>, tol: real): seq<seq<Word>> {
    SortBy(Group(SortBy(words, Downwards), tol), HeadDownwards)
  }

  // ---------------------------------------------------------------------
  // Properties of the grouping
  // ---------------------------------------------------------------------

  /** Every word lands in exactly one row: the rows partition the input. */
  lemma {:induction false} GroupPartition(ordered: seq<Word>, tol: real)
    ensures FlatMultiset(Group(ordered, tol)) == multiset(ordered)
    decreases |ordered|
  {
    if ordered != [] {
      var n := |ordered|;
      GroupPartition(ordered[..n - 1], tol);
      assert ordered == ordered[..n - 1] + [ordered[n - 1]];
    }
  }

  /** Every word after the first of its row is within the tolerance of the
      row's first word. */
  predicate WithinTolerance(gs: seq<seq<Word>>, tol: real) {
    forall i, j :: 0 <= i < |gs| && 0 < j < |gs[i]| ==> Near(gs[i], gs[i][j], tol)
  }

  /** The first words of different rows are more than the tolerance apart. */
  predicate HeadsApart(gs: seq<seq<Word>>, tol: real) {
    forall i, j :: 0 <= i < j < |gs| && gs[j] != [] ==> !Near(gs[i], gs[j][0], tol)
  }

  lemma PlaceTolerance(gs: seq<seq<Word>>, w: Word, tol: real)
    requires NonEmptyRows(gs) && WithinTolerance(gs, tol) && HeadsApart(gs, tol)
    ensures WithinTolerance(Place(gs, w, tol), tol) && HeadsApart(Place(gs, w, tol), tol)
  {
    var i := FirstNear(gs, w, tol);
    var r: seq<seq<Word>> := Place(gs, w, tol);
    if i >= 0 {
      assert r == gs[i := gs[i] + [w]];
      forall a: int, b: int | 0 <= a < |r| && 0 < b < |r[a]|
        ensures Near(r[a], r[a][b], tol)
      {
        if a == i && b == |gs[i]| {
          assert r[a][b] == w;
        } else {
          assert r[a][b] == gs[a][b];
        }
      }
    } else {
      assert r == gs + [[w]];
    }
  }

  lemma {:induction false} GroupTolerance(ordered: seq<Word>, tol: real)
    ensures WithinTolerance(Group(ordered, tol), tol)
    ensures HeadsApart(Group(ordered, tol), tol)
    decreases |ordered|
  {
    if ordered != [] {
      var n := |ordered|;
      GroupTolerance(ordered[..n - 1], tol);
      PlaceTolerance(Group(ordered[..n - 1], tol), ordered[n - 1], tol);
    }
  }

  /** Rows are listed top to bottom, and within a row words go downwards. */
  predicate TopToBottom(gs: seq<seq<Word>>) {
    && (forall i, j :: 0 <= i < j < |gs| && gs[i] != [] && gs[j] != [] ==> gs[i][0].bottom >= gs[j][0].bottom)
    && (forall i, a, b :: 0 <= i < |gs| && 0 <= a < b < |gs[i]| ==> gs[i][a].bottom >= gs[i][b].bottom)
  }

  /** Every word already placed lies at or above `w`. */
  predicate AllAbove(gs: seq<seq<Word>>, w: Word) {
    forall i, j :: 0 <= i < |gs| && 0 <= j < |gs[i]| ==> gs[i][j].bottom >= w.bottom
  }

  lemma PlaceTopToBottom(gs: seq<seq<Word>>, w: Word, tol: real)
    requires NonEmptyRows(gs) && TopToBottom(gs) && AllAbove(gs, w)
    ensures TopToBottom(Place(gs, w, tol))
  {
    var i := FirstNear(gs, w, tol);
    var r: seq<seq<Word>> := Place(gs, w, tol);
    if i >= 0 {
      assert r == gs[i := gs[i] + [w]];
      forall k: int, a: int, b: int | 0 <= k < |r| && 0 <= a < b < |r[k]|
        ensures r[k][a].bottom >= r[k][b].bottom
      {
        if k == i && b == |gs[i]| {
          assert r[k][a] == gs[i][a];
        } else {
          assert r[k][a] == gs[k][a] && r[k][b] == gs[k][b];
        }
      }
    } else {
      assert r == gs + [[w]];
    }
  }

  /** Every word of the rows built so far comes from the visited prefix, so
      in downward visiting order it lies at or above the next word. */
  lemma GroupAllAbove(ordered: seq<Word>, tol: real, n: nat)
    requires SortedBy(ordered, Downwards) && 0 < n <= |ordered|
    ensures AllAbove(Group(ordered[..n - 1], tol), ordered[n - 1])
  {
    var gs: seq<seq<Word>> := Group(ordered[..n - 1], tol);
    GroupPartition(ordered[..n - 1], tol);
    forall i: int, j: int | 0 <= i < |gs| && 0 <= j < |gs[i]|
      ensures gs[i][j].bottom >= ordered[n - 1].bottom
    {
      FlatMultisetMember(gs, i, j);
      assert gs[i][j] in multiset(ordered[..n - 1]);
      var k :| 0 <= k < n - 1 && ordered[..n - 1][k] == gs[i][j];
      assert Downwards(ordered[k]) <= Downwards(ordered[n - 1]);
    }
  }

  lemma {:induction false} GroupTopToBottom(ordered: seq<Word>, tol: real, n: nat)
    requires SortedBy(ordered, Downwards) && n <= |ordered|
    ensures TopToBottom(Group(ordered[..n], tol))
    decreases n
  {
    if n > 0 {
      GroupTopToBottom(ordered, tol, n - 1);
      assert ordered[..n][..n - 1] == ordered[..n - 1];
      GroupAllAbove(ordered, tol, n);
      PlaceTopToBottom(Group(ordered[..n - 1], tol), ordered[n - 1], tol);
    }
  }

  /** The final `OrderByDescending` on first words keeps the rows as built. */
  lemma FinalSortKeepsRows(words: seq<Word>, tol: real)
    ensures GroupByVisualRows(words, tol) == Group(SortBy(words, Downwards), tol)
  {
    var ordered := SortBy(words, Downwards);
    var gs := Group(ordered, tol);
    SortBySorted(words, Downwards);
    GroupTopToBottom(ordered, tol, |ordered|);
    assert ordered[..|ordered|] == ordered;
    assert SortedBy(gs, HeadDownwards);
    SortByOfSorted(gs, HeadDownwards);
  }

  /** The visual rows partition the words; every row is non-empty; each word
      is within the tolerance of its row's first word; first words of
      different rows are more than the tolerance apart; rows run top to
      bottom, and so do the words within a row. */
  lemma VisualRowsSpec(words: seq<Word>, tol: real)
    ensures var rows := GroupByVisualRows(words, tol);
      && NonEmptyRows(rows)
      && FlatMultiset(rows) == multiset(words)
      && WithinTolerance(rows, tol)
      && HeadsApart(rows, tol)
      && TopToBottom(rows)
  {
    var ordered := SortBy(words, Downwards);
    FinalSortKeepsRows(words, tol);
    GroupPartition(ordered, tol);
    GroupTolerance(ordered, tol);
    SortBySorted(words, Downwards);
    GroupTopToBottom(ordered, tol, |ordered|);
    assert ordered[..|ordered|] == ordered;
  }
}

=== FILE: workflow.dfy ===
/** The recipe status workflow: `RecipeService.ChangeStatusAsync` and the
    assignment, review and message operations of `MunicipalityService`. The
    database is a `Store` of recipes, municipalities and users by id plus
    the append-only review log and message list; each operation is a
    function from a store to a new store or the failure it throws. The
    clock is the parameter `now`. A recipe's document fields (dates,
    requester, products, lots) are never touched by these operations and
    are left out of the record. */
module Workflow {
  import opened Wrappers
  import opened Text
  import opened ServiceErrors
  import opened Municipalities

  // ---------------------------------------------------------------------
  // Statuses and actions
  // ---------------------------------------------------------------------

  /** The seven valid statuses. */
  datatype Status = Abierta | Pendiente | Aprobada | Rechazada | Observada | Cerrada | Anulada

  /** The name the database stores for each status. */
  function StatusName(s: Status): string {
    match s
    case Abierta => "ABIERTA"
    case Pendiente => "PENDIENTE"
    case Aprobada => "APROBADA"
    case Rechazada => "RECHAZADA"
    case Observada => "OBSERVADA"
    case Cerrada => "CERRADA"
    case Anulada => "ANULADA"
  }

  /** The status a stored name stands for, compared ordinally. */
  function StatusNamed(name: string): (s: Option<Status>)
    ensures s.Some? ==> StatusName(s.value) == name
  {
    if name == "ABIERTA" then Some(Abierta)
    else if name == "PENDIENTE" then Some(Pendiente)
    else if name == "APROBADA" then Some(Aprobada)
    else if name == "RECHAZADA" then Some(Rechazada)
    else if name == "OBSERVADA" then Some(Observada)
    else if name == "CERRADA" then Some(Cerrada)
    else if name == "ANULADA" then Some(Anulada)
    else None
  }

  /** Every status is recognised by its own name, so names and statuses
      correspond one to one. */
  lemma StatusNamedName(s: Status)
    ensures StatusNamed(StatusName(s)) == Some(s)
  {
  }

  /** `ToUpper().Trim()`, applied to a requested status or action. */
  function Normalize(s: string): (r: string)
    ensures IsTrimmed(r)
    ensures r == [] <==> IsBlank(s)
  {
    Trim(Upper(s))
  }

  /** The transitions `ChangeStatusAsync` allows from each status. */
  function Targets(from: Status): seq<Status> {
    match from
    case Abierta => [Cerrada, Anulada, Pendiente]
    case Aprobada => [Cerrada, Anulada]
    case Rechazada => [Anulada]
    case _ => []
  }

  /** A stored status may change to `to`: it is a key of the transition
      table and `to` is among its targets. */
  predicate Allowed(from: string, to: Status) {
    StatusNamed(from).Some? && to in Targets(StatusNamed(from).value)
  }

  /** No status may change to itself, and closed and annulled recipes
      cannot change at all. */
  lemma TransitionShape(from: Status, to: Status)
    ensures Allowed(StatusName(from), to) ==> from != to
    ensures from == Cerrada || from == Anulada ==> !Allowed(StatusName(from), to)
    ensures Allowed(StatusName(from), to) ==> to == Cerrada || to == Anulada || to == Pendiente
  {
    StatusNamedName(from);
  }

  /** The review actions. */
  datatype Action = Approve | Reject | Observe | Redirect

  function ActionName(a: Action): string {
    match a
    case Approve => "APROBADA"
    case Reject => "RECHAZADA"
    case Observe => "OBSERVADA"
    case Redirect => "REDIRIGIDA"
  }

  function ActionNamed(name: string): (a: Option<Action>)
    ensures a.Some? ==> ActionName(a.value) == name
  {
    if name == "APROBADA" then Some(Approve)
    else if name == "RECHAZADA" then Some(Reject)
    else if name == "OBSERVADA" then Some(Observe)
    else if name == "REDIRIGIDA" then Some(Redirect)
    else None
  }

  lemma ActionNamedName(a: Action)
    ensures ActionNamed(ActionName(a)) == Some(a)
  {
  }

  // ---------------------------------------------------------------------
  // The store
  // ---------------------------------------------------------------------

  /** The workflow fields of `Recipe`. */
  datatype Recipe = Recipe(
    rfdNumber: int,
    status: string,
    assignedMunicipalityId: Option<int>,
    assignedAt: Option<Instant>,
    createdAt: Instant,
    createdByUserId: Option<int>,
    updatedAt: Option<Instant>,
    updatedByUserId: Option<int>)

  /** `RecipeReviewLog`. */
  datatype ReviewLog = ReviewLog(
    recipeId: int,
    municipalityId: int,
    action: string,
    targetMunicipalityId: Option<int>,
    observation: Option<string>,
    createdAt: Instant,
    createdByUserId: Option<int>)

  /** `RecipeMessage`. */
  datatype Message = Message(recipeId: int, senderUserId: int, text: string, createdAt: Instant)

  /** A user with the names of their roles in order. */
  datatype User = User(userName: string, roles: seq<string>)

  datatype Store = Store(
    recipes: map<int, Recipe>,
    municipalities: map<int, Municipality>,
    users: map<int, User>,
    reviewLogs: seq<ReviewLog>,
    messages: seq<Message>)

  /** `b` is `a` with at most the status, the assignment and the update
      stamp changed. */
  predicate SameDocument(a: Recipe, b: Recipe) {
    a.rfdNumber == b.rfdNumber && a.createdAt == b.createdAt && a.createdByUserId == b.createdByUserId
  }

  /** Only recipe `id` differs between the stores, and only in its workflow
      fields; municipalities and users are untouched. */
  predicate OnlyRecipeChanged(db: Store, db': Store, id: int) {
    && id in db.recipes && db'.recipes.Keys == db.recipes.Keys
    && (forall k :: k in db.recipes && k != id ==> db'.recipes[k] == db.recipes[k])
    && SameDocument(db.recipes[id], db'.recipes[id])
    && db'.municipalities == db.municipalities && db'.users == db.users
  }

  /** Every recipe carries one of the seven valid statuses. */
  predicate StatusesValid(db: Store) {
    forall k :: k in db.recipes ==> StatusNamed(db.recipes[k].status).Some?
  }

  // ---------------------------------------------------------------------
  // ChangeStatusAsync
  // ---------------------------------------------------------------------

  /** `ChangeStatusAsync(recipeId, newStatus, userId)`: the requested status
      is normalised and must be valid, the recipe must exist, and the
      transition table must allow the change. */
  function ChangeStatus(db: Store, recipeId: int, newStatus: string, userId: int, now: Instant): (r: Result<Store, Failure>)
    ensures StatusNamed(Normalize(newStatus)).None? ==> r == Err(InvalidStatus(Normalize(newStatus)))
    ensures r.Ok? <==> (recipeId in db.recipes && StatusNamed(Normalize(newStatus)).Some?
      && Allowed(db.recipes[recipeId].status, StatusNamed(Normalize(newStatus)).value))
    ensures r.Ok? ==> OnlyRecipeChanged(db, r.value, recipeId)
    ensures r.Ok? ==> r.value.reviewLogs == db.reviewLogs && r.value.messages == db.messages
    ensures r.Ok? ==> var after := r.value.recipes[recipeId];
      && after.status == Normalize(newStatus)
      && after.updatedByUserId == Some(userId) && after.updatedAt == Some(now)
      && after.assignedMunicipalityId == db.recipes[recipeId].assignedMunicipalityId
      && after.assignedAt == db.recipes[recipeId].assignedAt
  {
    var n := Normalize(newStatus);
    match StatusNamed(n)
    case None => Err(InvalidStatus(n))
    case Some(to) => ChangeStatusTo(db, recipeId, to, userId, now)
  }

  /** The change to a recognised status `to`: the recipe must exist and the
      transition table must allow the change. */
  function ChangeStatusTo(db: Store, recipeId: int, to: Status, userId: int, now: Instant): (r: Result<Store, Failure>)
    ensures recipeId !in db.recipes ==> r == Err(RecipeNotFound)
    ensures r.Ok? <==> recipeId in db.recipes && Allowed(db.recipes[recipeId].status, to)
    ensures r.Ok? ==> OnlyRecipeChanged(db, r.value, recipeId)
    ensures r.Ok? ==> r.value.reviewLogs == db.reviewLogs && r.value.messages == db.messages
    ensures r.Ok? ==> var after := r.value.recipes[recipeId];
      && after.status == StatusName(to)
      && after.updatedByUserId == Some(userId) && after.updatedAt == Some(now)
      && after.assignedMunicipalityId == db.recipes[recipeId].assignedMunicipalityId
      && after.assignedAt == db.recipes[recipeId].assignedAt
  {
    if recipeId !in db.recipes then Err(RecipeNotFound)
    else
      var recipe := db.recipes[recipeId];
      if !Allowed(recipe.status, to) then Err(TransitionNotAllowed(recipe.status, StatusName(to)))
      else
        Ok(db.(recipes := db.recipes[recipeId := recipe.(status := StatusName(to), updatedAt := Some(now), updatedByUserId := Some(userId))]))
  }

  /** A status change that succeeded cannot be repeated: the recipe now
      holds the target, and no status may change to itself. */
  lemma ChangeStatusNotRepeatable(db: Store, recipeId: int, newStatus: string, userId: int, now: Instant, later: Instant)
    requires ChangeStatus(db, recipeId, newStatus, userId, now).Ok?
    ensures ChangeStatus(ChangeStatus(db, recipeId, newStatus, userId, now).value, recipeId, newStatus, userId, later).Err?
  {
    var to := StatusNamed(Normalize(newStatus)).value;
    var db' := ChangeStatus(db, recipeId, newStatus, userId, now).value;
    assert db'.recipes[recipeId].status == StatusName(to);
    TransitionShape(to, to);
    assert !Allowed(db'.recipes[recipeId].status, to);
  }

  /** Closed and annulled recipes reject every status change. */
  lemma ChangeStatusTerminal(db: Store, recipeId: int, newStatus: string, userId: int, now: Instant)
    requires recipeId in db.recipes
    requires db.recipes[recipeId].status == "CERRADA" || db.recipes[recipeId].status == "ANULADA"
    ensures ChangeStatus(db, recipeId, newStatus, userId, now).Err?
  {
    var from := StatusNamed(db.recipes[recipeId].status).value;
    if StatusNamed(Normalize(newStatus)).Some? {
      TransitionShape(from, StatusNamed(Normalize(newStatus)).value);
    }
  }

  /** A status change keeps every recipe's status valid. */
  lemma ChangeStatusKeepsValid(db: Store, recipeId: int, newStatus: string, userId: int, now: Instant)
    requires StatusesValid(db)
    requires ChangeStatus(db, recipeId, newStatus, userId, now).Ok?
    ensures StatusesValid(ChangeStatus(db, recipeId, newStatus, userId, now).value)
  {
  }

  // ---------------------------------------------------------------------
  // AssignToMunicipalityAsync
  // ---------------------------------------------------------------------

  /** `AssignToMunicipalityAsync`: only an open recipe can be sent, to an
      existing municipality; it becomes pending there. */
  function Assign(db: Store, recipeId: int, municipalityId: int, userId: int, now: Instant): (r: Result<Store, Failure>)
    ensures recipeId !in db.recipes ==> r == Err(RecipeNotFound)
    ensures r.Ok? <==> (recipeId in db.recipes && db.recipes[recipeId].status == "ABIERTA"
      && municipalityId in db.municipalities)
    ensures r.Ok? ==> OnlyRecipeChanged(db, r.value, recipeId)
    ensures r.Ok? ==> r.value.reviewLogs == db.reviewLogs && r.value.messages == db.messages
    ensures r.Ok? ==> var after := r.value.recipes[recipeId];
      && after.status == "PENDIENTE"
      && after.assignedMunicipalityId == Some(municipalityId) && after.assignedAt == Some(now)
      && after.updatedByUserId == Some(userId) && after.updatedAt == Some(now)
  {
    if recipeId !in db.recipes then Err(RecipeNotFound)
    else
      var recipe := db.recipes[recipeId];
      if recipe.status != "ABIERTA" then Err(NotOpen)
      else if municipalityId !in db.municipalities then Err(MunicipalityNotFound)
      else
        Ok(db.(recipes := db.recipes[recipeId := recipe.(
          assignedMunicipalityId := Some(municipalityId), assignedAt := Some(now),
          status := "PENDIENTE", updatedAt := Some(now), updatedByUserId := Some(userId))]))
  }

  /** An assigned recipe can be reviewed by the municipality it was sent
      to. */
  lemma AssignThenReviewable(db: Store, recipeId: int, municipalityId: int, userId: int, now: Instant)
    requires Assign(db, recipeId, municipalityId, userId, now).Ok?
    ensures var after := Assign(db, recipeId, municipalityId, userId, now).value.recipes[recipeId];
      Reviewable(after, municipalityId)
  {
  }

  /** Assignment keeps every recipe's status valid. */
  lemma AssignKeepsValid(db: Store, recipeId: int, municipalityId: int, userId: int, now: Instant)
    requires StatusesValid(db)
    requires Assign(db, recipeId, municipalityId, userId, now).Ok?
    ensures StatusesValid(Assign(db, recipeId, municipalityId, userId, now).value)
  {
    StatusNamedName(Pendiente);
  }

  // ---------------------------------------------------------------------
  // ReviewRecipeAsync
  // ---------------------------------------------------------------------

  /** `ReviewRecipeRequest`. */
  datatype ReviewRequest = ReviewRequest(action: string, observation: Option<string>, targetMunicipalityId: Option<int>)

  /** A recipe the municipality may review: assigned to it and pending. */
  predicate Reviewable(recipe: Recipe, municipalityId: int) {
    recipe.assignedMunicipalityId == Some(municipalityId) && recipe.status == "PENDIENTE"
  }

  /** `string.IsNullOrWhiteSpace` of a nullable text. */
  predicate BlankOrNull(s: Option<string>) {
    s.None? || IsBlank(s.value)
  }

  /** The checks that depend on the action: an observation for a rejection
      or a request for information, an existing other municipality for a
      redirection. */
  function ActionCheck(db: Store, a: Action, req: ReviewRequest, municipalityId: int): (f: Option<Failure>)
    ensures f.None? <==>
      && (a == Reject || a == Observe ==> !BlankOrNull(req.observation))
      && (a == Redirect ==> req.targetMunicipalityId.Some? && req.targetMunicipalityId.value != municipalityId
                            && req.targetMunicipalityId.value in db.municipalities)
  {
    if a == Reject && BlankOrNull(req.observation) then Some(ObservationRequired)
    else if a == Observe && BlankOrNull(req.observation) then Some(ObservationRequired)
    else if a == Redirect then
      match req.targetMunicipalityId
      case None => Some(TargetRequired)
      case Some(t) =>
        if t == municipalityId then Some(SameTarget)
        else if t !in db.municipalities then Some(TargetNotFound)
        else None
    else None
  }

  /** The recipe after a review: approval, rejection and a request for
      information set the status to the action; a redirection moves the
      assignment and leaves the recipe pending. */
  function Reviewed(recipe: Recipe, a: Action, req: ReviewRequest, userId: int, now: Instant): (after: Recipe)
    requires a == Redirect ==> req.targetMunicipalityId.Some?
    ensures SameDocument(recipe, after)
    ensures after.updatedByUserId == Some(userId) && after.updatedAt == Some(now)
    ensures a != Redirect ==> (after.status == ActionName(a)
      && after.assignedMunicipalityId == recipe.assignedMunicipalityId && after.assignedAt == recipe.assignedAt)
    ensures a == Redirect ==> (after.status == recipe.status
      && after.assignedMunicipalityId == req.targetMunicipalityId && after.assignedAt == Some(now))
  {
    var moved := match a
      case Redirect => recipe.(assignedMunicipalityId := req.targetMunicipalityId, assignedAt := Some(now))
      case _ => recipe.(status := ActionName(a));
    moved.(updatedAt := Some(now), updatedByUserId := Some(userId))
  }

  /** The log entry of a review with action `a`. */
  function ReviewLogOf(recipeId: int, municipalityId: int, a: Action, req: ReviewRequest, userId: int, now: Instant): ReviewLog {
    ReviewLog(recipeId, municipalityId, ActionName(a),
      if a == Redirect then req.targetMunicipalityId else None,
      req.observation, now, Some(userId))
  }

  /** The review once its action is known: the recipe must exist, be
      assigned to the reviewing municipality and be pending, and the
      action's own checks must pass. */
  function ReviewAs(db: Store, recipeId: int, a: Action, req: ReviewRequest, municipalityId: int, userId: int, now: Instant): (r: Result<Store, Failure>)
    ensures recipeId !in db.recipes ==> r == Err(RecipeNotFound)
    ensures r.Ok? <==>
      && recipeId in db.recipes && Reviewable(db.recipes[recipeId], municipalityId)
      && ActionCheck(db, a, req, municipalityId).None?
    ensures r.Ok? ==> OnlyRecipeChanged(db, r.value, recipeId) && r.value.messages == db.messages
    ensures r.Ok? ==> r.value.reviewLogs == db.reviewLogs + [ReviewLogOf(recipeId, municipalityId, a, req, userId, now)]
    ensures r.Ok? ==> r.value.recipes[recipeId] == Reviewed(db.recipes[recipeId], a, req, userId, now)
  {
    if recipeId !in db.recipes then Err(RecipeNotFound)
    else
      var recipe := db.recipes[recipeId];
      if recipe.assignedMunicipalityId != Some(municipalityId) then Err(NotAssignedToMunicipality)
      else if recipe.status != "PENDIENTE" then Err(NotPending(recipe.status))
      else
        match ActionCheck(db, a, req, municipalityId)
        case Some(f) => Err(f)
        case None =>
          Ok(db.(
            reviewLogs := db.reviewLogs + [ReviewLogOf(recipeId, municipalityId, a, req, userId, now)],
            recipes := db.recipes[recipeId := Reviewed(recipe, a, req, userId, now)]))
  }

  /** `ReviewRecipeAsync(recipeId, request, municipalityId, userId)`: the
      action is upper-cased and trimmed and must name one of the four
      actions. */
  function Review(db: Store, recipeId: int, req: ReviewRequest, municipalityId: int, userId: int, now: Instant): (r: Result<Store, Failure>)
    ensures ActionNamed(Normalize(req.action)).None? ==> r == Err(InvalidAction(Normalize(req.action)))
    ensures r.Ok? <==>
      && ActionNamed(Normalize(req.action)).Some?
      && recipeId in db.recipes && Reviewable(db.recipes[recipeId], municipalityId)
      && ActionCheck(db, ActionNamed(Normalize(req.action)).value, req, municipalityId).None?
    ensures r.Ok? ==> OnlyRecipeChanged(db, r.value, recipeId) && r.value.messages == db.messages
    ensures r.Ok? ==> |r.value.reviewLogs| == |db.reviewLogs| + 1 && r.value.reviewLogs[..|db.reviewLogs|] == db.reviewLogs
  {
    var n := Normalize(req.action);
    match ActionNamed(n)
    case None => Err(InvalidAction(n))
    case Some(a) => ReviewAs(db, recipeId, a, req, municipalityId, userId, now)
  }

  /** The log entry of a review names a target exactly for a redirection,
      and then the requested one. */
  lemma ReviewLogTarget(recipeId: int, municipalityId: int, a: Action, req: ReviewRequest, userId: int, now: Instant)
    requires a == Redirect ==> req.targetMunicipalityId.Some?
    ensures var log := ReviewLogOf(recipeId, municipalityId, a, req, userId, now);
      && (log.targetMunicipalityId.Some? <==> log.action == "REDIRIGIDA")
      && (log.targetMunicipalityId.Some? ==> log.targetMunicipalityId == req.targetMunicipalityId)
  {
    ActionNamedName(a);
  }

  /** The log a successful review appends records the action, the reviewing
      municipality and user, and the observation; it names a target exactly for a redirection. */
  lemma ReviewLogged(db: Store, recipeId: int, req: ReviewRequest, municipalityId: int, userId: int, now: Instant)
    requires Review(db, recipeId, req, municipalityId, userId, now).Ok?
    ensures var log := Review(db, recipeId, req, municipalityId, userId, now).value.reviewLogs[|db.reviewLogs|];
      && log.recipeId == recipeId && log.municipalityId == municipalityId
      && ActionNamed(log.action).Some? && log.action == Normalize(req.action)
      && log.observation == req.observation && log.createdByUserId == Some(userId)
      && (log.targetMunicipalityId.Some? <==> log.action == "REDIRIGIDA")
      && (log.targetMunicipalityId.Some? ==> log.targetMunicipalityId == req.targetMunicipalityId)
  {
    var n := Normalize(req.action);
    var a := ActionNamed(n).value;
    var r := ReviewAs(db, recipeId, a, req, municipalityId, userId, now);
    assert Review(db, recipeId, req, municipalityId, userId, now) == r;
    var log := ReviewLogOf(recipeId, municipalityId, a, req, userId, now);
    assert r.value.reviewLogs[|db.reviewLogs|] == log;
    ActionNamedName(a);
    ReviewLogTarget(recipeId, municipalityId, a, req, userId, now);
  }

  /** What a successful review does to the recipe, by action. */
  lemma ReviewOutcome(db: Store, recipeId: int, req: ReviewRequest, municipalityId: int, userId: int, now: Instant)
    requires Review(db, recipeId, req, municipalityId, userId, now).Ok?
    ensures var a := ActionNamed(Normalize(req.action)).value;
      var after := Review(db, recipeId, req, municipalityId, userId, now).value.recipes[recipeId];
      && (a == Approve ==> after.status == "APROBADA")
      && (a == Reject ==> after.status == "RECHAZADA" && !BlankOrNull(req.observation))
      && (a == Observe ==> after.status == "OBSERVADA" && !BlankOrNull(req.observation))
      && (a == Redirect ==> after.status == "PENDIENTE" && after.assignedMunicipalityId == req.targetMunicipalityId
                            && req.targetMunicipalityId != Some(municipalityId))
  {
  }

  /** A review with a known action keeps every recipe's status valid. */
  lemma ReviewAsKeepsValid(db: Store, recipeId: int, a: Action, req: ReviewRequest, municipalityId: int, userId: int, now: Instant)
    requires StatusesValid(db)
    requires ReviewAs(db, recipeId, a, req, municipalityId, userId, now).Ok?
    ensures StatusesValid(ReviewAs(db, recipeId, a, req, municipalityId, userId, now).value)
  {
    var db' := ReviewAs(db, recipeId, a, req, municipalityId, userId, now).value;
    match a
    case Approve => StatusNamedName(Aprobada);
    case Reject => StatusNamedName(Rechazada);
    case Observe => StatusNamedName(Observada);
    case Redirect => assert db'.recipes[recipeId].status == db.recipes[recipeId].status;
  }

  /** A review keeps every recipe's status valid. */
  lemma ReviewKeepsValid(db: Store, recipeId: int, req: ReviewRequest, municipalityId: int, userId: int, now: Instant)
    requires StatusesValid(db)
    requires Review(db, recipeId, req, municipalityId, userId, now).Ok?
    ensures StatusesValid(Review(db, recipeId, req, municipalityId, userId, now).value)
  {
    ReviewAsKeepsValid(db, recipeId, ActionNamed(Normalize(req.action)).value, req, municipalityId, userId, now);
  }

  // ---------------------------------------------------------------------
  // SendMessageAsync
  // ---------------------------------------------------------------------

  /** The role name shown for a user: the first of their roles, or
      "Desconocido". */
  function RoleName(u: User): (r: string)
    ensures u.roles == [] ==> r == "Desconocido"
    ensures u.roles != [] ==> r == u.roles[0]
  {
    if u.roles == [] then "Desconocido" else u.roles[0]
  }

  /** `RecipeMessageDto` without the database-generated id. */
  datatype MessageView = MessageView(senderUserId: int, senderName: string, senderRole: string, text: string, createdAt: Instant)

  datatype Sent = Sent(store: Store, view: MessageView)

  /** An applicator answering a request for information sends the recipe
      back to review. */
  predicate ReturnsToReview(u: User, recipe: Recipe) {
    RoleName(u) == "Aplicador" && recipe.status == "OBSERVADA"
  }

  /** `SendMessageAsync(recipeId, message, userId)`: the trimmed message is
      appended; the status changes only when an applicator answers an
      observed recipe, which becomes pending again. */
  function SendMessage(db: Store, recipeId: int, message: string, userId: int, now: Instant): (r: Result<Sent, Failure>)
    ensures recipeId !in db.recipes ==> r == Err(RecipeNotFound)
    ensures r.Ok? <==> recipeId in db.recipes && userId in db.users
    ensures r.Ok? ==> r.value.store.messages == db.messages + [Message(recipeId, userId, Trim(message), now)]
    ensures r.Ok? ==> r.value.store.reviewLogs == db.reviewLogs
    ensures r.Ok? ==> OnlyRecipeChanged(db, r.value.store, recipeId)
    ensures r.Ok? ==> var before := db.recipes[recipeId]; var after := r.value.store.recipes[recipeId];
      if ReturnsToReview(db.users[userId], before)
      then after == before.(status := "PENDIENTE", updatedAt := Some(now), updatedByUserId := Some(userId))
      else after == before
    ensures r.Ok? ==> r.value.view.text == Trim(message) && r.value.view.senderRole == RoleName(db.users[userId])
  {
    if recipeId !in db.recipes then Err(RecipeNotFound)
    else if userId !in db.users then Err(UserNotFound)
    else
      var recipe := db.recipes[recipeId];
      var user := db.users[userId];
      var role := RoleName(user);
      var recipe' := if role == "Aplicador" && recipe.status == "OBSERVADA"
        then recipe.(status := "PENDIENTE", updatedAt := Some(now), updatedByUserId := Some(userId))
        else recipe;
      var text := Trim(message);
      Ok(Sent(
        db.(recipes := db.recipes[recipeId := recipe'], messages := db.messages + [Message(recipeId, userId, text, now)]),
        MessageView(userId, user.userName, role, text, now)))
  }

  /** A message keeps every recipe's status valid. */
  lemma SendMessageKeepsValid(db: Store, recipeId: int, message: string, userId: int, now: Instant)
    requires StatusesValid(db)
    requires SendMessage(db, recipeId, message, userId, now).Ok?
    ensures StatusesValid(SendMessage(db, recipeId, message, userId, now).value.store)
  {
    StatusNamedName(Pendiente);
  }

  /** A message from anyone but an applicator, or on a recipe that is not
      observed, leaves every recipe as it was. */
  lemma MessageOnlyReturnsObserved(db: Store, recipeId: int, message: string, userId: int, now: Instant)
    requires SendMessage(db, recipeId, message, userId, now).Ok?
    requires !ReturnsToReview(db.users[userId], db.recipes[recipeId])
    ensures SendMessage(db, recipeId, message, userId, now).value.store.recipes == db.recipes
  {
  }
}

=== FILE: wrappers.dfy ===
/** Failure-carrying values shared by every module: `Option` stands for the
    source's nullable references and `Nullable<T>`, `Result` for an operation
    that either returns a value or throws. */
module Wrappers {

  datatype Option<+T> = None | Some(value: T) {

    function GetOr(default: T): T {
      match this
      case Some(v) => v
      case None => default
    }
  }

  datatype Result<+R, +E> = Ok(value: R) | Err(error: E)
}
